=== FILE: README.md ===
# hsbapp hub core in Dafny

This project models the home-smart-box hub of hsbapp_openwrt. It has two halves.

**The C core daemon.** It covers:
- The device registry. This is the list of online and offline devices, identifier allocation, driver registration, IR blaster linking, the status cache, and the life cycle of online, offline, removed and recovered devices.
- Per-device configuration, channel directories, and the timer, delay and linkage tables.
- The scene store and scene execution.
- The IR driver, with the CC9201 set-top box and the Gree air conditioner.
- The once-a-second timer and delay sweep.
- The binary TCP/UDP protocol the box serves: packet checking, every reply layout, the command dispatcher and the UDP discovery answer.
- The pad simulator client that drives this protocol. The model covers the requests it builds and the way it reads replies.

**The Python hub.** It covers:
- The ZigBee physical layer's frame header.
- The physical-data key drivers are found by.
- The Orange ZigBee driver.
- Device actions, timers and scenes as JSON objects.
- Devices and endpoints.
- The manager that keeps the phys, drivers and devices and routes data between them.

**Conventions.**
- The model is functional: every operation takes the hub state and returns the new state plus what it emitted. Emitted items are replies, notifications, queued tasks, configuration saves and scene runs. A scene run is the copy of a scene handed to the thread pool; `Scene.SceneHandler` is the schedule it follows.
- Protocol packets are sequences of bytes in little-endian order.
- Integer widths are written out. `To16` and `To32` truncate the way the C casts do.
- Numeric protocol and status constants are parameters gathered in one `Codes` record. The source takes them from headers that are not part of this model. A `ValidCodes` predicate says the command numbering is a bijection.
- Python values are a small JSON-like datatype. An exception the source would raise is an explicit `None` or `Raises` outcome.

**External answers are parameters.** Calls into drivers, sockets, clocks and the configuration file become parameters or outputs. A driver's answer to a set, get or action request is passed in. Wall-clock time is a `Clock` value.

**Delays in scene execution.** In `scene_handler` (src/core_daemon/scene.c:244-279), an action whose condition fails adds nothing to the accumulated wait. `Scene.SkippedActionCostsNothing` states it.

**As written and corrected.** Where the source has a defect (see "## Findings"), the model keeps the behaviour as written and, beside it, a corrected definition. The pairs are:
- `Serve.DealTcpAsWritten` is `deal_tcp_packet` as written. `Serve.DealTcp` is corrected in two ways: it drops a packet declaring fewer than 4 bytes, and it refuses more than eight acts per scene action. `Serve.DealTcpAgrees` and `Serve.DealTcpSceneAgrees` state where the two differ. The Serve round-trip lemmas are about `Serve.DealTcp`.
- `TimerStep.CheckTimerAndDelayAsWritten` is `check_timer_and_delay` as written. `TimerStep.CheckTimerAndDelay` decides the rollover once per tick and keeps spent one-shots expired. `TimerStep.TicksAgreeWithoutRollover` says they agree on every tick without a rollover.
- `Registry.DevOnline` fills a missing configuration with the corrected `Registry.DefaultConfig`. `Registry.DevOnlineConfigAsWritten` says this is the program's value wherever the program's lookup stays inside the table.
- `DriverIr.GreeSetDevStatusAsWritten` and `DriverIr.GreeSetDevStatus` are `set_dev_status` around the Gree driver, as written and corrected.
- `Scene.FindSceneAsWritten` and `Scene.AddSceneAsWritten` compare scene names with `strcmp`, as `find_scene` and `add_scene` do. `Scene.FindScene` and `Scene.AddScene` compare within the 16-byte field. `Scene.FindSceneAgrees` and `Scene.AddSceneAgrees` say they agree on names shorter than 16 characters. The rest of the model, the dispatcher included, uses the 16-byte comparison.
- `PyTimer.CheckTimersAsWritten` and `PyTimer.CheckTimers` are `hsb_timers.check`, as written and corrected. The program updates only the last timer on a new day. The corrected check updates every timer. Both keep the fired actions, the new day and the updates made before a raise, because Python has already stored them when it raises.
- `PyScene.LoadAsWritten` and `PyScene.Load` are `hsb_scene.load`, as written and corrected.
- `PhyZigbee.ParseHeaderAsWritten` and `PhyZigbee.ParseHeader` are `parse_header`, as written and corrected. `PhyZigbee.Receive` and `PhyZigbee.OnData` use the program's signed parse.

**Scene store and reload in the Python hub.** `hsb_scene_action.get_ob` omits a zero delay. `hsb_scene.load` skips every action without a `delay` key. So a stored scene reloads without its immediate actions. `PyScene.ReloadKeepsDelayed` states exactly which actions survive.

## Model

| member | source | states |
|---|---|---|
| Channel.Find | src/core_daemon/channel.c:32-41 | The index found is the first entry whose 16-byte name equals the given name; there is none exactly when no entry matches. |
| Channel.SetChannel | src/core_daemon/channel.c:25-58 | A name already present keeps its position and takes the new id, and every other entry is untouched. A new name is appended, cut or zero-padded to 16 bytes. |
| Channel.DelChannel | src/core_daemon/channel.c:60-83 | A missing name gives HSB_E_OTHERS and leaves the directory unchanged. Otherwise the matching entry is removed and the others keep their order. |
| Channel.DelChannelRemovesOne | src/core_daemon/channel.c:60-83 | The directory after a deletion, plus the removed entry, is a permutation of the directory before. |
| Channel.GetChannel | src/core_daemon/channel.c:85-107 | The lookup succeeds exactly when some entry carries the name, and returns an id stored under that name; otherwise it fails with HSB_E_OTHERS. |
| Channel.GetChannelNum | src/core_daemon/channel.c:109-116 | The count bounds the indices: get_channel_by_id succeeds exactly for the indices below it. |
| Channel.GetChannelById | src/core_daemon/channel.c:118-131 | An index inside the channel count returns that entry; any other index fails with HSB_E_BAD_PARAM. |
| Channel.SetChannelKeepsUnique | src/core_daemon/channel.c:25-58 | Setting a channel never creates two entries with the same name. |
| Channel.DelChannelKeepsUnique | src/core_daemon/channel.c:60-83 | Deleting a channel keeps the names distinct. |
| Channel.SetThenGet | src/core_daemon/channel.c:25-107 | After a set, looking the same name up returns the id just set. |
| Channel.DelThenGet | src/core_daemon/channel.c:60-107 | After a delete, looking the name up fails. |
| Channel.EnumeratedSet | src/core_daemon/channel.c:25-58 | Seen as a name-to-id map, a set is a map update at the (truncated) name. |
| Channel.EnumeratedDel | src/core_daemon/channel.c:60-83 | Seen as a name-to-id map, a delete removes the name from the map. |
| Channel.RunMatchesReference | src/core_daemon/channel.c:25-83 | Any sequence of sets and deletes on an empty directory leaves distinct names. The resulting map equals an independent reference map built from the same operations. |
| Channel.EnumerationNoDuplicates | src/core_daemon/channel.c:109-131 | Enumerating indices below the channel count visits every entry, and the count equals the number of distinct names. |
| Registry.FindById | src/core_daemon/device.c:693-712 | The index found is the first device with that id; there is none exactly when no device has it. |
| Registry.FindDev | src/core_daemon/device.c:693-712 | An online device with the id is found exactly when one exists, and the one found carries that id. |
| Registry.FindDrv | src/core_daemon/device.c:1100-1120 | A registered driver with the id is found when one exists, and none is found only when none carries it. |
| Registry.RegisterDevDrv | src/core_daemon/device.c:1178-1206 | A missing driver gives HSB_E_BAD_PARAM. An id already registered gives HSB_E_ENTRY_EXISTS with nothing changed. Otherwise the driver is appended. |
| Registry.RegisterKeepsDriversUnique | src/core_daemon/device.c:1178-1206 | Driver ids stay distinct whatever is registered. |
| Registry.AllocDevId | src/core_daemon/device.c:1164-1175 | The id handed out is the counter, and the counter advances by one modulo 2^32. |
| Registry.AllocIncreasing | src/core_daemon/device.c:1164-1175 | Without wrap-around, n allocations hand out n consecutive, strictly increasing ids. |
| Registry.SeedAboveLoaded | src/core_daemon/device.c:614-662 | The counter seeded while loading the configuration is at least 1 and above every loaded device id. |
| Registry.LinkTarget | src/core_daemon/device.c:749-785 | The blaster chosen is a candidate (an online IR blaster in the same room) with that id. There is none exactly when no candidate exists. |
| Registry.LinkDevice | src/core_daemon/device.c:749-785 | Only a device of the IR-controlled driver is relinked, to the chosen blaster; every other device and field is unchanged. |
| Registry.UpdateLink | src/core_daemon/device.c:787-827 | A blaster coming online becomes the link of every other device in its room. A blaster leaving unlinks exactly the devices linked to it. A non-blaster changes nothing. |
| Registry.NoLinkToDeparted | src/core_daemon/device.c:787-827 | After a blaster goes offline, no device is linked to it any more. |
| Registry.SyncSemantics | src/core_daemon/device.c:1000-1015 | After a sync, every cache slot within the limit holds the last value the request wrote to it. Every other slot keeps its old value. |
| Registry.LoadDevStatus | src/core_daemon/device.c:1017-1029 | The status read back has one pair per cache slot, numbered by slot. |
| Registry.SyncThenLoad | src/core_daemon/device.c:1000-1029 | Reading the status back after a sync returns the last value written to each slot. |
| Registry.LinkOuts | src/core_daemon/device.c:1585-1632 | Every queued linkage request comes from a linkage that fires on the event, and every firing linkage is requested. |
| Registry.LinkOutsCount | src/core_daemon/device.c:1585-1632 | There is exactly one request per firing linkage. |
| Registry.CheckLinkage | src/core_daemon/device.c:1585-1632 | An unknown device, or one whose work-mode mask excludes the box mode, fires nothing and returns HSB_E_OTHERS. Otherwise one unacknowledged request is queued per firing linkage. |
| Registry.DevEvent | src/core_daemon/device.c:1635-1651 | An event first queues the linkage requests it triggers, then notifies the event with parameters cut to 16 and 32 bits. |
| Registry.FindOffMatch | src/core_daemon/device.c:1354-1366 | The offline device found has the driver and MAC of the newcomer; there is none exactly when no offline device matches. |
| Registry.DefaultConfigAsWritten | src/core_daemon/device.c:1329-1335 | Types below the table length get their entry. Types beyond the table's byte size get a blank configuration. |
| Registry.DefaultConfigOverread | src/core_daemon/device.c:1329-1335 | For a type just past the table, the bound as written lets the copy read past the table's end. |
| Registry.DefaultConfig | src/core_daemon/device.c:1329-1335 | A type inside the table gets its entry; any other type gets a blank configuration. |
| Registry.DefaultConfigAgrees | src/core_daemon/device.c:1329-1335 | The written and the corrected bounds agree wherever the written one reads inside the table. They differ exactly on the types between the entry count and the byte size. |
| Registry.GoOnline | src/core_daemon/device.c:1337-1433 | The device is appended to the online list. Other devices change only in their IR link, the offline list and the counter are unchanged, and a device-updated event is emitted. |
| Registry.DevOnline | src/core_daemon/device.c:1337-1433 | Exactly one device is appended online, under the id returned. An offline match keeps its old id and leaves the counter alone. Otherwise the id is the counter, which advances modulo 2^32, and the offline list is untouched. |
| Registry.DevOnlineRevives | src/core_daemon/device.c:1404-1430 | An offline device with the same driver and MAC comes back under its old id. It keeps its configuration, timers, linkages and channels, leaves the offline list, takes the new info and status, and is announced ONLINE. |
| Registry.DevOnlineAdds | src/core_daemon/device.c:1370-1403 | A new device gets the next id and the default configuration for its type, or the one supplied. It gets a channel directory only if its driver supports one, is announced NEW_ADD, and the configuration is saved. The default is the corrected lookup (see Left out). |
| Registry.DevOnlineConfigAsWritten | src/core_daemon/device.c:1327-1333 | Wherever the program's byte-size bound still indexes inside the table, the new device's default configuration is the table entry the program copies. |
| Registry.DevOffline | src/core_daemon/device.c:1435-1476 | An unknown device gives HSB_E_OTHERS. Otherwise the device moves to the end of the offline list, marked offline, and the rest of the online list keeps its order. |
| Registry.DevRemoved | src/core_daemon/device.c:1478-1518 | An unknown device gives HSB_E_OTHERS. Otherwise the device leaves the online list without entering the offline list. |
| Registry.DevRecovered | src/core_daemon/device.c:1520-1583 | An offline device comes back online under its id with its saved configuration. An id that is not offline gives HSB_E_OTHERS. |
| Registry.DevOfflineValid | src/core_daemon/device.c:1435-1476 | Going offline keeps the registry invariant: ids are unique and disjoint across both lists, below the counter, and match each list's online flag. |
| Registry.DevRemovedValid | src/core_daemon/device.c:1478-1518 | Removal keeps the registry invariant. |
| Registry.GoOnlineValid | src/core_daemon/device.c:1337-1433 | Appending a device with a fresh id keeps the registry invariant. |
| Registry.DevRecoveredValid | src/core_daemon/device.c:1520-1583 | Recovery keeps the registry invariant. |
| Registry.DevOnlineValid | src/core_daemon/device.c:1337-1433 | Bringing a device online, new or revived, keeps the registry invariant. |
| Dispatch.SetDevCfg | src/core_daemon/device.c:841-856 | An unknown device gives HSB_E_BAD_PARAM. Otherwise only that device's configuration changes, and the configuration is saved. |
| Dispatch.SetDevChannel | src/core_daemon/device.c:858-876 | The device's directory is updated by set_channel and saved. An unknown device gives HSB_E_BAD_PARAM, and a device without a directory gives HSB_E_NOT_SUPPORTED. |
| Dispatch.DelDevChannel | src/core_daemon/device.c:878-896 | del_channel's result is passed on, and the configuration is saved whatever it was. |
| Dispatch.GetDevChannel | src/core_daemon/device.c:898-911 | The device's directory lookup is passed on, with the same two device errors. |
| Dispatch.GetDevChannelNum | src/core_daemon/device.c:913-926 | The result is the size of the device's directory, with the same two device errors. |
| Dispatch.GetDevChannelById | src/core_daemon/device.c:928-941 | The directory entry by index is passed on, with the same two device errors. |
| Dispatch.DevChannelSetThenGet | src/core_daemon/device.c:858-911 | After a successful set, looking the name up on that device returns the id. |
| Dispatch.SetBoxWorkMode | src/core_daemon/device.c:1694-1705 | The mode is accepted exactly when it is a known mode. When accepted, only the box mode changes and a mode-changed event is raised; a rejected mode changes nothing. |
| Dispatch.SetBoxWorkModeTick | src/core_daemon/device.c:1694-1705 | A mode change keeps the registry invariant. The next tick steps every online device under the new mode. |
| Dispatch.SetDevStatus | src/core_daemon/device.c:1031-1052 | Device 0 with a work-mode first pair sets the box mode. An unknown device gives HSB_E_ENTRY_NOT_FOUND, and a driver without set_status gives HSB_E_NOT_SUPPORTED. Otherwise the driver's answer is returned, and on success the request is synced into the cache. |
| Dispatch.SetDevStatusSyncs | src/core_daemon/device.c:1031-1052 | After a successful set, every slot the request wrote holds the last value written to it. |
| Dispatch.SetDevStatusValid | src/core_daemon/device.c:1031-1052 | Setting a status keeps the registry invariant. |
| Dispatch.DevStatusUpdated | src/core_daemon/device.c:1653-1667 | A status update is synced into an online device and always notified as STATUS_UPDATE. |
| Dispatch.GetDevStatus | src/core_daemon/device.c:985-998 | An unknown device gives HSB_E_ENTRY_NOT_FOUND, and a driver without get_status gives HSB_E_NOT_SUPPORTED. Otherwise the driver's answer comes back for that device. |
| Dispatch.SetDevAction | src/core_daemon/device.c:1054-1067 | An unknown device gives HSB_E_ENTRY_NOT_FOUND, and a driver without set_action gives HSB_E_NOT_SUPPORTED. Otherwise the driver's return is passed on. |
| Dispatch.ProbeDev | src/core_daemon/device.c:1122-1133 | An unknown driver gives HSB_E_BAD_PARAM. A driver without probe gives OK. Otherwise the driver's answer is passed on. |
| Dispatch.AddDev | src/core_daemon/device.c:1135-1146 | An unknown driver gives HSB_E_BAD_PARAM. A driver without add_dev gives HSB_E_NOT_SUPPORTED. Otherwise the driver's answer is passed on. |
| Dispatch.DelDev | src/core_daemon/device.c:1148-1162 | An unknown device or driver gives HSB_E_BAD_PARAM. Otherwise the result is the driver's answer when it has del_dev, and HSB_E_NOT_SUPPORTED when it does not. |
| Dispatch.ProcessDevActAnswers | src/core_daemon/device.c:1785-1865 | Each queued task runs its operation. The client gets a result reply (a status reply for a get) exactly when the task asked for one. An unacknowledged set emits only what the set itself emitted. |
| Dispatch.ProcessDevActValid | src/core_daemon/device.c:1785-1865 | Running any queued task keeps the registry invariant. |
| Slots.GetDevTimer | src/core_daemon/device.c:1957-1981 | The stored rule comes back, active or not. An unknown device or an id past the table gives HSB_E_BAD_PARAM. |
| Slots.SetDevTimer | src/core_daemon/device.c:1983-2013 | The request succeeds exactly for a known device and an id inside its table. On success, only that slot changes: it holds the rule, active and not expired, and the configuration is saved. |
| Slots.DelDevTimer | src/core_daemon/device.c:2015-2042 | The request succeeds exactly for a known device and an id inside its table. On success the slot is zeroed and inactive, and the configuration is saved. |
| Slots.SetThenGetTimer | src/core_daemon/device.c:1957-2013 | A set timer reads back as set, and other timer ids read back as before. |
| Slots.DelThenGetTimer | src/core_daemon/device.c:1957-2042 | A deleted timer reads back as the zero rule. |
| Slots.GetDevDelay | src/core_daemon/device.c:2044-2073 | The lookup succeeds exactly for a known device, an id inside its table and an active slot, and returns that slot's rule. |
| Slots.SetDevDelay | src/core_daemon/device.c:2075-2101 | On success the slot takes the rule and becomes active, keeping its started flag and start time; nothing is saved. The request fails exactly for an unknown device or an id past the table. |
| Slots.DelDevDelay | src/core_daemon/device.c:2103-2133 | A delete succeeds exactly when the slot is active. It zeroes the rule and deactivates the slot. |
| Slots.SetThenGetDelay | src/core_daemon/device.c:2044-2101 | A set delay reads back as set. |
| Slots.DelThenGetDelay | src/core_daemon/device.c:2044-2133 | A deleted delay no longer reads back, and deleting it again fails. |
| Slots.GetDevLinkage | src/core_daemon/device.c:2135-2165 | The lookup succeeds exactly for a known device, an id inside its table and an active slot, and returns that slot's rule. |
| Slots.SetDevLinkage | src/core_daemon/device.c:2167-2193 | On success the slot takes the rule and becomes active; nothing is saved. The request fails exactly for an unknown device or an id past the table. |
| Slots.DelDevLinkage | src/core_daemon/device.c:2196-2226 | A delete succeeds exactly when the slot is active, and zeroes and deactivates it. |
| Slots.SetThenGetLinkage | src/core_daemon/device.c:2135-2193 | A set linkage reads back as set. |
| Slots.DelThenGetLinkage | src/core_daemon/device.c:2135-2226 | A deleted linkage no longer reads back. |
| Slots.StoredLinkageFires | src/core_daemon/device.c:1585-1632 | A linkage just stored fires on its own event whenever its mode and the device's mode admit the box mode. |
| Slots.TimerOpsValid | src/core_daemon/device.c:1983-2042 | Timer set and delete keep the registry invariant. |
| Slots.DelayOpsValid | src/core_daemon/device.c:2075-2133 | Delay set and delete keep the registry invariant. |
| Slots.LinkageOpsValid | src/core_daemon/device.c:2167-2226 | Linkage set and delete keep the registry invariant. |
| Scene.FindScene | src/core_daemon/scene.c:32-46 | Under the 16-byte comparison, the index found is the first scene with the name; there is none exactly when no scene has it. |
| Scene.AddSceneKeepsUnique | src/core_daemon/scene.c:62-83 | Under the 16-byte comparison, a scene with a new name is appended and saved. A known name is replaced in place without a save. Names stay distinct, and other scenes are untouched. |
| Scene.FindSceneAsWritten | src/core_daemon/scene.c:32-46 | As written, the index found is the first scene whose string, as strcmp reads it, equals the request's; there is none exactly when no scene's does. |
| Scene.AddSceneAsWritten | src/core_daemon/scene.c:62-83 | As written, a scene whose strcmp string is new is appended and saved; otherwise the store keeps its size and nothing is saved. |
| Scene.FindSceneAgrees | src/core_daemon/scene.c:32-46 | A request name shorter than 16 characters finds the same scene under strcmp as under the 16-byte comparison, whatever memory follows its buffer. |
| Scene.AddSceneAgrees | src/core_daemon/scene.c:62-83 | A scene named with fewer than 16 characters is added alike under both comparisons. |
| Scene.LongNameDuplicated | src/core_daemon/scene.c:62-83 | Two scenes with the same 16-character name and one and two actions: as written both are kept, so two stored scenes share a name; corrected, the second replaces the first. |
| Scene.DelScene | src/core_daemon/scene.c:85-99 | A missing name gives HSB_E_BAD_PARAM with nothing changed. Otherwise the result is OK and the configuration is saved. |
| Scene.DelSceneRemoves | src/core_daemon/scene.c:85-99 | Deleting removes exactly the named scene, keeps the rest in order and distinct, and the name is no longer found. |
| Scene.EnterScene | src/core_daemon/scene.c:101-115 | Entering fails with HSB_E_BAD_PARAM exactly when no scene has the name. Otherwise it gives the copy of the stored scene with that name that is handed to the scene thread pool. |
| Scene.GetScene | src/core_daemon/scene.c:290-303 | An index past the store gives HSB_E_BAD_PARAM. An index inside it gives that scene. |
| Scene.EnumerateScenes | src/core_daemon/scene.c:281-303 | Indices below the scene count yield every scene in order, and the count itself is rejected. |
| Scene.CheckConditionMeaning | src/core_daemon/scene.c:117-173 | A condition holds exactly when the device is online, the status slot exists, and its value compares as the expression says. |
| Scene.ExecuteAction | src/core_daemon/scene.c:176-242 | One unacknowledged set-status request is queued per device group of the action, and nothing else. |
| Scene.GroupAllMeaning | src/core_daemon/scene.c:198-242 | The acts are grouped into one status per distinct device, in first-appearance order. Each group carries exactly that device's pairs, in order. |
| Scene.ScheduleRunsActions | src/core_daemon/scene.c:244-279 | Scene execution runs exactly the actions whose condition holds, in order, each queuing what execute_action queues. |
| Scene.ScheduleTotalWait | src/core_daemon/scene.c:244-279 | The waits before the runs sum to the largest delay among the actions that run. |
| Scene.SkippedActionCostsNothing | src/core_daemon/scene.c:244-279 | An action whose condition fails changes neither the schedule nor the wait. |
| SceneCodec.EncodeScene | src/core_daemon/network.c:276-328 | The SCENE_UPDATE frame carries the 16-byte name, then every action's header, condition and acts. Its length field is its size. |
| SceneCodec.ParseAction | src/core_daemon/network.c:204-274 | A successful parse reads a header, an optional condition, then the acts, and never more acts than the limit; a wrong marker byte is HSB_E_INVALID_MSG. |
| SceneCodec.ParseSceneAsWritten | src/core_daemon/network.c:204-274 | At most eight actions are read. Each may claim up to 255 acts. |
| SceneCodec.ParseScene | src/core_daemon/network.c:204-274 | At most eight actions of at most eight acts each are read. Anything longer, or a bad marker, is HSB_E_INVALID_MSG. |
| SceneCodec.NineActsOverflow | src/core_daemon/network.c:244-262 | A one-action scene with nine acts is accepted as written, overrunning the eight-act array. The corrected parser rejects it. |
| SceneCodec.ParseActionsAgree | src/core_daemon/network.c:204-274 | Wherever every action has at most eight acts, the written and the corrected parsers read the same actions. |
| SceneCodec.ParseSceneAgrees | src/core_daemon/network.c:204-274 | The two parsers agree on every packet whose actions fit. |
| SceneCodec.SceneRoundTrip | src/core_daemon/network.c:204-328 | Parsing an encoded scene gives back the scene, with its name normalised to 16 bytes. |
| TimerStep.CompareDate | src/core_daemon/device.c:2228-2246 | -1 means a weekly timer, 0 a dated timer due today, 1 a dated timer due another day. |
| TimerStep.RearmAsWritten | src/core_daemon/device.c:2273-2294 | On a day rollover, every enabled timer's expired flag is recomputed from whether it is due today, even if the slot is inactive. |
| TimerStep.Rearm | src/core_daemon/device.c:2273-2294 | An inactive slot is left as it is, and an active one is rearmed as above. |
| TimerStep.TimerSlotStep | src/core_daemon/device.c:2305-2362 | A timer fires exactly when it is enabled, its mode matches, it is due and not expired, and the time lies in the firing window. Firing queues one rule request and marks it expired. A one-shot firing is deactivated. Otherwise the slot can only become expired. |
| TimerStep.DelaySlotStep | src/core_daemon/device.c:2367-2399 | A started delay whose time has come queues its request and stops. Otherwise nothing changes. |
| TimerStep.SweepAsWritten | src/core_daemon/device.c:2249-2410 | As written, only the first device sees the rollover, and the stored second-of-day is updated after it. |
| TimerStep.Sweep | src/core_daemon/device.c:2249-2410 | Every device steps with the same rollover decision. |
| TimerStep.CheckTimerAndDelayAsWritten | src/core_daemon/device.c:2404-2410 | As written, the first online device steps with the rollover decision, every later one without it, all under the box mode. The stored second-of-day becomes the current one, unless no device is online. |
| TimerStep.CheckTimerAndDelayAsWrittenValid | src/core_daemon/device.c:2404-2410 | The program's periodic check keeps the registry invariant. |
| TimerStep.CheckTimerAndDelay | src/core_daemon/device.c:2404-2410 | Corrected tick: every online device steps its timers and delays under the box mode and one rollover decision. The stored second-of-day becomes the current one. |
| TimerStep.CheckTimerAndDelayValid | src/core_daemon/device.c:2404-2410 | The corrected periodic check keeps the registry invariant. |
| TimerStep.VisitsAgree | src/core_daemon/device.c:2273-2297 | On a tick without a rollover, the sweep that threads the stored second-of-day and the sweep with one shared decision give the same devices and the same requests, for any two per-device steps that agree when no rollover is seen. |
| TimerStep.SweepsAgree | src/core_daemon/device.c:2273-2297 | On a tick without a rollover, the program's sweep and the corrected one produce the same devices and the same requests. |
| TimerStep.TicksAgreeWithoutRollover | src/core_daemon/device.c:2404-2410 | With a device online and no rollover, the program's tick equals the corrected tick. |
| TimerStep.NoDoubleFire | src/core_daemon/device.c:2305-2362 | A timer that fired does not fire on the next tick. |
| TimerStep.OneShotSpentAfterFiring | src/core_daemon/device.c:2305-2362 | A one-shot timer that fired is inactive and expired. |
| TimerStep.OneShotFiresOnce | src/core_daemon/device.c:2249-2410 | With the corrected rearm, a spent one-shot timer never fires again over any run of ticks and rollovers. |
| TimerStep.OneShotRefiresAsWritten | src/core_daemon/device.c:2273-2294 | As written, a spent weekly one-shot is rearmed on rollover and fires again; the corrected rearm keeps it silent. |
| TimerStep.DelaysNeverStart | src/core_daemon/device.c:2367-2399 | The sweep never starts a delay that was not already started. |
| TimerStep.SecondDeviceMissesRollover | src/core_daemon/device.c:2273-2297 | On a rollover, an expired timer of the second device stays expired as written. |
| TimerStep.SweepRearmsEveryDevice | src/core_daemon/device.c:2273-2294 | In the corrected sweep, a rollover rearms the matching weekly timers of every device, not just the first. |
| Wire.CheckTcp | src/core_daemon/network.c:29-44 | 0 means a known command and a declared length within the bytes read. -1 means nothing was read, -2 an unknown command, and -3 a declared length longer than what was read. |
| Wire.UsedAsWritten | src/core_daemon/network.c:438-457 | A bad packet consumes everything read, and a good one consumes its declared length, which may be zero. |
| Wire.ZeroLengthStallsAsWritten | src/core_daemon/network.c:1233-1238 | A packet declaring length 0 consumes nothing, so the client loop as written never advances past it. |
| Wire.Used | src/core_daemon/network.c:438-457 | The corrected consumption is always positive and within what was read. For a good packet it is the declared length. |
| Wire.PacketsTile | src/core_daemon/network.c:1233-1238 | With the corrected consumption, the packets of a read buffer tile it exactly, each non-empty. |
| Wire.ResultRoundTrip | src/core_daemon/network.c:46-57 | A RESULT reply carries the device, the command and the 16-bit code, and reads back as such. |
| Wire.DevIdListRoundTrip | src/core_daemon/network.c:59-71 | The device list reply holds every id in order, and its length tells the count. |
| Wire.DevInfoOverlap | src/core_daemon/network.c:73-87 | The info reply puts the device type at offset 16 and the MAC at 18. |
| Wire.CfgRoundTrip | src/core_daemon/network.c:89-98 | The configuration reply reads back as the configuration for that device. |
| Wire.ChannelRoundTrip | src/core_daemon/network.c:100-109 | The channel reply carries the device, the name (as compared) and the id. |
| Wire.TimerRoundTrip | src/core_daemon/network.c:129-160 | The timer reply reads back as the device and the timer, including the 1900-based year and 1-based month. |
| Wire.TimerUndatedLosesDate | src/core_daemon/network.c:129-160 | A timer without a year is sent with year and month 0 and reads back that way. |
| Wire.DelayRoundTrip | src/core_daemon/network.c:162-181 | The delay reply reads back as the device and the delay. |
| Wire.LinkageRoundTrip | src/core_daemon/network.c:183-202 | The linkage reply reads back as the device and the linkage. |
| Wire.StatusRoundTrip | src/core_daemon/network.c:112-126 | A status frame of at most eight pairs reads back as the same status. |
| Wire.ReadPairsBack | src/core_daemon/network.c:520-534 | The SET_STATUS parser reads the pairs a status frame carries. |
| Wire.StatusCount | src/core_daemon/network.c:520-534 | The pair count read from a request is the length after the header, divided by four and capped at eight. |
| Wire.OnlineEventHead | src/core_daemon/network.c:352-380 | The DEV_ONLINE event carries id, driver, class, interface, type, MAC, name and location at their offsets. |
| Wire.OnlineEventSlots | src/core_daemon/network.c:352-380 | The event then carries every status slot as an (index, value) pair. |
| Wire.NotifyPacket | src/core_daemon/network.c:382-436 | Every notification becomes a framed packet. An online event needs its device to be online. |
| Wire.CheckUdp | src/core_daemon/network.c:947-962 | A datagram is accepted exactly when its length field equals its size and it is a discover request or response. |
| Wire.DealUdp | src/core_daemon/network.c:978-1007 | Only a valid discover request is answered, and always with the discover response. |
| Wire.DiscoverAnswered | src/core_daemon/network.c:964-1007 | A bare discover request is answered with box id 1, and the hub's own response is not answered. |
| Serve.DealTcpAsWritten | src/core_daemon/network.c:438-457 | A packet the header check rejects consumes what was read and does nothing. Any other is handled, even one declaring fewer than 4 bytes, and consumes its declared length. |
| Serve.DealTcp | src/core_daemon/network.c:438-457 | Corrected dispatcher: a rejected or too-short packet consumes what was read and does nothing. Otherwise the command is handled and its declared length consumed. |
| Serve.DealTcpAgrees | src/core_daemon/network.c:438-457 | Both dispatchers treat rejected packets the same. On a packet declaring fewer than 4 bytes the program consumes only that many and the corrected one the whole read. On any command other than SET_SCENE declaring at least 4 bytes they serve alike. |
| Serve.DealTcpSceneAgrees | src/core_daemon/network.c:844-869 | A SET_SCENE is served alike by both whenever the corrected parser accepts it or the program's parser refuses it too. |
| Serve.StoreScene | src/core_daemon/network.c:844-869 | A parse error is answered with its code and nothing changes. A parsed scene is stored and answered with HSB_E_OK. |
| Serve.ServeAlwaysAnswers | src/core_daemon/network.c:438-943 | Every packet gets at least one reply frame, unless it queued a single acknowledged task that answers later. |
| Serve.ServeFramed | src/core_daemon/network.c:438-943 | Every frame the dispatcher writes is a well-formed packet of a known command whose length field is its size. |
| Serve.ServeGetStatusQueues | src/core_daemon/network.c:510-519 | GET_STATUS queues an acknowledged get for the device and changes nothing. |
| Serve.ServeSetStatusQueues | src/core_daemon/network.c:520-534 | SET_STATUS queues an acknowledged set of the pairs read and changes nothing. |
| Serve.ServeDoActionQueues | src/core_daemon/network.c:783-802 | DO_ACTION queues an acknowledged action with the fields read. |
| Serve.ServeAddDevAnswers | src/core_daemon/network.c:818-833 | ADD_DEV changes nothing and is answered with one RESULT carrying add_dev's code: HSB_E_BAD_PARAM for an unregistered driver. |
| Serve.ServeDelDevAnswers | src/core_daemon/network.c:834-843 | DEL_DEV changes nothing and is answered with one RESULT carrying del_dev's code: HSB_E_BAD_PARAM for a device that is not online. |
| Serve.ServeProbeQueues | src/core_daemon/network.c:803-817 | PROBE_DEV queues an acknowledged probe of the driver. |
| Serve.ServeUnhandledFails | src/core_daemon/network.c:927-929 | A command without a case is answered with REPLY_FAIL and nothing changes. |
| Serve.ServeTimerSetThenGet | src/core_daemon/network.c:623-683 | A SET_TIMER then GET_TIMER on the same slot returns the timer read from the request. It is byte-identical when its date is representable. |
| Serve.ServeChannelSetThenSwitch | src/core_daemon/network.c:535-590 | After SET_CHANNEL, SWITCH_CHANNEL on the same name queues a set of the TV channel status to that id. |
| Serve.ServeGetSceneLists | src/core_daemon/network.c:896-926 | GET_SCENE writes one SCENE_UPDATE per stored scene, in order, then an OK result. |
| Serve.ServeSetSceneStores | src/core_daemon/network.c:844-869 | A valid SET_SCENE stores the parsed scene under its name, keeps names distinct, and answers OK. |
| Serve.ServeSceneSetThenGet | src/core_daemon/network.c:844-926 | A scene just set is among those GET_SCENE writes. |
| Serve.EnterReply | src/core_daemon/network.c:882-894 | ENTER_SCENE never changes the box. With no scene of that name it answers HSB_E_BAD_PARAM and hands nothing on. Otherwise it answers OK and hands exactly the first scene with that name to the scene pool. |
| Serve.ServeEnterRuns | src/core_daemon/network.c:882-894 | ENTER_SCENE on a stored name answers OK, leaves the box unchanged and emits exactly one scene run, of the first scene with that name. On any registry views, that run queues the requests of exactly its running actions, one step each, in order. |
| Serve.ServeEnterMissing | src/core_daemon/network.c:883-895 | Entering a scene that is not stored answers HSB_E_BAD_PARAM. |
| Serve.ServeSceneDelThenEnter | src/core_daemon/network.c:870-895 | After a scene is deleted, entering it answers HSB_E_BAD_PARAM. |
| DriverIr.IrDev | src/core_daemon/driver_ir.c:58-71 | The blaster used is the device's linked blaster, and it is online. |
| DriverIr.KeyPress | src/core_daemon/driver_ir.c:58-71 | Without a blaster or with an unknown key, the result is HSB_E_BAD_PARAM. Otherwise one remote-control action with the key's code is sent through the blaster. |
| DriverIr.ChannelDigitsSpell | src/core_daemon/driver_ir.c:86-130 | The three digit keys sent spell the channel number modulo 1000. |
| DriverIr.Cc9201SendsDigits | src/core_daemon/driver_ir.c:86-130 | A channel set sends the hundreds, tens and units keys in that order to the blaster. |
| DriverIr.Cc9201SetStatus | src/core_daemon/driver_ir.c:86-130 | A device that is not online, or has no blaster, gives HSB_E_OTHERS and sends nothing. A channel request sends the three digit keys, hundreds first, when the blaster takes actions, caches the channel and announces the status. Any other status id is accepted and does nothing. |
| DriverIr.Cc9201GetStatus | src/core_daemon/driver_ir.c:132-147 | An unknown device or status id gives HSB_E_OTHERS. Success returns the one requested slot. |
| DriverIr.Cc9201SetThenGet | src/core_daemon/driver_ir.c:86-147 | After a channel set through set_dev_status, reading the channel returns it. |
| DriverIr.Cc9201CachesChannel | src/core_daemon/driver_ir.c:86-130 | A channel set succeeds and leaves the channel in the cache. |
| DriverIr.Cc9201SetAction | src/core_daemon/driver_ir.c:149-163 | At most one key is sent, and only for a key inside the table, with that key's code. |
| DriverIr.GreeNormMeaning | src/core_daemon/driver_ir.c:205-241 | Normalisation fails exactly when some pair is out of range or unknown. Otherwise each pair is normalised in place: power and light become 0/1, and the temperature is forced to 25 after auto mode. |
| DriverIr.GreePackRoundTrip | src/core_daemon/driver_ir.c:245-257 | The 4-byte frame, whose top byte is zero, unpacks to the cached mode, power, wind speed, temperature and light. |
| DriverIr.GreeSetStatus | src/core_daemon/driver_ir.c:188-276 | Bad pairs give HSB_E_BAD_PARAM with nothing sent. Otherwise the normalised pairs are synced. The send succeeds exactly when the blaster can act and does, and a frame is sent exactly when it can. |
| DriverIr.GreeRawPowerAsWritten | src/core_daemon/device.c:1044-1047 | As written, set_dev_status re-syncs the raw request after the driver, so a power value above 1 lands in the cache out of range. |
| DriverIr.GreeSetDevStatusAsWritten | src/core_daemon/device.c:1030-1050 | As written, a successful set leaves the driver's cache with the raw request synced over it. |
| DriverIr.GreeSetDevStatus | src/core_daemon/driver_ir.c:188-276 | With the corrected order, a successful set leaves exactly the driver's normalised cache. |
| DriverIr.GreeSetDevStatusInRange | src/core_daemon/driver_ir.c:188-276 | After the corrected set, the device's cache stays inside the unit's ranges. |
| DriverIr.GreeCacheInRange | src/core_daemon/driver_ir.c:188-243 | The driver's cache stays inside the unit's ranges. |
| DriverIr.GreeSentIsCached | src/core_daemon/driver_ir.c:243-265 | The frame sent to the unit encodes exactly the cached state. |
| DriverIr.GreeGetStatus | src/core_daemon/driver_ir.c:278-288 | An unknown device gives HSB_E_OTHERS. Otherwise the whole cache is read back. |
| DriverIr.IrTypeOf | src/core_daemon/driver_ir.c:298-349 | CC9201 and Gree are the only IR types. They come with their class, initial cache, operations and channel support. |
| DriverIr.IrAddDev | src/core_daemon/driver_ir.c:298-349 | An unknown type gives HSB_E_NOT_SUPPORTED. Otherwise the device goes online through dev_online with its type's data. |
| DriverIr.IrAddRevivesOffline | src/core_daemon/driver_ir.c:298-349 | IR devices share a zero MAC, so adding one revives the first offline IR device instead of allocating an id. |
| DriverIr.IrDelDev | src/core_daemon/driver_ir.c:351-370 | An unknown device gives HSB_E_OTHERS. Otherwise the device is removed. |
| DriverIr.IrRecoverDev | src/core_daemon/driver_ir.c:372-422 | An unknown type gives HSB_E_NOT_SUPPORTED, and an id that is not offline gives HSB_E_OTHERS. Otherwise the device is recovered with its type's data. |
| DriverIr.IrRecoverResets | src/core_daemon/driver_ir.c:372-422 | A recovered IR device restarts from its type's initial status. |
| PadSim.Request | src/misc/pad_sim.c:310-486 | Every request the simulator builds has the size of its command, carries that size in its length field, and passes the server's packet check as that command. |
| PadSim.ServerReadsSetChannel | src/misc/pad_sim.c:410-416 | The server reads the device, the 16-byte name and the id that "set channel" wrote. |
| PadSim.ServerReadsSwitch | src/misc/pad_sim.c:423-428 | The server reads the device and the name that "switch channel" wrote. |
| PadSim.ClientSetThenSwitch | src/misc/pad_sim.c:410-428 | "set channel" then "switch channel" on one name makes the server queue a set of the TV channel to the id given. |
| PadSim.ServerReadsAction | src/misc/pad_sim.c:434-443 | The server reads the device, action id and parameters that "action" wrote, truncated to their widths. |
| PadSim.ServerQueuesAction | src/misc/pad_sim.c:434-443 | "action" makes the server queue an acknowledged action with those fields. |
| PadSim.TestActionEncoded | src/misc/pad_sim.c:460-486 | The "set scene" body is the name field followed by the encoding of one action with one act. |
| PadSim.TestActionParses | src/misc/pad_sim.c:460-486 | The server parses that body as exactly that action. |
| PadSim.TestNameStored | src/misc/pad_sim.c:460-486 | The test scene's name is already in stored form. |
| PadSim.ServerParsesSetScene | src/misc/pad_sim.c:460-486 | The server accepts "set scene" and reads it as the test scene, both as written and corrected. |
| PadSim.TestSceneParses | src/misc/pad_sim.c:460-486 | Any buffer holding the test scene's bytes parses as the test scene. |
| PadSim.SetTimerNeverFires | src/misc/pad_sim.c:360-373 | "set timer" writes a 21:49 timer with the enabled flag clear, so the stored timer never fires. |
| PadSim.DiscoveryAnswered | src/misc/pad_sim.c:544-603 | The probe's discover datagram is answered with the box's discover response. |
| PadSim.ClientReadsDevList | src/misc/pad_sim.c:91-100 | The client reads back exactly the id list the server sent. |
| PadSim.ReadInfo | src/misc/pad_sim.c:101-114 | The client reads a 6-byte MAC from offset 16. |
| PadSim.InfoMacMisread | src/misc/pad_sim.c:101-114 | The MAC the client prints is the 16-bit device type followed by the first four MAC bytes. It equals the MAC only for the inputs named. |
| PadSim.InfoMacMisreadExample | src/misc/pad_sim.c:101-114 | For a concrete device, the printed MAC differs from the real one. |
| PadSim.ClientReadsConfig | src/misc/pad_sim.c:115-124 | The client reads the device and the configuration as compared. |
| PadSim.ClientReadsChannel | src/misc/pad_sim.c:125-136 | The client reads the device, name and id of a channel reply. |
| PadSim.ClientReadsStatus | src/misc/pad_sim.c:137-150 | The client reads back every pair of a status frame. |
| PadSim.ClientReadsTimer | src/misc/pad_sim.c:151-174 | The client reads every timer field the server sent. |
| PadSim.ClientReadsEvent | src/misc/pad_sim.c:219-249 | The client reads device, event and both parameters from an event notification. |
| PadSim.ClientReadsResult | src/misc/pad_sim.c:250-255 | The client reads the result code of a RESULT reply. |
| PadSim.ClientReadsOnline | src/misc/pad_sim.c:256-286 | The client reads every field and every status pair of a DEV_ONLINE event. |
| PadSim.OnlinePairsRead | src/misc/pad_sim.c:256-286 | The status pairs of the event are read one per slot. |
| PadSim.ClientReadsSceneUpdate | src/misc/pad_sim.c:17-76 | The client's scene parser reads back every scene the server sends. |
| PhyZigbee.HeadFields | src/python/phy_zigbee.py:26-30 | The 8-byte header holds the magic, the length, the address and the port. |
| PhyZigbee.MakeFrame | src/python/phy_zigbee.py:26-30 | Framing succeeds exactly when address, port and total length fit 16 bits, and the payload follows the header. |
| PhyZigbee.ParseHeaderAsWritten | src/python/phy_zigbee.py:31-51 | As written, the header is read with signed fields. |
| PhyZigbee.ParseHeader | src/python/phy_zigbee.py:31-51 | A parsed header comes from a buffer long enough for it, has 16-bit address and port, and the payload is the rest. |
| PhyZigbee.FrameRoundTrip | src/python/phy_zigbee.py:26-51 | Parsing a built frame gives back address, port and payload. |
| PhyZigbee.ParsedIsFrame | src/python/phy_zigbee.py:26-51 | Every parsed frame is what framing its fields would build. |
| PhyZigbee.AsWrittenRoundTrip | src/python/phy_zigbee.py:31-51 | As written, the round trip holds only below 0x8000. A frame of 0x8000 bytes or more is rejected. |
| PhyZigbee.HighAddressMisread | src/python/phy_zigbee.py:31-51 | Address 0x8001 reads back as -0x7FFF as written, and correctly after the fix. |
| PhyZigbee.Receive | src/python/phy_zigbee.py:17-20 | Received data is tagged ZigBee and upward, and keeps its raw bytes. It carries fields exactly when the signed header parses; address and port are then the signed 16-bit fields. |
| PhyZigbee.Wrap | src/python/phy_zigbee.py:21-24 | Outgoing data exists exactly when it can be framed, and carries the frame. |
| PhyZigbee.OnData | src/python/phy_zigbee.py:73-80 | Incoming bytes are passed up exactly when the signed header parses and a payload follows. |
| PhyZigbee.Write | src/python/phy_zigbee.py:68-72 | What is written is the header followed by the data. |
| PhyZigbee.WriteThenReceive | src/python/phy_zigbee.py:68-80 | What one side writes, the other receives with the same data. Address and port come back signed, so they are unchanged below 0x8000 and less 0x10000 from there on. An empty payload, or a frame of 0x8000 bytes or more, is dropped. |
| PhyZigbee.HighAddressReceived | src/python/phy_zigbee.py:68-80 | A payload sent to address 0x8001 reaches the manager from address -32767. |
| PyPhy.Key | src/python/hsb_phy.py:27-29 | Phy data is routed by its phy and port. |
| PyAction.SetOb | src/python/hsb_action.py:7-17 | An object with devid, epid and val is accepted and stored as those three fields. Otherwise the action is invalid and keeps its old fields. |
| PyAction.GetOb | src/python/hsb_action.py:18-23 | The object produced has exactly the keys devid, epid and val. |
| PyAction.GetSetRoundTrip | src/python/hsb_action.py:7-23 | Loading a stored action's object gives back that action, valid. |
| PyAction.SetObLastWins | src/python/hsb_action.py:7-17 | A second load overrides the first, valid or not. |
| PyDevice.ByteNum | src/python/hsb_device.py:19 | The byte count is the least whole number of bytes holding the bits. |
| PyDevice.Update | src/python/hsb_device.py:105-108 | The attributes are merged with the new ones winning. A non-object raises. |
| PyDevice.EpSet | src/python/hsb_device.py:45-48 | An endpoint only gains or updates attributes. Without attrs it is unchanged. |
| PyDevice.AddEp | src/python/hsb_device.py:83-89 | A new endpoint id is added, an existing one is kept, and every other endpoint is unchanged. |
| PyDevice.AddEpsFirstWins | src/python/hsb_device.py:83-89 | Adding endpoints in turn keeps existing ones and the first of each new id. |
| PyDevice.TicksSinceKeepalive | src/python/hsb_device.py:80-92 | The tick count is what was added since the last keepalive. |
| PyDevice.TicksAdd | src/python/hsb_device.py:80-82 | Without keepalives, ticks accumulate. |
| PyDevice.SetEpsFrame | src/python/hsb_device.py:123-141 | Only named, known endpoints are edited, others are unchanged. Exactly the entries carrying val are forwarded. |
| PyDevice.SetEps | src/python/hsb_device.py:123-141 | The loop raises when any entry raises on its `epid` lookup: a number, None or bool, a string or list holding "epid", or an object whose id is a list or object. |
| PyDevice.SetEndpoints | src/python/hsb_device.py:123-141 | A list is processed entry by entry. A string loads nothing. An object raises exactly when one of its keys holds "epid", and otherwise loads nothing. A number, None or bool raises. |
| PyDevice.Set | src/python/hsb_device.py:105-112 | An object with neither attrs nor endpoints changes nothing. |
| PyDevice.SetKeepsIdentity | src/python/hsb_device.py:105-141 | A set never changes the identity, ticks, state or endpoint ids. The attributes become the merge. |
| PyDevice.OnCmd | src/python/hsb_device.py:97-104 | set applies the object. get raises, because the callback takes no argument. Anything else is ignored. |
| PyTimer.ParseTimer | src/python/hsb_timer.py:16-41 | A timer object is accepted exactly when it has its four keys and a valid action, and a one-shot also has a date. It raises exactly when it has the four keys and the action's own lookup raises. |
| PyTimer.ParseEntry | src/python/hsb_timer.py:11-41 | A list entry that is not an object raises on lookup when it is a number, None or bool, or a string or list holding all four keys; otherwise it is invalid. An object is read as a timer object. |
| PyTimer.TimerOb | src/python/hsb_timer.py:42-50 | The object produced has the four keys, plus date for a one-shot. |
| PyTimer.TimerRoundTrip | src/python/hsb_timer.py:16-50 | Loading a stored timer's object gives back the rule. |
| PyTimer.ParseThenStore | src/python/hsb_timer.py:16-50 | Storing a loaded timer keeps the keys it read, with the action cut to its three keys. |
| PyTimer.Update | src/python/hsb_timer.py:51-68 | Update raises exactly when a one-shot's date or time is not a string, or strptime or mktime fails. Otherwise it recomputes the target time. A one-shot is expired unless today is its date. A daily timer is cleared only when its time is still ahead. |
| PyTimer.Check | src/python/hsb_timer.py:69-83 | A timer fires exactly when it is not expired and within three seconds past its time. Once its time has passed it is expired. |
| PyTimer.ExpiredStaysSilent | src/python/hsb_timer.py:69-83 | An expired timer never fires. |
| PyTimer.FiresAtMostOnce | src/python/hsb_timer.py:69-83 | Over any run of checks, a timer fires at most once and ends expired if it did. |
| PyTimer.SetTimers | src/python/hsb_timer.py:91-105 | A load that does not raise keeps at most as many timers as entries. |
| PyTimer.SetTimersRaises | src/python/hsb_timer.py:91-105 | Loading raises, keeping the old list, exactly when some entry raises on lookup or is a valid timer whose update raises. |
| PyTimer.SetTimersRoundTrip | src/python/hsb_timer.py:91-108 | Loading the stored timers raises exactly when one of them cannot be updated on the clock; otherwise it gives back their rules. |
| PyTimer.SetTimersDrops | src/python/hsb_timer.py:91-105 | The load succeeds with every entry kept exactly when every entry is a valid timer whose update succeeds. |
| PyTimer.BadEntriesRaise | src/python/hsb_timer.py:16-54 | A valid one-shot whose date is a number makes the load raise on any clock, and so does a number entry. |
| PyTimer.CheckTimersAsWritten | src/python/hsb_timer.py:112-127 | As written, the check raises exactly when the day changed and either there are no timers or the last timer's update raises. The fired actions are handed on and the new day recorded whether or not it raises, and a raise leaves every timer as checked. |
| PyTimer.UpdateAll | src/python/hsb_timer.py:124-126 | The corrected new-day update visits every timer in order and keeps every rule. It raises exactly when some timer cannot be updated. Without a raise, every timer holds its updated state. |
| PyTimer.UpdateAllStops | src/python/hsb_timer.py:124-126 | When the first timer that cannot be updated is at position j, the timers before j are updated and the rest are left exactly as they were. |
| PyTimer.CheckTimers | src/python/hsb_timer.py:112-127 | The corrected check raises exactly when the day changed and some timer's update raises. Either way the fired actions are handed on, the new day is recorded and every timer keeps its rule. |
| PyTimer.CheckTimersRaisesAt | src/python/hsb_timer.py:51-127 | A corrected check that raises at a timer has updated the timers before it and left that timer and the rest as checked. |
| PyTimer.RaisedPassIsNotRepeated | src/python/hsb_timer.py:69-127 | After a check that raises, a second check the same day does not raise again, as written and corrected. As written, a timer other than the last that the raising check fired stays silent in the second check. |
| PyTimer.NewDayRearmsAll | src/python/hsb_timer.py:112-127 | On a new day, a corrected check that does not raise updates every timer. |
| PyTimer.SameDayFiresOnce | src/python/hsb_timer.py:112-127 | Two checks on one day never both fire the same timer. |
| PyTimer.DayChangeSkipsAllButLast | src/python/hsb_timer.py:124-126 | As written, a day change updates only the last timer, so earlier daily timers miss the new day. |
| PyScene.CondCheckOrder | src/python/hsb_scene.py:34-47 | An unknown expression never holds. ge is gt or eq, le is not gt, and lt is not ge. |
| PyScene.ActionOb | src/python/hsb_scene.py:12-21 | An action's object carries delay only when it is non-zero, and condition only when there is one. |
| PyScene.SceneOb | src/python/hsb_scene.py:96-103 | A scene's object has name and actions, one per action. |
| PyScene.LoadAsWritten | src/python/hsb_scene.py:56-94 | A scene without name or actions is invalid. |
| PyScene.LoadAsWrittenRaises | src/python/hsb_scene.py:64-90 | As written, the action loop raises exactly when some entry raises on lookup, or is a complete action with a complete condition. An entry raises on lookup when it is a number, None or bool, or a string or list holding all four keys. A complete action also raises when its condition is such a value. |
| PyScene.LoadAsWrittenKeeps | src/python/hsb_scene.py:56-94 | When it does not raise, the load keeps exactly the complete actions, in order, all without condition. |
| PyScene.LoadActsRaises | src/python/hsb_scene.py:64-90 | As corrected, the action loop raises exactly when some entry raises on lookup. |
| PyScene.Load | src/python/hsb_scene.py:56-94 | The corrected load is invalid without name or actions. It raises exactly when the actions value is not iterable, or an entry it visits raises on lookup. |
| PyScene.NumberEntriesRaise | src/python/hsb_scene.py:64-84 | A number action entry, and a number condition, raise both as written and corrected. A string of actions loads no action. |
| PyScene.ConditionedSceneRaises | src/python/hsb_scene.py:76-90 | A scene with one conditioned action raises as written, and loads with its condition after the fix. |
| PyScene.ReloadKeepsDelayed | src/python/hsb_scene.py:12-94 | Storing and reloading a scene keeps exactly its actions with a non-zero delay. |
| PyScene.ReloadAsWritten | src/python/hsb_scene.py:12-94 | The written load reloads a stored scene the same way and does not raise, since stored actions then carry no condition. |
| PyHub.AllocConsecutive | src/python/hsb_manager.py:167-171 | Successive allocations hand out consecutive ids from the counter. |
| PyHub.AddPhy | src/python/hsb_manager.py:120-128 | The phy is added to the set of phys. |
| PyHub.DelPhy | src/python/hsb_manager.py:129-138 | The phy is removed from the set of phys. |
| PyHub.AddDelPhy | src/python/hsb_manager.py:120-138 | Adding then removing a new phy leaves the manager unchanged. |
| PyHub.AddDriver | src/python/hsb_manager.py:139-156 | A driver is registered, bound to its phy, only when its phy exists and its key is free. Otherwise nothing changes. |
| PyHub.DelDriver | src/python/hsb_manager.py:157-166 | Only the driver's key is removed. |
| PyHub.AddDelDriver | src/python/hsb_manager.py:139-166 | Adding then removing a new driver leaves the manager unchanged. |
| PyHub.InitialInv | src/python/hsb_manager.py:13-30 | The initial manager satisfies the hub invariant: driver device maps and the device table agree. |
| PyHub.AddDeviceInv | src/python/hsb_driver.py:27-37 | A new address gets the next id, is found by address and by id, and other devices are unchanged. The invariant holds. |
| PyHub.AddDeviceDuplicate | src/python/hsb_driver.py:27-37 | Adding an address the driver already has changes nothing. |
| PyHub.DelDeviceInv | src/python/hsb_driver.py:38-48 | Deleting forgets the address and its device, keeps every other device, and keeps the invariant. |
| PyHub.AddThenDel | src/python/hsb_driver.py:27-48 | Adding then deleting a device restores the manager, except for the counter. |
| PyHub.DriversInv | src/python/hsb_manager.py:139-166 | Adding a driver without devices, or removing a driver, keeps the invariant. |
| PyHub.DealHsbCmd | src/python/hsb_manager.py:95-119 | Commands other than set and get, and commands without devices, change nothing. |
| PyHub.DealDevsFrame | src/python/hsb_manager.py:95-119 | A set command changes only device attributes and endpoints of known devices, and keeps the invariant. |
| PyHub.GetRaises | src/python/hsb_manager.py:95-119 | A get on a known device raises. |
| PyHub.SetOneDevice | src/python/hsb_manager.py:95-119 | A set on one known device applies the device's set to it alone. |
| PyHub.RoutePhyData | src/python/hsb_manager.py:194-199 | Upward data goes to the driver with its key, and downward data to its phy. Data with neither is dropped. |
| Orange.EpOrange | src/python/drv_orange.py:18-24 | The fields `ep_orange` decodes from a descriptor: an 8-bit id and a bit count below 64. |
| Orange.DescriptorRoundTrip | src/python/drv_orange.py:18-27 | Decoding a descriptor gives back its id, bits and access flags. |
| Orange.DescriptorOnto | src/python/drv_orange.py:18-27 | Every 16-bit descriptor is the encoding of what it decodes to. |
| Orange.NewDevice | src/python/drv_orange.py:58-65 | Plugs and remote controls are created, with this driver, the MAC and the address; any other type is not. |
| Orange.HandlerOf | src/python/drv_orange.py:47-57 | Exactly the four commands discover-response, event, keepalive and reply have handlers. |
| Orange.Route | src/python/drv_orange.py:159-191 | Buffers shorter than 4 bytes are dropped. Others go to their command's handler with the rest of the buffer, or are reported as unregistered. |
| Orange.RoutePacket | src/python/drv_orange.py:159-191 | A packet is routed by its command to the handler with its body. |
| Orange.Discover | src/python/drv_orange.py:92-124 | A discover response is too short below 12 bytes, ignored for a known address, and without endpoints at exactly 12 bytes. Otherwise it carries the type, an 8-byte MAC and the endpoint bytes. |
| Orange.DiscoverRoundTrip | src/python/drv_orange.py:92-124 | A response built from a type, a MAC and endpoints reads back as them. |
| Orange.AddDiscovered | src/python/drv_orange.py:92-124 | A discovered device is registered exactly when its type is known. |
| Orange.DiscoveredIsRegistered | src/python/drv_orange.py:92-124 | The discovered device gets the next id and is found by address and by id, with its MAC and endpoints. The invariant holds. |
| Orange.ReadReply | src/python/drv_orange.py:137-158 | Replies shorter than 4 bytes are dropped. Set and get results carry the error field. |
| Orange.ReplyCarriesError | src/python/drv_orange.py:137-158 | A set or get reply carries its error code, and a get reply its data. |
| Orange.KeepAlive | src/python/drv_orange.py:134-136 | A keepalive from a known address resets that device's ticks and nothing else. An unknown address raises. |
| Orange.ParseEps | src/python/drv_orange.py:18-27 | The endpoint loop raises as soon as more than 2 bytes are left, because `ep_orange` prints an attribute no endpoint has. With 2 bytes or fewer it reads no endpoint. |
| Orange.OnData | src/python/drv_orange.py:92-191 | Buffers shorter than 4 bytes change nothing, and an unregistered command raises. A discovery registers a new device only when at most 2 bytes follow the MAC, and then with no endpoints; more raise. An event passes only with at most 2 body bytes from a known device. A keep-alive is KeepAlive. A SET or GET reply raises. |
| Orange.WiredHub | src/python/drv_orange.py:47-57 | A hub with the ZigBee phy and this driver keeps the invariant and routes upward ZigBee data to the driver. |
| Orange.FirstDiscovery | src/python/drv_orange.py:92-124 | A first discovered plug with 1 or 2 bytes after its MAC becomes device 1 at its address, with no endpoints. The same response again changes nothing. |
| Orange.DiscoveryWithEndpointsRaises | src/python/drv_orange.py:108-115 | A discovery from a new address with more than 2 bytes after the MAC raises, whatever the type and hub state. |

## Left out

- Sockets, select loops, threads, the Unix notify socket, serial I/O and the console: requests and replies are byte sequences and queued outputs instead.
- Writing and reading the XML configuration (save_config, the XML side of load_config and parse_scene in device.c): a save is an output, and loading is only modelled for the id counter it seeds.
- The pad simulator's `main`, `control_box` socket loop and `printf`: only the bytes it builds and the fields it reads are modelled; sscanf's parsing of the console line is replaced by its parsed values.
- The task queue of device.c (the async wrappers and the worker thread): a queued task is an output, and `_process_dev_act` takes the driver's answers as parameters.
- `ir_dev_delay` (driver_ir.c:16-28): a sleep between IR frames, with no effect on state.
- Allocation failures answered with HSB_E_NO_MEMORY: set_channel's (channel.c), SET_SCENE's `alloc_scene` (network.c:845-852), and the device, driver and task allocations of device.c. Memory is not modelled.
- Native byte order: the C packets are read and written little-endian.
- Wall clock and local time (`time`, `localtime`, `strptime`, `mktime`): a `Clock` value gives the time of day, the week day, the date and the target time of each rule. For a Python timer the target may be absent, where `strptime` or `mktime` raises.
- The Python `run` loop of hsb_manager.py and its reply branch, which uses undefined names; `do_actions`, which is not defined anywhere; the driver timeout threads and queues.
- `hsb_endpoint.get` and `hsb_device.get`: reading `self.val` raises because it is never set; the model only uses that `get` raises when called with an argument.
- `on_update` (a no-op), `on_set_result` and `on_get_result` (called but not defined) in the Orange driver. The body of `parse_ep` after the `ep_orange` constructor is not modelled: the constructor always raises first.
- dev_ir.py is not part of this model.
- JSON numbers are modelled as integers only. `json.loads` gives a float for `1.0`, which Python then treats like the equal integer as a dictionary key and in comparisons; `PyValue.Value` has no float case.
- Python values of the wrong JSON type: a non-object `attrs` raises, though `dict.update` also accepts a list of pairs. A condition whose stored value is not a number never holds, where Python 3 raises TypeError for `gt`, `lt`, `ge` and `le` (`eq` is False, as modelled). Entries of `endpoints`, scene `actions` and timer lists follow Python's `in` and indexing rules (`PyValue.LookupRaises`). The timer list itself is taken to be a list.
- Device operations are modelled only for registered drivers; a driver's internal effects beyond its answer are not.
- PhyZigbee.MakeFrame: struct.error on a field that does not fit is modelled as `None`.
- Registry.AllocIncreasing: states consecutive ids only while the counter does not wrap past 2^32.
- Serve.DealTcp: the corrected dispatcher. It drops a packet declaring fewer than 4 bytes, and parses SET_SCENE with the eight-act bound. `Serve.DealTcpAsWritten` is the program's behaviour. The Serve lemmas about sequences of requests are stated for the corrected dispatcher.
- TimerStep.CheckTimerAndDelay: the corrected tick. It uses one rollover decision for all devices and keeps spent one-shots expired. `TimerStep.CheckTimerAndDelayAsWritten` is the program's behaviour.
- Registry.DevOnlineAdds: for a device type between the table's entry count and its byte size, the program copies bytes from past the end of `default_config`. The model cannot name those bytes and gives the zero configuration instead. `Registry.DevOnlineConfigAsWritten` covers every other type.
- Registry.DevOnline: the same out-of-table default configuration as Registry.DevOnlineAdds.
- Scene.FindScene: compares within the 16-byte field. `find_scene` uses `strcmp`, which reads past a 16-character name into the bytes that follow it. For a DEL_SCENE or ENTER_SCENE request those bytes are stack memory the model cannot name. `Scene.FindSceneAsWritten` takes them as a parameter, and `Scene.FindSceneAgrees` shows the two agree below 16 characters.
- Scene.AddSceneKeepsUnique: states distinct names under the 16-byte comparison. As written, `add_scene` can store a second scene with the same 16-character name (`Scene.LongNameDuplicated`).
- Scene.DelScene: finds the scene with the 16-byte comparison, like Scene.FindScene.
- Scene.DelSceneRemoves: stated for the 16-byte comparison, like Scene.FindScene.
- Scene.EnterScene: finds the scene with the 16-byte comparison, like Scene.FindScene.
- Serve.DealTcpAsWritten: stores, deletes and enters scenes with the 16-byte comparison. For names shorter than 16 characters this is the program's behaviour (`Scene.FindSceneAgrees`, `Scene.AddSceneAgrees`).
- PyHub.InitialInv: `Initial` is the manager `hsb_manager.__init__` evidently intends. As written the constructor never gets there: `hsb_scene()` at hsb_manager.py:17 is called without the `ob` argument that `hsb_scene.__init__` requires (hsb_scene.py:50), so it raises TypeError before `phys`, `drivers`, `first_dev_id` and `devices` are set.
- Orange.WiredHub: starts from `PyHub.Initial`, which the program's constructor never builds (see PyHub.InitialInv).
- Orange.FirstDiscovery: starts from `PyHub.Initial`, like Orange.WiredHub.
- PadSim.Request: covers the console lines the simulator accepts, not the "invalid cmd" path, which sends nothing.

## Findings

| source | as written | input that shows it | evidently intended | confidence | as-written member | corrected member |
|---|---|---|---|---|---|---|
| src/core_daemon/network.c:1233-1238 | The client loop advances by the length the packet declares; a valid packet may declare length 0. | A known command with length field 0 | Consume at least one byte, or the whole read on a short header | not executed | Wire.ZeroLengthStallsAsWritten | Wire.PacketsTile |
| src/core_daemon/network.c:244-262 | parse_scene reads up to 255 acts per action into an eight-act array. | One action claiming nine acts (`SceneCodec.NineActs`) | Reject actions with more than eight acts | not executed | SceneCodec.NineActsOverflow | SceneCodec.SceneRoundTrip |
| src/core_daemon/device.c:1331 | `dev_type < sizeof(default_config)` compares with the byte size, not the entry count. | A device type equal to the entry count | Compare with the number of entries | not executed | Registry.DefaultConfigOverread | Registry.DefaultConfigAgrees |
| src/core_daemon/device.c:2273-2297 | The stored second-of-day is updated while sweeping the first device, so later devices never see the rollover. | Two devices, a rollover, an expired timer on the second | Decide the rollover once per sweep | not executed | TimerStep.SecondDeviceMissesRollover | TimerStep.SweepRearmsEveryDevice |
| src/core_daemon/device.c:2276-2280 | The rollover rearms every enabled timer, including spent one-shots whose slot is inactive. | A weekly one-shot that already fired, due again on the new day | Skip inactive slots | not executed | TimerStep.OneShotRefiresAsWritten | TimerStep.OneShotFiresOnce |
| src/core_daemon/device.c:1044-1047 | After gree_set_status syncs the normalised pairs, set_dev_status syncs the raw request again. | Gree power value 2 | Keep the driver's normalised cache | not executed | DriverIr.GreeRawPowerAsWritten | DriverIr.GreeSetDevStatusInRange |
| src/core_daemon/scene.c:32-83 | find_scene and add_scene compare names with strcmp, and a 16-character name has no NUL in its field, so the comparison reads on into the following bytes. | Two SET_SCENE requests with the same 16-character name, with one and two actions | Compare within the 16-byte field, as channel.c does with strncmp | not executed | Scene.LongNameDuplicated | Scene.AddSceneKeepsUnique |
| src/python/phy_zigbee.py:31-51 | The header is unpacked with signed 16-bit fields. | Address 0x8001 | Unsigned fields, as packed | not executed | PhyZigbee.HighAddressMisread | PhyZigbee.FrameRoundTrip |
| src/python/hsb_timer.py:124-126 | On a day change only the loop's last `timer` is updated, and with no timers the name is unbound. | Two daily timers that fired yesterday | Update every timer | not executed | PyTimer.DayChangeSkipsAllButLast | PyTimer.NewDayRearmsAll |
| src/python/hsb_scene.py:89-90 | The condition is built into `conditon` but `condition` is assigned, which is unbound. | An action with a complete condition | Attach the condition just built | not executed | PyScene.ConditionedSceneRaises | PyScene.ReloadKeepsDelayed |

=== FILE: bytes.dfy ===
/**
 * Byte-level vocabulary shared by the hub's wire codecs: fixed-width
 * unsigned integers, little-endian field encoding (the hub writes fields in
 * native byte order; this model fixes little-endian), the `CHECK_BIT` test
 * and 16-byte C string fields, with what `strncmp(.., 16)` and `strcmp` read
 * from them.
 */
module Bytes {

  type uint8 = x: int | 0 <= x < 0x100
  type uint16 = x: int | 0 <= x < 0x1_0000
  type uint32 = x: int | 0 <= x < 0x1_0000_0000
  type bytes = seq<uint8>

  /** Truncating conversions, as a C assignment to a narrower unsigned field does. */
  function To8(x: int): uint8 { x % 0x100 }
  function To16(x: int): uint16 { x % 0x1_0000 }
  function To32(x: int): uint32 { x % 0x1_0000_0000 }

  function LE16(v: uint16): (r: bytes)
    ensures |r| == 2
  {
    [v % 0x100, v / 0x100]
  }

  function LE32(v: uint32): (r: bytes)
    ensures |r| == 4
  {
    [v % 0x100, (v / 0x100) % 0x100, (v / 0x1_0000) % 0x100, v / 0x100_0000]
  }

  /** Reads a little-endian 16-bit field at `off`. */
  function Get16(b: bytes, off: nat): (r: uint16)
    requires off + 2 <= |b|
  {
    b[off] as int + 0x100 * (b[off + 1] as int)
  }

  /** Reads a little-endian 32-bit field at `off`. */
  function Get32(b: bytes, off: nat): (r: uint32)
    requires off + 4 <= |b|
  {
    b[off] as int + 0x100 * (b[off + 1] as int) + 0x1_0000 * (b[off + 2] as int)
      + 0x100_0000 * (b[off + 3] as int)
  }

  /** Truncating a value that already fits 16 bits keeps it. */
  lemma To16Small(x: int)
    requires 0 <= x < 0x1_0000
    ensures To16(x) == x
  {
  }

  lemma LE16Get(v: uint16, b: bytes, off: nat)
    requires off + 2 <= |b| && b[off..off + 2] == LE16(v)
    ensures Get16(b, off) == v
  {
    assert b[off] == LE16(v)[0] && b[off + 1] == LE16(v)[1];
  }

  /** A slice of a slice known to equal `e` is the matching slice of `e`. */
  lemma Sub(b: bytes, off: nat, e: bytes, i: nat, j: nat)
    requires off + |e| <= |b| && b[off..off + |e|] == e && i <= j <= |e|
    ensures b[off + i..off + j] == e[i..j]
  {
    assert forall k :: off + i <= k < off + j ==> b[k] == e[k - off];
  }

  /** A slice holding `x + y` holds `x`, then `y`. */
  lemma Split(b: bytes, off: nat, x: bytes, y: bytes)
    requires off + |x| + |y| <= |b| && b[off..off + |x| + |y|] == x + y
    ensures b[off..off + |x|] == x && b[off + |x|..off + |x| + |y|] == y
  {
    assert forall k :: off <= k < off + |x| + |y| ==> b[k] == (x + y)[k - off];
  }

  /** A 16-bit field read inside a copy of `e` placed at `off` is the field read in `e`. */
  lemma Get16In(b: bytes, off: nat, e: bytes, k: nat)
    requires off + |e| <= |b| && b[off..off + |e|] == e && k + 2 <= |e|
    ensures Get16(b, off + k) == Get16(e, k)
  {
    assert b[off + k] == e[k] && b[off + k + 1] == e[k + 1];
  }

  /** A 32-bit field read inside a copy of `e` placed at `off` is the field read in `e`. */
  lemma Get32In(b: bytes, off: nat, e: bytes, k: nat)
    requires off + |e| <= |b| && b[off..off + |e|] == e && k + 4 <= |e|
    ensures Get32(b, off + k) == Get32(e, k)
  {
    assert b[off + k] == e[k] && b[off + k + 1] == e[k + 1];
    assert b[off + k + 2] == e[k + 2] && b[off + k + 3] == e[k + 3];
  }

  lemma LE32Get(v: uint32, b: bytes, off: nat)
    requires off + 4 <= |b| && b[off..off + 4] == LE32(v)
    ensures Get32(b, off) == v
  {
    assert b[off] == LE32(v)[0] && b[off + 1] == LE32(v)[1];
    assert b[off + 2] == LE32(v)[2] && b[off + 3] == LE32(v)[3];
    var q1 := v / 0x100;
    var q2 := q1 / 0x100;
    assert v / 0x1_0000 == q2;
    assert v / 0x100_0000 == q2 / 0x100;
  }

  function Zeros(n: nat): (r: bytes)
    ensures |r| == n && forall i :: 0 <= i < n ==> r[i] == 0
  {
    seq(n, _ => 0)
  }

  /** 2 to the `n`; never zero, which is what lets `Bit` divide by it. */
  function Pow2(n: nat): (r: nat)
    ensures r >= 1
  {
    if n == 0 then 1 else 2 * Pow2(n - 1)
  }

  /** `CHECK_BIT(a, b)`, that is `a & (1 << b)`, is non-zero. */
  predicate Bit(a: nat, b: nat) {
    (a / Pow2(b)) % 2 == 1
  }

  /** The characters of a C string stored in `field`: everything before the first NUL. */
  function CStr(field: bytes): (r: bytes)
    ensures |r| <= |field| && r == field[..|r|]
    ensures forall i :: 0 <= i < |r| ==> r[i] != 0
    ensures |r| < |field| ==> field[|r|] == 0
  {
    if |field| == 0 || field[0] == 0 then [] else [field[0]] + CStr(field[1..])
  }

  function Min(a: int, b: int): int { if a <= b then a else b }

  /** What `strncmp(a, b, 16)` looks at: the string in the first 16 bytes. */
  function Key16(s: bytes): (r: bytes)
    ensures |r| <= 16
  {
    CStr(s[..Min(16, |s|)])
  }

  /** `strncpy(field, s, 16)` into a 16-byte field: the string, then NUL padding. */
  function Field16(s: bytes): (r: bytes)
    ensures |r| == 16
  {
    var k := Key16(s);
    k + Zeros(16 - |k|)
  }

  lemma {:induction false} CStrPadded(k: bytes, n: nat)
    requires forall i :: 0 <= i < |k| ==> k[i] != 0
    ensures CStr(k + Zeros(n)) == k
    decreases |k|
  {
    var f := k + Zeros(n);
    if |k| == 0 {
      if n > 0 {
        assert f[0] == 0;
      }
    } else {
      assert f[0] == k[0] != 0;
      assert f[1..] == k[1..] + Zeros(n);
      assert forall i :: 0 <= i < |k[1..]| ==> k[1..][i] == k[i + 1];
      CStrPadded(k[1..], n);
      assert CStr(f) == [k[0]] + CStr(f[1..]);
      assert [k[0]] + k[1..] == k;
    }
  }

  /** A stored field compares under `strncmp(.., 16)` exactly as the string it was copied from. */
  lemma {:induction false} Field16Key(s: bytes)
    ensures Key16(Field16(s)) == Key16(s)
  {
    var k := Key16(s);
    CStrPadded(k, 16 - |k|);
    assert Field16(s)[..16] == Field16(s);
  }

  /** A C string read from `k` followed by `rest`, where `k` holds no NUL, runs on into `rest`. */
  lemma {:induction false} CStrRunsOn(k: bytes, rest: bytes)
    requires forall i :: 0 <= i < |k| ==> k[i] != 0
    ensures CStr(k + rest) == k + CStr(rest)
    decreases |k|
  {
    if |k| > 0 {
      var f := k + rest;
      assert f[0] == k[0] != 0;
      assert f[1..] == k[1..] + rest;
      CStrRunsOn(k[1..], rest);
      assert [k[0]] + k[1..] == k;
    } else {
      assert k + rest == rest;
    }
  }

  /**
   * What `strcmp` reads from a 16-byte field holding `s` when the field is
   * followed in memory by `tail`: the string, which runs on into `tail`
   * only when it fills all 16 bytes.
   */
  lemma ReadOn(s: bytes, tail: bytes)
    ensures CStr(Field16(s) + tail) == Key16(s) + (if |Key16(s)| == 16 then CStr(tail) else [])
  {
    var k := Key16(s);
    if |k| == 16 {
      assert Field16(s) == k;
      CStrRunsOn(k, tail);
    } else {
      var rest := Zeros(16 - |k|) + tail;
      assert Field16(s) + tail == k + rest;
      CStrRunsOn(k, rest);
      assert rest[0] == 0;
      assert k + [] == k;
    }
  }

  /** A field that holds a string of fewer than 16 characters is that string, padded. */
  function StrField(s: bytes): (r: bytes)
    requires |s| <= 16
    ensures |r| == 16 && r[..|s|] == s
  {
    s + Zeros(16 - |s|)
  }
}

=== FILE: channel.dfy ===
/**
 * The per-device channel directory: an ordered list of (16-byte name, id)
 * pairs with upsert, delete, lookup by name and enumeration by position.
 * Names are compared the way `strncmp(.., 16)` compares them (`Key16`).
 */
module Channel {
  import opened Bytes
  import opened HubTypes

  /** One entry; `name` is the stored 16-byte field. */
  datatype Chan = Chan(name: bytes, id: uint32)

  type ChannelDb = seq<Chan>

  /** `strncmp(c.name, name, 16) == 0`. */
  predicate Matches(c: Chan, name: bytes) {
    Key16(c.name) == Key16(name)
  }

  /** No two entries answer to the same name. */
  predicate UniqueNames(db: ChannelDb) {
    forall i, j :: 0 <= i < j < |db| ==> Key16(db[i].name) != Key16(db[j].name)
  }

  function FindFrom(db: ChannelDb, name: bytes, i: nat): (r: Option<nat>)
    requires i <= |db|
    ensures r.Some? ==> i <= r.value < |db| && Matches(db[r.value], name)
    ensures r.Some? ==> forall j :: i <= j < r.value ==> !Matches(db[j], name)
    ensures r.None? ==> forall j :: i <= j < |db| ==> !Matches(db[j], name)
    decreases |db| - i
  {
    if i == |db| then None
    else if Matches(db[i], name) then Some(i)
    else FindFrom(db, name, i + 1)
  }

  /** The position the scans of channel.c stop at: the first entry with this name. */
  function Find(db: ChannelDb, name: bytes): (r: Option<nat>)
    ensures r.Some? ==> r.value < |db| && Matches(db[r.value], name)
    ensures r.Some? ==> forall j :: 0 <= j < r.value ==> !Matches(db[j], name)
    ensures r.None? <==> forall j :: 0 <= j < |db| ==> !Matches(db[j], name)
  {
    FindFrom(db, name, 0)
  }

  /**
   * `set_channel`: a name already present keeps its place and only its id
   * changes; a new name is appended at the tail. (The `HSB_E_NO_MEMORY` path
   * of a failed allocation is not modelled, so the result code is always OK.)
   */
  function SetChannel(db: ChannelDb, name: bytes, cid: uint32): (r: ChannelDb)
    ensures Find(db, name).Some? ==>
      && |r| == |db|
      && (forall j :: 0 <= j < |db| ==> r[j].name == db[j].name)
      && r[Find(db, name).value].id == cid
      && (forall j :: 0 <= j < |db| && j != Find(db, name).value ==> r[j] == db[j])
    ensures Find(db, name).None? ==>
      && |r| == |db| + 1
      && r[..|db|] == db
      && r[|db|] == Chan(Field16(name), cid)
  {
    match Find(db, name)
    case Some(k) => db[k := Chan(db[k].name, cid)]
    case None => db + [Chan(Field16(name), cid)]
  }

  /** `del_channel`: removes the first entry with this name, or reports `HSB_E_OTHERS`. */
  function DelChannel(db: ChannelDb, name: bytes): (r: (Err, ChannelDb))
    ensures Find(db, name).None? ==> r == (Others, db)
    ensures Find(db, name).Some? ==>
      var k := Find(db, name).value;
      && r.0 == Ok
      && r.1 == db[..k] + db[k + 1..]
  {
    match Find(db, name)
    case None => (Others, db)
    case Some(k) => (Ok, db[..k] + db[k + 1..])
  }

  /** Deleting takes out exactly one entry, the matching one, and keeps the rest. */
  lemma DelChannelRemovesOne(db: ChannelDb, name: bytes)
    requires Find(db, name).Some?
    ensures multiset(DelChannel(db, name).1) + multiset{db[Find(db, name).value]} == multiset(db)
  {
    var k := Find(db, name).value;
    assert db == db[..k] + [db[k]] + db[k + 1..];
  }

  /** `get_channel`: the id stored under this name, or `HSB_E_OTHERS`. */
  function GetChannel(db: ChannelDb, name: bytes): (r: Result<uint32>)
    ensures r.Success? <==> exists j :: 0 <= j < |db| && Matches(db[j], name)
    ensures r.Success? ==> exists j :: 0 <= j < |db| && Matches(db[j], name) && db[j].id == r.value
    ensures r.Failure? ==> r.error == Others
  {
    match Find(db, name)
    case Some(k) => Success(db[k].id)
    case None => Failure(Others)
  }

  /** `get_channel_num`: the count that bounds the indices `get_channel_by_id` accepts. */
  function GetChannelNum(db: ChannelDb): (r: nat)
    ensures forall i :: GetChannelById(db, i).Success? <==> 0 <= i < r
  {
    |db|
  }

  /**
   * `get_channel_by_id`: the i-th pair, or `HSB_E_BAD_PARAM` when the index is
   * not below the count. The comparison is unsigned, so a negative index is
   * rejected too.
   */
  function GetChannelById(db: ChannelDb, i: int): (r: Result<Chan>)
    ensures r.Failure? <==> !(0 <= i < |db|)
    ensures r.Failure? ==> r.error == BadParam
    ensures r.Success? ==> r.value == db[i]
  {
    if i < 0 || i >= |db| then Failure(BadParam) else Success(db[i])
  }

  lemma {:induction false} SetChannelKeepsUnique(db: ChannelDb, name: bytes, cid: uint32)
    requires UniqueNames(db)
    ensures UniqueNames(SetChannel(db, name, cid))
  {
    var r := SetChannel(db, name, cid);
    if Find(db, name).None? {
      Field16Key(name);
      forall i, j | 0 <= i < j < |r|
        ensures Key16(r[i].name) != Key16(r[j].name)
      {
        if j == |db| {
          assert !Matches(db[i], name);
        }
      }
    }
  }

  /** After `set_channel(name, cid)`, `get_channel(name)` yields `cid`. */
  lemma {:induction false} SetThenGet(db: ChannelDb, name: bytes, cid: uint32)
    ensures GetChannel(SetChannel(db, name, cid), name) == Success(cid)
  {
    var r := SetChannel(db, name, cid);
    match Find(db, name)
    case Some(k) =>
      assert Find(r, name) == Some(k) by {
        assert Matches(r[k], name);
        forall j | 0 <= j < k ensures !Matches(r[j], name) {
          assert r[j] == db[j];
        }
      }
    case None =>
      Field16Key(name);
      assert Matches(r[|db|], name);
      forall j | 0 <= j < |db| ensures !Matches(r[j], name) {
        assert r[j] == db[j];
      }
      assert Find(r, name) == Some(|db|);
  }

  /** After `del_channel(name)` on a directory with unique names, the name is gone. */
  lemma {:induction false} DelThenGet(db: ChannelDb, name: bytes)
    requires UniqueNames(db)
    ensures GetChannel(DelChannel(db, name).1, name) == Failure(Others)
  {
    var r := DelChannel(db, name).1;
    match Find(db, name)
    case None =>
    case Some(k) =>
      forall j | 0 <= j < |r| ensures !Matches(r[j], name) {
        if j < k {
          assert r[j] == db[j];
        } else {
          assert r[j] == db[j + 1];
          assert Key16(db[k].name) != Key16(db[j + 1].name);
        }
      }
  }

  /** A channel operation as a client issues it. */
  datatype ChanOp = Set(name: bytes, cid: uint32) | Del(name: bytes)

  function Apply(db: ChannelDb, op: ChanOp): ChannelDb {
    match op
    case Set(n, c) => SetChannel(db, n, c)
    case Del(n) => DelChannel(db, n).1
  }

  /** The directory after a history of operations, starting empty. */
  function Run(ops: seq<ChanOp>): ChannelDb
    decreases |ops|
  {
    if |ops| == 0 then [] else Apply(Run(ops[..|ops| - 1]), ops[|ops| - 1])
  }

  /** Reference semantics of the same history: a map from name to id. */
  function RefMap(ops: seq<ChanOp>): map<bytes, uint32>
    decreases |ops|
  {
    if |ops| == 0 then map[]
    else
      var m := RefMap(ops[..|ops| - 1]);
      match ops[|ops| - 1]
      case Set(n, c) => m[Key16(n) := c]
      case Del(n) => m - {Key16(n)}
  }

  /** What enumerating positions 0..count-1 with `get_channel_by_id` yields, keyed by name. */
  function Enumerated(db: ChannelDb): map<bytes, uint32>
    decreases |db|
  {
    if |db| == 0 then map[]
    else Enumerated(db[..|db| - 1])[Key16(db[|db| - 1].name) := db[|db| - 1].id]
  }

  /** The names present in a directory. */
  function Names(db: ChannelDb): set<bytes> {
    set j | 0 <= j < |db| :: Key16(db[j].name)
  }

  lemma {:induction false} EnumeratedDomain(db: ChannelDb)
    ensures Enumerated(db).Keys == Names(db)
    decreases |db|
  {
    if |db| > 0 {
      var p := db[..|db| - 1];
      EnumeratedDomain(p);
      assert Names(db) == Names(p) + {Key16(db[|db| - 1].name)} by {
        forall key | key in Names(db) ensures key in Names(p) + {Key16(db[|db| - 1].name)} {
          var j :| 0 <= j < |db| && Key16(db[j].name) == key;
          if j < |p| {
            assert Key16(p[j].name) == key;
          }
        }
        forall key | key in Names(p) ensures key in Names(db) {
          var j :| 0 <= j < |p| && Key16(p[j].name) == key;
          assert Key16(db[j].name) == key;
        }
      }
    }
  }

  lemma {:induction false} EnumeratedAt(db: ChannelDb, i: nat)
    requires UniqueNames(db) && i < |db|
    ensures Key16(db[i].name) in Enumerated(db) && Enumerated(db)[Key16(db[i].name)] == db[i].id
    decreases |db|
  {
    if i < |db| - 1 {
      var p := db[..|db| - 1];
      assert p[i] == db[i];
      EnumeratedAt(p, i);
    }
  }

  lemma SameMap(a: map<bytes, uint32>, b: map<bytes, uint32>)
    requires a.Keys == b.Keys && forall key :: key in a ==> a[key] == b[key]
    ensures a == b
  {
  }

  lemma SetNames(db: ChannelDb, n: bytes, c: uint32, k: nat)
    requires Find(db, n) == Some(k)
    ensures Names(SetChannel(db, n, c)) == Names(db)
    ensures Key16(n) in Names(db)
  {
    var r := SetChannel(db, n, c);
    forall key | key in Names(r) ensures key in Names(db) {
      var j :| 0 <= j < |r| && Key16(r[j].name) == key;
      assert Key16(db[j].name) == key;
    }
    forall key | key in Names(db) ensures key in Names(r) {
      var j :| 0 <= j < |db| && Key16(db[j].name) == key;
      assert Key16(r[j].name) == key;
    }
    assert Key16(db[k].name) == Key16(n);
  }

  lemma SetValues(db: ChannelDb, n: bytes, c: uint32, k: nat)
    requires UniqueNames(db) && UniqueNames(SetChannel(db, n, c)) && Find(db, n) == Some(k)
    ensures forall key :: key in Enumerated(SetChannel(db, n, c)) && key in Enumerated(db)[Key16(n) := c] ==>
      Enumerated(SetChannel(db, n, c))[key] == Enumerated(db)[Key16(n) := c][key]
  {
    var r := SetChannel(db, n, c);
    EnumeratedDomain(r);
    forall key | key in Enumerated(r) && key in Enumerated(db)[Key16(n) := c]
      ensures Enumerated(r)[key] == Enumerated(db)[Key16(n) := c][key]
    {
      var j :| 0 <= j < |r| && Key16(r[j].name) == key;
      EnumeratedAt(r, j);
      assert Key16(db[j].name) == key;
      if j != k {
        EnumeratedAt(db, j);
      }
    }
  }

  lemma {:induction false} EnumeratedSet(db: ChannelDb, n: bytes, c: uint32)
    requires UniqueNames(db)
    ensures Enumerated(SetChannel(db, n, c)) == Enumerated(db)[Key16(n) := c]
  {
    var r := SetChannel(db, n, c);
    match Find(db, n)
    case None =>
      Field16Key(n);
      assert r[..|r| - 1] == db;
    case Some(k) =>
      SetChannelKeepsUnique(db, n, c);
      EnumeratedDomain(db);
      EnumeratedDomain(r);
      SetNames(db, n, c, k);
      SetValues(db, n, c, k);
      SameMap(Enumerated(r), Enumerated(db)[Key16(n) := c]);
  }

  lemma DelChannelKeepsUnique(db: ChannelDb, n: bytes)
    requires UniqueNames(db)
    ensures UniqueNames(DelChannel(db, n).1)
  {
    var r := DelChannel(db, n).1;
    if Find(db, n).Some? {
      var k := Find(db, n).value;
      forall i, j | 0 <= i < j < |r| ensures Key16(r[i].name) != Key16(r[j].name) {
        DelShift(db, n, k, i);
        DelShift(db, n, k, j);
      }
    }
  }

  /** Entry `j` of the directory after deleting entry `k`. */
  lemma DelShift(db: ChannelDb, n: bytes, k: nat, j: nat)
    requires Find(db, n) == Some(k) && j < |db| - 1
    ensures |DelChannel(db, n).1| == |db| - 1
    ensures DelChannel(db, n).1[j] == db[if j < k then j else j + 1]
  {
  }

  lemma DelNamesSub(db: ChannelDb, n: bytes, k: nat, key: bytes)
    requires Find(db, n) == Some(k) && UniqueNames(db) && key in Names(DelChannel(db, n).1)
    ensures key in Names(db) && key != Key16(n)
  {
    var r := DelChannel(db, n).1;
    var j :| 0 <= j < |r| && Key16(r[j].name) == key;
    DelShift(db, n, k, j);
    var j' := if j < k then j else j + 1;
    assert Key16(db[j'].name) == key;
  }

  lemma DelNamesSup(db: ChannelDb, n: bytes, k: nat, key: bytes)
    requires Find(db, n) == Some(k) && key in Names(db) && key != Key16(n)
    ensures key in Names(DelChannel(db, n).1)
  {
    var j :| 0 <= j < |db| && Key16(db[j].name) == key;
    assert j != k;
    var i := if j < k then j else j - 1;
    DelShift(db, n, k, i);
    assert Key16(DelChannel(db, n).1[i].name) == key;
  }

  lemma DelNames(db: ChannelDb, n: bytes, k: nat)
    requires Find(db, n) == Some(k) && UniqueNames(db)
    ensures Names(DelChannel(db, n).1) == Names(db) - {Key16(n)}
  {
    forall key | key in Names(DelChannel(db, n).1) ensures key in Names(db) - {Key16(n)} {
      DelNamesSub(db, n, k, key);
    }
    forall key | key in Names(db) - {Key16(n)} ensures key in Names(DelChannel(db, n).1) {
      DelNamesSup(db, n, k, key);
    }
  }

  lemma DelValues(db: ChannelDb, n: bytes, k: nat)
    requires Find(db, n) == Some(k) && UniqueNames(db) && UniqueNames(DelChannel(db, n).1)
    ensures forall key :: key in Enumerated(DelChannel(db, n).1) && key in Enumerated(db) ==>
      Enumerated(DelChannel(db, n).1)[key] == Enumerated(db)[key]
  {
    var r := DelChannel(db, n).1;
    EnumeratedDomain(r);
    forall key | key in Enumerated(r) && key in Enumerated(db)
      ensures Enumerated(r)[key] == Enumerated(db)[key]
    {
      var j :| 0 <= j < |r| && Key16(r[j].name) == key;
      DelShift(db, n, k, j);
      var j' := if j < k then j else j + 1;
      EnumeratedAt(r, j);
      EnumeratedAt(db, j');
    }
  }

  lemma {:induction false} EnumeratedDel(db: ChannelDb, n: bytes)
    requires UniqueNames(db)
    ensures Enumerated(DelChannel(db, n).1) == Enumerated(db) - {Key16(n)}
  {
    var r := DelChannel(db, n).1;
    EnumeratedDomain(db);
    match Find(db, n)
    case None =>
      assert Key16(n) !in Names(db);
    case Some(k) =>
      DelChannelKeepsUnique(db, n);
      EnumeratedDomain(r);
      DelNames(db, n, k);
      DelValues(db, n, k);
      SameMap(Enumerated(r), Enumerated(db) - {Key16(n)});
  }

  /**
   * Whatever the order of insertions and deletions, the directory keeps
   * unique names, and enumerating it by position yields exactly the
   * name-to-id map the history describes.
   */
  lemma {:induction false} RunMatchesReference(ops: seq<ChanOp>)
    ensures UniqueNames(Run(ops))
    ensures Enumerated(Run(ops)) == RefMap(ops)
    decreases |ops|
  {
    if |ops| > 0 {
      var p := ops[..|ops| - 1];
      RunMatchesReference(p);
      match ops[|ops| - 1]
      case Set(n, c) =>
        SetChannelKeepsUnique(Run(p), n, c);
        EnumeratedSet(Run(p), n, c);
      case Del(n) =>
        DelChannelKeepsUnique(Run(p), n);
        EnumeratedDel(Run(p), n);
    }
  }

  /**
   * With unique names, enumerating positions 0..count-1 reports every
   * entry, and the count equals the number of distinct names.
   */
  lemma {:induction false} EnumerationNoDuplicates(db: ChannelDb)
    requires UniqueNames(db)
    ensures |Enumerated(db)| == GetChannelNum(db)
    ensures forall i :: 0 <= i < GetChannelNum(db) ==>
      GetChannelById(db, i).Success? && Key16(GetChannelById(db, i).value.name) in Enumerated(db)
    decreases |db|
  {
    if |db| > 0 {
      var p := db[..|db| - 1];
      EnumerationNoDuplicates(p);
      EnumeratedDomain(p);
      var last := Key16(db[|db| - 1].name);
      assert last !in Names(p) by {
        forall j | 0 <= j < |p| ensures Key16(p[j].name) != last {
          assert p[j] == db[j];
        }
      }
      forall i | 0 <= i < |db| ensures Key16(db[i].name) in Enumerated(db) {
        EnumeratedAt(db, i);
      }
    }
  }
}

=== FILE: device_types.dfy ===
/**
 * The records of the device registry: devices with their status cache,
 * timer, delay and linkage slot tables and IR link; drivers; the registry's
 * control block; and the requests and notifications the registry emits.
 *
 * Field widths follow the wire layout where the wire defines them; the
 * structure declarations themselves live in a header this model does not
 * contain.
 */
module DeviceTypes {
  import opened Bytes
  import opened HubTypes
  import Channel

  /** One (status id, value) pair of a status message. */
  datatype Pair = Pair(id: nat, val: int)

  /** A status message (`HSB_STATUS_T`): the device and its pairs in order. */
  datatype Status = Status(devid: uint32, pairs: seq<Pair>)

  /** An action request (`HSB_ACTION_T`). */
  datatype ActionReq = ActionReq(devid: uint32, id: int, param1: int, param2: int)

  /**
   * A device's cached status: the slot values and the slot count. Slots
   * never written read as 0, since devices are allocated zero-filled.
   */
  datatype StatusCache = StatusCache(vals: map<nat, int>, num: nat)

  function CacheVal(c: StatusCache, i: nat): int {
    if i in c.vals then c.vals[i] else 0
  }

  /** A cache holding `vals[0..]` with count `|vals|`, as drivers hand it over. */
  function CacheOf(vals: seq<int>): (r: StatusCache)
    ensures r.num == |vals| && forall i :: 0 <= i < |vals| ==> CacheVal(r, i) == vals[i]
  {
    StatusCache(map i | 0 <= i < |vals| :: vals[i], |vals|)
  }

  /** 8-byte hardware address. */
  type Mac = s: bytes | |s| == 8 witness [0, 0, 0, 0, 0, 0, 0, 0]

  datatype Info = Info(cls: int, iface: int, devType: int, mac: Mac)

  /** User configuration: 16-byte name and location fields. */
  datatype Config = Config(name: bytes, location: bytes)

  /** Which of the per-device operations the driver supplies. */
  datatype Ops = Ops(getStatus: bool, setStatus: bool, setAction: bool)

  datatype Timer = Timer(
    id: uint16, workMode: uint8, flag: uint8,
    hour: uint8, min: uint8, sec: uint8, wday: uint8,
    year: int, mon: int, mday: uint8,
    actId: uint16, actParam1: uint16, actParam2: uint32)

  /** A timer slot: the rule and its run state. */
  datatype TimerSlot = TimerSlot(t: Timer, active: bool, expired: bool)

  datatype Delay = Delay(
    id: uint16, workMode: uint8, flag: uint8,
    evtId: uint16, evtParam1: uint16, evtParam2: uint32,
    actId: uint16, actParam1: uint16, actParam2: uint32, delaySec: uint32)

  /** A delay slot: the rule and its run state. */
  datatype DelaySlot = DelaySlot(d: Delay, active: bool, started: bool, startTm: int)

  datatype Linkage = Linkage(
    id: uint16, workMode: uint8, flag: uint8,
    evtId: uint16, evtParam1: uint16, evtParam2: uint32,
    actDevid: uint32, actId: uint16, actParam1: uint16, actParam2: uint32)

  /** A linkage slot: the rule and whether it is in use. */
  datatype LinkSlot = LinkSlot(l: Linkage, active: bool)

  const ZeroTimer := Timer(0, 0, 0, 0, 0, 0, 0, 0, 0, 0, 0, 0, 0)
  const ZeroDelay := Delay(0, 0, 0, 0, 0, 0, 0, 0, 0, 0)
  const ZeroLinkage := Linkage(0, 0, 0, 0, 0, 0, 0, 0, 0, 0)

  /**
   * A device (`HSB_DEV_T`). `irDev` is the id of the IR blaster this device
   * sends through (a reference held by the C struct); `online` is its state;
   * `chans` is its channel directory when it supports channels.
   */
  datatype Device = Device(
    id: uint32, drvid: uint32, info: Info, config: Config,
    status: StatusCache, online: bool, irDev: Option<uint32>, workMode: nat,
    timers: seq<TimerSlot>, delays: seq<DelaySlot>, links: seq<LinkSlot>,
    chans: Option<Channel.ChannelDb>, ops: Ops)

  /** The slot tables have the configured capacities. */
  predicate WellFormed(c: Codes, d: Device) {
    |d.timers| == c.timerNum && |d.delays| == c.delayNum && |d.links| == c.linkNum
  }

  /** Empty slot tables of the configured capacities, as a zero-filled allocation leaves them. */
  function EmptyTimers(c: Codes): seq<TimerSlot> { seq(c.timerNum, _ => TimerSlot(ZeroTimer, false, false)) }
  function EmptyDelays(c: Codes): seq<DelaySlot> { seq(c.delayNum, _ => DelaySlot(ZeroDelay, false, false, 0)) }
  function EmptyLinks(c: Codes): seq<LinkSlot> { seq(c.linkNum, _ => LinkSlot(ZeroLinkage, false)) }

  /** A driver: its id and which driver-level operations it supplies. */
  datatype Driver = Driver(id: uint32, hasProbe: bool, hasAddDev: bool, hasDelDev: bool, hasRecoverDev: bool)

  /**
   * The registry's control block: the online and offline device lists,
   * the driver list, the next device id, the box work mode and the
   * seconds-of-day seen by the last timer visit.
   */
  datatype Hub = Hub(
    online: seq<Device>, offline: seq<Device>, drivers: seq<Driver>,
    nextId: uint32, workMode: nat, secToday: int)

  /** A request queued for the dispatcher (`HSB_ACT_T`); `reply` says whether a client waits. */
  datatype Task =
    | ProbeTask(drvid: uint32, reply: bool)
    | SetStatusTask(st: Status, reply: bool)
    | GetStatusTask(devid: uint32, reply: bool)
    | DoActionTask(act: ActionReq, reply: bool)

  /** A notification for the clients (`HSB_RESP_T`). */
  datatype Resp =
    | EventResp(devid: uint32, evt: int, param1: int, param2: int)
    | ResultResp(devid: uint32, cmd: Cmd, ret: Err)
    | StatusResp(st: Status)
    | StatusUpdateResp(st: Status)

  /** `HSB_SCENE_CONDITION_T`: compare status slot `id` of device `devid` with `val` using `expr`. */
  datatype Condition = Condition(devid: uint32, id: uint32, val: uint32, expr: uint32)

  /** `HSB_SCENE_ACT_T`. */
  datatype Act = Act(flag: uint32, devid: uint32, id: uint32, param1: uint32, param2: uint32)

  /** `HSB_SCENE_ACTION_T`. */
  datatype Action = Action(hasCond: bool, cond: Condition, delay: uint32, acts: seq<Act>)

  /** `HSB_SCENE_T`: the name field and the actions. */
  datatype SceneRec = SceneRec(name: bytes, actions: seq<Action>)

  /**
   * Everything an operation emits, in order: a request queued for the
   * dispatcher, a notification for every client, a response for the client
   * that asked, a request to save the configuration, or a copy of a scene
   * handed to the thread pool that runs scenes.
   */
  datatype Out = Enqueue(task: Task) | Notify(resp: Resp) | Answer(resp: Resp) | SaveConfig | RunScene(scene: SceneRec)

  /** What a rule (timer, delay or linkage) requests when it fires: an action if flag bit 0 is set, else a one-pair status. */
  function RuleRequest(flag: uint8, devid: uint32, actId: nat, p1: int, p2: int): (r: Out)
    ensures r.Enqueue? && !r.task.reply
    ensures Bit(flag, 0) <==> r.task.DoActionTask?
    ensures r.task.DoActionTask? ==> r.task.act == ActionReq(devid, actId, p1, p2)
    ensures r.task.SetStatusTask? ==> r.task.st == Status(devid, [Pair(actId, p1)])
  {
    if Bit(flag, 0) then Enqueue(DoActionTask(ActionReq(devid, actId, p1, p2), false))
    else Enqueue(SetStatusTask(Status(devid, [Pair(actId, p1)]), false))
  }

  predicate UniqueIds(ds: seq<Device>) {
    forall i, j :: 0 <= i < j < |ds| ==> ds[i].id != ds[j].id
  }

  /** No id of `a` is an id of `b`. */
  predicate DisjointIds(a: seq<Device>, b: seq<Device>) {
    forall i, j :: 0 <= i < |a| && 0 <= j < |b| ==> a[i].id != b[j].id
  }

  /**
   * The registry invariant: device ids are unique within and across both
   * lists (so no device is ever online and offline at once), every id is
   * below the counter, and list membership agrees with each device's state.
   */
  predicate Valid(h: Hub) {
    && UniqueIds(h.online) && UniqueIds(h.offline) && DisjointIds(h.online, h.offline)
    && (forall i :: 0 <= i < |h.online| ==> h.online[i].id < h.nextId && h.online[i].online)
    && (forall i :: 0 <= i < |h.offline| ==> h.offline[i].id < h.nextId && !h.offline[i].online)
  }
}

=== FILE: dispatch.dfy ===
/**
 * The registry's per-device services: configuration, the channel
 * directory wrappers, status get/set with the box work-mode shortcut,
 * actions, probing, driver-level add and delete, and the dispatcher that
 * serves queued requests and answers the client that asked.
 *
 * A driver's answer to a call is a parameter: what it returns and, for
 * `set_status`, the device's cache after it ran and what it emitted.
 */
module Dispatch {
  import opened Bytes
  import opened HubTypes
  import opened DeviceTypes
  import opened Registry
  import Channel
  import TimerStep

  /* ---------------- configuration ---------------- */

  /**
   * `set_dev_cfg`: `BAD_PARAM` unless the device is online; otherwise its
   * configuration is replaced, it is relinked, its room follows it if it is
   * a blaster, and the configuration is saved.
   */
  function SetDevCfg(c: Codes, h: Hub, devid: uint32, cfg: Config): (r: (Err, Hub, seq<Out>))
    ensures FindById(h.online, devid).None? ==> r == (BadParam, h, [])
    ensures FindById(h.online, devid).Some? ==>
      var k := FindById(h.online, devid).value;
      && r.0 == Ok && r.2 == [SaveConfig]
      && |r.1.online| == |h.online| && r.1.offline == h.offline
      && r.1.online[k].config == cfg
      && (forall i :: 0 <= i < |h.online| && i != k ==> SameButLink(r.1.online[i], h.online[i]))
  {
    match FindById(h.online, devid)
    case None => (BadParam, h, [])
    case Some(k) =>
      var ds := h.online[k := h.online[k].(config := cfg)];
      var linked := LinkDevice(c, ds, k);
      (Ok, h.(online := UpdateLink(c, linked, linked[k])), [SaveConfig])
  }

  /* ---------------- channel directory wrappers ---------------- */

  /** The channel directory of an online device: `BAD_PARAM` when offline or unknown, `NOT_SUPPORTED` without one. */
  function DevChannels(h: Hub, devid: uint32): (r: Result<(nat, Channel.ChannelDb)>)
    ensures FindById(h.online, devid).None? ==> r == Failure(BadParam)
    ensures FindById(h.online, devid).Some? ==>
      var k := FindById(h.online, devid).value;
      (h.online[k].chans.None? ==> r == Failure(NotSupported)) &&
      (h.online[k].chans.Some? ==> r == Success((k, h.online[k].chans.value)))
  {
    match FindById(h.online, devid)
    case None => Failure(BadParam)
    case Some(k) =>
      match h.online[k].chans
      case None => Failure(NotSupported)
      case Some(db) => Success((k, db))
  }

  function WithChannels(h: Hub, k: nat, db: Channel.ChannelDb): (r: Hub)
    requires k < |h.online|
    ensures |r.online| == |h.online| && r.online[k].chans == Some(db)
  {
    h.(online := h.online[k := h.online[k].(chans := Some(db))])
  }

  /** `set_dev_channel`: the directory's `set_channel`, then a save. */
  function SetDevChannel(h: Hub, devid: uint32, name: bytes, cid: uint32): (r: (Err, Hub, seq<Out>))
    ensures DevChannels(h, devid).Failure? ==> r == (DevChannels(h, devid).error, h, [])
    ensures DevChannels(h, devid).Success? ==>
      var (k, db) := DevChannels(h, devid).value;
      r.0 == Ok && r.2 == [SaveConfig] && r.1 == WithChannels(h, k, Channel.SetChannel(db, name, cid))
  {
    match DevChannels(h, devid)
    case Failure(e) => (e, h, [])
    case Success((k, db)) => (Ok, WithChannels(h, k, Channel.SetChannel(db, name, cid)), [SaveConfig])
  }

  /** `del_dev_channel`: the directory's `del_channel`, then a save whatever it returned. */
  function DelDevChannel(h: Hub, devid: uint32, name: bytes): (r: (Err, Hub, seq<Out>))
    ensures DevChannels(h, devid).Failure? ==> r == (DevChannels(h, devid).error, h, [])
    ensures DevChannels(h, devid).Success? ==>
      var (k, db) := DevChannels(h, devid).value;
      r.0 == Channel.DelChannel(db, name).0 && r.2 == [SaveConfig]
      && r.1 == WithChannels(h, k, Channel.DelChannel(db, name).1)
  {
    match DevChannels(h, devid)
    case Failure(e) => (e, h, [])
    case Success((k, db)) =>
      var (ret, db') := Channel.DelChannel(db, name);
      (ret, WithChannels(h, k, db'), [SaveConfig])
  }

  /** `get_dev_channel`. */
  function GetDevChannel(h: Hub, devid: uint32, name: bytes): (r: Result<uint32>)
    ensures DevChannels(h, devid).Failure? ==> r == Failure(DevChannels(h, devid).error)
    ensures DevChannels(h, devid).Success? ==> r == Channel.GetChannel(DevChannels(h, devid).value.1, name)
  {
    match DevChannels(h, devid)
    case Failure(e) => Failure(e)
    case Success((_, db)) => Channel.GetChannel(db, name)
  }

  /** `get_dev_channel_num`. */
  function GetDevChannelNum(h: Hub, devid: uint32): (r: Result<nat>)
    ensures DevChannels(h, devid).Failure? ==> r == Failure(DevChannels(h, devid).error)
    ensures DevChannels(h, devid).Success? ==> r == Success(|DevChannels(h, devid).value.1|)
  {
    match DevChannels(h, devid)
    case Failure(e) => Failure(e)
    case Success((_, db)) => Success(Channel.GetChannelNum(db))
  }

  /** `get_dev_channel_by_id`. */
  function GetDevChannelById(h: Hub, devid: uint32, i: int): (r: Result<Channel.Chan>)
    ensures DevChannels(h, devid).Failure? ==> r == Failure(DevChannels(h, devid).error)
    ensures DevChannels(h, devid).Success? ==> r == Channel.GetChannelById(DevChannels(h, devid).value.1, i)
  {
    match DevChannels(h, devid)
    case Failure(e) => Failure(e)
    case Success((_, db)) => Channel.GetChannelById(db, i)
  }

  /** Setting a device's channel and then reading it back yields the id just set. */
  lemma DevChannelSetThenGet(h: Hub, devid: uint32, name: bytes, cid: uint32)
    requires SetDevChannel(h, devid, name, cid).0 == Ok
    ensures GetDevChannel(SetDevChannel(h, devid, name, cid).1, devid, name) == Success(cid)
  {
    var (k, db) := DevChannels(h, devid).value;
    var h' := SetDevChannel(h, devid, name, cid).1;
    assert forall i :: 0 <= i < |h'.online| ==> h'.online[i].id == h.online[i].id;
    assert FindById(h'.online, devid) == Some(k) by {
      assert h'.online[k].id == devid;
    }
    Channel.SetThenGet(db, name, cid);
  }

  /* ---------------- status and work mode ---------------- */

  /** The first pair of a status message; an empty message reads as a zeroed one. */
  function First(st: Status): Pair {
    if |st.pairs| > 0 then st.pairs[0] else Pair(0, 0)
  }

  /**
   * `set_box_work_mode`: `BAD_PARAM` for a mode `HSB_WORK_MODE_VALID`
   * rejects; otherwise the box mode changes and a MODE_CHANGED event for
   * device 0 follows.
   */
  function SetBoxWorkMode(c: Codes, h: Hub, mode: int): (r: (Err, Hub, seq<Out>))
    ensures r.0 == Ok <==> mode >= 0 && mode in c.validModes
    ensures r.0 != Ok ==> r == (BadParam, h, [])
    ensures r.0 == Ok ==> r.1 == h.(workMode := mode) && r.2 == DevEvent(r.1, 0, c.evtModeChanged, mode, 0)
  {
    if mode < 0 || mode !in c.validModes then (BadParam, h, [])
    else
      var h' := h.(workMode := mode);
      (Ok, h', DevEvent(h', 0, c.evtModeChanged, mode, 0))
  }

  /**
   * A mode change keeps the registry invariant, and the tick that follows
   * steps every online device under the new mode: the first with the
   * rollover decision, the others without, as the program sweeps them.
   */
  lemma SetBoxWorkModeTick(c: Codes, h: Hub, mode: int, clk: TimerStep.Clock)
    requires Valid(h)
    ensures Valid(SetBoxWorkMode(c, h, mode).1)
    ensures SetBoxWorkMode(c, h, mode).0 == Ok ==>
      var t := TimerStep.CheckTimerAndDelayAsWritten(SetBoxWorkMode(c, h, mode).1, clk).0;
      && mode >= 0 && t.workMode == mode && |t.online| == |h.online|
      && (|h.online| > 0 ==>
            t.online[0] == TimerStep.DevStepWith(h.online[0], mode, TimerStep.Rollover(h.secToday, clk), false, clk).0)
      && (forall i :: 1 <= i < |h.online| ==> t.online[i] == TimerStep.DevStepWith(h.online[i], mode, false, false, clk).0)
  {
  }

  /** A driver's `set_status` answer: its return, the device's cache after it ran, and what it emitted. */
  datatype DrvSet = DrvSet(ret: Err, cache: StatusCache, outs: seq<Out>)

  /**
   * `set_dev_status`. A message for device 0 whose first id is the work-mode
   * status sets the box mode. Otherwise `ENTRY_NOT_FOUND` when the device is
   * not online, `NOT_SUPPORTED` when its driver has no `set_status`, and else
   * the driver's return; the message's pairs are synced into the cache only
   * when the driver returned OK.
   */
  function SetDevStatus(c: Codes, h: Hub, st: Status, ans: DrvSet): (r: (Err, Hub, seq<Out>))
    ensures st.devid == 0 && First(st).id == c.statusWorkMode ==> r == SetBoxWorkMode(c, h, First(st).val)
    ensures !(st.devid == 0 && First(st).id == c.statusWorkMode) && FindDev(h, st.devid).None? ==>
      r == (EntryNotFound, h, [])
    ensures !(st.devid == 0 && First(st).id == c.statusWorkMode) && FindDev(h, st.devid).Some? ==>
      !FindDev(h, st.devid).value.ops.setStatus ==> r == (NotSupported, h, [])
    ensures !(st.devid == 0 && First(st).id == c.statusWorkMode) && FindDev(h, st.devid).Some? ==>
      FindDev(h, st.devid).value.ops.setStatus ==>
      && r.0 == ans.ret && r.2 == ans.outs
      && r.1 == UpdateOnline(h, st.devid, if ans.ret == Ok then SyncDevStatus(ans.cache, st.pairs) else ans.cache)
  {
    if st.devid == 0 && First(st).id == c.statusWorkMode then SetBoxWorkMode(c, h, First(st).val)
    else match FindDev(h, st.devid)
      case None => (EntryNotFound, h, [])
      case Some(d) =>
        if !d.ops.setStatus then (NotSupported, h, [])
        else
          var cache := if ans.ret == Ok then SyncDevStatus(ans.cache, st.pairs) else ans.cache;
          (ans.ret, UpdateOnline(h, st.devid, cache), ans.outs)
  }

  /**
   * After an accepted `set_dev_status`, every status slot up to 8 that the
   * message named holds the last value the message gave it.
   */
  lemma SetDevStatusSyncs(c: Codes, h: Hub, st: Status, ans: DrvSet, i: nat)
    requires !(st.devid == 0 && First(st).id == c.statusWorkMode)
    requires SetDevStatus(c, h, st, ans).0 == Ok && FindDev(h, st.devid).Some?
    requires i <= MaxSyncId && LastWrite(st.pairs, i).Some?
    ensures FindDev(SetDevStatus(c, h, st, ans).1, st.devid).Some?
    ensures CacheVal(FindDev(SetDevStatus(c, h, st, ans).1, st.devid).value.status, i) == LastWrite(st.pairs, i).value
  {
    var h' := SetDevStatus(c, h, st, ans).1;
    var k := FindById(h.online, st.devid).value;
    assert FindById(h'.online, st.devid) == Some(k) by {
      assert forall j :: 0 <= j < |h'.online| ==> h'.online[j].id == h.online[j].id;
    }
    SyncSemantics(ans.cache, st.pairs, i);
  }

  /** Changing one device's cache keeps the registry invariant. */
  lemma UpdateOnlineValid(h: Hub, devid: uint32, cache: StatusCache)
    requires Valid(h)
    ensures Valid(UpdateOnline(h, devid, cache))
  {
    var h' := UpdateOnline(h, devid, cache);
    assert SameShape(h'.online, h.online);
  }

  lemma SetDevStatusValid(c: Codes, h: Hub, st: Status, ans: DrvSet)
    requires Valid(h)
    ensures Valid(SetDevStatus(c, h, st, ans).1)
  {
    if !(st.devid == 0 && First(st).id == c.statusWorkMode) && FindDev(h, st.devid).Some? {
      UpdateOnlineValid(h, st.devid, if ans.ret == Ok then SyncDevStatus(ans.cache, st.pairs) else ans.cache);
    }
  }

  /** `dev_status_updated`: sync into the device if it is online, then notify STATUS_UPDATE. */
  function DevStatusUpdated(h: Hub, st: Status): (r: (Hub, seq<Out>))
    ensures r.1 == [Notify(StatusUpdateResp(st))]
    ensures FindDev(h, st.devid).None? ==> r.0 == h
    ensures FindDev(h, st.devid).Some? ==> r.0 == UpdateOnline(h, st.devid, SyncDevStatus(FindDev(h, st.devid).value.status, st.pairs))
  {
    match FindDev(h, st.devid)
    case None => (h, [Notify(StatusUpdateResp(st))])
    case Some(d) => (UpdateOnline(h, st.devid, SyncDevStatus(d.status, st.pairs)), [Notify(StatusUpdateResp(st))])
  }

  /**
   * `get_dev_status`: `ENTRY_NOT_FOUND` when not online, `NOT_SUPPORTED`
   * without a driver `get_status`, else the driver's answer.
   */
  function GetDevStatus(h: Hub, devid: uint32, ans: (Err, seq<Pair>)): (r: (Err, Status))
    ensures r.1.devid == devid
    ensures FindDev(h, devid).None? ==> r.0 == EntryNotFound
    ensures FindDev(h, devid).Some? && !FindDev(h, devid).value.ops.getStatus ==> r.0 == NotSupported
    ensures FindDev(h, devid).Some? && FindDev(h, devid).value.ops.getStatus ==> r == (ans.0, Status(devid, ans.1))
  {
    match FindDev(h, devid)
    case None => (EntryNotFound, Status(devid, []))
    case Some(d) => if d.ops.getStatus then (ans.0, Status(devid, ans.1)) else (NotSupported, Status(devid, []))
  }

  /** `set_dev_action`: `ENTRY_NOT_FOUND`, `NOT_SUPPORTED`, or the driver's return. */
  function SetDevAction(h: Hub, act: ActionReq, ans: Err): (r: Err)
    ensures FindDev(h, act.devid).None? ==> r == EntryNotFound
    ensures FindDev(h, act.devid).Some? ==> r == if FindDev(h, act.devid).value.ops.setAction then ans else NotSupported
  {
    match FindDev(h, act.devid)
    case None => EntryNotFound
    case Some(d) => if d.ops.setAction then ans else NotSupported
  }

  /* ---------------- driver-level operations ---------------- */

  /** `probe_dev`: `BAD_PARAM` for an unknown driver, OK for a driver without `probe`. */
  function ProbeDev(h: Hub, drvid: uint32, ans: Err): (r: Err)
    ensures FindDrv(h.drivers, drvid).None? ==> r == BadParam
    ensures FindDrv(h.drivers, drvid).Some? ==>
      r == if h.drivers[FindDrv(h.drivers, drvid).value].hasProbe then ans else Ok
  {
    match FindDrv(h.drivers, drvid)
    case None => BadParam
    case Some(k) => if h.drivers[k].hasProbe then ans else Ok
  }

  /** `add_dev`: `BAD_PARAM` for an unknown driver, `NOT_SUPPORTED` without `add_dev`. */
  function AddDev(h: Hub, drvid: uint32, ans: Err): (r: Err)
    ensures FindDrv(h.drivers, drvid).None? ==> r == BadParam
    ensures FindDrv(h.drivers, drvid).Some? ==>
      r == if h.drivers[FindDrv(h.drivers, drvid).value].hasAddDev then ans else NotSupported
  {
    match FindDrv(h.drivers, drvid)
    case None => BadParam
    case Some(k) => if h.drivers[k].hasAddDev then ans else NotSupported
  }

  /**
   * `del_dev`: `BAD_PARAM` unless the device is online with a registered
   * driver; `NOT_SUPPORTED` without `del_dev`.
   */
  function DelDev(h: Hub, devid: uint32, ans: Err): (r: Err)
    ensures FindDev(h, devid).None? ==> r == BadParam
    ensures FindDev(h, devid).Some? && FindDrv(h.drivers, FindDev(h, devid).value.drvid).None? ==> r == BadParam
    ensures FindDev(h, devid).Some? && FindDrv(h.drivers, FindDev(h, devid).value.drvid).Some? ==>
      r == if h.drivers[FindDrv(h.drivers, FindDev(h, devid).value.drvid).value].hasDelDev then ans else NotSupported
  {
    match FindDev(h, devid)
    case None => BadParam
    case Some(d) =>
      match FindDrv(h.drivers, d.drvid)
      case None => BadParam
      case Some(k) => if h.drivers[k].hasDelDev then ans else NotSupported
  }

  /* ---------------- the dispatcher ---------------- */

  /** The drivers' answers to whichever call a request makes. */
  datatype DriverAnswers = DriverAnswers(probe: Err, setStatus: DrvSet, getStatus: (Err, seq<Pair>), setAction: Err)

  /** A response for the asking client when there is one, otherwise nothing. */
  function ReplyIf(reply: bool, resp: Resp): (r: seq<Out>)
    ensures reply <==> r == [Answer(resp)]
    ensures !reply <==> r == []
  {
    if reply then [Answer(resp)] else []
  }

  /**
   * `_process_dev_act`. Probe, set-status and action requests answer their
   * client with a RESULT only when a client waits. A get-status request
   * always responds: RESULT on failure, STATUS on success, to the client if
   * one waits and to everyone otherwise.
   */
  function ProcessDevAct(c: Codes, h: Hub, t: Task, ans: DriverAnswers): (r: (Hub, seq<Out>))
  {
    match t
    case ProbeTask(drvid, reply) =>
      (h, ReplyIf(reply, ResultResp(0, Cmd.ProbeDev, ProbeDev(h, drvid, ans.probe))))
    case SetStatusTask(st, reply) =>
      var (ret, h', outs) := SetDevStatus(c, h, st, ans.setStatus);
      (h', outs + ReplyIf(reply, ResultResp(st.devid, Cmd.SetStatus, ret)))
    case GetStatusTask(devid, reply) =>
      var (ret, st) := GetDevStatus(h, devid, ans.getStatus);
      var resp := if ret != Ok then ResultResp(devid, Cmd.GetStatus, ret) else StatusResp(st);
      (h, [if reply then Answer(resp) else Notify(resp)])
    case DoActionTask(act, reply) =>
      (h, ReplyIf(reply, ResultResp(act.devid, Cmd.DoAction, SetDevAction(h, act, ans.setAction))))
  }

  /** The client that asked is answered exactly when it waits, with the call's result. */
  lemma ProcessDevActAnswers(c: Codes, h: Hub, t: Task, ans: DriverAnswers)
    ensures var outs := ProcessDevAct(c, h, t, ans).1;
      && (t.ProbeTask? ==> outs == (if t.reply then [Answer(ResultResp(0, Cmd.ProbeDev, ProbeDev(h, t.drvid, ans.probe)))] else []))
      && (t.DoActionTask? ==> outs == (if t.reply then [Answer(ResultResp(t.act.devid, Cmd.DoAction, SetDevAction(h, t.act, ans.setAction)))] else []))
      && (t.SetStatusTask? && t.reply ==>
            |outs| >= 1 && outs[|outs| - 1] == Answer(ResultResp(t.st.devid, Cmd.SetStatus, SetDevStatus(c, h, t.st, ans.setStatus).0)))
      && (t.SetStatusTask? && !t.reply ==> outs == SetDevStatus(c, h, t.st, ans.setStatus).2)
      && (t.GetStatusTask? ==> |outs| == 1 && (outs[0].Answer? <==> t.reply))
      && (t.GetStatusTask? && GetDevStatus(h, t.devid, ans.getStatus).0 == Ok ==>
            outs[0].resp == StatusResp(Status(t.devid, ans.getStatus.1)))
  {
  }

  /** Serving a request keeps the registry invariant. */
  lemma ProcessDevActValid(c: Codes, h: Hub, t: Task, ans: DriverAnswers)
    requires Valid(h)
    ensures Valid(ProcessDevAct(c, h, t, ans).0)
  {
    if t.SetStatusTask? {
      SetDevStatusValid(c, h, t.st, ans.setStatus);
    }
  }
}

=== FILE: driver_ir.dfy ===
/**
 * The infrared driver: a CC9201 set-top box and a Gree air conditioner,
 * both driven through the infrared blaster a device is linked to. Each
 * `set_status` is modelled as the answer it hands back to `set_dev_status`
 * (a `DrvSet`) together with the remote-control actions it sent to the
 * blaster; what the blaster's own driver answers is the parameter `blast`.
 */
module DriverIr {
  import opened Bytes
  import opened HubTypes
  import opened DeviceTypes
  import opened Registry
  import opened Dispatch

  /* ---------------- the blaster ---------------- */

  /** The blaster a device is linked to, when the link names an online device. */
  function IrDev(h: Hub, d: Device): (r: Option<Device>)
    ensures r.Some? ==> d.irDev.Some? && r.value.id == d.irDev.value && r.value in h.online
  {
    if d.irDev.None? then None
    else
      var r := FindDev(h, d.irDev.value);
      if r.Some? then
        FindDevIn(h, d.irDev.value);
        r
      else None
  }

  lemma FindDevIn(h: Hub, id: uint32)
    requires FindDev(h, id).Some?
    ensures FindDev(h, id).value.id == id && FindDev(h, id).value in h.online
  {
  }

  /**
   * `set_action` on the blaster: `NOT_SUPPORTED` (and nothing sent) when its
   * driver has no `set_action`, otherwise the blaster's answer.
   */
  function Send(ir: Device, req: ActionReq, blast: Err): (r: (Err, seq<ActionReq>))
    ensures r.1 == [] || r.1 == [req]
    ensures r.1 == [req] <==> ir.ops.setAction
    ensures r.0 == if ir.ops.setAction then blast else NotSupported
  {
    if ir.ops.setAction then (blast, [req]) else (NotSupported, [])
  }

  /* ---------------- CC9201 ---------------- */

  /** `HSB_TV_ACTION_LAST`, the size of the key map. */
  const TvActionLast: nat := 20

  /** `HSB_TV_ACTION_KEY_0`: the digit keys sit at the end of the key map. */
  const TvKey0: nat := 10

  /** `cc9201_key_map`: the code the box expects for each TV action. */
  const KeyMap: seq<uint8> := [
    0x4C, 0x48, 0x49, 0x43, 0x42, 0x46, 0x47, 0x44, 0x45, 0x4D,
    0x30, 0x31, 0x32, 0x33, 0x34, 0x35, 0x36, 0x37, 0x38, 0x39]

  /** The digit keys carry the ASCII digits, in order. */
  lemma DigitKeys(d: nat)
    requires d < 10
    ensures TvKey0 + d < TvActionLast == |KeyMap|
    ensures KeyMap[TvKey0 + d] == 0x30 + d
  {
  }

  /** The remote-control action for one key of the CC9201 protocol. */
  function KeyReq(c: Codes, ir: Device, action: nat): ActionReq
    requires action < TvActionLast
  {
    ActionReq(ir.id, c.actRemoteControl, c.irProtoCc9201, KeyMap[action])
  }

  /** `cc9201_key_press`: `BAD_PARAM` without a blaster or for an action past the map; otherwise one key sent. */
  function KeyPress(c: Codes, ir: Option<Device>, action: nat, blast: Err): (r: (Err, seq<ActionReq>))
    ensures ir.None? || action >= TvActionLast ==> r == (BadParam, [])
    ensures ir.Some? && action < TvActionLast ==>
      r == Send(ir.value, ActionReq(ir.value.id, c.actRemoteControl, c.irProtoCc9201, KeyMap[action]), blast)
  {
    if ir.None? || action >= TvActionLast then (BadParam, [])
    else Send(ir.value, KeyReq(c, ir.value, action), blast)
  }

  /** The three decimal digits the box is sent for a channel: hundreds, tens, units. */
  function ChannelDigits(ch: nat): (r: seq<nat>)
    ensures |r| == 3 && forall i :: 0 <= i < 3 ==> r[i] < 10
  {
    [(ch / 100) % 10, (ch / 10) % 10, ch % 10]
  }

  /** The keys for a channel below 1000 spell it out: reading the sent codes as ASCII digits gives the channel back. */
  lemma ChannelDigitsSpell(ch: nat)
    requires ch < 1000
    ensures var k := ChannelDigits(ch);
      100 * (KeyMap[TvKey0 + k[0]] as int - 0x30) + 10 * (KeyMap[TvKey0 + k[1]] as int - 0x30)
      + (KeyMap[TvKey0 + k[2]] as int - 0x30) == ch
  {
    var k := ChannelDigits(ch);
    var q := ch / 10;
    assert ch == 10 * q + k[2];
    assert ch / 100 == q / 10 && q == 10 * (q / 10) + k[1];
    assert k[0] == q / 10;
    DigitKeys(k[0]);
    DigitKeys(k[1]);
    DigitKeys(k[2]);
  }

  /**
   * `cc9201_set_status`. `OTHERS` for a device that is not online or has no
   * blaster. Only the first pair is looked at: for the channel status the
   * three digit keys are pressed (their results ignored), the channel is
   * cached and the whole request synced and announced; any other id is
   * accepted with no effect.
   */
  function Cc9201SetStatus(c: Codes, h: Hub, st: Status, blast: Err): (r: (DrvSet, seq<ActionReq>))
    ensures FindDev(h, st.devid).None? ==> r.0.ret == Others && r.1 == []
    ensures FindDev(h, st.devid).Some? ==>
      && (IrDev(h, FindDev(h, st.devid).value).None? ==> r.0.ret == Others && r.1 == [])
      && (IrDev(h, FindDev(h, st.devid).value).Some? ==> r.0.ret == Ok)
    ensures First(st).id != c.tvStatusChannel ==> r.1 == [] && r.0.outs == []
    ensures r.1 != [] ==>
      && First(st).id == c.tvStatusChannel && |r.1| == 3
      && forall i :: 0 <= i < 3 ==> r.1[i].param2 == 0x30 + ChannelDigits(To32(First(st).val))[i]
    ensures FindDev(h, st.devid).Some? && IrDev(h, FindDev(h, st.devid).value).Some? && First(st).id == c.tvStatusChannel ==>
      && r.0.outs == [Notify(StatusUpdateResp(st))]
      && (IrDev(h, FindDev(h, st.devid).value).value.ops.setAction <==> r.1 != [])
      && (st.pairs == [Pair(c.tvStatusChannel, To32(First(st).val))] ==>
            CacheVal(r.0.cache, c.tvStatusChannel) == To32(First(st).val))
  {
    match FindDev(h, st.devid)
    case None => (DrvSet(Others, StatusCache(map[], 0), []), [])
    case Some(d) =>
      var ir := IrDev(h, d);
      if ir.None? then (DrvSet(Others, d.status, []), [])
      else if First(st).id != c.tvStatusChannel then (DrvSet(Ok, d.status, []), [])
      else
        var ch := To32(First(st).val);
        var k := ChannelDigits(ch);
        var sent := KeyPress(c, ir, TvKey0 + k[0], blast).1 + KeyPress(c, ir, TvKey0 + k[1], blast).1
                    + KeyPress(c, ir, TvKey0 + k[2], blast).1;
        var cache := d.status.(vals := d.status.vals[c.tvStatusChannel := ch]);
        DigitKeys(k[0]);
        DigitKeys(k[1]);
        DigitKeys(k[2]);
        if st.pairs == [Pair(c.tvStatusChannel, ch)] then
          SyncKeeps(cache, st.pairs, c.tvStatusChannel, ch);
          (DrvSet(Ok, SyncDevStatus(cache, st.pairs), [Notify(StatusUpdateResp(st))]), sent)
        else
          (DrvSet(Ok, SyncDevStatus(cache, st.pairs), [Notify(StatusUpdateResp(st))]), sent)
  }

  /**
   * A channel request to a linked box whose blaster takes actions sends the
   * channel's three digit keys, in order, and is accepted.
   */
  lemma Cc9201SendsDigits(c: Codes, h: Hub, st: Status, blast: Err)
    requires FindDev(h, st.devid).Some?
    requires IrDev(h, FindDev(h, st.devid).value).Some?
    requires IrDev(h, FindDev(h, st.devid).value).value.ops.setAction
    requires First(st).id == c.tvStatusChannel
    ensures var ir := IrDev(h, FindDev(h, st.devid).value).value;
      var k := ChannelDigits(To32(First(st).val));
      var r := Cc9201SetStatus(c, h, st, blast);
      && r.0.ret == Ok
      && r.1 == [KeyReq(c, ir, TvKey0 + k[0]), KeyReq(c, ir, TvKey0 + k[1]), KeyReq(c, ir, TvKey0 + k[2])]
      && (forall i :: 0 <= i < 3 ==> r.1[i].param2 == 0x30 + k[i] && r.1[i].devid == ir.id)
  {
    var k := ChannelDigits(To32(First(st).val));
    DigitKeys(k[0]);
    DigitKeys(k[1]);
    DigitKeys(k[2]);
  }

  /**
   * `cc9201_get_status`: `OTHERS` for a device that is not online or an id
   * at or past the TV status count; otherwise the one cached value asked for.
   */
  function Cc9201GetStatus(c: Codes, h: Hub, st: Status): (r: (Err, seq<Pair>))
    ensures FindDev(h, st.devid).None? || First(st).id >= c.tvStatusLast ==> r.0 == Others
    ensures r.0 == Ok ==> |r.1| == 1 && r.1[0].id == First(st).id
  {
    match FindDev(h, st.devid)
    case None => (Others, [])
    case Some(d) =>
      var id := First(st).id;
      if id >= c.tvStatusLast then (Others, []) else (Ok, [Pair(id, CacheVal(d.status, id))])
  }

  /**
   * Setting a channel through `set_dev_status` and then asking for the
   * channel status reports the channel set (a single-pair request whose
   * value fits 32 bits).
   */
  lemma Cc9201SetThenGet(c: Codes, h: Hub, devid: uint32, ch: uint32, blast: Err)
    requires devid != 0 && c.tvStatusChannel < c.tvStatusLast
    requires FindDev(h, devid).Some? && FindDev(h, devid).value.ops.setStatus
    requires IrDev(h, FindDev(h, devid).value).Some?
    ensures var st := Status(devid, [Pair(c.tvStatusChannel, ch)]);
      var h' := SetDevStatus(c, h, st, Cc9201SetStatus(c, h, st, blast).0).1;
      Cc9201GetStatus(c, h', Status(devid, [Pair(c.tvStatusChannel, 0)])) == (Ok, [Pair(c.tvStatusChannel, ch)])
  {
    var st := Status(devid, [Pair(c.tvStatusChannel, ch)]);
    var ans := Cc9201SetStatus(c, h, st, blast).0;
    Cc9201CachesChannel(c, h, st, blast, ch);
    var cache := SyncDevStatus(ans.cache, st.pairs);
    SyncKeeps(ans.cache, st.pairs, c.tvStatusChannel, ch);
    var h' := SetDevStatus(c, h, st, ans).1;
    assert h' == UpdateOnline(h, devid, cache);
    UpdateOnlineFinds(h, devid, cache);
  }

  /** After a one-pair channel request, the driver's cache holds the channel. */
  lemma Cc9201CachesChannel(c: Codes, h: Hub, st: Status, blast: Err, ch: uint32)
    requires st.pairs == [Pair(c.tvStatusChannel, ch)]
    requires FindDev(h, st.devid).Some? && IrDev(h, FindDev(h, st.devid).value).Some?
    ensures Cc9201SetStatus(c, h, st, blast).0.ret == Ok
    ensures CacheVal(Cc9201SetStatus(c, h, st, blast).0.cache, c.tvStatusChannel) == ch
  {
    var d := FindDev(h, st.devid).value;
    var cache := d.status.(vals := d.status.vals[c.tvStatusChannel := ch]);
    assert First(st) == Pair(c.tvStatusChannel, ch);
    assert Cc9201SetStatus(c, h, st, blast).0.cache == SyncDevStatus(cache, st.pairs);
    SyncKeeps(cache, st.pairs, c.tvStatusChannel, ch);
  }

  /** Syncing a one-pair request into a cache that already holds that pair's value keeps it. */
  lemma SyncKeeps(cache: StatusCache, pairs: seq<Pair>, id: nat, v: int)
    requires pairs == [Pair(id, v)] && CacheVal(cache, id) == v
    ensures CacheVal(SyncDevStatus(cache, pairs), id) == v
  {
    assert LastWrite(pairs, id) == Some(v);
    SyncSemantics(cache, pairs, id);
  }

  /** After `UpdateOnline`, the device is still found and carries the new cache. */
  lemma UpdateOnlineFinds(h: Hub, devid: uint32, cache: StatusCache)
    requires FindDev(h, devid).Some?
    ensures FindDev(UpdateOnline(h, devid, cache), devid) == Some(FindDev(h, devid).value.(status := cache))
  {
    var h' := UpdateOnline(h, devid, cache);
    var k := FindById(h.online, devid).value;
    assert FindById(h'.online, devid) == Some(k) by {
      assert forall j :: 0 <= j < |h'.online| ==> h'.online[j].id == h.online[j].id;
    }
  }

  /**
   * `cc9201_set_action`: `OTHERS` without the device or its blaster;
   * otherwise the action's first parameter is pressed as a key.
   */
  function Cc9201SetAction(c: Codes, h: Hub, act: ActionReq, blast: Err): (r: (Err, seq<ActionReq>))
    ensures FindDev(h, act.devid).None? ==> r == (Others, [])
    ensures FindDev(h, act.devid).Some? && IrDev(h, FindDev(h, act.devid).value).None? ==> r == (Others, [])
    ensures act.param1 < 0 || act.param1 >= TvActionLast ==> r.0 != Ok && r.1 == []
    ensures |r.1| <= 1
    ensures |r.1| == 1 ==> 0 <= act.param1 < TvActionLast && r.1[0].param2 == KeyMap[act.param1]
  {
    match FindDev(h, act.devid)
    case None => (Others, [])
    case Some(d) =>
      var ir := IrDev(h, d);
      if ir.None? then (Others, [])
      else if act.param1 < 0 then (BadParam, [])
      else KeyPress(c, ir, act.param1, blast)
  }

  /* ---------------- Gree air conditioner ---------------- */

  /** The Gree status ids. */
  const GreeMode: nat := 0
  const GreePower: nat := 1
  const GreeWind: nat := 2
  const GreeTemp: nat := 3
  const GreeLight: nat := 4

  /** The temperature the unit is set to in automatic mode. */
  const AutoTemp: nat := 25

  /** Whether one request pair is acceptable, its value read as 16 bits. */
  predicate GreePairOk(p: Pair) {
    var v := To16(p.val);
    if p.id == GreeMode then v <= 4
    else if p.id == GreePower || p.id == GreeLight then true
    else if p.id == GreeWind then v <= 3
    else if p.id == GreeTemp then 16 <= v <= 30
    else false
  }

  /** Whether a mode-0 (automatic) pair comes before position `k`. */
  predicate AutoBefore(pairs: seq<Pair>, k: nat)
    requires k <= |pairs|
  {
    exists j :: 0 <= j < k && pairs[j].id == GreeMode && To16(pairs[j].val) == 0
  }

  /** The value an acceptable pair is cached and sent as: switches become 0/1, temperature 25 in automatic mode. */
  function GreeNormPair(p: Pair, auto: bool): Pair {
    var v := To16(p.val);
    if p.id == GreePower || p.id == GreeLight then Pair(p.id, if v > 0 then 1 else 0)
    else if p.id == GreeTemp && auto then Pair(p.id, AutoTemp)
    else Pair(p.id, v)
  }

  /**
   * The validation loop of `gree_set_status` from pair `i` on: `None` at
   * the first unacceptable pair, otherwise the normalised pairs. `auto`
   * says whether an automatic-mode pair has been seen.
   */
  function GreeNormFrom(pairs: seq<Pair>, i: nat, auto: bool): (r: Option<seq<Pair>>)
    requires i <= |pairs|
    decreases |pairs| - i
  {
    if i == |pairs| then Some([])
    else
      var p := pairs[i];
      if !GreePairOk(p) then None
      else
        match GreeNormFrom(pairs, i + 1, auto || (p.id == GreeMode && To16(p.val) == 0))
        case None => None
        case Some(rest) => Some([GreeNormPair(p, auto)] + rest)
  }

  function GreeNorm(pairs: seq<Pair>): Option<seq<Pair>> {
    GreeNormFrom(pairs, 0, false)
  }

  lemma {:induction false} GreeNormFromMeaning(pairs: seq<Pair>, i: nat, auto: bool)
    requires i <= |pairs| && auto == AutoBefore(pairs, i)
    ensures GreeNormFrom(pairs, i, auto).None? <==> exists k :: i <= k < |pairs| && !GreePairOk(pairs[k])
    ensures GreeNormFrom(pairs, i, auto).Some? ==>
      var r := GreeNormFrom(pairs, i, auto).value;
      |r| == |pairs| - i && forall k :: i <= k < |pairs| ==> r[k - i] == GreeNormPair(pairs[k], AutoBefore(pairs, k))
    decreases |pairs| - i
  {
    if i < |pairs| {
      var p := pairs[i];
      var auto' := auto || (p.id == GreeMode && To16(p.val) == 0);
      assert auto' == AutoBefore(pairs, i + 1) by {
        if auto' && !auto {
          assert pairs[i].id == GreeMode && To16(pairs[i].val) == 0;
        }
        if AutoBefore(pairs, i + 1) {
          var j :| 0 <= j < i + 1 && pairs[j].id == GreeMode && To16(pairs[j].val) == 0;
          if j < i {
            assert AutoBefore(pairs, i);
          }
        }
      }
      GreeNormFromMeaning(pairs, i + 1, auto');
    }
  }

  /**
   * The request is refused exactly when some pair is unacceptable; when it
   * is accepted, pair `k` becomes its normalised form, where automatic mode
   * counts only if a mode-0 pair came earlier in the request.
   */
  lemma GreeNormMeaning(pairs: seq<Pair>)
    ensures GreeNorm(pairs).None? <==> exists k :: 0 <= k < |pairs| && !GreePairOk(pairs[k])
    ensures GreeNorm(pairs).Some? ==>
      |GreeNorm(pairs).value| == |pairs| &&
      forall k :: 0 <= k < |pairs| ==> GreeNorm(pairs).value[k] == GreeNormPair(pairs[k], AutoBefore(pairs, k))
  {
    GreeNormFromMeaning(pairs, 0, false);
  }

  /** The first byte of a Gree frame: mode in bits 0-2, power in bit 3, wind speed in bits 4-5. */
  function GreeByte0(cache: StatusCache): nat {
    CacheVal(cache, GreeMode) % 8 + (if CacheVal(cache, GreePower) > 0 then 8 else 0) + (CacheVal(cache, GreeWind) % 4) * 16
  }

  /**
   * The 4-byte Gree frame built from the cache, read as a little-endian
   * word: mode/power/wind, temperature's low nibble, light at bit 5 of
   * the third byte, and a zero byte.
   */
  function GreePack(cache: StatusCache): (r: uint32)
    ensures r < 0x100_0000
  {
    GreeByte0(cache) + 0x100 * (CacheVal(cache, GreeTemp) % 16)
    + 0x1_0000 * (if CacheVal(cache, GreeLight) != 0 then 0x20 else 0)
  }

  /** The five settings a Gree frame carries, temperature in degrees. */
  datatype GreeState = GreeState(mode: nat, power: nat, wind: nat, temp: nat, light: nat)

  /** How the unit reads a frame. */
  function GreeUnpack(w: uint32): GreeState {
    var b0 := w % 0x100;
    var b1 := (w / 0x100) % 0x100;
    var b2 := (w / 0x1_0000) % 0x100;
    GreeState(b0 % 8, (b0 / 8) % 2, (b0 / 16) % 4, 16 + b1 % 16, (b2 / 0x20) % 2)
  }

  /** The cache's five settings. */
  function GreeCached(cache: StatusCache): GreeState
    requires GreeInRange(cache)
  {
    GreeState(CacheVal(cache, GreeMode), CacheVal(cache, GreePower), CacheVal(cache, GreeWind),
              CacheVal(cache, GreeTemp), CacheVal(cache, GreeLight))
  }

  /** Every cached setting is one the unit can hold. */
  predicate GreeInRange(cache: StatusCache) {
    && 0 <= CacheVal(cache, GreeMode) <= 4
    && 0 <= CacheVal(cache, GreePower) <= 1
    && 0 <= CacheVal(cache, GreeWind) <= 3
    && 16 <= CacheVal(cache, GreeTemp) <= 30
    && 0 <= CacheVal(cache, GreeLight) <= 1
  }

  /** For a cache in range, the frame carries exactly the cached settings. */
  lemma GreePackRoundTrip(cache: StatusCache)
    requires GreeInRange(cache)
    ensures GreeUnpack(GreePack(cache)) == GreeCached(cache)
  {
    var m, p, wd := CacheVal(cache, GreeMode), CacheVal(cache, GreePower), CacheVal(cache, GreeWind);
    var temp, light := CacheVal(cache, GreeTemp), CacheVal(cache, GreeLight);
    assert GreeByte0(cache) == m + 8 * p + 16 * wd;
    assert GreePack(cache) == m + 8 * p + 16 * wd + 0x100 * (temp - 16) + 0x1_0000 * (0x20 * light);
    GreeFrameFields(m, p, wd, temp, light);
  }

  /** A frame built from settings in range reads back as those settings. */
  lemma GreeFrameFields(m: int, p: int, wd: int, temp: int, light: int)
    requires 0 <= m <= 4 && 0 <= p <= 1 && 0 <= wd <= 3 && 16 <= temp <= 30 && 0 <= light <= 1
    ensures GreeUnpack(m + 8 * p + 16 * wd + 0x100 * (temp - 16) + 0x1_0000 * (0x20 * light))
      == GreeState(m, p, wd, temp, light)
  {
    var b0 := m + 8 * p + 16 * wd;
    GreeByte0Fields(m, p, wd);
    WordBytes(b0, temp - 16, 0x20 * light);
  }

  /** The three low bytes of a little-endian word read back. */
  lemma WordBytes(b0: int, b1: int, b2: int)
    requires 0 <= b0 < 0x100 && 0 <= b1 < 0x100 && 0 <= b2 < 0x100
    ensures var w := b0 + 0x100 * b1 + 0x1_0000 * b2;
      w % 0x100 == b0 && (w / 0x100) % 0x100 == b1 && (w / 0x1_0000) % 0x100 == b2
  {
  }

  /** Mode, power and wind read back from the first byte. */
  lemma GreeByte0Fields(m: int, p: int, wd: int)
    requires 0 <= m < 8 && 0 <= p < 2 && 0 <= wd < 4
    ensures var b := m + 8 * p + 16 * wd;
      b % 8 == m && (b / 8) % 2 == p && (b / 16) % 4 == wd
  {
  }

  /** The initial Gree cache: automatic mode, off, wind 0, 25 degrees, light on. */
  function GreeInitial(): (r: StatusCache)
    ensures GreeInRange(r) && r.num == 5
  {
    CacheOf([0, 0, 0, 25, 1])
  }

  /**
   * `gree_set_status`. `OTHERS` for a device that is not online or has no
   * blaster; `BAD_PARAM`, with the cache untouched, when a pair is
   * unacceptable. Otherwise the normalised pairs are synced into the cache
   * first, the frame built from the cache is sent, and a failed send
   * returns its error with the cache already changed; a successful one
   * announces the normalised status.
   */
  function GreeSetStatus(c: Codes, h: Hub, st: Status, blast: Err): (r: (DrvSet, seq<ActionReq>))
    ensures FindDev(h, st.devid).None? ==> r.0.ret == Others
    ensures FindDev(h, st.devid).Some? && IrDev(h, FindDev(h, st.devid).value).None? ==> r.0.ret == Others
    ensures FindDev(h, st.devid).Some? && IrDev(h, FindDev(h, st.devid).value).Some? ==>
      var d := FindDev(h, st.devid).value;
      var ir := IrDev(h, d).value;
      && (GreeNorm(st.pairs).None? ==> r == (DrvSet(BadParam, d.status, []), []))
      && (GreeNorm(st.pairs).Some? ==>
            && r.0.cache == SyncDevStatus(d.status, GreeNorm(st.pairs).value)
            && (r.0.ret == Ok <==> ir.ops.setAction && blast == Ok)
            && (r.1 == [] <==> !ir.ops.setAction))
  {
    match FindDev(h, st.devid)
    case None => (DrvSet(Others, StatusCache(map[], 0), []), [])
    case Some(d) =>
      var ir := IrDev(h, d);
      if ir.None? then (DrvSet(Others, d.status, []), [])
      else match GreeNorm(st.pairs)
        case None => (DrvSet(BadParam, d.status, []), [])
        case Some(np) =>
          var cache := SyncDevStatus(d.status, np);
          var req := ActionReq(ir.value.id, c.actRemoteControl, c.irProtoGree, GreePack(cache));
          var (ret, sent) := Send(ir.value, req, blast);
          if ret != Ok then (DrvSet(ret, cache, []), sent)
          else (DrvSet(Ok, cache, [Notify(StatusUpdateResp(Status(st.devid, np)))]), sent)
  }

  /** Syncing normalised pairs into a cache in range keeps it in range. */
  lemma {:induction false} SyncNormInRange(cache: StatusCache, pairs: seq<Pair>, np: seq<Pair>)
    requires GreeInRange(cache) && GreeNorm(pairs) == Some(np)
    ensures GreeInRange(SyncDevStatus(cache, np))
  {
    GreeNormMeaning(pairs);
    forall i | i <= 4 ensures
      var v := CacheVal(SyncDevStatus(cache, np), i);
      (i == GreeMode ==> 0 <= v <= 4) && (i == GreePower ==> 0 <= v <= 1) && (i == GreeWind ==> 0 <= v <= 3)
      && (i == GreeTemp ==> 16 <= v <= 30) && (i == GreeLight ==> 0 <= v <= 1)
    {
      SyncSemantics(cache, np, i);
      if LastWrite(np, i).Some? {
        var k :| 0 <= k < |np| && np[k].id == i && np[k].val == LastWrite(np, i).value;
        assert np[k] == GreeNormPair(pairs[k], AutoBefore(pairs, k));
        assert forall j :: 0 <= j < |pairs| ==> GreePairOk(pairs[j]);
      }
    }
    assert GreeInRange(SyncDevStatus(cache, np)) by {
      var s := SyncDevStatus(cache, np);
      assert 0 <= CacheVal(s, GreeMode) <= 4;
    }
  }

  /**
   * `set_dev_status` around the Gree driver as written: after the driver
   * has cached the normalised request, the dispatcher syncs the raw
   * request over it.
   */
  function GreeSetDevStatusAsWritten(c: Codes, h: Hub, st: Status, blast: Err): (r: (Err, Hub, seq<Out>))
    ensures !(st.devid == 0 && First(st).id == c.statusWorkMode) && FindDev(h, st.devid).None? ==> r == (EntryNotFound, h, [])
    ensures r.0 == Ok && !(st.devid == 0 && First(st).id == c.statusWorkMode) ==>
      FindDev(h, st.devid).Some? &&
      r.1 == UpdateOnline(h, st.devid, SyncDevStatus(GreeSetStatus(c, h, st, blast).0.cache, st.pairs))
  {
    SetDevStatus(c, h, st, GreeSetStatus(c, h, st, blast).0)
  }

  /**
   * As written, turning the unit on with a power value other than 1 leaves
   * that raw value in the cache, out of the range the unit holds, while the
   * frame sent said "on".
   */
  lemma GreeRawPowerAsWritten(c: Codes, h: Hub, devid: uint32, v: int, blast: Err)
    requires devid != 0 && 1 < v < 0x1_0000 && blast == Ok
    requires FindDev(h, devid).Some? && FindDev(h, devid).value.ops.setStatus
    requires IrDev(h, FindDev(h, devid).value).Some? && IrDev(h, FindDev(h, devid).value).value.ops.setAction
    ensures var st := Status(devid, [Pair(GreePower, v)]);
      var r := GreeSetDevStatusAsWritten(c, h, st, blast);
      && r.0 == Ok
      && FindDev(r.1, devid).Some?
      && CacheVal(FindDev(r.1, devid).value.status, GreePower) == v
      && !GreeInRange(FindDev(r.1, devid).value.status)
  {
    var st := Status(devid, [Pair(GreePower, v)]);
    assert To16(v) == v;
    assert GreePairOk(st.pairs[0]) && GreeNormPair(st.pairs[0], false) == Pair(GreePower, 1);
    assert GreeNormFrom(st.pairs, 1, false) == Some([]);
    assert GreeNormFrom(st.pairs, 0, false) == Some([GreeNormPair(st.pairs[0], false)] + []);
    assert [GreeNormPair(st.pairs[0], false)] + [] == [Pair(GreePower, 1)];
    assert GreeNorm(st.pairs) == GreeNormFrom(st.pairs, 0, false);
    assert GreeNorm(st.pairs) == Some([Pair(GreePower, 1)]);
    assert LastWrite(st.pairs, GreePower) == Some(v);
    SetDevStatusSyncs(c, h, st, GreeSetStatus(c, h, st, blast).0, GreePower);
  }

  /**
   * `set_dev_status` around the Gree driver with the cache left as the
   * driver set it: the normalised request, which is what the unit was sent.
   */
  function GreeSetDevStatus(c: Codes, h: Hub, st: Status, blast: Err): (r: (Err, Hub, seq<Out>))
    ensures !(st.devid == 0 && First(st).id == c.statusWorkMode) && FindDev(h, st.devid).None? ==> r == (EntryNotFound, h, [])
    ensures r.0 == Ok && !(st.devid == 0 && First(st).id == c.statusWorkMode) ==>
      FindDev(h, st.devid).Some? && r.1 == UpdateOnline(h, st.devid, GreeSetStatus(c, h, st, blast).0.cache)
  {
    var ans := GreeSetStatus(c, h, st, blast).0;
    if st.devid == 0 && First(st).id == c.statusWorkMode then SetBoxWorkMode(c, h, First(st).val)
    else match FindDev(h, st.devid)
      case None => (EntryNotFound, h, [])
      case Some(d) =>
        if !d.ops.setStatus then (NotSupported, h, [])
        else (ans.ret, UpdateOnline(h, st.devid, ans.cache), ans.outs)
  }

  /**
   * With the cache left as the driver set it, a unit whose settings are in
   * range stays in range whatever it is asked.
   */
  lemma GreeSetDevStatusInRange(c: Codes, h: Hub, st: Status, blast: Err)
    requires !(st.devid == 0 && First(st).id == c.statusWorkMode)
    requires FindDev(h, st.devid).Some? && GreeInRange(FindDev(h, st.devid).value.status)
    ensures var r := GreeSetDevStatus(c, h, st, blast);
      FindDev(r.1, st.devid).Some? && GreeInRange(FindDev(r.1, st.devid).value.status)
  {
    GreeCacheInRange(c, h, st, blast);
    var h' := GreeSetDevStatus(c, h, st, blast).1;
    var k := FindById(h.online, st.devid).value;
    assert FindById(h'.online, st.devid) == Some(k) by {
      assert forall j :: 0 <= j < |h'.online| ==> h'.online[j].id == h.online[j].id;
    }
  }

  /** The cache `gree_set_status` leaves is in range when the one it started from was. */
  lemma GreeCacheInRange(c: Codes, h: Hub, st: Status, blast: Err)
    requires FindDev(h, st.devid).Some? && GreeInRange(FindDev(h, st.devid).value.status)
    ensures GreeInRange(GreeSetStatus(c, h, st, blast).0.cache)
  {
    var d := FindDev(h, st.devid).value;
    if IrDev(h, d).Some? && GreeNorm(st.pairs).Some? {
      SyncNormInRange(d.status, st.pairs, GreeNorm(st.pairs).value);
    }
  }

  /** After an accepted request the frame the unit was sent carries exactly the cached settings. */
  lemma GreeSentIsCached(c: Codes, h: Hub, st: Status, blast: Err)
    ensures var ans := GreeSetStatus(c, h, st, blast);
      |ans.1| == 1 && GreeInRange(ans.0.cache) ==> GreeUnpack(ans.1[0].param2) == GreeCached(ans.0.cache)
  {
    var ans := GreeSetStatus(c, h, st, blast);
    if |ans.1| == 1 && GreeInRange(ans.0.cache) {
      GreePackRoundTrip(ans.0.cache);
    }
  }

  /** `gree_get_status`: `OTHERS` when not online, otherwise every cached slot. */
  function GreeGetStatus(h: Hub, devid: uint32): (r: (Err, seq<Pair>))
    ensures FindDev(h, devid).None? <==> r.0 == Others
    ensures r.0 == Ok ==> r.1 == LoadDevStatus(FindDev(h, devid).value.status)
  {
    match FindDev(h, devid)
    case None => (Others, [])
    case Some(d) => (Ok, LoadDevStatus(d.status))
  }

  /* ---------------- adding, removing and recovering ---------------- */

  /** What the driver knows about an IR device type: class, initial cache, operations, channel support. */
  datatype IrType = IrType(cls: int, cache: StatusCache, ops: Ops, supportChannel: bool)

  /** The type table of `ir_add_dev` and `ir_recover_dev`. */
  function IrTypeOf(c: Codes, devType: int): (r: Option<IrType>)
    ensures devType == c.typeCc9201 ==> r == Some(IrType(c.clsStb, CacheOf([0]), Ops(true, true, true), true))
    ensures devType != c.typeCc9201 && devType == c.typeGreeAc ==>
      r == Some(IrType(c.clsAirConditioner, GreeInitial(), Ops(true, true, false), false))
    ensures devType != c.typeCc9201 && devType != c.typeGreeAc ==> r.None?
  {
    if devType == c.typeCc9201 then Some(IrType(c.clsStb, CacheOf([0]), Ops(true, true, true), true))
    else if devType == c.typeGreeAc then Some(IrType(c.clsAirConditioner, GreeInitial(), Ops(true, true, false), false))
    else None
  }

  /** The device information an IR device gets: IR interface, its type, an all-zero address. */
  function IrInfo(c: Codes, t: IrType, devType: int): Info {
    Info(t.cls, c.ifaceIr, devType, [0, 0, 0, 0, 0, 0, 0, 0])
  }

  /**
   * `ir_add_dev`: `NOT_SUPPORTED` for a type outside the table; otherwise
   * the device comes online under the IR driver with the type's class,
   * cache, operations and channel support.
   */
  function IrAddDev(c: Codes, h: Hub, devType: int, cfg: Option<Config>, defaults: seq<Config>): (r: (Err, Hub, seq<Out>))
    ensures IrTypeOf(c, devType).None? ==> r == (NotSupported, h, [])
    ensures IrTypeOf(c, devType).Some? ==>
      var t := IrTypeOf(c, devType).value;
      var on := Registry.DevOnline(c, h, c.drvIdIr, IrInfo(c, t, devType), t.cache, t.ops, cfg, defaults, t.supportChannel);
      r == (Ok, on.0, on.2)
  {
    match IrTypeOf(c, devType)
    case None => (NotSupported, h, [])
    case Some(t) =>
      var (h', _, outs) := Registry.DevOnline(c, h, c.drvIdIr, IrInfo(c, t, devType), t.cache, t.ops, cfg, defaults, t.supportChannel);
      (Ok, h', outs)
  }

  /**
   * Every IR device has the same driver and address, so adding one while
   * any IR device sits in the offline list brings that device back under
   * its old id instead of creating a new one.
   */
  lemma IrAddRevivesOffline(c: Codes, h: Hub, devType: int, cfg: Option<Config>, defaults: seq<Config>, k: nat)
    requires IrTypeOf(c, devType).Some?
    requires k < |h.offline| && h.offline[k].drvid == c.drvIdIr && h.offline[k].info.mac == [0, 0, 0, 0, 0, 0, 0, 0]
    ensures var r := IrAddDev(c, h, devType, cfg, defaults);
      var j := FindOffMatch(h.offline, c.drvIdIr, [0, 0, 0, 0, 0, 0, 0, 0]);
      && j.Some?
      && |r.1.online| == |h.online| + 1
      && r.1.online[|h.online|].id == h.offline[j.value].id
      && r.1.nextId == h.nextId
  {
    var t := IrTypeOf(c, devType).value;
    var info := IrInfo(c, t, devType);
    assert info.mac == [0, 0, 0, 0, 0, 0, 0, 0];
    DevOnlineRevives(c, h, c.drvIdIr, info, t.cache, t.ops, cfg, defaults, t.supportChannel);
  }

  /** `ir_del_dev`: `OTHERS` for a device that is not online; otherwise `dev_removed`. */
  function IrDelDev(c: Codes, h: Hub, devid: uint32): (r: (Err, Hub, seq<Out>))
    ensures FindDev(h, devid).None? ==> r == (Others, h, [])
    ensures FindDev(h, devid).Some? ==> r == DevRemoved(c, h, devid)
  {
    if FindDev(h, devid).None? then (Others, h, []) else DevRemoved(c, h, devid)
  }

  /**
   * `ir_recover_dev`: `NOT_SUPPORTED` for a type outside the table;
   * otherwise `dev_recovered` with the type's data.
   */
  function IrRecoverDev(c: Codes, h: Hub, devid: uint32, devType: int): (r: (Err, Hub, seq<Out>))
    ensures IrTypeOf(c, devType).None? ==> r == (NotSupported, h, [])
    ensures IrTypeOf(c, devType).Some? && FindById(h.offline, devid).None? ==> r == (Others, h, [])
    ensures IrTypeOf(c, devType).Some? ==>
      var t := IrTypeOf(c, devType).value;
      r == DevRecovered(c, h, devid, c.drvIdIr, IrInfo(c, t, devType), t.cache, t.ops, t.supportChannel)
  {
    match IrTypeOf(c, devType)
    case None => (NotSupported, h, [])
    case Some(t) => DevRecovered(c, h, devid, c.drvIdIr, IrInfo(c, t, devType), t.cache, t.ops, t.supportChannel)
  }

  /** A recovered IR device is back online under its id with its type's initial cache. */
  lemma IrRecoverResets(c: Codes, h: Hub, devid: uint32, devType: int)
    requires IrTypeOf(c, devType).Some? && FindById(h.offline, devid).Some?
    ensures var r := IrRecoverDev(c, h, devid, devType);
      && r.0 == Ok
      && |r.1.online| == |h.online| + 1
      && r.1.online[|h.online|].id == devid
      && r.1.online[|h.online|].status == IrTypeOf(c, devType).value.cache
  {
    var t := IrTypeOf(c, devType).value;
    RecoveredStatus(c, h, devid, IrInfo(c, t, devType), t.cache, t.ops, t.supportChannel);
  }

  lemma RecoveredStatus(c: Codes, h: Hub, devid: uint32, info: Info, st: StatusCache, ops: Ops, sc: bool)
    requires FindById(h.offline, devid).Some?
    ensures DevRecovered(c, h, devid, c.drvIdIr, info, st, ops, sc).1.online[|h.online|].status == st
  {
    var k := FindById(h.offline, devid).value;
    var prev := h.offline[k];
    var d := prev.(chans := if sc && prev.chans.None? then Some([]) else prev.chans,
                   drvid := c.drvIdIr, ops := ops, online := true, info := info, status := st);
    var h1 := h.(offline := RemoveAt(h.offline, k));
    assert SameButLink(GoOnline(c, h1, d, c.updOnline).0.online[|h1.online|], d);
  }
}

=== FILE: hub_types.dfy ===
/**
 * Vocabulary shared by every part of the hub model: optional values, the
 * hub's error kinds, the protocol's command set and the enum values that the
 * hub's headers define.
 *
 * The numeric values of commands, event types, device types, status ids and
 * the work-mode validity test live in headers that are not part of this
 * model, so they are carried symbolically in a `Codes` record that every
 * operation needing one receives as a parameter.
 */
module HubTypes {
  import opened Bytes

  datatype Option<T> = None | Some(value: T)

  /** The `HSB_E_*` return codes the core uses. */
  datatype Err =
    | Ok
    | BadParam
    | NotSupported
    | EntryNotFound
    | EntryExists
    | NoMemory
    | InvalidMsg
    | Others

  datatype Result<T> = Success(value: T) | Failure(error: Err)

  /** The protocol's command kinds (`HSB_CMD_*`). */
  datatype Cmd =
    | GetDevs | GetDevsResp | GetInfo | GetInfoResp | GetConfig | GetConfigResp | SetConfig
    | GetStatus | GetStatusResp | SetStatus | StatusUpdate
    | SetChannel | DelChannel | SwitchChannel | GetChannel | GetChannelResp
    | GetTimer | GetTimerResp | SetTimer | DelTimer
    | GetDelay | GetDelayResp | SetDelay | DelDelay
    | GetLinkage | GetLinkageResp | SetLinkage | DelLinkage
    | DoAction | ProbeDev | AddDev | DelDev
    | SetScene | DelScene | EnterScene | GetScene | SceneUpdate
    | EventMsg | ResultMsg | DevOnline | BoxDiscover | BoxDiscoverResp

  /** Enum values defined in headers that this model does not contain. */
  datatype Codes = Codes(
    cmdNum: map<Cmd, uint16>,      // HSB_CMD_* value of each command
    cmdOf: map<uint16, Cmd>,       // its inverse: the commands HSB_CMD_VALID accepts
    evtDevUpdated: int,            // HSB_EVT_TYPE_DEV_UPDATED
    evtModeChanged: int,           // HSB_EVT_TYPE_MODE_CHANGED
    updOnline: int,                // HSB_DEV_UPDATED_TYPE_ONLINE
    updNewAdd: int,                // HSB_DEV_UPDATED_TYPE_NEW_ADD
    updOffline: int,               // HSB_DEV_UPDATED_TYPE_OFFLINE
    typeRemoteCtl: int,            // HSB_DEV_TYPE_REMOTE_CTL
    typeCc9201: int,               // HSB_DEV_TYPE_CC9201
    typeGreeAc: int,               // HSB_DEV_TYPE_GREE_AC
    clsStb: int,                   // HSB_DEV_CLASS_STB
    clsAirConditioner: int,        // HSB_DEV_CLASS_AIR_CONDITIONER
    ifaceIr: int,                  // HSB_INTERFACE_IR
    drvIdIr: uint32,               // HSB_DRV_ID_IR
    statusWorkMode: int,           // HSB_STATUS_TYPE_WORK_MODE
    tvStatusChannel: nat,          // HSB_TV_STATUS_CHANNEL
    tvStatusLast: nat,             // HSB_TV_STATUS_LAST
    actRemoteControl: int,         // HSB_ACT_TYPE_REMOTE_CONTROL
    irProtoCc9201: int,            // HSB_IR_PROTOCOL_TYPE_CC9201
    irProtoGree: int,              // HSB_IR_PROTOCOL_TYPE_GREE
    validModes: set<nat>,          // the modes HSB_WORK_MODE_VALID accepts
    workModeAll: nat,              // HSB_WORK_MODE_ALL, a new device's mode mask
    errCode: map<Err, uint16>,     // wire value of each HSB_E_* code
    timerNum: nat,                 // HSB_DEV_MAX_TIMER_NUM
    delayNum: nat,                 // HSB_DEV_MAX_DELAY_NUM
    linkNum: nat)                  // HSB_DEV_MAX_LINKAGE_NUM

  /** The two command tables are total and inverse to each other. */
  predicate ValidCodes(c: Codes) {
    && (forall k: Cmd :: k in c.cmdNum)
    && (forall k: Cmd :: c.cmdNum[k] in c.cmdOf && c.cmdOf[c.cmdNum[k]] == k)
    && (forall x :: x in c.cmdOf ==> c.cmdOf[x] in c.cmdNum && c.cmdNum[c.cmdOf[x]] == x)
    && (forall e: Err :: e in c.errCode)
  }

  /** The wire value of a command. */
  function CmdNum(c: Codes, k: Cmd): uint16
    requires ValidCodes(c)
  {
    c.cmdNum[k]
  }

  /** Decoding a command number: `None` for a value `HSB_CMD_VALID` rejects. */
  function CmdOf(c: Codes, x: uint16): Option<Cmd> {
    if x in c.cmdOf then Some(c.cmdOf[x]) else None
  }

  /** The wire value of a result code. */
  function ErrCode(c: Codes, e: Err): uint16
    requires ValidCodes(c)
  {
    c.errCode[e]
  }
}

=== FILE: orange.dfy ===
/**
 * The Orange Zigbee driver (`drv_orange`) on port 8000. A payload from the
 * link starts with a 16-bit command and a 16-bit length; four commands have
 * handlers: discovery responses register devices, events and replies
 * report endpoint values, keep-alives reset a device's tick count.
 * Endpoints are described by a 16-bit descriptor: id in bits 0-7, data
 * length in bits 8-13, readable in bit 14, writable in bit 15.
 */
module Orange {
  import opened Bytes
  import opened HubTypes
  import opened PyPhy
  import PyDevice
  import PyHub

  const CmdDiscover: uint16 := 0x9101
  const CmdDiscoverResp: uint16 := 0x9102
  const CmdGet: uint16 := 0x9111
  const CmdSet: uint16 := 0x9113
  const CmdEvent: uint16 := 0x9121
  const CmdKeepAlive: uint16 := 0x9141
  const CmdReply: uint16 := 0x9191

  const Port: int := 8000

  const TypePlug: int := 1
  const TypeRemoteCtl: int := 2

  /** The driver as constructed: Zigbee, port 8000, no link bound yet, no devices. */
  const NewDriver: PyHub.Driver := PyHub.Driver(Zigbee, Port, None, map[])

  const Key: DrvKey := DrvKey(Zigbee, Some(Port))

  /**
   * The fields `ep_orange` decodes from a descriptor, with data 0. The
   * constructor then raises before it returns (see `ParseEps`), so no
   * such endpoint ever reaches a device.
   */
  function EpOrange(ep: uint16): (r: PyDevice.Endpoint)
    ensures 0 <= r.epid < 0x100 && r.bits < 0x40
  {
    PyDevice.NewEndpoint(ep % 0x100, (ep / 0x100) % 0x40, (ep / 0x4000) % 2 == 1, ep / 0x8000 == 1, 0)
  }

  /** The descriptor a device sends for an endpoint. */
  function Descriptor(epid: uint8, bits: nat, readable: bool, writable: bool): uint16
    requires bits < 0x40
  {
    epid + 0x100 * bits + (if readable then 0x4000 else 0) + (if writable then 0x8000 else 0)
  }

  /** Decoding a descriptor recovers the id, length and access bits that built it. */
  lemma DescriptorRoundTrip(epid: uint8, bits: nat, readable: bool, writable: bool)
    requires bits < 0x40
    ensures EpOrange(Descriptor(epid, bits, readable, writable)) == PyDevice.NewEndpoint(epid, bits, readable, writable, 0)
  {
    var v := Descriptor(epid, bits, readable, writable);
    var hi := bits + (if readable then 0x40 else 0) + (if writable then 0x80 else 0);
    assert v == epid + 0x100 * hi;
    assert v % 0x100 == epid && v / 0x100 == hi;
    assert hi % 0x40 == bits;
    assert v / 0x4000 == hi / 0x40;
    assert v / 0x8000 == hi / 0x80;
  }

  /** Every 16-bit value is the descriptor of the endpoint it decodes to: no bit is ignored. */
  lemma DescriptorOnto(ep: uint16)
    ensures var e := EpOrange(ep); Descriptor(e.epid, e.bits, e.readable, e.writable) == ep
  {
    var hi := ep / 0x100;
    assert ep == ep % 0x100 + 0x100 * hi;
    assert hi == hi % 0x40 + 0x40 * ((hi / 0x40) % 2) + 0x80 * (hi / 0x80);
    assert ep / 0x4000 == hi / 0x40;
    assert ep / 0x8000 == hi / 0x80;
  }

  /**
   * `new_device`: type 1 is a plug, type 2 a remote control, each with its
   * endpoints added in order; any other type gives no device.
   */
  function NewDevice(devType: int, mac: bytes, addr: int, eps: seq<PyDevice.Endpoint>): (r: Option<PyDevice.Device>)
    ensures r.Some? <==> devType == TypePlug || devType == TypeRemoteCtl
    ensures r.Some? ==> r.value.kind == (if devType == TypePlug then PyDevice.Plug else PyDevice.RemoteCtl)
    ensures r.Some? ==> r.value.addr == addr && r.value.mac == mac && r.value.driver == Key && r.value.devid == 0
  {
    if devType == TypePlug then Some(PyDevice.AddEps(PyDevice.NewDevice(PyDevice.Plug, Key, mac, addr), eps))
    else if devType == TypeRemoteCtl then Some(PyDevice.AddEps(PyDevice.NewDevice(PyDevice.RemoteCtl, Key, mac, addr), eps))
    else None
  }

  datatype Handler = OnDiscoverResp | OnEvent | OnKeepAlive | OnReply

  /** The registered callbacks (`data_cb`). */
  function HandlerOf(cmd: uint16): (r: Option<Handler>)
    ensures r.Some? <==> cmd in [CmdDiscoverResp, CmdEvent, CmdKeepAlive, CmdReply]
  {
    if cmd == CmdDiscoverResp then Some(OnDiscoverResp)
    else if cmd == CmdEvent then Some(OnEvent)
    else if cmd == CmdKeepAlive then Some(OnKeepAlive)
    else if cmd == CmdReply then Some(OnReply)
    else None
  }

  /** Where `on_data` sends a payload. */
  datatype Dispatch =
    | TooShort
    | Unregistered(cmd: uint16)
    | Call(handler: Handler, body: bytes)

  /**
   * `on_data`: fewer than 4 bytes are dropped; a command with no handler
   * is logged and then looked up anyway, which raises a `KeyError`
   * (`Unregistered`); a registered one runs its handler on the bytes after
   * the 4-byte head. The length field is read but not used.
   */
  function Route(buf: bytes): (r: Dispatch)
    ensures r.TooShort? <==> |buf| < 4
    ensures r.Call? ==> |buf| >= 4 && HandlerOf(Get16(buf, 0)) == Some(r.handler) && r.body == buf[4..]
    ensures r.Unregistered? ==> |buf| >= 4 && HandlerOf(Get16(buf, 0)).None? && r.cmd == Get16(buf, 0)
  {
    if |buf| < 4 then TooShort
    else match HandlerOf(Get16(buf, 0))
      case None => Unregistered(Get16(buf, 0))
      case Some(h) => Call(h, buf[4..])
  }

  /** A payload as a device builds it: command, length, body. */
  function Packet(cmd: uint16, body: bytes): bytes
    requires 4 + |body| < 0x1_0000
  {
    LE16(cmd) + LE16(4 + |body|) + body
  }

  /** A device's packet reaches exactly the handler its command is registered for, with its body. */
  lemma RoutePacket(cmd: uint16, body: bytes)
    requires 4 + |body| < 0x1_0000
    ensures var r := Route(Packet(cmd, body));
      && (HandlerOf(cmd).Some? ==> r == Call(HandlerOf(cmd).value, body))
      && (HandlerOf(cmd).None? ==> r == Unregistered(cmd))
  {
    var p := Packet(cmd, body);
    LE16Get(cmd, p, 0);
    assert p[4..] == body;
  }

  /** What `on_discover_resp` decides from its body. */
  datatype Discovery =
    | RespTooShort
    | AlreadyKnown
    | NoEndpoints
    | Found(devType: int, mac: bytes, epBytes: bytes)

  /** A 32-bit field as `struct` reads it with format `i`: two's complement. */
  function Signed32(v: uint32): int {
    if v < 0x8000_0000 then v else v - 0x1_0000_0000
  }

  /**
   * `on_discover_resp`: fewer than 12 bytes, a sender the driver already
   * has, or a body of exactly 12 bytes (no endpoint) end the handler;
   * otherwise the signed 32-bit type, the 8-byte MAC and the endpoint bytes.
   */
  function Discover(known: bool, buf: bytes): (r: Discovery)
    ensures r.RespTooShort? <==> |buf| < 12
    ensures r.AlreadyKnown? <==> |buf| >= 12 && known
    ensures r.NoEndpoints? <==> |buf| == 12 && !known
    ensures r.Found? ==> |r.mac| == 8 && |r.epBytes| == |buf| - 12 > 0
  {
    if |buf| < 12 then RespTooShort
    else if known then AlreadyKnown
    else if |buf| == 12 then NoEndpoints
    else Found(Signed32(Get32(buf, 0)), buf[4..12], buf[12..])
  }

  /** A discovery response from a new device is read back as the type, MAC and endpoint bytes it carries. */
  lemma DiscoverRoundTrip(devType: uint32, mac: bytes, eps: bytes)
    requires |mac| == 8 && |eps| > 0
    ensures Discover(false, LE32(devType) + mac + eps) == Found(Signed32(devType), mac, eps)
  {
    var b := LE32(devType) + mac + eps;
    LE32Get(devType, b, 0);
    assert b[4..12] == mac && b[12..] == eps;
  }

  /**
   * After a discovery with endpoints: the device `new_device` builds is
   * registered through the driver. An unknown type gives no device, and
   * `add_device(None)` raises (`None`). The endpoints are those the
   * endpoint parser reads from the discovery's endpoint bytes.
   */
  function AddDiscovered(m: PyHub.Manager, addr: int, devType: int, mac: bytes, eps: seq<PyDevice.Endpoint>)
    : (r: Option<PyHub.Manager>)
    requires Key in m.drivers
    ensures r.Some? <==> devType == TypePlug || devType == TypeRemoteCtl
  {
    match NewDevice(devType, mac, addr, eps)
    case None => None
    case Some(d) => Some(PyHub.AddDevice(m, Key, d))
  }

  /**
   * A plug or remote control discovered at a new address is registered:
   * the driver and the manager both find it, under the next id, with its
   * MAC and the endpoints of the response; the registries keep agreeing.
   */
  lemma DiscoveredIsRegistered(m: PyHub.Manager, addr: int, devType: int, mac: bytes, eps: seq<PyDevice.Endpoint>)
    requires PyHub.Inv(m) && Key in m.drivers && addr !in m.drivers[Key].devices
    requires devType == TypePlug || devType == TypeRemoteCtl
    ensures var r := AddDiscovered(m, addr, devType, mac, eps).value;
      && PyHub.Inv(r)
      && PyHub.DriverFind(r, Key, addr).Some?
      && PyHub.DriverFind(r, Key, addr) == PyHub.FindDevice(r, m.firstDevId)
      && var d := PyHub.DriverFind(r, Key, addr).value;
      && d.devid == m.firstDevId && d.mac == mac && d.addr == addr
      && d.eps == PyDevice.AddEps(PyDevice.NewDevice(d.kind, Key, mac, addr), eps).eps
  {
    var d := NewDevice(devType, mac, addr, eps).value;
    PyDevice.AddEpsFirstWins(PyDevice.NewDevice(d.kind, Key, mac, addr), eps);
    PyHub.AddDeviceInv(m, Key, d);
  }

  /** What `on_reply` reads. */
  datatype Reply =
    | ReplyTooShort
    | SetResult(err: uint16)
    | GetResult(err: uint16, epBytes: bytes)
    | OtherReply(cmd: uint16)

  /**
   * `on_reply`: fewer than 4 bytes are ignored; otherwise the command it
   * answers and its error code, which `errcode_convert` passes on
   * unchanged; a GET answer also carries endpoint bytes.
   */
  function ReadReply(buf: bytes): (r: Reply)
    ensures r.ReplyTooShort? <==> |buf| < 4
    ensures r.SetResult? || r.GetResult? ==> r.err == Get16(buf, 2)
  {
    if |buf| < 4 then ReplyTooShort
    else
      var cmd := Get16(buf, 0);
      var err := Get16(buf, 2);
      if cmd == CmdSet then SetResult(err)
      else if cmd == CmdGet then GetResult(err, buf[4..])
      else OtherReply(cmd)
  }

  /** A device's reply to a SET or GET hands the handler the device's own error code. */
  lemma ReplyCarriesError(cmd: uint16, err: uint16, rest: bytes)
    requires cmd == CmdSet || cmd == CmdGet
    ensures var r := ReadReply(LE16(cmd) + LE16(err) + rest);
      && (cmd == CmdSet ==> r == SetResult(err))
      && (cmd == CmdGet ==> r == GetResult(err, rest))
  {
    var b := LE16(cmd) + LE16(err) + rest;
    LE16Get(cmd, b, 0);
    LE16Get(err, b, 2);
    assert b[4..] == rest;
  }

  /**
   * A keep-alive restarts the sender's tick count; from an address the
   * driver does not have, `device` is `None` and the call raises.
   */
  function KeepAlive(m: PyHub.Manager, addr: int): (r: Option<PyHub.Manager>)
    requires Key in m.drivers
    ensures r.Some? <==> PyHub.DriverFind(m, Key, addr).Some?
    ensures r.Some? ==> var id := m.drivers[Key].devices[addr];
      && PyHub.FindDevice(r.value, id) == Some(m.devices[id].(ticks := 0))
      && r.value == m.(devices := r.value.devices)
  {
    match PyHub.DriverFind(m, Key, addr)
    case None => None
    case Some(d) =>
      var id := m.drivers[Key].devices[addr];
      Some(m.(devices := m.devices[id := PyDevice.OnKeepalive(d)]))
  }

  /**
   * The endpoint loop of `on_discover_resp`, `on_event` and `on_reply`:
   * while more than 2 bytes are left it calls `parse_ep`, whose
   * `ep_orange` constructor prints `self.datalen`, an attribute
   * `hsb_endpoint` never sets (it keeps the length as `bits`). So the first
   * endpoint read raises `AttributeError` (`None`), and only a tail of 2
   * bytes or fewer gets through, with no endpoint read.
   */
  function ParseEps(buf: bytes): (r: Option<seq<PyDevice.Endpoint>>)
    ensures r.Some? <==> |buf| <= 2
    ensures r.Some? ==> r.value == []
  {
    if |buf| > 2 then None else Some([])
  }

  /**
   * `on_data` on the hub state for a payload from `addr`. Event handling
   * ends in `on_update`, which does nothing; the reply handlers end in
   * `on_set_result` and `on_get_result`, which no device class defines.
   */
  function OnData(m: PyHub.Manager, addr: int, buf: bytes): (r: Option<PyHub.Manager>)
    requires Key in m.drivers
    ensures |buf| < 4 ==> r == Some(m)
    ensures Route(buf).Unregistered? ==> r.None?
    ensures Route(buf).Call? && Route(buf).handler == OnDiscoverResp ==>
      var disc := Discover(PyHub.DriverFind(m, Key, addr).Some?, Route(buf).body);
      && (!disc.Found? ==> r == Some(m))
      && (disc.Found? && |disc.epBytes| > 2 ==> r.None?)
      && (disc.Found? && |disc.epBytes| <= 2 ==> r == AddDiscovered(m, addr, disc.devType, disc.mac, []))
    ensures Route(buf).Call? && Route(buf).handler == OnEvent ==>
      (r.Some? <==> |buf| <= 6 && PyHub.DriverFind(m, Key, addr).Some?) && (r.Some? ==> r == Some(m))
    ensures Route(buf).Call? && Route(buf).handler == OnKeepAlive ==> r == KeepAlive(m, addr)
    ensures Route(buf).Call? && Route(buf).handler == OnReply ==>
      (r.Some? <==> ReadReply(Route(buf).body).ReplyTooShort? || ReadReply(Route(buf).body).OtherReply?)
      && (r.Some? ==> r == Some(m))
  {
    match Route(buf)
    case TooShort => Some(m)
    case Unregistered(_) => None
    case Call(h, body) =>
      match h
      case OnDiscoverResp =>
        (match Discover(PyHub.DriverFind(m, Key, addr).Some?, body)
         case Found(t, mac, epBytes) =>
           (match ParseEps(epBytes)
            case None => None
            case Some(eps) => AddDiscovered(m, addr, t, mac, eps))
         case _ => Some(m))
      case OnKeepAlive => KeepAlive(m, addr)
      case OnEvent =>
        if ParseEps(body).None? then None
        else if PyHub.DriverFind(m, Key, addr).Some? then Some(m) else None
      case OnReply =>
        (match ReadReply(body)
         case ReplyTooShort => Some(m)
         case OtherReply(_) => Some(m)
         case _ => None)
  }

  /**
   * The hub as `hsbapp` wires it: the Zigbee link registered, then this
   * driver; frames up from the link on port 8000 reach it.
   */
  lemma WiredHub(p: PhyData)
    requires p.direction == Up && p.phy == Zigbee && p.port == Some(Port)
    ensures var m := PyHub.AddDriver(PyHub.AddPhy(PyHub.Initial, Zigbee), NewDriver);
      && PyHub.Inv(m)
      && Key in m.drivers && m.drivers[Key].phy == Some(Zigbee)
      && PyHub.RoutePhyData(m, p) == PyHub.ToDriver(Key)
  {
    PyHub.InitialInv();
    PyHub.DriversInv(PyHub.AddPhy(PyHub.Initial, Zigbee), NewDriver);
  }

  /**
   * A device's first discovery response on the wired hub, with one or two
   * bytes after the MAC, registers it as device 1 with no endpoints, and a
   * second response from the same address changes nothing.
   */
  lemma {:induction false} FirstDiscovery(addr: int, mac: bytes, epBytes: bytes)
    requires |mac| == 8 && 0 < |epBytes| <= 2
    ensures var m0 := PyHub.AddDriver(PyHub.AddPhy(PyHub.Initial, Zigbee), NewDriver);
      var pkt := Packet(CmdDiscoverResp, LE32(TypePlug) + mac + epBytes);
      && OnData(m0, addr, pkt).Some?
      && var m1 := OnData(m0, addr, pkt).value;
      && PyHub.FindDevice(m1, 1).Some? && PyHub.FindDevice(m1, 1).value.addr == addr
      && PyHub.FindDevice(m1, 1).value.eps == map[]
      && OnData(m1, addr, pkt) == Some(m1)
  {
    var m0 := PyHub.AddDriver(PyHub.AddPhy(PyHub.Initial, Zigbee), NewDriver);
    var body := LE32(TypePlug) + mac + epBytes;
    var pkt := Packet(CmdDiscoverResp, body);
    PyHub.InitialInv();
    PyHub.DriversInv(PyHub.AddPhy(PyHub.Initial, Zigbee), NewDriver);
    RoutePacket(CmdDiscoverResp, body);
    DiscoverRoundTrip(TypePlug, mac, epBytes);
    assert Signed32(TypePlug) == TypePlug;
    DiscoveredIsRegistered(m0, addr, TypePlug, mac, []);
    var m1 := OnData(m0, addr, pkt).value;
    assert PyHub.DriverFind(m1, Key, addr).Some?;
  }

  /**
   * A discovery response from a new device that carries endpoint
   * descriptors (more than 2 bytes after the MAC) raises before anything
   * is registered, whatever the hub's state and the device's type.
   */
  lemma {:induction false} DiscoveryWithEndpointsRaises(m: PyHub.Manager, addr: int, devType: uint32, mac: bytes, epBytes: bytes)
    requires Key in m.drivers && PyHub.DriverFind(m, Key, addr).None?
    requires |mac| == 8 && |epBytes| > 2 && 4 + 12 + |epBytes| < 0x1_0000
    ensures OnData(m, addr, Packet(CmdDiscoverResp, LE32(devType) + mac + epBytes)).None?
  {
    var body := LE32(devType) + mac + epBytes;
    RoutePacket(CmdDiscoverResp, body);
    DiscoverRoundTrip(devType, mac, epBytes);
  }
}

=== FILE: pad_sim.dfy ===
/**
 * The console client of the hub protocol (`pad_sim`): the requests it
 * builds from typed console lines, the decoders it applies to the packets
 * the hub writes back, and its discovery probe. Each request is paired
 * with the server's reading of it and each decoder with the server's
 * writer of that packet.
 */
module PadSim {
  import opened Bytes
  import opened HubTypes
  import opened DeviceTypes
  import Scene
  import SceneCodec
  import Wire
  import Dispatch
  import Serve
  import TimerStep

  /* ---------------- requests ---------------- */

  /**
   * A console line the client understands, with the numbers it scans.
   * Numbers are taken as typed and truncated to the width of the field
   * they are written to; names are the scanned words as bytes.
   */
  datatype Line =
    | Devices                                   // "get devices"
    | InfoOf(devid: int)                        // "get info"
    | StatusOf(devid: int)                      // "get status"
    | PutStatus(devid: int, id: int, val: int)  // "set status"
    | TimerOf(devid: int, tid: int)             // "get timer"
    | PutTimer(devid: int, tid: int)            // "set timer"
    | DropTimer(devid: int, tid: int)           // "del timer"
    | Probe(drvid: int)                         // "probe"
    | Adddev(devType: int)                      // "adddev"
    | Deldev(devid: int)                        // "deldev"
    | PutConfig(devid: int, name: bytes, location: bytes)  // "set config"
    | ConfigOf(devid: int)                      // "get config"
    | PutChannel(devid: int, name: bytes, cid: int)        // "set channel"
    | DropChannel(devid: int, name: bytes)      // "del channel"
    | Switch(devid: int, name: bytes)           // "switch channel"
    | ChannelsOf(devid: int)                    // "get channel"
    | DoAct(devid: int, id: int, p1: int, p2: int)          // "action"
    | DropScene(name: bytes)                    // "del scene"
    | Enter(name: bytes)                        // "enter scene"
    | Scenes                                    // "get scene"
    | PutScene                                  // "set scene"

  /** The command each line sends. */
  function Command(l: Line): Cmd {
    match l
    case Devices => GetDevs
    case InfoOf(_) => GetInfo
    case StatusOf(_) => GetStatus
    case PutStatus(_, _, _) => SetStatus
    case TimerOf(_, _) => GetTimer
    case PutTimer(_, _) => SetTimer
    case DropTimer(_, _) => DelTimer
    case Probe(_) => Cmd.ProbeDev
    case Adddev(_) => Cmd.AddDev
    case Deldev(_) => Cmd.DelDev
    case PutConfig(_, _, _) => SetConfig
    case ConfigOf(_) => GetConfig
    case PutChannel(_, _, _) => SetChannel
    case DropChannel(_, _) => DelChannel
    case Switch(_, _) => SwitchChannel
    case ChannelsOf(_) => GetChannel
    case DoAct(_, _, _, _) => DoAction
    case DropScene(_) => Cmd.DelScene
    case Enter(_) => Cmd.EnterScene
    case Scenes => GetScene
    case PutScene => SetScene
  }

  /** The length each request declares in its header, and the number of bytes the client writes. */
  function Size(l: Line): nat {
    match l
    case Devices => 4
    case InfoOf(_) => 8
    case StatusOf(_) => 8
    case PutStatus(_, _, _) => 12
    case TimerOf(_, _) => 12
    case PutTimer(_, _) => 24
    case DropTimer(_, _) => 12
    case Probe(_) => 8
    case Adddev(_) => 40
    case Deldev(_) => 8
    case PutConfig(_, _, _) => 40
    case ConfigOf(_) => 8
    case PutChannel(_, _, _) => 28
    case DropChannel(_, _) => 24
    case Switch(_, _) => 24
    case ChannelsOf(_) => 8
    case DoAct(_, _, _, _) => 16
    case DropScene(_) => 20
    case Enter(_) => 20
    case Scenes => 4
    case PutScene => 36
  }

  /** The ASCII bytes of `test-scene`, the name of the scene "set scene" sends. */
  const TestSceneName: bytes := [0x74, 0x65, 0x73, 0x74, 0x2D, 0x73, 0x63, 0x65, 0x6E, 0x65]

  /** The ASCII bytes of `unknown`, the name and location "adddev" sends. */
  const Unknown: bytes := [0x75, 0x6E, 0x6B, 0x6E, 0x6F, 0x77, 0x6E]

  /** The one action of the "set scene" request: no condition, no delay, one act on device 1 (id 0, param 12). */
  const TestAction := DeviceTypes.Action(false, DeviceTypes.Condition(0, 0, 0, 0), 0, [DeviceTypes.Act(0, 1, 0, 12, 0)])

  /** The scene the "set scene" request describes, with its name as the 16-byte field holds it. */
  const TestScene := DeviceTypes.SceneRec(StrField(TestSceneName), [TestAction])

  /** The "set timer" rule body from offset 10: mode mask 0xFF, flag 0, 21:49:00, every weekday, then 0 and 1 as 16-bit words. */
  const TimerRule: bytes := [0xFF, 0, 21, 49, 0, 0x7F] + LE16(0) + LE16(1)

  /** The body of a request, after its 4-byte header: the fields at their offsets, the rest of the declared length zero. */
  function Body(l: Line): (r: bytes) {
    match l
    case Devices => []
    case InfoOf(devid) => LE32(To32(devid))
    case StatusOf(devid) => LE32(To32(devid))
    case PutStatus(devid, id, val) => LE32(To32(devid)) + LE16(To16(id)) + LE16(To16(val))
    case TimerOf(devid, tid) => LE32(To32(devid)) + LE16(To16(tid)) + Zeros(2)
    case PutTimer(devid, tid) => LE32(To32(devid)) + LE16(To16(tid)) + TimerRule + Zeros(4)
    case DropTimer(devid, tid) => LE32(To32(devid)) + LE16(To16(tid)) + Zeros(2)
    case Probe(drvid) => LE16(To16(drvid)) + Zeros(2)
    case Adddev(devType) => LE16(3) + LE16(To16(devType)) + StrField(Unknown) + StrField(Unknown)
    case Deldev(devid) => LE32(To32(devid))
    case PutConfig(devid, name, location) => LE32(To32(devid)) + Field16(name) + Field16(location)
    case ConfigOf(devid) => LE32(To32(devid))
    case PutChannel(devid, name, cid) => LE32(To32(devid)) + Field16(name) + LE32(To32(cid))
    case DropChannel(devid, name) => LE32(To32(devid)) + Field16(name)
    case Switch(devid, name) => LE32(To32(devid)) + Field16(name)
    case ChannelsOf(devid) => LE32(To32(devid))
    case DoAct(devid, id, p1, p2) => LE32(To32(devid)) + LE16(To16(id)) + LE16(To16(p1)) + LE32(To32(p2))
    case DropScene(name) => Field16(name)
    case Enter(name) => Field16(name)
    case Scenes => []
    case PutScene =>
      StrField(TestSceneName) + [SceneCodec.ActionMark, 0, 0, 1]
      + [SceneCodec.ActMark, 0] + LE16(1) + LE16(0) + LE16(12) + LE32(0)
  }

  /**
   * `deal_input_cmd`: the packet a console line sends. It is as long as
   * its header declares, and the hub's header check accepts it, for the
   * command the line names, when it arrives whole.
   */
  function Request(c: Codes, l: Line): (r: bytes)
    requires ValidCodes(c)
    ensures |r| == Size(l) && Get16(r, 2) == Size(l)
    ensures Serve.Accepted(c, r, |r|, Command(l))
  {
    BodySize(l);
    Wire.Frame(c, Command(l), Body(l))
  }

  lemma BodySize(l: Line)
    ensures 4 + |Body(l)| == Size(l)
  {
    match l
    case PutTimer(_, _) =>
    case Adddev(_) =>
    case PutConfig(_, _, _) =>
    case PutChannel(_, _, _) =>
    case DropChannel(_, _) =>
    case Switch(_, _) =>
    case DropScene(_) =>
    case Enter(_) =>
    case PutScene =>
    case _ =>
  }

  /** A hub receive buffer (at least 40 bytes) that begins with the request a line sends. */
  predicate Holds(c: Codes, buf: bytes, l: Line)
    requires ValidCodes(c)
  {
    |buf| >= 40 && Size(l) <= |buf| && buf[..Size(l)] == Request(c, l)
  }

  /** The request's body, at its offset in a buffer that holds it. */
  lemma BodyAt(c: Codes, buf: bytes, l: Line)
    requires ValidCodes(c) && Holds(c, buf, l)
    ensures buf[4..Size(l)] == Body(l) && Get16(buf, 2) == Size(l)
    ensures Serve.Accepted(c, buf, Size(l), Command(l))
  {
    var r := Request(c, l);
    assert r[4..] == Body(l);
    PrefixAccepted(c, buf, r, Command(l));
  }

  /** A buffer that starts with an accepted request is accepted with the request's length, and carries its body. */
  lemma PrefixAccepted(c: Codes, buf: bytes, r: bytes, k: Cmd)
    requires ValidCodes(c) && |buf| >= 40 && 4 <= |r| <= |buf| && buf[..|r|] == r
    requires Serve.Accepted(c, r, |r|, k)
    ensures buf[4..|r|] == r[4..] && Get16(buf, 2) == Get16(r, 2)
    ensures Serve.Accepted(c, buf, |r|, k)
  {
    assert buf[0] == r[0] && buf[1] == r[1] && buf[2] == r[2] && buf[3] == r[3];
    assert Get16(buf, 0) == Get16(r, 0);
  }

  /** "set channel" is 28 bytes; the hub reads the device @4, the name @8 as stored and the channel number @24. */
  lemma ServerReadsSetChannel(c: Codes, buf: bytes, devid: int, name: bytes, cid: int)
    requires ValidCodes(c) && Holds(c, buf, PutChannel(devid, name, cid))
    ensures Serve.Accepted(c, buf, 28, SetChannel)
    ensures Get32(buf, 4) == To32(devid) && Wire.ReadName(buf, 8) == Field16(name) && Get32(buf, 24) == To32(cid)
  {
    BodyAt(c, buf, PutChannel(devid, name, cid));
    var body := LE32(To32(devid)) + Field16(name) + LE32(To32(cid));
    assert buf[4..28] == body;
    assert buf[4..8] == LE32(To32(devid));
    LE32Get(To32(devid), buf, 4);
    assert buf[8..24] == Field16(name);
    SceneCodec.Field16Idem(name);
    assert buf[24..28] == LE32(To32(cid));
    LE32Get(To32(cid), buf, 24);
  }

  /** "switch channel" is 24 bytes; the hub reads the device @4 and the name @8 as stored. */
  lemma ServerReadsSwitch(c: Codes, buf: bytes, devid: int, name: bytes)
    requires ValidCodes(c) && Holds(c, buf, Switch(devid, name))
    ensures Serve.Accepted(c, buf, 24, SwitchChannel)
    ensures Get32(buf, 4) == To32(devid) && Wire.ReadName(buf, 8) == Field16(name)
  {
    BodyAt(c, buf, Switch(devid, name));
    assert buf[4..24] == LE32(To32(devid)) + Field16(name);
    assert buf[4..8] == LE32(To32(devid));
    LE32Get(To32(devid), buf, 4);
    assert buf[8..24] == Field16(name);
    SceneCodec.Field16Idem(name);
  }

  /**
   * A channel the client sets (and the hub stores) is the one a later
   * "switch channel" with the same device and name tunes to.
   */
  lemma ClientSetThenSwitch(c: Codes, b: Serve.Box, put: bytes, sw: bytes, devid: int, name: bytes, cid: int, drv: Serve.DriverCalls)
    requires ValidCodes(c) && Holds(c, put, PutChannel(devid, name, cid)) && Holds(c, sw, Switch(devid, name))
    requires Dispatch.SetDevChannel(b.hub, To32(devid), Field16(name), To32(cid)).0 == Ok
    ensures var r := Serve.DealTcp(c, Serve.DealTcp(c, b, put, 28, drv).box, sw, 24, drv);
      r.frames == [] && r.outs == [Enqueue(SetStatusTask(Status(To32(devid), [Pair(c.tvStatusChannel, To32(cid))]), true))]
  {
    ServerReadsSetChannel(c, put, devid, name, cid);
    ServerReadsSwitch(c, sw, devid, name);
    Serve.ServeChannelSetThenSwitch(c, b, put, 28, sw, 24, drv);
  }

  /** "action" is 16 bytes with the device @4, the action id @8, its parameters @10 and @12. */
  lemma ServerReadsAction(c: Codes, buf: bytes, devid: int, id: int, p1: int, p2: int)
    requires ValidCodes(c) && Holds(c, buf, DoAct(devid, id, p1, p2))
    ensures Serve.Accepted(c, buf, 16, DoAction) && Get16(buf, 2) == 16
    ensures Get32(buf, 4) == To32(devid) && Get16(buf, 8) == To16(id) && Get16(buf, 10) == To16(p1) && Get32(buf, 12) == To32(p2)
  {
    var e := Body(DoAct(devid, id, p1, p2));
    BodyAt(c, buf, DoAct(devid, id, p1, p2));
    ActBodyFields(devid, id, p1, p2);
    Get32In(buf, 4, e, 0);
    Get16In(buf, 4, e, 4);
    Get16In(buf, 4, e, 6);
    Get32In(buf, 4, e, 8);
  }

  lemma ActBodyFields(devid: int, id: int, p1: int, p2: int)
    ensures var e := Body(DoAct(devid, id, p1, p2));
      |e| == 12 && Get32(e, 0) == To32(devid) && Get16(e, 4) == To16(id) && Get16(e, 6) == To16(p1) && Get32(e, 8) == To32(p2)
  {
    var e := Body(DoAct(devid, id, p1, p2));
    assert e[0..4] == LE32(To32(devid));
    LE32Get(To32(devid), e, 0);
    assert e[4..6] == LE16(To16(id));
    LE16Get(To16(id), e, 4);
    assert e[6..8] == LE16(To16(p1));
    LE16Get(To16(p1), e, 6);
    assert e[8..12] == LE32(To32(p2));
    LE32Get(To32(p2), e, 8);
  }

  /** The hub queues exactly the action typed, as a task that replies to the client, and writes nothing now. */
  lemma ServerQueuesAction(c: Codes, b: Serve.Box, buf: bytes, devid: int, id: int, p1: int, p2: int, drv: Serve.DriverCalls)
    requires ValidCodes(c) && Holds(c, buf, DoAct(devid, id, p1, p2))
    ensures Serve.DealTcp(c, b, buf, 16, drv) ==
        Serve.Served(b, 16, [], [Enqueue(DoActionTask(ActionReq(To32(devid), To16(id), To16(p1), To32(p2)), true))])
  {
    ServerReadsAction(c, buf, devid, id, p1, p2);
    Serve.ServeDoActionQueues(c, b, buf, 16, drv);
  }

  /** The "set scene" body's action part is the encoding of `TestAction`. */
  lemma TestActionEncoded()
    ensures Body(PutScene) == StrField(TestSceneName) + SceneCodec.EncAction(TestAction)
    ensures SceneCodec.ActionFits(TestAction)
  {
    assert SceneCodec.EncActs(TestAction.acts) == SceneCodec.EncAct(TestAction.acts[0]);
  }

  /** A buffer holding `TestAction`'s encoding from 20 to a declared end of 36 parses to that one action. */
  lemma TestActionParses(buf: bytes)
    requires |buf| >= 36 && buf[20..36] == SceneCodec.EncAction(TestAction) && SceneCodec.ActionFits(TestAction)
    ensures SceneCodec.ParseAction(buf, 20, SceneCodec.MaxActs) == Success((TestAction, 36))
    ensures SceneCodec.ParseActions(buf, 36, 20, 0, SceneCodec.MaxActs) == Success([TestAction])
  {
    SceneCodec.ParseActionOf(buf, 20, TestAction);
    assert SceneCodec.ParseActions(buf, 36, 36, 1, SceneCodec.MaxActs) == Success([]);
    assert [TestAction] + [] == [TestAction];
  }

  /** The stored form of the `test-scene` name field is the field itself. */
  lemma TestNameStored()
    ensures Field16(StrField(TestSceneName)) == StrField(TestSceneName)
  {
    CStrPadded(TestSceneName, 6);
    assert StrField(TestSceneName)[..16] == StrField(TestSceneName);
  }

  /**
   * "set scene" is 36 bytes: the hub reads one unconditioned action of one
   * act ending exactly at byte 36, and the scene `test-scene` holding it,
   * with the corrected parser and as the parser is written alike.
   */
  lemma ServerParsesSetScene(c: Codes, buf: bytes)
    requires ValidCodes(c) && Holds(c, buf, PutScene)
    ensures Serve.Accepted(c, buf, 36, SetScene) && Get16(buf, 2) == 36
    ensures SceneCodec.ParseAction(buf, 20, SceneCodec.MaxActs) == Success((TestAction, 36))
    ensures SceneCodec.ParseScene(buf, 36) == Success(TestScene)
    ensures SceneCodec.ParseSceneAsWritten(buf, 36) == Success(TestScene)
  {
    BodyAt(c, buf, PutScene);
    TestSceneParses(buf);
  }

  /** A buffer whose bytes 4 to 36 are the "set scene" body parses to `test-scene` over a declared length of 36. */
  lemma TestSceneParses(buf: bytes)
    requires |buf| >= 36 && buf[4..36] == Body(PutScene)
    ensures SceneCodec.ParseAction(buf, 20, SceneCodec.MaxActs) == Success((TestAction, 36))
    ensures SceneCodec.ParseScene(buf, 36) == Success(TestScene)
    ensures SceneCodec.ParseSceneAsWritten(buf, 36) == Success(TestScene)
  {
    TestActionEncoded();
    assert buf[20..36] == SceneCodec.EncAction(TestAction);
    TestActionParses(buf);
    assert SceneCodec.Span(buf, 4, 16) == StrField(TestSceneName);
    TestNameStored();
    SceneCodec.ParseSceneAgrees(buf, 36);
  }

  /**
   * "set timer" declares 24 bytes, but the hub reads the timer's second
   * action parameter from bytes 24 to 27, past the request. The rule it
   * sends has flag 0, so the stored timer is disabled and never fires,
   * whatever the box mode and the clock.
   */
  lemma SetTimerNeverFires(c: Codes, buf: bytes, devid: int, tid: int, mode: nat, clk: TimerStep.Clock)
    requires ValidCodes(c) && Holds(c, buf, PutTimer(devid, tid))
    ensures Serve.Accepted(c, buf, 24, SetTimer) && Get16(buf, 2) == 24
    ensures var (d, t) := Wire.ReadTimer(buf);
      && d == To32(devid) && t.id == To16(tid) && t.flag == 0 && t.hour == 21 && t.min == 49
      && t.actParam2 == Get32(buf, 24)
    ensures !TimerStep.TimerFires(TimerSlot(Wire.ReadTimer(buf).1, true, false), mode, clk)
  {
    BodyAt(c, buf, PutTimer(devid, tid));
    assert buf[4..24] == LE32(To32(devid)) + LE16(To16(tid)) + TimerRule + Zeros(4);
    assert buf[4..8] == LE32(To32(devid));
    LE32Get(To32(devid), buf, 4);
    assert buf[8..10] == LE16(To16(tid));
    LE16Get(To16(tid), buf, 8);
    assert buf[11] == 0 && buf[12] == 21 && buf[13] == 49;
    assert !Bit(0, TimerStep.EnabledBit);
  }

  /* ---------------- discovery ---------------- */

  /** `probe_box`'s broadcast: BOX_DISCOVER, 8 bytes, then the bytes 0 and 1 and box id 1. */
  function DiscoverRequest(c: Codes): (r: bytes)
    requires ValidCodes(c)
    ensures |r| == 8 && Get16(r, 2) == 8
  {
    Wire.Frame(c, BoxDiscover, [0, 1] + LE16(1))
  }

  /** The hub answers the client's broadcast with its discovery reply, from which the client reads box id 1 @6. */
  lemma DiscoveryAnswered(c: Codes)
    requires ValidCodes(c)
    ensures Wire.DealUdp(c, DiscoverRequest(c), 8) == Some(Wire.DiscoverReply(c))
    ensures Get16(Wire.DiscoverReply(c), 6) == Wire.BoxId == 1
  {
    var r := DiscoverRequest(c);
    assert Wire.CheckUdp(c, r, 8) == 0;
  }

  /* ---------------- responses ---------------- */

  /** The number of `w`-byte records after a `head`-byte prefix in a packet of declared length `len`, as the client's loop bound computes it. */
  function Count(len: int, head: nat, w: nat): (r: nat)
    requires w > 0
    ensures head + w * r <= len || r == 0
  {
    var n := Wire.CDiv(len - head, w);
    if n <= 0 then 0 else n
  }

  /** GET_DEVS_RESP as the client reads it: the ids from offset 4. */
  function DevList(b: bytes, len: int): (r: seq<uint32>)
    requires len <= |b|
  {
    var n := Count(len, 4, 4);
    seq(n, i requires 0 <= i < n => Get32(b, 4 + 4 * i))
  }

  /** The client reads back every id of the hub's device list, in order. */
  lemma ClientReadsDevList(c: Codes, ids: seq<uint32>)
    requires ValidCodes(c) && 4 + 4 * |ids| < 0x1_0000
    ensures var b := Wire.ReplyDevIdList(c, ids);
      DevList(b, Get16(b, 2)) == ids
  {
    var b := Wire.ReplyDevIdList(c, ids);
    assert Get16(b, 2) == 4 + 4 * |ids|;
    assert Count(Get16(b, 2), 4, 4) == |ids|;
    forall i | 0 <= i < |ids| ensures DevList(b, Get16(b, 2))[i] == ids[i] {
      Wire.DevIdListRoundTrip(c, ids, i);
    }
  }

  /** GET_INFO_RESP as the client reads it. */
  datatype InfoView = InfoView(devid: uint32, drvid: uint32, cls: uint16, iface: uint16, mac: bytes)

  /** The client's GET_INFO_RESP decoder: a 6-byte address @16. */
  function ReadInfo(b: bytes): (r: InfoView)
    requires |b| >= 22
    ensures |r.mac| == 6
  {
    InfoView(Get32(b, 4), Get32(b, 8), Get16(b, 12), Get16(b, 14), b[16..22])
  }

  /**
   * The info packet does not round-trip: the client reads the address
   * @16, where the hub put the low half of the device type, so the client
   * sees the type's two bytes then the first four address bytes. It gets
   * the right address only when those happen to coincide.
   */
  lemma InfoMacMisread(c: Codes, d: Device)
    requires ValidCodes(c)
    ensures var v := ReadInfo(Wire.ReplyDevInfo(c, d));
      && v.devid == d.id && v.drvid == d.drvid && v.cls == To16(d.info.cls) && v.iface == To16(d.info.iface)
      && v.mac == LE16(To16(d.info.devType)) + d.info.mac[..4]
      && (v.mac == d.info.mac[..6] <==> LE16(To16(d.info.devType)) == d.info.mac[..2] && d.info.mac[..4] == d.info.mac[2..6])
  {
    var b := Wire.ReplyDevInfo(c, d);
    Wire.DevInfoOverlap(c, d);
    assert b[12..14] == LE16(To16(d.info.cls));
    LE16Get(To16(d.info.cls), b, 12);
    assert b[14..16] == LE16(To16(d.info.iface));
    LE16Get(To16(d.info.iface), b, 14);
    assert b[16..18] == LE16(To16(d.info.devType));
    assert b[16..22] == b[16..18] + b[18..22];
    assert b[18..22] == d.info.mac[..4];
    var v := ReadInfo(b);
    var t := LE16(To16(d.info.devType));
    if v.mac == d.info.mac[..6] {
      assert t == v.mac[..2] == d.info.mac[..2];
      assert d.info.mac[..4] == v.mac[2..6] == d.info.mac[2..6];
    }
  }

  /** A device whose type is 1 and whose address starts with a zero byte shows the client a wrong address. */
  lemma InfoMacMisreadExample(c: Codes, d: Device)
    requires ValidCodes(c) && d.info.devType == 1 && d.info.mac[0] == 0
    ensures ReadInfo(Wire.ReplyDevInfo(c, d)).mac != d.info.mac[..6]
  {
    InfoMacMisread(c, d);
    assert LE16(To16(d.info.devType))[0] == 1;
  }

  /** GET_CONFIG_RESP as the client reads it: the names as `strncpy` copies them. */
  datatype ConfigView = ConfigView(devid: uint32, name: bytes, location: bytes)

  function ReadConfig(b: bytes): (r: ConfigView)
    requires |b| >= 40
    ensures |r.name| == 16 && |r.location| == 16
  {
    ConfigView(Get32(b, 4), Field16(b[8..24]), Field16(b[24..40]))
  }

  /** The client reads back the device and a configuration that compares equal, field by field, to the stored one. */
  lemma ClientReadsConfig(c: Codes, devid: uint32, cfg: Config)
    requires ValidCodes(c) && |cfg.name| == 16 && |cfg.location| == 16
    ensures var v := ReadConfig(Wire.ReplyDevCfg(c, devid, cfg));
      v == ConfigView(devid, Field16(cfg.name), Field16(cfg.location))
      && Key16(v.name) == Key16(cfg.name) && Key16(v.location) == Key16(cfg.location)
  {
    Wire.CfgRoundTrip(c, devid, cfg);
    Field16Key(cfg.name);
    Field16Key(cfg.location);
  }

  /** GET_CHANNEL_RESP as the client reads it. */
  datatype ChannelView = ChannelView(devid: uint32, name: bytes, cid: uint32)

  function ReadChannel(b: bytes): (r: ChannelView)
    requires |b| >= 28
    ensures |r.name| == 16
  {
    ChannelView(Get32(b, 4), Field16(b[8..24]), Get32(b, 24))
  }

  /** The client reads back the device, the channel number and a name that compares equal to the stored one. */
  lemma ClientReadsChannel(c: Codes, devid: uint32, name: bytes, cid: uint32)
    requires ValidCodes(c) && |name| == 16
    ensures var v := ReadChannel(Wire.ReplyChannel(c, devid, name, cid));
      v == ChannelView(devid, Field16(name), cid) && Key16(v.name) == Key16(name)
  {
    var b := Wire.ReplyChannel(c, devid, name, cid);
    Wire.ChannelRoundTrip(c, devid, name, cid);
    assert b[8..24] == name;
    Field16Key(name);
  }

  /** GET_STATUS_RESP and STATUS_UPDATE as the client reads them: (id, value) pairs from 8, as many as the declared length holds. */
  function ReadStatusResp(b: bytes, len: int): (r: Status)
    requires 8 <= |b| && len <= |b|
    ensures |r.pairs| == Count(len, 8, 4)
    ensures forall i :: 0 <= i < |r.pairs| ==> r.pairs[i] == Pair(Get16(b, 8 + 4 * i), Get16(b, 10 + 4 * i))
  {
    var n := Count(len, 8, 4);
    Status(Get32(b, 4), seq(n, i requires 0 <= i < n => Pair(Get16(b, 8 + 4 * i), Get16(b, 10 + 4 * i))))
  }

  /** The client reads back every pair of a status packet, however many there are, where the hub reads at most 8. */
  lemma ClientReadsStatus(c: Codes, k: Cmd, st: Status)
    requires ValidCodes(c) && 8 + 4 * |st.pairs| < 0x1_0000
    requires forall i :: 0 <= i < |st.pairs| ==> st.pairs[i].id < 0x1_0000 && 0 <= st.pairs[i].val < 0x1_0000
    ensures var b := Wire.StatusFrame(c, k, st);
      ReadStatusResp(b, Get16(b, 2)) == st
  {
    var b := Wire.StatusFrame(c, k, st);
    var body := LE32(st.devid) + Wire.PairBytes(st.pairs);
    var n := |st.pairs|;
    assert b[4..4 + |body|] == body;
    assert body[0..4] == LE32(st.devid);
    LE32Get(st.devid, body, 0);
    Get32In(b, 4, body, 0);
    assert body[4..4 + 4 * n] == Wire.PairBytes(st.pairs);
    Sub(b, 4, body, 4, 4 + 4 * n);
    assert Count(Get16(b, 2), 8, 4) == n;
    var r := ReadStatusResp(b, Get16(b, 2));
    forall i | 0 <= i < n ensures r.pairs[i] == st.pairs[i] {
      Wire.PairAt(b, 8, st.pairs, i);
      assert r.pairs[i] == Pair(Get16(b, 8 + 4 * i), Get16(b, 10 + 4 * i));
      To16Small(st.pairs[i].id);
      To16Small(st.pairs[i].val);
    }
  }

  /** GET_TIMER_RESP as the client reads it: the date as the wire carries it. */
  datatype TimerView = TimerView(
    devid: uint32, id: uint16, workMode: uint8, flag: uint8,
    hour: uint8, min: uint8, sec: uint8, wday: uint8,
    year: uint16, mon: uint8, mday: uint8,
    actId: uint16, actParam1: uint16, actParam2: uint32)

  function ReadTimerResp(b: bytes): (r: TimerView)
    requires |b| >= 28
  {
    TimerView(Get32(b, 4), Get16(b, 8), b[10], b[11], b[12], b[13], b[14], b[15],
              Get16(b, 16), b[18], b[19], Get16(b, 20), Get16(b, 22), Get32(b, 24))
  }

  /** The client reads every timer field at the offset the hub writes it; the date arrives as the wire date. */
  lemma ClientReadsTimer(c: Codes, devid: uint32, t: Timer)
    requires ValidCodes(c)
    ensures ReadTimerResp(Wire.ReplyTimer(c, devid, t)) ==
      TimerView(devid, t.id, t.workMode, t.flag, t.hour, t.min, t.sec, t.wday,
                To16(Wire.WireDate(t).0), To8(Wire.WireDate(t).1), t.mday, t.actId, t.actParam1, t.actParam2)
  {
    Wire.TimerFieldsBack(c, devid, t);
  }

  /** EVENT as the client reads it. */
  datatype EventView = EventView(devid: uint32, evt: uint16, param1: uint16, param2: uint32)

  function ReadEvent(b: bytes): (r: EventView)
    requires |b| >= 16
  {
    EventView(Get32(b, 4), Get16(b, 8), Get16(b, 10), Get32(b, 12))
  }

  /** An event the hub sends as EVENT is read back by the client, each field cut to its wire width. */
  lemma ClientReadsEvent(c: Codes, devid: uint32, evt: int, p1: int, p2: int, dev: Option<Device>)
    requires ValidCodes(c) && !Wire.IsOnlineEvent(c, EventResp(devid, evt, p1, p2))
    ensures var p := Wire.NotifyPacket(c, EventResp(devid, evt, p1, p2), dev);
      p.Some? && |p.value| == 16 && ReadEvent(p.value) == EventView(devid, To16(evt), To16(p1), To32(p2))
  {
    var p := Wire.NotifyPacket(c, EventResp(devid, evt, p1, p2), dev).value;
    var body := LE32(devid) + LE16(To16(evt)) + LE16(To16(p1)) + LE32(To32(p2));
    assert p[4..] == body;
    assert p[4..8] == LE32(devid);
    LE32Get(devid, p, 4);
    assert p[8..10] == LE16(To16(evt));
    LE16Get(To16(evt), p, 8);
    assert p[10..12] == LE16(To16(p1));
    LE16Get(To16(p1), p, 10);
    assert p[12..16] == LE32(To32(p2));
    LE32Get(To32(p2), p, 12);
  }

  /** RESULT as the client reads it: the code @10. */
  function ReadResultCode(b: bytes): (r: uint16)
    requires |b| >= 12
  {
    Get16(b, 10)
  }

  /** The client reads the result code the hub sends, as 16 bits. */
  lemma ClientReadsResult(c: Codes, code: int, devid: uint32, cmd: uint16)
    requires ValidCodes(c)
    ensures ReadResultCode(Wire.ReplyResult(c, code, devid, cmd)) == To16(code)
  {
    Wire.ResultRoundTrip(c, code, devid, cmd);
  }

  /** DEV_ONLINE as the client reads it: identity, 8-byte address, the names as `strncpy` copies them, and the slot pairs from 60. */
  datatype OnlineView = OnlineView(
    devid: uint32, drvid: uint32, cls: uint16, iface: uint16, devType: uint32,
    mac: bytes, name: bytes, location: bytes, pairs: seq<Pair>)

  function ReadOnline(b: bytes, len: int): (r: OnlineView)
    requires 60 <= |b| && len <= |b|
    ensures |r.mac| == 8 && |r.name| == 16 && |r.location| == 16
  {
    OnlineView(Get32(b, 4), Get32(b, 8), Get16(b, 12), Get16(b, 14), Get32(b, 16),
               b[20..28], Field16(b[28..44]), Field16(b[44..60]), OnlinePairs(b, len))
  }

  /** The (slot, value) pairs that fit in the declared length after the 60-byte head. */
  function OnlinePairs(b: bytes, len: int): seq<Pair>
    requires len <= |b|
  {
    var n := Count(len, 60, 4);
    seq(n, i requires 0 <= i < n => Pair(Get16(b, 60 + 4 * i), Get16(b, 62 + 4 * i)))
  }

  /**
   * The client reads the device the hub announces: its identity and
   * address whole, class, interface and type at their wire widths, names
   * that compare equal to the stored ones, and every cached slot paired
   * with its number.
   */
  lemma ClientReadsOnline(c: Codes, d: Device)
    requires ValidCodes(c) && 60 + 4 * d.status.num < 0x1_0000
    requires |d.config.name| == 16 && |d.config.location| == 16
    ensures var b := Wire.OnlineEvent(c, d);
      var v := ReadOnline(b, Get16(b, 2));
      && v.devid == d.id && v.drvid == d.drvid
      && v.cls == To16(d.info.cls) && v.iface == To16(d.info.iface) && v.devType == To32(d.info.devType)
      && v.mac == d.info.mac
      && Key16(v.name) == Key16(d.config.name) && Key16(v.location) == Key16(d.config.location)
      && |v.pairs| == d.status.num
      && forall i :: 0 <= i < |v.pairs| ==> v.pairs[i] == Pair(To16(i), To16(CacheVal(d.status, i)))
  {
    Wire.OnlineEventHead(c, d);
    Field16Key(d.config.name);
    Field16Key(d.config.location);
    OnlinePairsRead(c, d);
  }

  lemma OnlinePairsRead(c: Codes, d: Device)
    requires ValidCodes(c) && 60 + 4 * d.status.num < 0x1_0000
    ensures var b := Wire.OnlineEvent(c, d);
      var p := OnlinePairs(b, Get16(b, 2));
      && |p| == d.status.num
      && forall i :: 0 <= i < |p| ==> p[i] == Pair(To16(i), To16(CacheVal(d.status, i)))
  {
    var b := Wire.OnlineEvent(c, d);
    assert Count(Get16(b, 2), 60, 4) == d.status.num;
    var p := OnlinePairs(b, Get16(b, 2));
    forall i | 0 <= i < |p| ensures p[i] == Pair(To16(i), To16(CacheVal(d.status, i))) {
      Wire.OnlineEventSlots(c, d, i);
    }
  }

  /**
   * SCENE_UPDATE: the client runs the same scene parser as the hub on the
   * declared length, and gets back every scene the hub can send, with its
   * name as the 16-byte field holds it.
   */
  lemma ClientReadsSceneUpdate(c: Codes, sc: DeviceTypes.SceneRec)
    requires ValidCodes(c) && SceneCodec.SceneFits(sc)
    ensures var b := SceneCodec.EncodeScene(c, sc);
      SceneCodec.ParseSceneAsWritten(b, Get16(b, 2)) == Success(DeviceTypes.SceneRec(Field16(sc.name), sc.actions))
  {
    var b := SceneCodec.EncodeScene(c, sc);
    SceneCodec.EncActionsShort(sc.actions);
    assert Get16(b, 2) == |b|;
    SceneCodec.SceneRoundTrip(c, sc);
    SceneCodec.ParseSceneAgrees(b, |b|);
  }
}

=== FILE: phy_zigbee.dfy ===
/**
 * The Zigbee link's framing (`phy_data_zigbee`): every frame on the serial
 * line is an 8-byte header of four 16-bit fields in native (little-endian)
 * order (magic 0x55AA, total length, device address, port) followed by the
 * payload. Frames from a driver are wrapped and queued for the line; bytes
 * from the line are parsed and, when they carry a payload, handed to the
 * manager.
 */
module PhyZigbee {
  import opened Bytes
  import opened HubTypes
  import opened PyPhy

  const Magic: uint16 := 0x55AA
  const HeaderLen: nat := 8

  predicate Fits16(x: int) { 0 <= x < 0x1_0000 }

  /** A 16-bit field as `struct` reads it with format `h`: two's complement. */
  function Signed16(v: uint16): (r: int)
    ensures -0x8000 <= r < 0x8000 && To16(r) == v
  {
    if v < 0x8000 then v else v - 0x1_0000
  }

  /** The header fields packed with `struct.pack('4H', ...)`. */
  function Head(len: uint16, addr: uint16, port: uint16): (r: bytes)
    ensures |r| == 8
  {
    LE16(Magic) + LE16(len) + LE16(addr) + LE16(port)
  }

  lemma HeadFields(len: uint16, addr: uint16, port: uint16)
    ensures var h := Head(len, addr, port);
      Get16(h, 0) == Magic && Get16(h, 2) == len && Get16(h, 4) == addr && Get16(h, 6) == port
  {
    var h := Head(len, addr, port);
    LE16Get(Magic, h, 0);
    LE16Get(len, h, 2);
    LE16Get(addr, h, 4);
    LE16Get(port, h, 6);
  }

  /**
   * `make_header` and the payload after it. `struct.pack` with `H` raises
   * for a value outside 0..0xFFFF, so there is no frame (`None`) for such
   * an address or port or for a payload that makes the total length
   * overflow 16 bits.
   */
  function MakeFrame(addr: int, port: int, data: bytes): (r: Option<bytes>)
    ensures r.Some? <==> Fits16(addr) && Fits16(port) && HeaderLen + |data| < 0x1_0000
    ensures r.Some? ==> |r.value| == HeaderLen + |data| && r.value[HeaderLen..] == data
  {
    if Fits16(addr) && Fits16(port) && HeaderLen + |data| < 0x1_0000 then
      Some(Head(HeaderLen + |data|, addr, port) + data)
    else None
  }

  datatype Header = Header(addr: int, port: int, payload: bytes)

  /**
   * `parse_header` as written: the header is unpacked with `4h`, signed,
   * so a field of 0x8000 or more reads as a negative number. Fewer than 8
   * bytes, a wrong magic, or a length field that is not the frame's length
   * give nothing.
   */
  function ParseHeaderAsWritten(raw: bytes): (r: Option<Header>)
    ensures r.Some? ==> |raw| >= HeaderLen && r.value.payload == raw[HeaderLen..]
  {
    if |raw| < HeaderLen then None
    else if Signed16(Get16(raw, 0)) != Magic then None
    else if |raw| != Signed16(Get16(raw, 2)) then None
    else Some(Header(Signed16(Get16(raw, 4)), Signed16(Get16(raw, 6)), raw[HeaderLen..]))
  }

  /** `parse_header` as intended: unpacked with `4H`, the format the header is packed with. */
  function ParseHeader(raw: bytes): (r: Option<Header>)
    ensures r.Some? ==> |raw| >= HeaderLen && r.value.payload == raw[HeaderLen..]
    ensures r.Some? ==> Fits16(r.value.addr) && Fits16(r.value.port)
  {
    if |raw| < HeaderLen then None
    else if Get16(raw, 0) != Magic then None
    else if |raw| != Get16(raw, 2) then None
    else Some(Header(Get16(raw, 4), Get16(raw, 6), raw[HeaderLen..]))
  }

  lemma FrameFields(addr: int, port: int, data: bytes)
    requires MakeFrame(addr, port, data).Some?
    ensures var raw := MakeFrame(addr, port, data).value;
      Get16(raw, 0) == Magic && Get16(raw, 2) == |raw| && Get16(raw, 4) == addr && Get16(raw, 6) == port
  {
    var raw := MakeFrame(addr, port, data).value;
    var h := Head(HeaderLen + |data|, addr, port);
    HeadFields(HeaderLen + |data|, addr, port);
    assert raw[..8] == h;
    Get16In(raw, 0, h, 0);
    Get16In(raw, 0, h, 2);
    Get16In(raw, 0, h, 4);
    Get16In(raw, 0, h, 6);
  }

  /** Every frame the link builds parses back to its address, port and payload. */
  lemma FrameRoundTrip(addr: int, port: int, data: bytes)
    requires MakeFrame(addr, port, data).Some?
    ensures ParseHeader(MakeFrame(addr, port, data).value) == Some(Header(addr, port, data))
  {
    FrameFields(addr, port, data);
  }

  /** And only such frames parse: a parsed frame is exactly the one its fields rebuild. */
  lemma ParsedIsFrame(raw: bytes)
    requires ParseHeader(raw).Some?
    ensures var h := ParseHeader(raw).value;
      MakeFrame(h.addr, h.port, h.payload) == Some(raw)
  {
    var h := ParseHeader(raw).value;
    var f := MakeFrame(h.addr, h.port, h.payload).value;
    FrameFields(h.addr, h.port, h.payload);
    assert f[0] == raw[0] && f[1] == raw[1] && f[2] == raw[2] && f[3] == raw[3];
    assert f[4] == raw[4] && f[5] == raw[5] && f[6] == raw[6] && f[7] == raw[7];
    assert forall i :: 8 <= i < |raw| ==> f[i] == raw[i];
    assert |f| == |raw|;
    assert forall i :: 0 <= i < |raw| ==> f[i] == raw[i];
    assert f == raw;
  }

  /**
   * As written, a frame round-trips only while its address, port and total
   * length stay below 0x8000; a longer frame is rejected outright.
   */
  lemma AsWrittenRoundTrip(addr: int, port: int, data: bytes)
    requires MakeFrame(addr, port, data).Some?
    ensures addr < 0x8000 && port < 0x8000 && HeaderLen + |data| < 0x8000 ==>
      ParseHeaderAsWritten(MakeFrame(addr, port, data).value) == Some(Header(addr, port, data))
    ensures HeaderLen + |data| >= 0x8000 ==> ParseHeaderAsWritten(MakeFrame(addr, port, data).value).None?
  {
    FrameFields(addr, port, data);
  }

  /** A device at short address 0x8001 is read back at address -32767. */
  lemma HighAddressMisread()
    ensures MakeFrame(0x8001, 8000, [1]).Some?
    ensures ParseHeaderAsWritten(MakeFrame(0x8001, 8000, [1]).value) == Some(Header(-0x7FFF, 8000, [1]))
    ensures ParseHeader(MakeFrame(0x8001, 8000, [1]).value) == Some(Header(0x8001, 8000, [1]))
  {
    FrameFields(0x8001, 8000, [1]);
  }

  /**
   * `phy_data_zigbee(raw)` for bytes from the line: direction up, the
   * header parsed by `parse_header` as written, so an address or port of
   * 0x8000 or more arrives negative.
   */
  function Receive(raw: bytes): (r: PhyData)
    ensures r.phy == Zigbee && r.direction == Up && r.raw == raw
    ensures r.data.Some? <==> ParseHeaderAsWritten(raw).Some?
    ensures r.data.Some? ==> ParseHeader(raw).Some? && |raw| < 0x8000
    ensures r.data.Some? ==> r.addr == Some(Signed16(Get16(raw, 4))) && r.port == Some(Signed16(Get16(raw, 6)))
  {
    match ParseHeaderAsWritten(raw)
    case None => PhyData(Zigbee, None, None, None, Up, raw)
    case Some(h) => PhyData(Zigbee, Some(h.addr), Some(h.port), Some(h.payload), Up, raw)
  }

  /**
   * `phy_data_zigbee(frame)` for a frame from a driver: the link becomes
   * Zigbee, the direction down, and the raw bytes the framed payload.
   */
  function Wrap(addr: int, port: int, data: bytes): (r: Option<PhyData>)
    ensures r.Some? <==> MakeFrame(addr, port, data).Some?
    ensures r.Some? ==> r.value.direction == Down && r.value.raw == MakeFrame(addr, port, data).value
  {
    match MakeFrame(addr, port, data)
    case None => None
    case Some(raw) => Some(PhyData(Zigbee, Some(addr), Some(port), Some(data), Down, raw))
  }

  /** `on_data`: a received frame goes to the manager only when it parsed and carries a payload. */
  function OnData(raw: bytes): (r: Option<PhyData>)
    ensures r.Some? <==> ParseHeaderAsWritten(raw).Some? && |raw| > HeaderLen
    ensures r.Some? ==> Valid(r.value) && r.value == Receive(raw)
  {
    var p := Receive(raw);
    if Valid(p) then Some(p) else None
  }

  /** `write`: the bytes queued for the line. */
  function Write(addr: int, port: int, data: bytes): (r: Option<bytes>)
    ensures r.Some? ==> |r.value| == HeaderLen + |data|
  {
    match Wrap(addr, port, data)
    case None => None
    case Some(p) => Some(p.raw)
  }

  /**
   * What one end writes, the other end's `on_data` hands to its manager
   * with the same payload and with the address and port read back signed:
   * unchanged below 0x8000, less 0x10000 from there on. An empty payload,
   * or a frame of 0x8000 bytes or more, is dropped.
   */
  lemma WriteThenReceive(addr: int, port: int, data: bytes)
    requires Write(addr, port, data).Some?
    ensures var raw := Write(addr, port, data).value;
      && (data != [] && HeaderLen + |data| < 0x8000 ==>
            OnData(raw) == Some(PhyData(Zigbee, Some(Signed16(addr)), Some(Signed16(port)), Some(data), Up, raw)))
      && (data == [] || HeaderLen + |data| >= 0x8000 ==> OnData(raw).None?)
    ensures addr < 0x8000 && port < 0x8000 ==> Signed16(addr) == addr && Signed16(port) == port
  {
    FrameFields(addr, port, data);
  }

  /** A payload sent to address 0x8001 reaches the manager from address -32767. */
  lemma HighAddressReceived()
    ensures Write(0x8001, 8000, [1]).Some?
    ensures OnData(Write(0x8001, 8000, [1]).value).Some?
    ensures OnData(Write(0x8001, 8000, [1]).value).value.addr == Some(-0x7FFF)
  {
    WriteThenReceive(0x8001, 8000, [1]);
  }
}

=== FILE: py_action.dfy ===
/**
 * `hsb_dev_action`: a device action `{devid, epid, val}` read from a JSON
 * object. The object keeps its last good fields when a later `set_ob`
 * fails; `valid` tells whether the latest one succeeded.
 */
module PyAction {
  import opened HubTypes
  import opened PyValue

  datatype Fields = Fields(devid: Value, epid: Value, val: Value)

  /** The action object: its fields once some `set_ob` has succeeded, and the latest verdict. */
  datatype DevAction = DevAction(fields: Option<Fields>, valid: bool)

  const ActionKeys: set<string> := {"devid", "epid", "val"}

  /** `set_ob`: take the three fields when all are present, otherwise only clear `valid`. */
  function SetOb(a: DevAction, act: Ob): (r: DevAction)
    ensures r.valid <==> "devid" in act && "epid" in act && "val" in act
    ensures !r.valid ==> r.fields == a.fields
    ensures r.valid ==> r.fields.Some? && GetOb(r.fields.value) == Restrict(act, ActionKeys)
  {
    if "devid" in act && "epid" in act && "val" in act then
      DevAction(Some(Fields(act["devid"], act["epid"], act["val"])), true)
    else
      DevAction(a.fields, false)
  }

  /** The constructor: `set_ob` on an object that has no fields yet. */
  function New(act: Ob): (r: DevAction)
    ensures r.valid <==> ActionKeys <= act.Keys
    ensures r.valid ==> r.fields.Some? && GetOb(r.fields.value) == Restrict(act, ActionKeys)
    ensures !r.valid ==> r.fields.None?
  {
    SetOb(DevAction(None, false), act)
  }

  /** `get_ob`: exactly the three keys. */
  function GetOb(f: Fields): (r: Ob)
    ensures r.Keys == ActionKeys
  {
    map["devid" := f.devid, "epid" := f.epid, "val" := f.val]
  }

  /** Reading back what `get_ob` wrote gives the same action, whatever the object held before. */
  lemma GetSetRoundTrip(a: DevAction, f: Fields)
    ensures SetOb(a, GetOb(f)) == DevAction(Some(f), true)
  {
  }

  /** A failed `set_ob` is idempotent and a good one forgets what was there: only the last object counts. */
  lemma SetObLastWins(a: DevAction, x: Ob, y: Ob)
    requires ActionKeys <= y.Keys
    ensures SetOb(SetOb(a, x), y) == SetOb(a, y)
  {
  }
}

=== FILE: py_device.dfy ===
/**
 * `hsb_device` and `hsb_endpoint`: a device found by a driver, with its
 * endpoints by id, its keep-alive tick count and free-form attributes, and
 * the JSON `set` command that edits attributes.
 */
module PyDevice {
  import opened Bytes
  import opened HubTypes
  import opened PyValue
  import PyPhy

  datatype DevState = Uninit | Online | Offline

  datatype Endpoint = Endpoint(epid: int, bits: nat, readable: bool, writable: bool, data: int, attrs: Ob)

  function NewEndpoint(epid: int, bits: nat, readable: bool, writable: bool, data: int): Endpoint {
    Endpoint(epid, bits, readable, writable, data, map[])
  }

  /** `byte_num`: the bytes needed to hold `bits` bits, `int((bits + 7) / 8)`. */
  function ByteNum(bits: nat): (r: nat)
    ensures 8 * r >= bits && 8 * r < bits + 8
  {
    (bits + 7) / 8
  }

  /**
   * `dict.update` with a JSON value: the object's keys override the old
   * ones. Any other value is an error (`None`).
   */
  function Update(attrs: Ob, v: Value): (r: Option<Ob>)
    ensures r.Some? <==> v.Obj?
    ensures r.Some? ==> r.value.Keys == attrs.Keys + v.fields.Keys
    ensures r.Some? ==> forall k :: k in r.value ==> r.value[k] == if k in v.fields then v.fields[k] else attrs[k]
  {
    if v.Obj? then Some(attrs + v.fields) else None
  }

  /** The endpoint's `set`: only the attributes change, and only when the object carries some. */
  function EpSet(ep: Endpoint, ob: Ob): (r: Option<Endpoint>)
    ensures "attrs" !in ob ==> r == Some(ep)
    ensures r.Some? ==> r.value == ep.(attrs := r.value.attrs) && ep.attrs.Keys <= r.value.attrs.Keys
  {
    if "attrs" !in ob then Some(ep)
    else match Update(ep.attrs, ob["attrs"])
      case None => None
      case Some(a) => Some(ep.(attrs := a))
  }

  datatype DevKind = Plug | RemoteCtl

  datatype Device = Device(
    kind: DevKind, driver: PyPhy.DrvKey, mac: bytes, addr: int, state: DevState,
    devid: int, eps: map<int, Endpoint>, ticks: int, attrs: Ob)

  /** A new device: uninitialised, id 0, no endpoints, no ticks, empty name and location. */
  function NewDevice(kind: DevKind, driver: PyPhy.DrvKey, mac: bytes, addr: int): Device {
    Device(kind, driver, mac, addr, Uninit, 0, map[], 0, map["name" := Str(""), "location" := Str("")])
  }

  /** `add_ep`: a second endpoint with an id already present is ignored. */
  function AddEp(d: Device, ep: Endpoint): (r: Device)
    ensures ep.epid in d.eps ==> r == d
    ensures ep.epid !in d.eps ==> r.eps.Keys == d.eps.Keys + {ep.epid} && r.eps[ep.epid] == ep
    ensures forall k :: k in d.eps ==> r.eps[k] == d.eps[k]
  {
    if ep.epid in d.eps then d else d.(eps := d.eps[ep.epid := ep])
  }

  /** The constructor loop of the device classes: `add_ep` for each endpoint in order. */
  function AddEps(d: Device, eps: seq<Endpoint>): (r: Device)
    ensures r == d.(eps := r.eps)
    decreases |eps|
  {
    if eps == [] then d else AddEps(AddEp(d, eps[0]), eps[1..])
  }

  /** Whether some endpoint in the list has this id. */
  predicate HasId(eps: seq<Endpoint>, k: int) {
    exists i :: 0 <= i < |eps| && eps[i].epid == k
  }

  /** The first endpoint in the list with this id. */
  function FirstWith(eps: seq<Endpoint>, k: int): (r: Endpoint)
    requires HasId(eps, k)
    ensures r in eps && r.epid == k
    decreases |eps|
  {
    if eps[0].epid == k then eps[0] else FirstWith(eps[1..], k)
  }

  /**
   * After the loop the device holds its old endpoints untouched, and for
   * every new id the FIRST endpoint the list gives for it; nothing else
   * about the device changes.
   */
  lemma {:induction false} AddEpsFirstWins(d: Device, eps: seq<Endpoint>)
    ensures var r := AddEps(d, eps);
      && r == d.(eps := r.eps)
      && (forall k :: k in r.eps <==> k in d.eps || HasId(eps, k))
      && (forall k :: k in d.eps ==> r.eps[k] == d.eps[k])
      && (forall k :: k !in d.eps && HasId(eps, k) ==> r.eps[k] == FirstWith(eps, k))
    decreases |eps|
  {
    if eps != [] {
      var d1 := AddEp(d, eps[0]);
      AddEpsFirstWins(d1, eps[1..]);
      var r := AddEps(d, eps);
      forall k ensures HasId(eps, k) <==> k == eps[0].epid || HasId(eps[1..], k) {
        if HasId(eps, k) && k != eps[0].epid {
          var i :| 0 <= i < |eps| && eps[i].epid == k;
          assert eps[1..][i - 1].epid == k;
        }
        if HasId(eps[1..], k) {
          var i :| 0 <= i < |eps[1..]| && eps[1..][i].epid == k;
          assert eps[i + 1].epid == k;
        }
      }
      forall k | k !in d.eps && HasId(eps, k) ensures r.eps[k] == FirstWith(eps, k) {
        if k != eps[0].epid {
          assert HasId(eps[1..], k);
        }
      }
    }
  }

  /** `add_ticks`. */
  function AddTicks(d: Device, tick: int): Device {
    d.(ticks := d.ticks + tick)
  }

  /** `on_keepalive`: the tick count restarts. */
  function OnKeepalive(d: Device): Device {
    d.(ticks := 0)
  }

  /** What can happen to a device's tick count. */
  datatype TickEvent = Tick(n: int) | KeepAlive

  function Apply(d: Device, e: TickEvent): Device {
    match e
    case Tick(n) => AddTicks(d, n)
    case KeepAlive => OnKeepalive(d)
  }

  function ApplyAll(d: Device, es: seq<TickEvent>): Device
    decreases |es|
  {
    if es == [] then d else ApplyAll(Apply(d, es[0]), es[1..])
  }

  /** The ticks added by `Tick` events in a list. */
  function Added(es: seq<TickEvent>): int
    decreases |es|
  {
    if es == [] then 0 else (if es[0].Tick? then es[0].n else 0) + Added(es[1..])
  }

  /**
   * The tick count is the ticks since the last keep-alive: with no
   * keep-alive in the events it grows by what they add, and after the last
   * keep-alive it counts only what comes after it.
   */
  lemma {:induction false} TicksSinceKeepalive(d: Device, es: seq<TickEvent>, j: nat)
    requires j < |es| && es[j] == KeepAlive
    requires forall i :: j < i < |es| ==> es[i].Tick?
    ensures ApplyAll(d, es).ticks == Added(es[j + 1..])
    ensures ApplyAll(d, es) == d.(ticks := ApplyAll(d, es).ticks)
    decreases |es|
  {
    if j == 0 {
      TicksAdd(OnKeepalive(d), es[1..]);
    } else {
      TicksSinceKeepalive(Apply(d, es[0]), es[1..], j - 1);
      assert es[1..][j..] == es[j + 1..];
    }
  }

  /** With only ticks, the count grows by their sum and nothing else changes. */
  lemma {:induction false} TicksAdd(d: Device, es: seq<TickEvent>)
    requires forall i :: 0 <= i < |es| ==> es[i].Tick?
    ensures ApplyAll(d, es) == d.(ticks := d.ticks + Added(es))
    decreases |es|
  {
    if es != [] {
      TicksAdd(Apply(d, es[0]), es[1..]);
    }
  }

  /** An entry of `endpoints` that names an endpoint the device has. */
  predicate Names(eps: map<int, Endpoint>, v: Value) {
    v.Obj? && "epid" in v.fields && Num(v.fields["epid"]).Some? && Num(v.fields["epid"]).value in eps
  }

  /**
   * An `endpoints` entry on which `set_endpoints` raises TypeError: the
   * `'epid'` lookup raises, or the id is a list or an object, which cannot
   * be hashed to look it up among the endpoints.
   */
  predicate EpRaises(v: Value) {
    LookupRaises(v, {"epid"}) || (v.Obj? && "epid" in v.fields && (v.fields["epid"].List? || v.fields["epid"].Obj?))
  }

  /**
   * `set_endpoints` over a list of entries: entries that name no known
   * endpoint are skipped, the others merge their attributes into that
   * endpoint, and those carrying `val` are collected, in order, for the
   * driver. `None` when an entry raises or an attribute merge fails.
   */
  function SetEps(d: Device, items: seq<Value>): (r: Option<(Device, seq<Value>)>)
    ensures (exists v :: v in items && EpRaises(v)) ==> r.None?
    decreases |items|
  {
    if items == [] then Some((d, []))
    else if EpRaises(items[0]) then None
    else if !Names(d.eps, items[0]) then SetEps(d, items[1..])
    else
      var v := items[0];
      var k := Num(v.fields["epid"]).value;
      match EpSet(d.eps[k], v.fields)
      case None => None
      case Some(ep) =>
        match SetEps(d.(eps := d.eps[k := ep]), items[1..])
        case None => None
        case Some(res) => Some((res.0, if "val" in v.fields then [v] + res.1 else res.1))
  }

  /** Two endpoints agree on everything but their attributes, which only gained keys. */
  predicate Edited(before: Endpoint, after: Endpoint) {
    after == before.(attrs := after.attrs) && before.attrs.Keys <= after.attrs.Keys
  }

  /**
   * A successful `set_endpoints` adds and removes no endpoint, touches no
   * other part of the device, only edits attributes, leaves endpoints no
   * entry names alone, and hands the driver exactly the naming entries
   * that carry a value.
   */
  lemma {:induction false} SetEpsFrame(d: Device, items: seq<Value>)
    requires SetEps(d, items).Some?
    ensures var r := SetEps(d, items).value;
      && r.0 == d.(eps := r.0.eps)
      && r.0.eps.Keys == d.eps.Keys
      && (forall k :: k in d.eps ==> Edited(d.eps[k], r.0.eps[k]))
      && (forall k :: k in d.eps && (forall v :: v in items ==> !Names(d.eps, v) || Num(v.fields["epid"]).value != k)
            ==> r.0.eps[k] == d.eps[k])
      && (forall v :: v in r.1 <==> v in items && Names(d.eps, v) && "val" in v.fields)
    decreases |items|
  {
    if items != [] {
      var r := SetEps(d, items).value;
      var v := items[0];
      if !Names(d.eps, v) {
        SetEpsFrame(d, items[1..]);
      } else {
        var k := Num(v.fields["epid"]).value;
        var ep := EpSet(d.eps[k], v.fields).value;
        var d1 := d.(eps := d.eps[k := ep]);
        SetEpsFrame(d1, items[1..]);
        assert forall w :: Names(d1.eps, w) == Names(d.eps, w);
      }
    }
  }

  /**
   * `set_endpoints` on any value: a list's entries in order; a string's
   * characters, none of which holds "epid"; an object's keys, strings
   * that raise when they hold "epid" and are skipped otherwise; a number,
   * `None` or a bool is not iterable and raises.
   */
  function SetEndpoints(d: Device, v: Value): (r: Option<(Device, seq<Value>)>)
    ensures !(v.List? || v.Str? || v.Obj?) ==> r.None?
    ensures v.List? ==> r == SetEps(d, v.items)
    ensures v.Str? ==> r == Some((d, []))
    ensures v.Obj? ==> (r.None? <==> exists k :: k in v.fields && EpRaises(Str(k)))
    ensures v.Obj? && r.Some? ==> r.value == (d, [])
  {
    match v
    case List(items) => SetEps(d, items)
    case Str(s) => CharsSkipped(d, Chars(s)); SetEps(d, Chars(s))
    case Obj(fields) => if exists k :: k in fields && EpRaises(Str(k)) then None else Some((d, []))
    case _ => None
  }

  /** One-character strings name no endpoint and never raise, so they change nothing. */
  lemma {:induction false} CharsSkipped(d: Device, cs: seq<Value>)
    requires forall i :: 0 <= i < |cs| ==> cs[i].Str? && |cs[i].s| == 1
    ensures SetEps(d, cs) == Some((d, []))
    decreases |cs|
  {
    if cs != [] {
      assert cs[0] == Str([cs[0].s[0]]);
      CharNeverRaises(cs[0].s[0], {"epid"});
      CharsSkipped(d, cs[1..]);
    }
  }

  /**
   * The device's `set`: device attributes merge first, then the endpoint
   * entries apply. The result also carries the entries handed to the
   * driver's `set_eps` (a no-op in every driver of this hub).
   */
  function Set(d: Device, ob: Ob): (r: Option<(Device, seq<Value>)>)
    ensures "attrs" !in ob && "endpoints" !in ob ==> r == Some((d, []))
  {
    var attrs := if "attrs" in ob then Update(d.attrs, ob["attrs"]) else Some(d.attrs);
    match attrs
    case None => None
    case Some(a) =>
      if "endpoints" in ob then SetEndpoints(d.(attrs := a), ob["endpoints"]) else Some((d.(attrs := a), []))
  }

  /**
   * A successful `set` keeps the device's identity, address, endpoints'
   * shape and tick count; its attributes are the old ones overridden by
   * the command's.
   */
  lemma SetKeepsIdentity(d: Device, ob: Ob)
    requires Set(d, ob).Some?
    ensures var r := Set(d, ob).value.0;
      && r.kind == d.kind && r.driver == d.driver && r.mac == d.mac && r.addr == d.addr
      && r.devid == d.devid && r.ticks == d.ticks && r.state == d.state
      && r.eps.Keys == d.eps.Keys
      && (forall k :: k in d.eps ==> Edited(d.eps[k], r.eps[k]))
      && ("attrs" in ob ==> r.attrs == d.attrs + ob["attrs"].fields)
      && ("attrs" !in ob ==> r.attrs == d.attrs)
  {
    var attrs := if "attrs" in ob then Update(d.attrs, ob["attrs"]) else Some(d.attrs);
    if "endpoints" in ob && ob["endpoints"].List? {
      SetEpsFrame(d.(attrs := attrs.value), ob["endpoints"].items);
    }
  }

  /** What `on_cmd` does. */
  datatype CmdOutcome =
    | Applied(dev: Device, forwarded: seq<Value>)
    | Ignored
    | Raises

  /**
   * `on_cmd`: `set` applies the object; `get` calls the zero-argument
   * `get` with the object and raises a `TypeError`; any other command is
   * ignored. A failed `set` raises too.
   */
  function OnCmd(d: Device, cmd: Value, ob: Ob): (r: CmdOutcome)
    ensures cmd == Str("get") ==> r.Raises?
    ensures cmd != Str("set") && cmd != Str("get") ==> r.Ignored?
    ensures r.Applied? ==> cmd == Str("set") && Set(d, ob) == Some((r.dev, r.forwarded))
  {
    if cmd == Str("set") then
      match Set(d, ob)
      case None => Raises
      case Some(res) => Applied(res.0, res.1)
    else if cmd == Str("get") then Raises
    else Ignored
  }
}

=== FILE: py_hub.dfy ===
/**
 * The Python hub's registries (`hsb_manager`, `hsb_driver`): links by
 * name, drivers by (link, port), and devices twice over, by address in
 * their driver and by id in the manager. A device lives in the manager's
 * table; its driver maps the device's address to that id, so both sides
 * see the same device as the shared Python object does.
 */
module PyHub {
  import opened HubTypes
  import opened PyValue
  import opened PyPhy
  import PyDevice

  /** A driver: its link and port, the link `add_driver` bound, and its devices' ids by address. */
  datatype Driver = Driver(phyName: PhyKind, port: int, phy: Option<PhyKind>, devices: map<int, int>)

  function KeyOf(d: Driver): DrvKey {
    DrvKey(d.phyName, Some(d.port))
  }

  datatype Manager = Manager(
    phys: set<PhyKind>, drivers: map<DrvKey, Driver>, firstDevId: int, devices: map<int, PyDevice.Device>)

  /** The manager as constructed: nothing registered, ids from 1. */
  const Initial: Manager := Manager({}, map[], 1, map[])

  /** `alloc_dev_id`. */
  function AllocDevId(m: Manager): (int, Manager) {
    (m.firstDevId, m.(firstDevId := m.firstDevId + 1))
  }

  /** The ids of `n` allocations in a row. */
  function AllocN(m: Manager, n: nat): (r: seq<int>)
    ensures |r| == n
    decreases n
  {
    if n == 0 then [] else var a := AllocDevId(m); [a.0] + AllocN(a.1, n - 1)
  }

  /** Ids come out consecutively from the counter: 1, 2, 3, ... for a new manager, never repeating. */
  lemma {:induction false} AllocConsecutive(m: Manager, n: nat)
    ensures forall i :: 0 <= i < n ==> AllocN(m, n)[i] == m.firstDevId + i
    decreases n
  {
    if n > 0 {
      AllocConsecutive(AllocDevId(m).1, n - 1);
    }
  }

  /** `add_phy`: a link whose name is already registered is not replaced. */
  function AddPhy(m: Manager, name: PhyKind): (r: Manager)
    ensures r.phys == m.phys + {name}
  {
    if name !in m.phys then m.(phys := m.phys + {name}) else m
  }

  /** `del_phy`: removing an absent link does nothing. */
  function DelPhy(m: Manager, name: PhyKind): (r: Manager)
    ensures r.phys == m.phys - {name}
  {
    if name !in m.phys then m else m.(phys := m.phys - {name})
  }

  /** Registering a new link and removing it again leaves the manager as it was. */
  lemma AddDelPhy(m: Manager, name: PhyKind)
    requires name !in m.phys
    ensures DelPhy(AddPhy(m, name), name) == m
  {
  }

  /**
   * `add_driver`: refused when its link is not registered or its
   * (link, port) key is taken; otherwise stored under the key, bound to
   * its link.
   */
  function AddDriver(m: Manager, drv: Driver): (r: Manager)
    ensures r.phys == m.phys && r.firstDevId == m.firstDevId && r.devices == m.devices
    ensures r != m ==> drv.phyName in m.phys && KeyOf(drv) !in m.drivers
    ensures drv.phyName in m.phys && KeyOf(drv) !in m.drivers ==>
      r.drivers == m.drivers[KeyOf(drv) := drv.(phy := Some(drv.phyName))]
  {
    if drv.phyName !in m.phys then m
    else if KeyOf(drv) in m.drivers then m
    else m.(drivers := m.drivers[KeyOf(drv) := drv.(phy := Some(drv.phyName))])
  }

  /** `del_driver`: by the driver's key; an absent key does nothing. */
  function DelDriver(m: Manager, drv: Driver): (r: Manager)
    ensures r.drivers == m.drivers - {KeyOf(drv)}
    ensures r == m.(drivers := r.drivers)
  {
    if KeyOf(drv) !in m.drivers then m else m.(drivers := m.drivers - {KeyOf(drv)})
  }

  /** Adding a driver and deleting it again leaves the manager as it was. */
  lemma AddDelDriver(m: Manager, drv: Driver)
    requires drv.phyName in m.phys && KeyOf(drv) !in m.drivers
    ensures DelDriver(AddDriver(m, drv), drv) == m
  {
    assert m.drivers[KeyOf(drv) := drv.(phy := Some(drv.phyName))] - {KeyOf(drv)} == m.drivers;
  }

  /**
   * The driver's `add_device` followed by the manager's: a device whose
   * address the driver already has is ignored; otherwise it gets the next
   * id, the manager stores it under that id and the driver maps its
   * address to it.
   */
  function AddDevice(m: Manager, key: DrvKey, dev: PyDevice.Device): (r: Manager)
    requires key in m.drivers
    ensures key in r.drivers
  {
    var drv := m.drivers[key];
    if dev.addr in drv.devices then m
    else
      var (id, m1) := AllocDevId(m);
      m1.(devices := m1.devices[id := dev.(devid := id)],
          drivers := m1.drivers[key := drv.(devices := drv.devices[dev.addr := id])])
  }

  /**
   * The driver's `del_device` (also its `timeout`) by address: an address
   * the driver does not have does nothing; otherwise the driver forgets it
   * and the manager's `del_device` removes the id, raising (`None`) when the
   * manager does not know it (its log line names an unbound variable).
   */
  function DelDevice(m: Manager, key: DrvKey, addr: int): (r: Option<Manager>)
    requires key in m.drivers
  {
    var drv := m.drivers[key];
    if addr !in drv.devices then Some(m)
    else
      var id := drv.devices[addr];
      var m1 := m.(drivers := m.drivers[key := drv.(devices := drv.devices - {addr})]);
      if id !in m.devices then None else Some(m1.(devices := m1.devices - {id}))
  }

  /** The driver's `find_device` by address. */
  function DriverFind(m: Manager, key: DrvKey, addr: int): Option<PyDevice.Device>
    requires key in m.drivers
  {
    var drv := m.drivers[key];
    if addr in drv.devices && drv.devices[addr] in m.devices then Some(m.devices[drv.devices[addr]]) else None
  }

  /** The manager's `find_device` by id. */
  function FindDevice(m: Manager, devid: int): Option<PyDevice.Device> {
    if devid in m.devices then Some(m.devices[devid]) else None
  }

  /**
   * The registries agree: every stored device carries its own id, ids are
   * below the counter and positive, and every address a driver maps leads
   * to a device with that address that names that driver.
   */
  predicate Inv(m: Manager) {
    && m.firstDevId >= 1
    && (forall id :: id in m.devices ==> 1 <= id < m.firstDevId && m.devices[id].devid == id)
    && (forall k, a :: k in m.drivers && a in m.drivers[k].devices ==> Linked(m, k, a))
  }

  predicate Linked(m: Manager, k: DrvKey, a: int)
    requires k in m.drivers && a in m.drivers[k].devices
  {
    var id := m.drivers[k].devices[a];
    id in m.devices && m.devices[id].addr == a && m.devices[id].driver == k
  }

  lemma InitialInv()
    ensures Inv(Initial)
  {
  }

  /**
   * A device its driver registers is found by the driver under its address
   * and by the manager under the id it was given, the registries stay in
   * agreement, and no other device changes.
   */
  lemma AddDeviceInv(m: Manager, key: DrvKey, dev: PyDevice.Device)
    requires Inv(m) && key in m.drivers && dev.driver == key && dev.addr !in m.drivers[key].devices
    ensures var r := AddDevice(m, key, dev);
      && Inv(r)
      && r.firstDevId == m.firstDevId + 1
      && DriverFind(r, key, dev.addr) == Some(dev.(devid := m.firstDevId))
      && FindDevice(r, m.firstDevId) == Some(dev.(devid := m.firstDevId))
      && (forall id :: id in m.devices ==> FindDevice(r, id) == FindDevice(m, id))
      && r.phys == m.phys && r.drivers.Keys == m.drivers.Keys
  {
    var r := AddDevice(m, key, dev);
    forall k, a | k in r.drivers && a in r.drivers[k].devices ensures Linked(r, k, a) {
      if k != key || a != dev.addr {
        assert Linked(m, k, a);
      }
    }
  }

  /** A second device at a known address changes nothing. */
  lemma AddDeviceDuplicate(m: Manager, key: DrvKey, dev: PyDevice.Device)
    requires key in m.drivers && dev.addr in m.drivers[key].devices
    ensures AddDevice(m, key, dev) == m
  {
  }

  /**
   * In agreeing registries deleting a device never raises; afterwards
   * neither its driver nor the manager finds it, the registries still
   * agree, and every other device is where it was.
   */
  lemma DelDeviceInv(m: Manager, key: DrvKey, addr: int)
    requires Inv(m) && key in m.drivers
    ensures DelDevice(m, key, addr).Some?
    ensures var r := DelDevice(m, key, addr).value;
      && Inv(r)
      && DriverFind(r, key, addr).None?
      && (addr in m.drivers[key].devices ==> FindDevice(r, m.drivers[key].devices[addr]).None?)
      && (forall id :: id in r.devices ==> id in m.devices && r.devices[id] == m.devices[id])
      && r.phys == m.phys && r.drivers.Keys == m.drivers.Keys && r.firstDevId == m.firstDevId
  {
    if addr in m.drivers[key].devices {
      assert Linked(m, key, addr);
      var id := m.drivers[key].devices[addr];
      var r := DelDevice(m, key, addr).value;
      forall k, a | k in r.drivers && a in r.drivers[k].devices ensures Linked(r, k, a) {
        assert Linked(m, k, a);
        assert m.drivers[k].devices[a] != id;
      }
    }
  }

  /** Registering a device and deleting it again restores the registries, with the id counter moved on. */
  lemma AddThenDel(m: Manager, key: DrvKey, dev: PyDevice.Device)
    requires Inv(m) && key in m.drivers && dev.addr !in m.drivers[key].devices
    ensures DelDevice(AddDevice(m, key, dev), key, dev.addr) == Some(m.(firstDevId := m.firstDevId + 1))
  {
    var id := m.firstDevId;
    var r := AddDevice(m, key, dev);
    assert id !in m.devices;
    assert r.devices - {id} == m.devices;
    assert r.drivers[key].devices - {dev.addr} == m.drivers[key].devices;
    assert r.drivers[key := m.drivers[key]] == m.drivers;
  }

  /** A new driver with no devices keeps the registries in agreement, and so does removing any driver. */
  lemma DriversInv(m: Manager, drv: Driver)
    requires Inv(m)
    ensures drv.devices == map[] ==> Inv(AddDriver(m, drv))
    ensures Inv(DelDriver(m, drv))
  {
    var r := DelDriver(m, drv);
    forall k, a | k in r.drivers && a in r.drivers[k].devices ensures Linked(r, k, a) {
      assert Linked(m, k, a);
    }
    if drv.devices == map[] {
      var s := AddDriver(m, drv);
      forall k, a | k in s.drivers && a in s.drivers[k].devices ensures Linked(s, k, a) {
        assert Linked(m, k, a);
      }
    }
  }

  /**
   * The device entries of `deal_hsb_cmd`, in order: an entry that is not
   * an object, or whose devid is not a number, raises; a negative or
   * unknown devid is skipped; a known device runs `on_cmd`, and a raise
   * there ends the whole command.
   */
  function DealDevs(m: Manager, command: Value, items: seq<Value>): (r: Option<Manager>)
    decreases |items|
  {
    if items == [] then Some(m)
    else
      var e := items[0];
      if !e.Obj? then None
      else
        var devid := if "devid" in e.fields then e.fields["devid"] else Int(-1);
        match Num(devid)
        case None => None
        case Some(id) =>
          if id < 0 || id !in m.devices then DealDevs(m, command, items[1..])
          else match PyDevice.OnCmd(m.devices[id], command, e.fields)
            case Raises => None
            case Ignored => DealDevs(m, command, items[1..])
            case Applied(d, _) => DealDevs(m.(devices := m.devices[id := d]), command, items[1..])
  }

  /**
   * `deal_hsb_cmd`: only `set` and `get` are handled, and only when the
   * command carries a non-empty list of devices; a `devices` value that is
   * truthy but not a list raises when its elements are read.
   */
  function DealHsbCmd(m: Manager, cmd: Ob): (r: Option<Manager>)
    ensures !("cmd" in cmd && cmd["cmd"] in [Str("set"), Str("get")]) ==> r == Some(m)
    ensures "cmd" in cmd && cmd["cmd"] in [Str("set"), Str("get")] && !("devices" in cmd && Truthy(cmd["devices"])) ==> r == Some(m)
  {
    var command := if "cmd" in cmd then cmd["cmd"] else Null;
    if command != Str("set") && command != Str("get") then Some(m)
    else
      var devs := if "devices" in cmd then cmd["devices"] else Null;
      if !Truthy(devs) then Some(m)
      else if !devs.List? then None
      else DealDevs(m, command, devs.items)
  }

  /** The parts of a device a command may not change. */
  predicate SameDevice(a: PyDevice.Device, b: PyDevice.Device) {
    a.kind == b.kind && a.driver == b.driver && a.mac == b.mac && a.addr == b.addr && a.devid == b.devid
    && a.ticks == b.ticks && a.state == b.state && a.eps.Keys == b.eps.Keys
  }

  /**
   * A command that completes changes no registry: the same links, drivers,
   * id counter and device ids, each device with its identity, address,
   * ticks and endpoints; so it keeps the registries in agreement.
   */
  lemma {:induction false} DealDevsFrame(m: Manager, command: Value, items: seq<Value>)
    requires DealDevs(m, command, items).Some?
    ensures var r := DealDevs(m, command, items).value;
      && r.phys == m.phys && r.drivers == m.drivers && r.firstDevId == m.firstDevId
      && r.devices.Keys == m.devices.Keys
      && (forall id :: id in m.devices ==> SameDevice(r.devices[id], m.devices[id]))
      && (Inv(m) ==> Inv(r))
    decreases |items|
  {
    if items != [] {
      var e := items[0];
      var devid := if "devid" in e.fields then e.fields["devid"] else Int(-1);
      var id := Num(devid).value;
      if id < 0 || id !in m.devices {
        DealDevsFrame(m, command, items[1..]);
      } else {
        match PyDevice.OnCmd(m.devices[id], command, e.fields)
        case Ignored => DealDevsFrame(m, command, items[1..]);
        case Applied(d, _) =>
          PyDevice.SetKeepsIdentity(m.devices[id], e.fields);
          var m1 := m.(devices := m.devices[id := d]);
          assert Inv(m) ==> Inv(m1) by {
            if Inv(m) {
              forall k, a | k in m1.drivers && a in m1.drivers[k].devices ensures Linked(m1, k, a) {
                assert Linked(m, k, a);
              }
            }
          }
          DealDevsFrame(m1, command, items[1..]);
      }
    }
  }

  /** `get` on any device the hub knows raises: the device's `get` takes no argument. */
  lemma GetRaises(m: Manager, id: int, e: Ob)
    requires id >= 0 && id in m.devices && "devid" in e && e["devid"] == Int(id)
    ensures DealHsbCmd(m, map["cmd" := Str("get"), "devices" := List([Obj(e)])]).None?
  {
    var cmd := map["cmd" := Str("get"), "devices" := List([Obj(e)])];
    assert Truthy(cmd["devices"]);
  }

  /** A `set` naming one known device applies that device's `set` to it and to nothing else. */
  lemma SetOneDevice(m: Manager, id: int, e: Ob)
    requires id >= 0 && id in m.devices && "devid" in e && e["devid"] == Int(id)
    requires PyDevice.Set(m.devices[id], e).Some?
    ensures DealHsbCmd(m, map["cmd" := Str("set"), "devices" := List([Obj(e)])])
      == Some(m.(devices := m.devices[id := PyDevice.Set(m.devices[id], e).value.0]))
  {
    var cmd := map["cmd" := Str("set"), "devices" := List([Obj(e)])];
    assert Truthy(cmd["devices"]);
    assert [Obj(e)][1..] == [];
    var d := PyDevice.Set(m.devices[id], e).value.0;
    assert PyDevice.OnCmd(m.devices[id], Str("set"), e).Applied?;
    var m1 := m.(devices := m.devices[id := d]);
    assert DealDevs(m1, Str("set"), []) == Some(m1);
    assert DealDevs(m, Str("set"), [Obj(e)]) == DealDevs(m1, Str("set"), []);
  }

  /** Where `run` sends a frame. */
  datatype Route = ToDriver(key: DrvKey) | ToPhy(phy: PhyKind) | NoRoute

  /**
   * `run` for link frames: an upward frame goes to the driver registered
   * under its (link, port) key, a downward one to its link; a frame with no
   * such driver or link is dropped.
   */
  function RoutePhyData(m: Manager, p: PhyData): (r: Route)
    ensures r.ToDriver? ==> p.direction == Up && r.key in m.drivers && r.key == Key(p)
    ensures r.ToPhy? ==> p.direction == Down && r.phy in m.phys && r.phy == p.phy
    ensures r.NoRoute? <==> (p.direction == Up && Key(p) !in m.drivers) || (p.direction == Down && p.phy !in m.phys)
  {
    match p.direction
    case Up => if Key(p) in m.drivers then ToDriver(Key(p)) else NoRoute
    case Down => if p.phy in m.phys then ToPhy(p.phy) else NoRoute
  }
}

=== FILE: py_phy.dfy ===
/**
 * `hsb_phy_data`: one frame between a physical link and a driver, with the
 * link it belongs to, the device address and port, the payload and its
 * direction (up from the link, or down to it).
 */
module PyPhy {
  import opened Bytes
  import opened HubTypes

  /** The links of `hsb_phy_enum`. */
  datatype PhyKind = Zigbee | Wifi | Bt | Ir

  datatype Direction = Up | Down

  /** A driver is found by the link and port its frames carry. */
  datatype DrvKey = DrvKey(phy: PhyKind, port: Option<int>)

  /**
   * A frame. Address, port and payload are `None` when the raw bytes did
   * not parse; `raw` is the link-level form (received, or built to send).
   */
  datatype PhyData = PhyData(
    phy: PhyKind, addr: Option<int>, port: Option<int>, data: Option<bytes>,
    direction: Direction, raw: bytes)

  /** `valid`: the payload is present and non-empty (Python truthiness of bytes). */
  predicate Valid(p: PhyData) {
    p.data.Some? && p.data.value != []
  }

  /** `key()`: the link and the port. */
  function Key(p: PhyData): (r: DrvKey)
    ensures r.phy == p.phy && r.port == p.port
  {
    DrvKey(p.phy, p.port)
  }
}

=== FILE: py_scene.dfy ===
/**
 * `hsb_scene`: a named list of device actions, each with a delay and an
 * optional condition on another endpoint's value, read from and written to
 * a JSON object.
 */
module PyScene {
  import opened HubTypes
  import opened PyValue

  datatype Condition = Condition(devid: Value, epid: Value, expr: Value, val: Value)

  /**
   * The condition's `check` on the endpoint's current value: gt, lt, eq,
   * ge and le compare it with the stored value; any other expression is
   * False. A stored value that is not a number is never satisfied.
   */
  function CondCheck(c: Condition, v: int): bool {
    match Num(c.val)
    case None => false
    case Some(x) =>
      (c.expr == Str("gt") && v > x) || (c.expr == Str("lt") && v < x) || (c.expr == Str("eq") && v == x)
      || (c.expr == Str("ge") && v >= x) || (c.expr == Str("le") && v <= x)
  }

  predicate Known(expr: Value) {
    expr in [Str("gt"), Str("lt"), Str("eq"), Str("ge"), Str("le")]
  }

  /**
   * The five comparisons against one stored number are the usual order:
   * ge is gt or eq, le is the negation of gt, lt the negation of ge; any
   * other expression never holds.
   */
  lemma CondCheckOrder(c: Condition, v: int)
    requires Num(c.val).Some?
    ensures !Known(c.expr) ==> !CondCheck(c, v)
    ensures CondCheck(c.(expr := Str("ge")), v) <==> CondCheck(c.(expr := Str("gt")), v) || CondCheck(c.(expr := Str("eq")), v)
    ensures CondCheck(c.(expr := Str("le")), v) <==> !CondCheck(c.(expr := Str("gt")), v)
    ensures CondCheck(c.(expr := Str("lt")), v) <==> !CondCheck(c.(expr := Str("ge")), v)
  {
  }

  /** A condition's `get_ob`. */
  function CondOb(c: Condition): (r: Ob)
    ensures r.Keys == {"devid", "epid", "expr", "val"}
  {
    map["devid" := c.devid, "epid" := c.epid, "expr" := c.expr, "val" := c.val]
  }

  datatype SceneAction = SceneAction(devid: Value, epid: Value, val: Value, delay: Value, condition: Option<Condition>)

  /** An action's `get_ob`: no delay key when the delay is 0, the condition only when there is one. */
  function ActionOb(a: SceneAction): (r: Ob)
    ensures "delay" in r <==> !IsZero(a.delay)
    ensures "condition" in r <==> a.condition.Some?
    ensures r.Keys - {"delay", "condition"} == {"devid", "epid", "val"}
  {
    var o := map["devid" := a.devid, "epid" := a.epid, "val" := a.val];
    var o := if IsZero(a.delay) then o else o["delay" := a.delay];
    if a.condition.Some? then o["condition" := Obj(CondOb(a.condition.value))] else o
  }

  datatype Scene = Scene(name: Value, actions: seq<SceneAction>)

  /** A scene's `get_ob`. */
  function SceneOb(s: Scene): (r: Ob)
    ensures r.Keys == {"name", "actions"} && r["actions"].List? && |r["actions"].items| == |s.actions|
  {
    map["name" := s.name, "actions" := List(ActionObs(s.actions))]
  }

  function ActionObs(acts: seq<SceneAction>): (r: seq<Value>)
    ensures |r| == |acts| && forall i :: 0 <= i < |acts| ==> r[i] == Obj(ActionOb(acts[i]))
  {
    seq(|acts|, i requires 0 <= i < |acts| => Obj(ActionOb(acts[i])))
  }

  const ActKeys: set<string> := {"delay", "devid", "epid", "val"}
  const CondKeys: set<string> := {"devid", "epid", "expr", "val"}

  /** An action entry `load` accepts: an object with delay, devid, epid and val. */
  predicate Complete(a: Value) {
    a.Obj? && "delay" in a.fields && "devid" in a.fields && "epid" in a.fields && "val" in a.fields
  }

  /** A condition entry with devid, epid, expr and val. */
  predicate CondComplete(a: Value)
    requires Complete(a)
  {
    "condition" in a.fields && var c := a.fields["condition"];
    c.Obj? && "devid" in c.fields && "epid" in c.fields && "expr" in c.fields && "val" in c.fields
  }

  /**
   * Reading an action entry raises TypeError, whether or not the condition
   * is then attached: the entry is a number, `None`, a bool, or a string
   * or list holding all four keys; or it is complete and its condition is
   * such a value.
   */
  predicate EntryRaises(a: Value) {
    LookupRaises(a, ActKeys)
    || (Complete(a) && "condition" in a.fields && LookupRaises(a.fields["condition"], CondKeys))
  }

  function ActionOf(a: Value): SceneAction
    requires Complete(a)
  {
    SceneAction(a.fields["devid"], a.fields["epid"], a.fields["val"], a.fields["delay"], None)
  }

  function CondOf(a: Value): Condition
    requires Complete(a) && CondComplete(a)
  {
    var c := a.fields["condition"].fields;
    Condition(c["devid"], c["epid"], c["expr"], c["val"])
  }

  /** What loading a scene object gives: `valid` False, an exception, or the scene. */
  datatype LoadResult = NotValid | Raises | Loaded(scene: Scene)

  /**
   * The action loop of `load` as written, `None` when it raises: an entry
   * that raises on lookup stops the load, other incomplete entries are
   * skipped and the rest appended in order; an entry with a complete
   * condition reaches `action.condition = condition`, a name that is never
   * bound (the condition was assigned to `conditon`), so the loop raises.
   */
  function LoadActsAsWritten(acts: seq<Value>): (r: Option<seq<SceneAction>>)
    ensures r.Some? ==> |r.value| <= |acts|
    decreases |acts|
  {
    if acts == [] then Some([])
    else if EntryRaises(acts[0]) then None
    else if !Complete(acts[0]) then LoadActsAsWritten(acts[1..])
    else if CondComplete(acts[0]) then None
    else match LoadActsAsWritten(acts[1..])
      case None => None
      case Some(rest) => Some([ActionOf(acts[0])] + rest)
  }

  /**
   * Whether `for act in acts` raises before the loop body can: a number,
   * `None` or a bool is not iterable; an object is iterated over its keys,
   * strings that are skipped or raise, so their order does not matter.
   */
  predicate KeysRaise(v: Value) {
    !(v.List? || v.Str? || v.Obj?) || (v.Obj? && exists k :: k in v.fields && EntryRaises(Str(k)))
  }

  /** The entries the loop visits in order, for a list or a string. */
  function Visited(v: Value): seq<Value>
    requires v.List? || v.Str?
  {
    if v.List? then v.items else Chars(v.s)
  }

  /** `load` as written: name and actions are required; the actions are iterated. */
  function LoadAsWritten(ob: Ob): (r: LoadResult)
    ensures !("name" in ob && "actions" in ob) <==> r.NotValid?
  {
    if !("name" in ob && "actions" in ob) then NotValid
    else if KeysRaise(ob["actions"]) then Raises
    else if ob["actions"].Obj? then Loaded(Scene(ob["name"], []))
    else match LoadActsAsWritten(Visited(ob["actions"]))
      case None => Raises
      case Some(acts) => Loaded(Scene(ob["name"], acts))
  }

  /**
   * The action loop of `load` as intended: a complete condition is attached
   * to its action; entries that raise on lookup still raise.
   */
  function LoadActs(acts: seq<Value>): (r: Option<seq<SceneAction>>)
    ensures r.Some? ==> |r.value| <= |acts|
    decreases |acts|
  {
    if acts == [] then Some([])
    else if EntryRaises(acts[0]) then None
    else if !Complete(acts[0]) then LoadActs(acts[1..])
    else match LoadActs(acts[1..])
      case None => None
      case Some(rest) =>
        Some([ActionOf(acts[0]).(condition := if CondComplete(acts[0]) then Some(CondOf(acts[0])) else None)] + rest)
  }

  /** As intended, the loop raises exactly when some entry raises on lookup. */
  lemma {:induction false} LoadActsRaises(acts: seq<Value>)
    ensures LoadActs(acts).None? <==> exists v :: v in acts && EntryRaises(v)
    decreases |acts|
  {
    if acts != [] {
      LoadActsRaises(acts[1..]);
      assert forall v :: v in acts[1..] ==> v in acts;
      assert forall v :: v in acts && v != acts[0] ==> v in acts[1..];
    }
  }

  /** Whether iterating an `actions` value raises: it is not iterable, or some entry it visits raises on lookup. */
  predicate ActionsRaise(v: Value) {
    KeysRaise(v) || ((v.List? || v.Str?) && exists a :: a in Visited(v) && EntryRaises(a))
  }

  /** `load` as intended. */
  function Load(ob: Ob): (r: LoadResult)
    ensures !("name" in ob && "actions" in ob) <==> r.NotValid?
    ensures r.Raises? <==> "name" in ob && "actions" in ob && ActionsRaise(ob["actions"])
  {
    if !("name" in ob && "actions" in ob) then NotValid
    else if KeysRaise(ob["actions"]) then Raises
    else if ob["actions"].Obj? then Loaded(Scene(ob["name"], []))
    else
      LoadActsRaises(Visited(ob["actions"]));
      match LoadActs(Visited(ob["actions"]))
      case None => Raises
      case Some(acts) => Loaded(Scene(ob["name"], acts))
  }

  /** The entries `load` keeps, in their order. */
  function Kept(acts: seq<Value>): (r: seq<Value>)
    ensures forall v :: v in r ==> v in acts && Complete(v)
    decreases |acts|
  {
    if acts == [] then [] else (if Complete(acts[0]) then [acts[0]] else []) + Kept(acts[1..])
  }

  /**
   * As written, the loop raises exactly when some entry raises on lookup or
   * is a complete action with a complete condition.
   */
  lemma {:induction false} LoadAsWrittenRaises(acts: seq<Value>)
    ensures (exists v :: v in acts && (EntryRaises(v) || (Complete(v) && CondComplete(v)))) <==> LoadActsAsWritten(acts).None?
    decreases |acts|
  {
    if acts != [] {
      LoadAsWrittenRaises(acts[1..]);
      assert forall v :: v in acts[1..] ==> v in acts;
      assert forall v :: v in acts && v != acts[0] ==> v in acts[1..];
    }
  }

  /** A load that does not raise gives exactly the kept entries, in order, none of them conditioned. */
  predicate LoadsKept(acts: seq<Value>) {
    LoadActsAsWritten(acts).Some? ==>
      var r := LoadActsAsWritten(acts).value;
      && |r| == |Kept(acts)|
      && forall i :: 0 <= i < |r| ==> r[i] == ActionOf(Kept(acts)[i]) && r[i].condition.None?
  }

  /**
   * As written, a list that loads loads to exactly its complete entries, in
   * order, none of them conditioned.
   */
  lemma {:induction false} LoadAsWrittenKeeps(acts: seq<Value>)
    ensures LoadActsAsWritten(acts).Some? ==>
      var r := LoadActsAsWritten(acts).value;
      && |r| == |Kept(acts)|
      && forall i :: 0 <= i < |r| ==> r[i] == ActionOf(Kept(acts)[i]) && r[i].condition.None?
  {
    LoadsKeptAll(acts);
  }

  lemma {:induction false} LoadsKeptAll(acts: seq<Value>)
    ensures LoadsKept(acts)
    decreases |acts|
  {
    if acts != [] {
      LoadsKeptAll(acts[1..]);
      if Complete(acts[0]) {
        LoadsKeptCons(acts);
      } else {
        assert Kept(acts) == [] + Kept(acts[1..]);
      }
    }
  }

  lemma LoadsKeptCons(acts: seq<Value>)
    requires acts != [] && Complete(acts[0]) && LoadsKept(acts[1..])
    ensures LoadsKept(acts)
  {
    if LoadActsAsWritten(acts).Some? {
      var rest, k := LoadActsAsWritten(acts[1..]).value, Kept(acts[1..]);
      assert LoadActsAsWritten(acts).value == [ActionOf(acts[0])] + rest;
      assert Kept(acts) == [acts[0]] + k;
      KeptStep(acts[0], rest, k);
    }
  }

  /** One kept entry in front of a loaded run keeps the run loaded entry by entry. */
  lemma KeptStep(a: Value, rest: seq<SceneAction>, k: seq<Value>)
    requires Complete(a) && |rest| == |k| && forall v :: v in k ==> Complete(v)
    requires forall i :: 0 <= i < |rest| ==> rest[i] == ActionOf(k[i]) && rest[i].condition.None?
    ensures var r, k' := [ActionOf(a)] + rest, [a] + k;
      forall i :: 0 <= i < |r| ==> r[i] == ActionOf(k'[i]) && r[i].condition.None?
  {
    var r, k' := [ActionOf(a)] + rest, [a] + k;
    assert forall i :: 1 <= i < |r| ==> r[i] == rest[i - 1] && k'[i] == k[i - 1];
  }

  /** A scene with one action whose condition is complete. */
  function ConditionedScene(): Ob {
    var cond := Obj(map["devid" := Int(2), "epid" := Int(0), "expr" := Str("gt"), "val" := Int(20)]);
    var act := Obj(map["delay" := Int(0), "devid" := Int(1), "epid" := Int(0), "val" := Int(1), "condition" := cond]);
    map["name" := Str("evening"), "actions" := List([act])]
  }

  /** As written, loading a conditioned action raises; as intended, the condition is attached. */
  lemma ConditionedSceneRaises()
    ensures LoadAsWritten(ConditionedScene()) == Raises
    ensures Load(ConditionedScene()) == Loaded(Scene(Str("evening"),
      [SceneAction(Int(1), Int(0), Int(1), Int(0), Some(Condition(Int(2), Int(0), Str("gt"), Int(20))))]))
  {
    var acts := ConditionedScene()["actions"].items;
    assert Complete(acts[0]) && CondComplete(acts[0]);
    assert acts[1..] == [];
  }

  /** A scene whose one action entry is a number, and one whose action has a number for a condition. */
  function NumberEntryScene(): Ob {
    map["name" := Str("s"), "actions" := List([Int(5)])]
  }

  function NumberConditionScene(): Ob {
    var act := Obj(map["delay" := Int(1), "devid" := Int(1), "epid" := Int(0), "val" := Int(1), "condition" := Int(7)]);
    map["name" := Str("s"), "actions" := List([act])]
  }

  /**
   * `'delay' in act` on the number 5, and `'devid' in cond` on the number 7,
   * raise TypeError, as written and as intended; a string of actions is
   * iterated character by character and loads no action.
   */
  lemma NumberEntriesRaise(s: string)
    ensures LoadAsWritten(NumberEntryScene()) == Raises && Load(NumberEntryScene()) == Raises
    ensures LoadAsWritten(NumberConditionScene()) == Raises && Load(NumberConditionScene()) == Raises
    ensures LoadAsWritten(map["name" := Str("s"), "actions" := Str(s)]) == Loaded(Scene(Str("s"), []))
  {
    var a := NumberEntryScene()["actions"].items;
    assert EntryRaises(a[0]) && a[1..] == [];
    var b := NumberConditionScene()["actions"].items;
    assert EntryRaises(b[0]) by {
      assert Complete(b[0]) && !Searchable(b[0].fields["condition"]);
    }
    assert b[1..] == [];
    StringLoadsNothing(Chars(s));
  }

  lemma {:induction false} StringLoadsNothing(cs: seq<Value>)
    requires forall i :: 0 <= i < |cs| ==> cs[i].Str? && |cs[i].s| == 1
    ensures LoadActsAsWritten(cs) == Some([])
    decreases |cs|
  {
    if cs != [] {
      assert cs[0] == Str([cs[0].s[0]]);
      CharNeverRaises(cs[0].s[0], ActKeys);
      StringLoadsNothing(cs[1..]);
    }
  }

  /** The actions that survive a store and reload: those with a non-zero delay. */
  function Delayed(acts: seq<SceneAction>): (r: seq<SceneAction>)
    ensures |r| <= |acts| && forall a :: a in r ==> a in acts && !IsZero(a.delay)
    decreases |acts|
  {
    if acts == [] then []
    else (if IsZero(acts[0].delay) then [] else [acts[0]]) + Delayed(acts[1..])
  }

  /**
   * Reading back what `get_ob` wrote gives the same scene, conditions and
   * order included, minus the actions with delay 0: `get_ob` leaves out
   * their delay key and `load` skips an action without one.
   */
  lemma {:induction false} ReloadKeepsDelayed(s: Scene)
    ensures Load(SceneOb(s)) == Loaded(Scene(s.name, Delayed(s.actions)))
  {
    ReloadActs(s.actions);
  }

  lemma {:induction false} ReloadActs(acts: seq<SceneAction>)
    ensures LoadActs(ActionObs(acts)) == Some(Delayed(acts))
    decreases |acts|
  {
    if acts != [] {
      ReloadActs(acts[1..]);
      assert ActionObs(acts)[1..] == ActionObs(acts[1..]);
      var o := ActionOb(acts[0]);
      if acts[0].condition.Some? {
        assert o["condition"] == Obj(CondOb(acts[0].condition.value));
      }
      assert !EntryRaises(Obj(o));
      var xs := ActionObs(acts);
      assert xs[0] == Obj(o);
      if Complete(Obj(o)) {
        assert LoadActs(xs) == Some([ActionOf(Obj(o)).(condition := if CondComplete(Obj(o)) then Some(CondOf(Obj(o))) else None)] + Delayed(acts[1..]));
      } else {
        assert LoadActs(xs) == LoadActs(xs[1..]);
        assert IsZero(acts[0].delay);
        assert [] + Delayed(acts[1..]) == Delayed(acts[1..]);
      }
    }
  }

  /** A condition-free scene reloads under the code as written just as under the intended `load`. */
  lemma {:induction false} ReloadAsWritten(acts: seq<SceneAction>)
    requires forall i :: 0 <= i < |acts| ==> acts[i].condition.None?
    ensures LoadActsAsWritten(ActionObs(acts)) == Some(Delayed(acts))
    decreases |acts|
  {
    if acts != [] {
      ReloadAsWritten(acts[1..]);
      assert ActionObs(acts)[1..] == ActionObs(acts[1..]);
      var o := ActionOb(acts[0]);
      assert "condition" !in o;
      assert ActionObs(acts)[0] == Obj(o);
      assert Complete(Obj(o)) <==> !IsZero(acts[0].delay);
      var xs := ActionObs(acts);
      if Complete(Obj(o)) {
        assert !CondComplete(Obj(o));
        assert ActionOf(Obj(o)) == acts[0];
        assert LoadActsAsWritten(xs) == Some([acts[0]] + Delayed(acts[1..]));
      } else {
        assert LoadActsAsWritten(xs) == LoadActsAsWritten(xs[1..]);
        assert IsZero(acts[0].delay);
        assert [] + Delayed(acts[1..]) == Delayed(acts[1..]);
      }
    }
  }
}

=== FILE: py_timer.dfy ===
/**
 * `hsb_dev_timer` and `hsb_dev_timers`: stored device timers, one-shot on a
 * date or daily, that fire their action once when their target time is
 * reached.
 *
 * The clock is a parameter: the current time in seconds, today's day of the
 * month, and for each timer the target moment that `strptime` and `mktime`
 * compute (on the stored date for a one-shot timer, on today's date for a
 * daily one), or nothing when they raise on a malformed time or date, and
 * whether that date is today.
 */
module PyTimer {
  import opened HubTypes
  import opened PyValue
  import PyAction

  const OneShot: Value := Str("oneshot")

  /** What `set_ob` keeps of a stored timer; the date only for a one-shot timer. */
  datatype Rule = Rule(tmid: Value, tmtype: Value, time: Value, date: Option<Value>, action: PyAction.Fields)

  predicate WellFormed(r: Rule) {
    r.date.Some? <==> r.tmtype == OneShot
  }

  const TimerKeys: set<string> := {"tmid", "type", "time", "action"}

  /** The keys `set_ob` demands of every timer. */
  predicate HasKeys(ob: Ob) {
    "tmid" in ob && "type" in ob && "time" in ob && "action" in ob
  }

  /** The stored action is an object with the three action keys. */
  predicate GoodAction(ob: Ob)
    requires "action" in ob
  {
    ob["action"].Obj? && PyAction.ActionKeys <= ob["action"].fields.Keys
  }

  /** What building a timer gives: `valid` False, an exception, or the rule. */
  datatype ParseResult = NotValid | Raises | Valid(rule: Rule)

  /**
   * `set_ob` on a new timer object: `NotValid` when it leaves `valid`
   * False, which is when a key is missing, the action is not valid, or a
   * one-shot timer has no date; `Raises` when the action's own lookup
   * raises TypeError. Any type other than "oneshot" is run as daily.
   */
  function ParseTimer(ob: Ob): (r: ParseResult)
    ensures r.Raises? <==> HasKeys(ob) && LookupRaises(ob["action"], PyAction.ActionKeys)
    ensures r.Valid? <==> HasKeys(ob) && GoodAction(ob) && (ob["type"] == OneShot ==> "date" in ob)
    ensures r.Valid? ==> WellFormed(r.rule)
  {
    if !HasKeys(ob) then NotValid
    else if LookupRaises(ob["action"], PyAction.ActionKeys) then Raises
    else
      var act := if ob["action"].Obj? then PyAction.New(ob["action"].fields) else PyAction.DevAction(None, false);
      if !act.valid then NotValid
      else if ob["type"] == OneShot && "date" !in ob then NotValid
      else Valid(Rule(ob["tmid"], ob["type"], ob["time"], if ob["type"] == OneShot then Some(ob["date"]) else None,
                      act.fields.value))
  }

  /** `hsb_dev_timer(tm)` on any entry of the list: the lookups raise on a value that is not an object, as `LookupRaises` says. */
  function ParseEntry(v: Value): (r: ParseResult)
    ensures LookupRaises(v, TimerKeys) ==> r.Raises?
    ensures v.Obj? ==> r == ParseTimer(v.fields)
    ensures !v.Obj? && !LookupRaises(v, TimerKeys) ==> r.NotValid?
  {
    if LookupRaises(v, TimerKeys) then Raises
    else if !v.Obj? then NotValid
    else ParseTimer(v.fields)
  }

  /** `get_ob`: the four keys, plus the date for a one-shot timer. */
  function TimerOb(r: Rule): (o: Ob)
    requires WellFormed(r)
    ensures o.Keys == {"tmid", "type", "time", "action"} + (if r.tmtype == OneShot then {"date"} else {})
  {
    var o := map["tmid" := r.tmid, "type" := r.tmtype, "time" := r.time, "action" := Obj(PyAction.GetOb(r.action))];
    if r.tmtype == OneShot then o["date" := r.date.value] else o
  }

  /** A stored timer reads back as the same timer. */
  lemma TimerRoundTrip(r: Rule)
    requires WellFormed(r)
    ensures ParseTimer(TimerOb(r)) == Valid(r)
  {
    var o := TimerOb(r);
    assert o["action"] == Obj(PyAction.GetOb(r.action));
  }

  /** What a timer stores is what it was given: every key it writes holds the given value, the action cut to its three keys. */
  lemma ParseThenStore(ob: Ob)
    requires ParseTimer(ob).Valid?
    ensures var o := TimerOb(ParseTimer(ob).rule);
      && o.Keys <= ob.Keys
      && (forall k :: k in o && k != "action" ==> o[k] == ob[k])
      && o["action"] == Obj(Restrict(ob["action"].fields, PyAction.ActionKeys))
  {
  }

  /** A timer with its run-time state: whether it has gone off, and its target moment `ts`. */
  datatype Timer = Timer(rule: Rule, expired: bool, ts: int)

  /**
   * The clock of one pass: `target` is `None` when `strptime` raises
   * ValueError on the timer's time or date, or `mktime` on the moment.
   */
  datatype Clock = Clock(now: int, mday: int, target: Rule -> Option<int>, onDay: Rule -> bool)

  /**
   * A one-shot timer's `self.date + ' ' + self.time` raises TypeError unless
   * both are strings; the daily format's `%s` accepts any value.
   */
  predicate Joinable(r: Rule) {
    r.tmtype != OneShot || (r.date.Some? && r.date.value.Str? && r.time.Str?)
  }

  /** `update` can compute the timer's target on this clock. */
  predicate Updatable(r: Rule, clk: Clock) {
    Joinable(r) && clk.target(r).Some?
  }

  /**
   * `update`, `None` when it raises: the target moment is recomputed; a
   * one-shot timer is expired unless its date is today; a daily timer is
   * re-armed only when its new target is still ahead.
   */
  function Update(t: Timer, clk: Clock): (r: Option<Timer>)
    ensures r.Some? <==> Updatable(t.rule, clk)
    ensures r.Some? ==> r.value.rule == t.rule && r.value.ts == clk.target(t.rule).value
    ensures r.Some? && t.rule.tmtype == OneShot ==> r.value.expired == !clk.onDay(t.rule)
    ensures r.Some? && t.rule.tmtype != OneShot ==> r.value.expired == (t.expired && clk.target(t.rule).value <= clk.now)
  {
    if !Joinable(t.rule) then None
    else match clk.target(t.rule)
      case None => None
      case Some(ts) =>
        if t.rule.tmtype == OneShot then Some(t.(ts := ts, expired := !clk.onDay(t.rule)))
        else if ts > clk.now then Some(t.(ts := ts, expired := false)) else Some(t.(ts := ts))
  }

  /**
   * `check`: an expired timer never fires; before its target nothing
   * changes; from its target on it expires, and fires only when less than
   * three seconds late.
   */
  function Check(t: Timer, now: int): (r: (bool, Timer))
    ensures r.0 <==> !t.expired && t.ts <= now < t.ts + 3
    ensures r.1.rule == t.rule && r.1.ts == t.ts && (r.1.expired <==> t.expired || t.ts <= now)
  {
    if t.expired then (false, t)
    else if now >= t.ts then (now - t.ts < 3, t.(expired := true))
    else (false, t)
  }

  /** A series of checks with no `update` between them: how many fired, and the final state. */
  function CheckAll(t: Timer, times: seq<int>): (r: (nat, Timer))
    decreases |times|
  {
    if times == [] then (0, t)
    else
      var c := Check(t, times[0]);
      var rest := CheckAll(c.1, times[1..]);
      ((if c.0 then 1 else 0) + rest.0, rest.1)
  }

  /** An expired timer stays silent and unchanged through any checks. */
  lemma {:induction false} ExpiredStaysSilent(t: Timer, times: seq<int>)
    requires t.expired
    ensures CheckAll(t, times) == (0, t)
    decreases |times|
  {
    if times != [] {
      ExpiredStaysSilent(t, times[1..]);
    }
  }

  /** Between two updates a timer fires at most once, and a timer that fired ends up expired. */
  lemma {:induction false} FiresAtMostOnce(t: Timer, times: seq<int>)
    ensures CheckAll(t, times).0 <= 1
    ensures CheckAll(t, times).0 == 1 ==> !t.expired && CheckAll(t, times).1.expired
    ensures CheckAll(t, times).1.rule == t.rule && CheckAll(t, times).1.ts == t.ts
    decreases |times|
  {
    if times != [] {
      var c := Check(t, times[0]);
      if c.0 {
        ExpiredStaysSilent(c.1, times[1..]);
      } else {
        FiresAtMostOnce(c.1, times[1..]);
      }
    }
  }

  /** `hsb_dev_timer(tm)` followed by `update`, as `hsb_dev_timers.set_ob` builds each timer. */
  function Arm(r: Rule, clk: Clock): Option<Timer> {
    Update(Timer(r, false, 0), clk)
  }

  /** An entry that makes `set_ob` raise: building the timer raises, or `update` does on a valid one. */
  predicate Unarmable(v: Value, clk: Clock) {
    ParseEntry(v).Raises? || (ParseEntry(v).Valid? && !Updatable(ParseEntry(v).rule, clk))
  }

  /**
   * `hsb_dev_timers.set_ob`: entries that do not make a valid timer are
   * dropped; the rest are armed, in order. `None` when an entry raises,
   * and then the old list stays, since `self.timers` is assigned last.
   */
  function SetTimers(tms: seq<Value>, clk: Clock): (r: Option<seq<Timer>>)
    ensures r.Some? ==> |r.value| <= |tms|
    decreases |tms|
  {
    if tms == [] then Some([])
    else
      match ParseEntry(tms[0])
      case Raises => None
      case NotValid => SetTimers(tms[1..], clk)
      case Valid(rule) =>
        match Arm(rule, clk)
        case None => None
        case Some(t) =>
          match SetTimers(tms[1..], clk)
          case None => None
          case Some(rest) => Some([t] + rest)
  }

  /** Setting a list raises exactly when one of its entries does. */
  lemma {:induction false} SetTimersRaises(tms: seq<Value>, clk: Clock)
    ensures SetTimers(tms, clk).None? <==> exists v :: v in tms && Unarmable(v, clk)
    decreases |tms|
  {
    if tms != [] {
      SetTimersRaises(tms[1..], clk);
      assert forall v :: v in tms[1..] ==> v in tms;
      assert forall v :: v in tms && v != tms[0] ==> v in tms[1..];
      if Unarmable(tms[0], clk) {
        assert SetTimers(tms, clk).None?;
      } else {
        assert SetTimers(tms, clk).None? <==> SetTimers(tms[1..], clk).None?;
      }
    }
  }

  /** A one-shot timer whose date is the number 20170105 rather than a string. */
  function NumberDateTimer(): Value {
    var act := Obj(map["devid" := Int(1), "epid" := Int(0), "val" := Int(1)]);
    Obj(map["tmid" := Int(0), "type" := OneShot, "time" := Str("21:30:00"), "date" := Int(20170105), "action" := act])
  }

  /**
   * The timer is valid, but joining its date to its time raises TypeError,
   * so setting any list that holds it raises, whatever the clock; a number
   * entry raises on its first lookup.
   */
  lemma BadEntriesRaise(clk: Clock, tms: seq<Value>)
    ensures ParseEntry(NumberDateTimer()).Valid?
    ensures SetTimers([NumberDateTimer()] + tms, clk).None?
    ensures SetTimers([Int(3)] + tms, clk).None?
  {
    var ob := NumberDateTimer().fields;
    assert GoodAction(ob);
    assert !Joinable(ParseEntry(NumberDateTimer()).rule);
  }

  function Rules(ts: seq<Timer>): (r: seq<Rule>)
    ensures |r| == |ts| && forall i :: 0 <= i < |ts| ==> r[i] == ts[i].rule
  {
    seq(|ts|, i requires 0 <= i < |ts| => ts[i].rule)
  }

  /** `hsb_dev_timers.get_ob`. */
  function TimersOb(ts: seq<Timer>): (r: seq<Value>)
    requires forall i :: 0 <= i < |ts| ==> WellFormed(ts[i].rule)
    ensures |r| == |ts|
  {
    seq(|ts|, i requires 0 <= i < |ts| => Obj(TimerOb(ts[i].rule)))
  }

  /**
   * Storing a timer list and setting it again gives back the same timers,
   * in order, none dropped; it raises exactly when one of them has a
   * target the clock cannot compute.
   */
  lemma SetTimersRoundTrip(ts: seq<Timer>, clk: Clock)
    requires forall i :: 0 <= i < |ts| ==> WellFormed(ts[i].rule)
    ensures SetTimers(TimersOb(ts), clk).None? <==> exists i :: 0 <= i < |ts| && !Updatable(ts[i].rule, clk)
    ensures SetTimers(TimersOb(ts), clk).Some? ==> Rules(SetTimers(TimersOb(ts), clk).value) == Rules(ts)
  {
    var ob := TimersOb(ts);
    forall i | 0 <= i < |ts|
      ensures ob[i].Obj? && ParseEntry(ob[i]) == Valid(ts[i].rule)
    {
      TimerRoundTrip(ts[i].rule);
    }
    SetTimersRaises(ob, clk);
    if exists i :: 0 <= i < |ts| && !Updatable(ts[i].rule, clk) {
      var i :| 0 <= i < |ts| && !Updatable(ts[i].rule, clk);
      assert ob[i] in ob && Unarmable(ob[i], clk);
    } else {
      assert forall i :: 0 <= i < |ts| ==> Arm(ts[i].rule, clk).Some?;
      SetTimersAllValid(ob, clk);
    }
  }

  /** A list of valid, armable timers is armed whole: the i-th timer comes from the i-th entry. */
  lemma {:induction false} SetTimersAllValid(tms: seq<Value>, clk: Clock)
    requires forall i :: 0 <= i < |tms| ==> ParseEntry(tms[i]).Valid? && Arm(ParseEntry(tms[i]).rule, clk).Some?
    ensures var r := SetTimers(tms, clk);
      r.Some? && |r.value| == |tms| && forall i :: 0 <= i < |tms| ==> r.value[i] == Arm(ParseEntry(tms[i]).rule, clk).value
    decreases |tms|
  {
    if tms != [] {
      assert forall i :: 1 <= i < |tms| ==> tms[i] == tms[1..][i - 1];
      SetTimersAllValid(tms[1..], clk);
      SetTimersCons(tms, clk);
    }
  }

  /** A valid, armable first entry is armed in front of the rest. */
  lemma SetTimersCons(tms: seq<Value>, clk: Clock)
    requires tms != [] && ParseEntry(tms[0]).Valid? && Arm(ParseEntry(tms[0]).rule, clk).Some?
    requires SetTimers(tms[1..], clk).Some?
    ensures SetTimers(tms, clk) == Some([Arm(ParseEntry(tms[0]).rule, clk).value] + SetTimers(tms[1..], clk).value)
  {
  }

  /**
   * The list is set with nothing dropped exactly when every entry is a
   * valid timer whose target the clock can compute.
   */
  lemma {:induction false} SetTimersDrops(tms: seq<Value>, clk: Clock)
    ensures (SetTimers(tms, clk).Some? && |SetTimers(tms, clk).value| == |tms|) <==>
      forall i :: 0 <= i < |tms| ==> ParseEntry(tms[i]).Valid? && Updatable(ParseEntry(tms[i]).rule, clk)
    decreases |tms|
  {
    if tms != [] {
      SetTimersDrops(tms[1..], clk);
      assert forall i :: 1 <= i < |tms| ==> tms[i] == tms[1..][i - 1];
    }
  }

  /** One pass of the `check` loop over the list: each timer's verdict and new state. */
  function CheckEach(ts: seq<Timer>, now: int): (r: (seq<bool>, seq<Timer>))
    ensures |r.0| == |ts| && |r.1| == |ts|
    ensures forall i :: 0 <= i < |ts| ==> r.0[i] == Check(ts[i], now).0 && r.1[i] == Check(ts[i], now).1
  {
    (seq(|ts|, i requires 0 <= i < |ts| => Check(ts[i], now).0),
     seq(|ts|, i requires 0 <= i < |ts| => Check(ts[i], now).1))
  }

  /** The actions of the timers that fired, in list order; `check` hands them to the manager's `do_actions`. */
  function Fired(ts: seq<Timer>, flags: seq<bool>): (r: seq<PyAction.Fields>)
    requires |flags| == |ts|
    ensures |r| <= |ts|
    decreases |ts|
  {
    if ts == [] then []
    else (if flags[0] then [ts[0].rule.action] else []) + Fired(ts[1..], flags[1..])
  }

  /** The timer list with the day of the month it last saw. */
  datatype Timers = Timers(timers: seq<Timer>, mday: int)

  /**
   * One pass of `hsb_dev_timers.check`: the actions handed to the manager,
   * the state the object is left in, and whether the pass ended by raising.
   * Python's writes before the raise stay, so `after` is kept either way.
   */
  datatype Pass = Pass(fired: seq<PyAction.Fields>, after: Timers, raised: bool)

  /**
   * `update` applied to each timer in turn, as a loop would: the first one
   * that raises stops the loop, leaving it and the timers after it as they
   * were (a raising `update` writes nothing, since it raises before its
   * first assignment) and the timers before it updated.
   */
  function UpdateAll(ts: seq<Timer>, clk: Clock): (r: (seq<Timer>, bool))
    ensures |r.0| == |ts|
    ensures r.1 <==> exists i :: 0 <= i < |ts| && !Updatable(ts[i].rule, clk)
    ensures !r.1 ==> forall i :: 0 <= i < |ts| ==> r.0[i] == Update(ts[i], clk).value
    ensures forall i :: 0 <= i < |ts| ==> r.0[i].rule == ts[i].rule
    decreases |ts|
  {
    if ts == [] then ([], false)
    else match Update(ts[0], clk)
      case None => (ts, true)
      case Some(t) =>
        var rest := UpdateAll(ts[1..], clk);
        assert forall i :: 1 <= i < |ts| ==> ts[i] == ts[1..][i - 1];
        ([t] + rest.0, rest.1)
  }

  /** Timers before the first that cannot be updated are updated; it and the rest are kept. */
  lemma {:induction false} UpdateAllStops(ts: seq<Timer>, clk: Clock, j: nat)
    requires j < |ts| && !Updatable(ts[j].rule, clk)
    requires forall i :: 0 <= i < j ==> Updatable(ts[i].rule, clk)
    ensures var r := UpdateAll(ts, clk);
      && (forall i :: 0 <= i < j ==> r.0[i] == Update(ts[i], clk).value)
      && r.0[j..] == ts[j..]
    decreases j
  {
    if j > 0 {
      UpdateAllStops(ts[1..], clk, j - 1);
      var t := Update(ts[0], clk).value;
      var rest := UpdateAll(ts[1..], clk);
      assert UpdateAll(ts, clk).0 == [t] + rest.0;
      assert forall i :: 1 <= i < |ts| ==> ts[i] == ts[1..][i - 1];
      assert ts[j..] == ts[1..][j - 1..];
    }
  }

  /**
   * `hsb_dev_timers.check` as written: every timer is checked and the fired
   * actions handed on first; then a new day records the day and updates
   * only `timer`, the loop variable, i.e. the last timer. With no timer at
   * all that name is unbound and the call raises, as it does when that last
   * update raises; the day is recorded either way.
   */
  function CheckTimersAsWritten(s: Timers, clk: Clock): (r: Pass)
    ensures r.raised <==> clk.mday != s.mday && (s.timers == [] || !Updatable(s.timers[|s.timers| - 1].rule, clk))
    ensures r.fired == Fired(s.timers, CheckEach(s.timers, clk.now).0)
    ensures r.after.mday == clk.mday && |r.after.timers| == |s.timers|
    ensures r.raised ==> r.after.timers == CheckEach(s.timers, clk.now).1
    ensures forall i :: 0 <= i < |s.timers| - 1 ==> r.after.timers[i] == Check(s.timers[i], clk.now).1
  {
    var c := CheckEach(s.timers, clk.now);
    var acts := Fired(s.timers, c.0);
    if clk.mday == s.mday then Pass(acts, Timers(c.1, s.mday), false)
    else if c.1 == [] then Pass(acts, Timers(c.1, clk.mday), true)
    else
      var last := |c.1| - 1;
      match Update(c.1[last], clk)
      case None => Pass(acts, Timers(c.1, clk.mday), true)
      case Some(t) => Pass(acts, Timers(c.1[last := t], clk.mday), false)
  }

  /**
   * `hsb_dev_timers.check` as intended: a new day records the day and
   * updates every timer in turn, raising at the first update that raises.
   */
  function CheckTimers(s: Timers, clk: Clock): (r: Pass)
    ensures r.raised <==> clk.mday != s.mday && exists i :: 0 <= i < |s.timers| && !Updatable(s.timers[i].rule, clk)
    ensures r.fired == Fired(s.timers, CheckEach(s.timers, clk.now).0)
    ensures r.after.mday == clk.mday && |r.after.timers| == |s.timers|
    ensures forall i :: 0 <= i < |s.timers| ==> r.after.timers[i].rule == s.timers[i].rule
  {
    var c := CheckEach(s.timers, clk.now);
    var acts := Fired(s.timers, c.0);
    if clk.mday == s.mday then Pass(acts, Timers(c.1, s.mday), false)
    else
      var u := UpdateAll(c.1, clk);
      Pass(acts, Timers(u.0, clk.mday), u.1)
  }

  /**
   * A pass that raises has still recorded the day and expired what it
   * checked, so a second pass later that day does not raise again, and a
   * timer the raising pass fired stays silent.
   */
  lemma RaisedPassIsNotRepeated(s: Timers, clk: Clock, clk2: Clock, i: nat)
    requires clk2.mday == clk.mday && i < |s.timers| - 1
    ensures CheckTimersAsWritten(s, clk).raised ==> !CheckTimersAsWritten(CheckTimersAsWritten(s, clk).after, clk2).raised
    ensures CheckTimers(s, clk).raised ==> !CheckTimers(CheckTimers(s, clk).after, clk2).raised
    ensures CheckEach(s.timers, clk.now).0[i] ==>
      !CheckEach(CheckTimersAsWritten(s, clk).after.timers, clk2.now).0[i]
  {
  }

  /**
   * The corrected pass that raises at timer `j` leaves the timers before
   * `j` updated and `j` on as they were after the checks.
   */
  lemma CheckTimersRaisesAt(s: Timers, clk: Clock, j: nat)
    requires clk.mday != s.mday && j < |s.timers|
    requires !Updatable(s.timers[j].rule, clk) && forall i :: 0 <= i < j ==> Updatable(s.timers[i].rule, clk)
    ensures var r := CheckTimers(s, clk);
      var c := CheckEach(s.timers, clk.now).1;
      && r.raised
      && (forall i :: 0 <= i < j ==> r.after.timers[i] == Update(c[i], clk).value)
      && r.after.timers[j..] == c[j..]
  {
    UpdateAllStops(CheckEach(s.timers, clk.now).1, clk, j);
  }

  /**
   * On a new day every timer is re-armed from the new clock: a one-shot
   * timer is live exactly when its date is today, a daily one whenever its
   * new target is ahead; and the day is recorded.
   */
  lemma NewDayRearmsAll(s: Timers, clk: Clock, i: nat)
    requires clk.mday != s.mday && i < |s.timers|
    ensures !CheckTimers(s, clk).raised ==>
      var t := CheckTimers(s, clk).after.timers[i];
      && t.rule == s.timers[i].rule && t.ts == clk.target(t.rule).value
      && (t.rule.tmtype == OneShot ==> t.expired == !clk.onDay(t.rule))
      && (t.rule.tmtype != OneShot && clk.target(t.rule).value > clk.now ==> !t.expired)
  {
  }

  /** Within one day, two passes never fire the same timer twice. */
  lemma SameDayFiresOnce(s: Timers, clk1: Clock, clk2: Clock, i: nat)
    requires clk1.mday == s.mday && clk2.mday == s.mday && i < |s.timers|
    ensures var s1 := CheckTimers(s, clk1).after;
      !(CheckEach(s.timers, clk1.now).0[i] && CheckEach(s1.timers, clk2.now).0[i])
  {
  }

  /** A daily timer already expired today, whose rule asks for this time tomorrow. */
  function YesterdaysDaily(id: int): Timer {
    Timer(Rule(Int(id), Str("daily"), Str("08:00:00"), None, PyAction.Fields(Int(1), Int(0), Int(1))), true, 100)
  }

  /**
   * Two daily timers that went off yesterday: at the first pass of the new
   * day, as written, only the second is re-armed, so the first one never
   * fires at its time; as intended, both fire.
   */
  lemma DayChangeSkipsAllButLast()
    ensures var s := Timers([YesterdaysDaily(1), YesterdaysDaily(2)], 1);
      var clk := Clock(200, 2, (r: Rule) => Some(300), (r: Rule) => true);
      var later := Clock(300, 2, (r: Rule) => Some(300), (r: Rule) => true);
      && !CheckTimersAsWritten(s, clk).raised
      && var w := CheckTimersAsWritten(s, clk).after;
      && w.timers[0].expired && !w.timers[1].expired
      && Fired(w.timers, CheckEach(w.timers, later.now).0) == [YesterdaysDaily(2).rule.action]
      && !CheckTimers(s, clk).raised
      && var c := CheckTimers(s, clk).after;
      && Fired(c.timers, CheckEach(c.timers, later.now).0) == [YesterdaysDaily(1).rule.action, YesterdaysDaily(2).rule.action]
  {
    var s := Timers([YesterdaysDaily(1), YesterdaysDaily(2)], 1);
    var clk := Clock(200, 2, (r: Rule) => Some(300), (r: Rule) => true);
    var w := CheckTimersAsWritten(s, clk).after;
    var c := CheckTimers(s, clk).after;
    assert w.timers[0] == YesterdaysDaily(1);
    assert c.timers[0] == YesterdaysDaily(1).(ts := 300, expired := false);
  }
}

=== FILE: py_value.dfy ===
/**
 * The JSON-shaped values the Python hub passes around: commands from the
 * network, stored timers and scenes, device and endpoint attributes.
 * A Python `dict` with string keys is an `Ob`.
 */
module PyValue {
  import opened HubTypes

  datatype Value =
    | Null
    | Bool(b: bool)
    | Int(i: int)
    | Str(s: string)
    | List(items: seq<Value>)
    | Obj(fields: map<string, Value>)

  type Ob = map<string, Value>

  /** `ob` cut down to the given keys, as a dict comprehension over them would build it. */
  function Restrict(ob: Ob, keys: set<string>): (r: Ob)
    ensures r.Keys == ob.Keys * keys
    ensures forall k :: k in r ==> r[k] == ob[k]
  {
    map k | k in ob && k in keys :: ob[k]
  }

  /** The object a value holds, or nothing when it is not a JSON object. */
  function AsOb(v: Value): Option<Ob> {
    if v.Obj? then Some(v.fields) else None
  }

  /**
   * Python truthiness of a JSON value: `None`, `False`, `0`, `""`, `[]`
   * and `{}` are false.
   */
  predicate Truthy(v: Value) {
    match v
    case Null => false
    case Bool(b) => b
    case Int(i) => i != 0
    case Str(s) => s != ""
    case List(items) => items != []
    case Obj(fields) => fields != map[]
  }

  /** A JSON number as Python compares and hashes it (`True` is 1, `False` is 0). */
  function Num(v: Value): Option<int> {
    match v
    case Int(i) => Some(i)
    case Bool(b) => Some(if b then 1 else 0)
    case _ => None
  }

  /** Python `==` against the integer 0 (`False == 0` holds in Python). */
  predicate IsZero(v: Value) {
    v == Int(0) || v == Bool(false)
  }

  /** Whether Python's `k in v` can be evaluated: on a number, `None` or a bool it raises TypeError. */
  predicate Searchable(v: Value) {
    v.Str? || v.List? || v.Obj?
  }

  /** `a` occurs in `s` as a run of consecutive characters. */
  predicate Substring(a: string, s: string)
    decreases |s|
  {
    (|a| <= |s| && s[..|a|] == a) || (|s| > 0 && Substring(a, s[1..]))
  }

  /** Python's `k in v` for a string `k`: a substring of a string, an element of a list, a key of an object. */
  predicate Contains(v: Value, k: string)
    requires Searchable(v)
  {
    match v
    case Str(s) => Substring(k, s)
    case List(items) => Str(k) in items
    case Obj(fields) => k in fields
    case _ => false
  }

  /**
   * The loaders' pattern: skip the entry unless `k in v` holds for every
   * key, then read `v[k]`. It raises TypeError when `in` does not apply,
   * and when a string or list holds every key, since neither can be
   * indexed by a string. It never raises on an object.
   */
  predicate LookupRaises(v: Value, keys: set<string>) {
    !Searchable(v) || (!v.Obj? && forall k :: k in keys ==> Contains(v, k))
  }

  /** The entries `for x in s` visits for a string `s`: its characters, as one-character strings. */
  function Chars(s: string): (r: seq<Value>)
    ensures |r| == |s| && forall i :: 0 <= i < |s| ==> r[i] == Str([s[i]])
  {
    seq(|s|, i requires 0 <= i < |s| => Str([s[i]]))
  }

  /** A one-character string holds no key longer than one character, so looking keys up in it never raises. */
  lemma CharNeverRaises(c: char, keys: set<string>)
    requires exists k :: k in keys && |k| > 1
    ensures !LookupRaises(Str([c]), keys)
  {
    var k :| k in keys && |k| > 1;
    assert !Substring(k, [c]) by {
      assert !Substring(k, [c][1..]) by { assert [c][1..] == []; }
    }
  }
}

=== FILE: registry.dfy ===
/**
 * The device registry: driver registration, id allocation, the online,
 * offline, removed and recovered transitions, IR-blaster links, the status
 * cache, the box work mode, event emission with linkage matching, and the
 * dispatcher that serves queued requests.
 *
 * Every operation is a pure function from the registry to a new registry
 * plus what it emits. Calls into drivers become parameters holding the
 * driver's answer.
 */
module Registry {
  import opened Bytes
  import opened HubTypes
  import opened DeviceTypes

  /* ---------------- lookups ---------------- */

  /** `find_dev` over one list: the first device with this id. */
  function FindById(ds: seq<Device>, id: uint32): (r: Option<nat>)
    ensures r.Some? ==> r.value < |ds| && ds[r.value].id == id
    ensures r.Some? ==> forall j :: 0 <= j < r.value ==> ds[j].id != id
    ensures r.None? <==> forall j :: 0 <= j < |ds| ==> ds[j].id != id
    decreases |ds|
  {
    if |ds| == 0 then None
    else if ds[0].id == id then Some(0)
    else match FindById(ds[1..], id)
      case Some(k) => Some(k + 1)
      case None => None
  }

  /** `find_dev`: only online devices are found. */
  function FindDev(h: Hub, id: uint32): (r: Option<Device>)
    ensures r.Some? <==> exists j :: 0 <= j < |h.online| && h.online[j].id == id
    ensures r.Some? ==> r.value in h.online && r.value.id == id
  {
    match FindById(h.online, id)
    case Some(k) => Some(h.online[k])
    case None => None
  }

  /** `_find_drv`: the first driver with this id. */
  function FindDrv(drvs: seq<Driver>, id: uint32): (r: Option<nat>)
    ensures r.Some? ==> r.value < |drvs| && drvs[r.value].id == id
    ensures r.None? <==> forall j :: 0 <= j < |drvs| ==> drvs[j].id != id
    decreases |drvs|
  {
    if |drvs| == 0 then None
    else if drvs[0].id == id then Some(0)
    else match FindDrv(drvs[1..], id)
      case Some(k) => Some(k + 1)
      case None => None
  }

  /* ---------------- drivers and ids ---------------- */

  /**
   * `register_dev_drv`: a missing driver is `BAD_PARAM`, a driver id already
   * registered is `ENTRY_EXISTS` (the list is unchanged in both cases);
   * otherwise the driver is appended.
   */
  function RegisterDevDrv(h: Hub, drv: Option<Driver>): (r: (Err, Hub))
    ensures drv.None? ==> r == (BadParam, h)
    ensures drv.Some? && (exists j :: 0 <= j < |h.drivers| && h.drivers[j].id == drv.value.id) ==>
      r == (EntryExists, h)
    ensures drv.Some? && (forall j :: 0 <= j < |h.drivers| ==> h.drivers[j].id != drv.value.id) ==>
      r == (Ok, h.(drivers := h.drivers + [drv.value]))
  {
    match drv
    case None => (BadParam, h)
    case Some(d) =>
      if FindDrv(h.drivers, d.id).Some? then (EntryExists, h)
      else (Ok, h.(drivers := h.drivers + [d]))
  }

  /** Registered driver ids stay pairwise distinct. */
  predicate UniqueDrivers(drvs: seq<Driver>) {
    forall i, j :: 0 <= i < j < |drvs| ==> drvs[i].id != drvs[j].id
  }

  lemma RegisterKeepsDriversUnique(h: Hub, drv: Option<Driver>)
    requires UniqueDrivers(h.drivers)
    ensures UniqueDrivers(RegisterDevDrv(h, drv).1.drivers)
  {
    if drv.Some? && FindDrv(h.drivers, drv.value.id).None? {
      var ds := h.drivers + [drv.value];
      forall i, j | 0 <= i < j < |ds| ensures ds[i].id != ds[j].id {
        if j == |h.drivers| {
          assert ds[i] == h.drivers[i];
        }
      }
    }
  }

  /** `alloc_dev_id`: hands out the counter and advances it (32-bit). */
  function AllocDevId(h: Hub): (r: (uint32, Hub))
    ensures r.0 == h.nextId
    ensures r.1 == h.(nextId := To32(h.nextId + 1))
    ensures h.nextId < 0xFFFF_FFFF ==> r.1.nextId == r.0 + 1
  {
    (h.nextId, h.(nextId := To32(h.nextId + 1)))
  }

  /** Successive allocations return strictly increasing ids below the wrap point. */
  lemma {:induction false} AllocIncreasing(h: Hub, n: nat)
    requires h.nextId + n < 0x1_0000_0000
    decreases n
    ensures AllocN(h, n).nextId == h.nextId + n
    ensures forall i, j :: 0 <= i < j < |AllocIds(h, n)| ==> AllocIds(h, n)[i] < AllocIds(h, n)[j]
    ensures forall i :: 0 <= i < |AllocIds(h, n)| ==> AllocIds(h, n)[i] == h.nextId + i
  {
    if n > 0 {
      AllocIncreasing(AllocDevId(h).1, n - 1);
    }
  }

  /** The hub after `n` allocations. */
  function AllocN(h: Hub, n: nat): Hub
    decreases n
  {
    if n == 0 then h else AllocN(AllocDevId(h).1, n - 1)
  }

  /** The ids `n` allocations return, in order. */
  function AllocIds(h: Hub, n: nat): (r: seq<uint32>)
    ensures |r| == n
    decreases n
  {
    if n == 0 then [] else [AllocDevId(h).0] + AllocIds(AllocDevId(h).1, n - 1)
  }

  /**
   * The counter after `load_config` reads devices with these ids: it starts
   * at 1 (id 0 is reserved for the box) and is bumped past every id read.
   */
  function SeedNextId(ids: seq<uint32>): (r: uint32)
    ensures r >= 1 || exists i :: 0 <= i < |ids| && ids[i] == 0xFFFF_FFFF
    decreases |ids|
  {
    if |ids| == 0 then 1
    else
      var m := SeedNextId(ids[..|ids| - 1]);
      var id := ids[|ids| - 1];
      if id >= m then To32(id + 1) else m
  }

  /** Unless some loaded id is the largest 32-bit value, every loaded id is below the seeded counter. */
  lemma {:induction false} SeedAboveLoaded(ids: seq<uint32>)
    requires forall i :: 0 <= i < |ids| ==> ids[i] < 0xFFFF_FFFF
    ensures SeedNextId(ids) >= 1
    ensures forall i :: 0 <= i < |ids| ==> ids[i] < SeedNextId(ids)
    decreases |ids|
  {
    if |ids| > 0 {
      SeedAboveLoaded(ids[..|ids| - 1]);
      assert forall i :: 0 <= i < |ids| - 1 ==> ids[..|ids| - 1][i] == ids[i];
    }
  }

  /* ---------------- IR links ---------------- */

  /** Two devices share a location: both non-empty and equal over 16 bytes. */
  predicate SameRoom(a: Device, b: Device) {
    && |Key16(a.config.location)| > 0
    && |Key16(b.config.location)| > 0
    && Key16(a.config.location) == Key16(b.config.location)
  }

  predicate IsBlaster(c: Codes, d: Device) {
    d.info.devType == c.typeRemoteCtl
  }

  /** The driver id whose devices are linked to blasters. */
  const IrLinkedDriver: uint32 := 3

  /** `a` and `b` are the same device except possibly for the IR link. */
  predicate SameButLink(a: Device, b: Device) {
    a == b.(irDev := a.irDev)
  }

  /** A blaster in the same room as `ds[k]`, other than `ds[k]` itself. */
  predicate CandidateBlaster(c: Codes, ds: seq<Device>, k: nat, j: nat)
    requires k < |ds| && j < |ds|
  {
    j != k && SameRoom(ds[k], ds[j]) && IsBlaster(c, ds[j])
  }

  function FirstBlasterFrom(c: Codes, ds: seq<Device>, k: nat, j: nat): (r: Option<nat>)
    requires k < |ds| && j <= |ds|
    ensures r.Some? ==> j <= r.value < |ds| && CandidateBlaster(c, ds, k, r.value)
    ensures r.Some? ==> forall i :: j <= i < r.value ==> !CandidateBlaster(c, ds, k, i)
    ensures r.None? ==> forall i :: j <= i < |ds| ==> !CandidateBlaster(c, ds, k, i)
    decreases |ds| - j
  {
    if j == |ds| then None
    else if CandidateBlaster(c, ds, k, j) then Some(j)
    else FirstBlasterFrom(c, ds, k, j + 1)
  }

  /** The blaster `link_device` picks for `ds[k]`: the first candidate, if any. */
  function LinkTarget(c: Codes, ds: seq<Device>, k: nat): (r: Option<uint32>)
    requires k < |ds|
    ensures r.None? <==> forall j :: 0 <= j < |ds| ==> !CandidateBlaster(c, ds, k, j)
    ensures r.Some? ==> exists j :: 0 <= j < |ds| && CandidateBlaster(c, ds, k, j) && ds[j].id == r.value
  {
    match FirstBlasterFrom(c, ds, k, 0)
    case Some(j) => Some(ds[j].id)
    case None => None
  }

  /**
   * `link_device(ds[k])`: only devices of driver 3 are linked; their link
   * becomes the first other blaster in the same room, or none.
   */
  function LinkDevice(c: Codes, ds: seq<Device>, k: nat): (r: seq<Device>)
    requires k < |ds|
    ensures |r| == |ds| && forall i :: 0 <= i < |ds| && i != k ==> r[i] == ds[i]
    ensures SameButLink(r[k], ds[k])
    ensures ds[k].drvid != IrLinkedDriver ==> r == ds
    ensures ds[k].drvid == IrLinkedDriver ==> r[k].irDev == LinkTarget(c, ds, k)
  {
    if ds[k].drvid != IrLinkedDriver then ds
    else ds[k := ds[k].(irDev := LinkTarget(c, ds, k))]
  }

  /** What `update_link` does to one other device when blaster `p` goes away. */
  function Relinked(c: Codes, ds: seq<Device>, i: nat, p: Device): (r: Device)
    requires i < |ds|
    ensures SameButLink(r, ds[i])
  {
    if ds[i].id != p.id && ds[i].irDev == Some(p.id) then
      LinkDevice(c, ds[i := ds[i].(irDev := None)], i)[i]
    else ds[i]
  }

  /**
   * `update_link(p)`: nothing unless `p` is a blaster. A blaster going
   * offline has every device linked to it unlinked and relinked; one coming
   * online becomes the link of every other device in its room.
   */
  function UpdateLink(c: Codes, ds: seq<Device>, p: Device): (r: seq<Device>)
    ensures |r| == |ds| && forall i :: 0 <= i < |ds| ==> SameButLink(r[i], ds[i])
    ensures !IsBlaster(c, p) ==> r == ds
    ensures IsBlaster(c, p) && p.online ==> forall i :: 0 <= i < |ds| ==>
      r[i].irDev == (if ds[i].id != p.id && SameRoom(p, ds[i]) then Some(p.id) else ds[i].irDev)
    ensures IsBlaster(c, p) && !p.online ==> forall i :: 0 <= i < |ds| ==>
      (ds[i].irDev != Some(p.id) || ds[i].id == p.id ==> r[i] == ds[i])
  {
    if !IsBlaster(c, p) then ds
    else if p.online then
      seq(|ds|, i requires 0 <= i < |ds| =>
        if ds[i].id != p.id && SameRoom(p, ds[i]) then ds[i].(irDev := Some(p.id)) else ds[i])
    else
      seq(|ds|, i requires 0 <= i < |ds| => Relinked(c, ds, i, p))
  }

  /** Relinking never picks a device that is not in the list. */
  lemma LinkTargetInList(c: Codes, ds: seq<Device>, k: nat, id: uint32)
    requires k < |ds| && forall j :: 0 <= j < |ds| ==> ds[j].id != id
    ensures LinkTarget(c, ds, k) != Some(id)
  {
  }

  /**
   * After a blaster leaves the online list, no online device is linked to
   * it any more: the offline branch of `update_link` leaves no dangling link.
   */
  lemma {:induction false} NoLinkToDeparted(c: Codes, ds: seq<Device>, p: Device)
    requires IsBlaster(c, p) && !p.online
    requires forall j :: 0 <= j < |ds| ==> ds[j].id != p.id
    ensures forall i :: 0 <= i < |UpdateLink(c, ds, p)| ==> UpdateLink(c, ds, p)[i].irDev != Some(p.id)
  {
    var r := UpdateLink(c, ds, p);
    forall i | 0 <= i < |r| ensures r[i].irDev != Some(p.id) {
      assert r[i] == Relinked(c, ds, i, p);
      if ds[i].irDev == Some(p.id) {
        var ds' := ds[i := ds[i].(irDev := None)];
        assert forall j :: 0 <= j < |ds'| ==> ds'[j].id == ds[j].id;
        if ds'[i].drvid == IrLinkedDriver {
          LinkTargetInList(c, ds', i, p.id);
        }
      }
    }
  }

  /* ---------------- status cache ---------------- */

  /** The largest status id `sync_dev_status` writes. */
  const MaxSyncId: nat := 8

  /** `sync_dev_status`: pairs with id above 8 are skipped; the count is untouched. */
  function SyncDevStatus(cache: StatusCache, pairs: seq<Pair>): (r: StatusCache)
    ensures r.num == cache.num
    decreases |pairs|
  {
    if |pairs| == 0 then cache
    else
      var prev := SyncDevStatus(cache, pairs[..|pairs| - 1]);
      var p := pairs[|pairs| - 1];
      if p.id > MaxSyncId then prev else prev.(vals := prev.vals[p.id := p.val])
  }

  /** The value the last pair with this id carries, if any. */
  function LastWrite(pairs: seq<Pair>, id: nat): (r: Option<int>)
    ensures r.Some? <==> exists k :: 0 <= k < |pairs| && pairs[k].id == id
    ensures r.Some? ==> exists k :: 0 <= k < |pairs| && pairs[k].id == id && pairs[k].val == r.value &&
                                    forall k' :: k < k' < |pairs| ==> pairs[k'].id != id
    decreases |pairs|
  {
    if |pairs| == 0 then None
    else if pairs[|pairs| - 1].id == id then Some(pairs[|pairs| - 1].val)
    else
      var r := LastWrite(pairs[..|pairs| - 1], id);
      assert forall k :: 0 <= k < |pairs| - 1 ==> pairs[..|pairs| - 1][k] == pairs[k];
      r
  }

  /**
   * After a sync, each slot 0..8 holds the last value the message gave it,
   * or what it held before; every other slot and the count are unchanged.
   */
  lemma {:induction false} SyncSemantics(cache: StatusCache, pairs: seq<Pair>, i: nat)
    ensures CacheVal(SyncDevStatus(cache, pairs), i) ==
      (if i <= MaxSyncId && LastWrite(pairs, i).Some? then LastWrite(pairs, i).value else CacheVal(cache, i))
    decreases |pairs|
  {
    if |pairs| > 0 {
      SyncSemantics(cache, pairs[..|pairs| - 1], i);
    }
  }

  /** `load_dev_status`: pairs (i, cached value i) for every slot below the count. */
  function LoadDevStatus(cache: StatusCache): (r: seq<Pair>)
    ensures |r| == cache.num
    ensures forall i :: 0 <= i < |r| ==> r[i].id == i
  {
    seq(cache.num, i requires 0 <= i < cache.num => Pair(i, CacheVal(cache, i)))
  }

  /** A value synced into a slot below the count is what a later load reports for that slot. */
  lemma SyncThenLoad(cache: StatusCache, pairs: seq<Pair>, i: nat)
    requires i < cache.num && i <= MaxSyncId && LastWrite(pairs, i).Some?
    ensures LoadDevStatus(SyncDevStatus(cache, pairs))[i] == Pair(i, LastWrite(pairs, i).value)
  {
    SyncSemantics(cache, pairs, i);
  }

  /** Applies `f` to the online device with id `devid`, if there is one. */
  function UpdateOnline(h: Hub, devid: uint32, cache: StatusCache): (r: Hub)
    ensures r.offline == h.offline && r.drivers == h.drivers && r.nextId == h.nextId
    ensures r.workMode == h.workMode && r.secToday == h.secToday
    ensures |r.online| == |h.online|
    ensures forall i :: 0 <= i < |h.online| ==>
      r.online[i] == if FindById(h.online, devid) == Some(i) then h.online[i].(status := cache) else h.online[i]
  {
    match FindById(h.online, devid)
    case Some(k) => h.(online := h.online[k := h.online[k].(status := cache)])
    case None => h
  }

  /* ---------------- events and linkage ---------------- */

  /** Whether linkage slot `s` fires for this event in this box mode. */
  predicate Fires(s: LinkSlot, mode: nat, evtId: int, p1: int, p2: int) {
    && s.active
    && Bit(s.l.workMode, mode)
    && s.l.evtId == evtId && s.l.evtParam1 == p1 && s.l.evtParam2 == p2
  }

  function LinkRequest(s: LinkSlot): Out {
    RuleRequest(s.l.flag, s.l.actDevid, s.l.actId, s.l.actParam1, s.l.actParam2)
  }

  /** The requests of the firing slots from `i` on, in slot order. */
  function LinkOuts(ls: seq<LinkSlot>, mode: nat, evtId: int, p1: int, p2: int, i: nat): (r: seq<Out>)
    requires i <= |ls|
    ensures |r| <= |ls| - i
    ensures forall o :: o in r ==> exists j :: i <= j < |ls| && Fires(ls[j], mode, evtId, p1, p2) && o == LinkRequest(ls[j])
    ensures forall j :: i <= j < |ls| && Fires(ls[j], mode, evtId, p1, p2) ==> LinkRequest(ls[j]) in r
    decreases |ls| - i
  {
    if i == |ls| then []
    else
      var rest := LinkOuts(ls, mode, evtId, p1, p2, i + 1);
      if Fires(ls[i], mode, evtId, p1, p2) then [LinkRequest(ls[i])] + rest else rest
  }

  /** Exactly as many requests as firing slots. */
  function CountFiring(ls: seq<LinkSlot>, mode: nat, evtId: int, p1: int, p2: int, i: nat): nat
    requires i <= |ls|
    decreases |ls| - i
  {
    if i == |ls| then 0
    else (if Fires(ls[i], mode, evtId, p1, p2) then 1 else 0) + CountFiring(ls, mode, evtId, p1, p2, i + 1)
  }

  lemma {:induction false} LinkOutsCount(ls: seq<LinkSlot>, mode: nat, evtId: int, p1: int, p2: int, i: nat)
    requires i <= |ls|
    ensures |LinkOuts(ls, mode, evtId, p1, p2, i)| == CountFiring(ls, mode, evtId, p1, p2, i)
    decreases |ls| - i
  {
    if i < |ls| {
      LinkOutsCount(ls, mode, evtId, p1, p2, i + 1);
    }
  }

  /**
   * `check_linkage`: `OTHERS` with no request when the device is not online
   * or its mode mask lacks the box mode; otherwise one request per firing
   * slot.
   */
  function CheckLinkage(h: Hub, devid: uint32, evtId: int, p1: int, p2: int): (r: (Err, seq<Out>))
    ensures FindDev(h, devid).None? ==> r == (Others, [])
    ensures FindDev(h, devid).Some? && !Bit(FindDev(h, devid).value.workMode, h.workMode) ==> r == (Others, [])
    ensures FindDev(h, devid).Some? && Bit(FindDev(h, devid).value.workMode, h.workMode) ==>
      r.0 == Ok && |r.1| == CountFiring(FindDev(h, devid).value.links, h.workMode, evtId, p1, p2, 0)
    ensures forall o :: o in r.1 ==> o.Enqueue? && !o.task.reply
  {
    match FindDev(h, devid)
    case None => (Others, [])
    case Some(d) =>
      if !Bit(d.workMode, h.workMode) then (Others, [])
      else
        LinkOutsCount(d.links, h.workMode, evtId, p1, p2, 0);
        (Ok, LinkOuts(d.links, h.workMode, evtId, p1, p2, 0))
  }

  /** `_dev_event`: the linkage requests of the event, then the event notification. */
  function DevEvent(h: Hub, devid: uint32, evtId: int, p1: int, p2: int): (r: seq<Out>)
    ensures |r| >= 1 && r[|r| - 1] == Notify(EventResp(devid, evtId, To16(p1), To32(p2)))
    ensures r[..|r| - 1] == CheckLinkage(h, devid, evtId, To16(p1), To32(p2)).1
  {
    CheckLinkage(h, devid, evtId, To16(p1), To32(p2)).1 + [Notify(EventResp(devid, evtId, To16(p1), To32(p2)))]
  }

  /** `dev_updated`: a DEV_UPDATED event carrying the update kind and device type. */
  function DevUpdated(c: Codes, h: Hub, devid: uint32, kind: int, devType: int): seq<Out> {
    DevEvent(h, devid, c.evtDevUpdated, kind, devType)
  }

  /* ---------------- transitions ---------------- */

  /** Offline device with the same driver and 8-byte address. */
  function FindOffMatch(ds: seq<Device>, drvid: uint32, mac: Mac): (r: Option<nat>)
    ensures r.Some? ==> r.value < |ds| && ds[r.value].drvid == drvid && ds[r.value].info.mac == mac
    ensures r.None? <==> forall j :: 0 <= j < |ds| ==> !(ds[j].drvid == drvid && ds[j].info.mac == mac)
    decreases |ds|
  {
    if |ds| == 0 then None
    else if ds[0].drvid == drvid && ds[0].info.mac == mac then Some(0)
    else match FindOffMatch(ds[1..], drvid, mac)
      case Some(k) => Some(k + 1)
      case None => None
  }

  function RemoveAt<T>(s: seq<T>, k: nat): (r: seq<T>)
    requires k < |s|
    ensures |r| == |s| - 1
    ensures forall i :: 0 <= i < |r| ==> r[i] == s[if i < k then i else i + 1]
  {
    s[..k] + s[k + 1..]
  }

  /** A configuration of empty name and location, as `memset(.., 0, ..)` leaves it. */
  const BlankConfig := Config(Zeros(16), Zeros(16))

  /**
   * `get_default_config` as written: the bound is the table's size in bytes
   * (`sizeof` of the array), not its entry count, so a type between the two
   * reads past the table (`None` here).
   */
  function DefaultConfigAsWritten(defaults: seq<Config>, entryBytes: nat, devType: nat): (r: Option<Config>)
    requires entryBytes >= 1
    ensures devType < |defaults| ==> r == Some(defaults[devType])
    ensures devType >= |defaults| * entryBytes ==> r == Some(BlankConfig)
  {
    if devType < |defaults| * entryBytes then
      (if devType < |defaults| then Some(defaults[devType]) else None)
    else Some(BlankConfig)
  }

  /** The first type past the table passes the byte-size bound and reads outside the table. */
  lemma DefaultConfigOverread(defaults: seq<Config>, entryBytes: nat)
    requires |defaults| >= 1 && entryBytes >= 2
    ensures DefaultConfigAsWritten(defaults, entryBytes, |defaults|).None?
  {
    assert |defaults| < |defaults| * entryBytes;
  }

  /** The default configuration of a device type: its table entry, or a blank one past the table. */
  function DefaultConfig(defaults: seq<Config>, devType: int): (r: Config)
    ensures 0 <= devType < |defaults| ==> r == defaults[devType]
    ensures !(0 <= devType < |defaults|) ==> r == BlankConfig
  {
    if 0 <= devType < |defaults| then defaults[devType] else BlankConfig
  }

  /** With the entry count as the bound, every type yields a table entry or the blank configuration. */
  lemma DefaultConfigAgrees(defaults: seq<Config>, entryBytes: nat, devType: nat)
    requires entryBytes >= 1
    ensures DefaultConfigAsWritten(defaults, entryBytes, devType).Some? ==>
      DefaultConfigAsWritten(defaults, entryBytes, devType).value == DefaultConfig(defaults, devType)
    ensures DefaultConfigAsWritten(defaults, entryBytes, devType).None? <==> |defaults| <= devType < |defaults| * entryBytes
  {
  }

  /**
   * The common tail of every "comes online" path: append to the online
   * list, link it, let it relink its room, and emit the DEV_UPDATED event.
   */
  function GoOnline(c: Codes, h: Hub, d: Device, kind: int): (r: (Hub, seq<Out>))
    requires d.online
    ensures |r.0.online| == |h.online| + 1
    ensures SameButLink(r.0.online[|h.online|], d)
    ensures forall i :: 0 <= i < |h.online| ==> SameButLink(r.0.online[i], h.online[i])
    ensures r.0.offline == h.offline && r.0.drivers == h.drivers && r.0.nextId == h.nextId
    ensures r.0.workMode == h.workMode && r.0.secToday == h.secToday
    ensures r.1 == DevUpdated(c, r.0, d.id, kind, d.info.devType)
  {
    var on := h.online + [d];
    var linked := LinkDevice(c, on, |h.online|);
    var relinked := UpdateLink(c, linked, linked[|h.online|]);
    var h' := h.(online := relinked);
    (h', DevUpdated(c, h', d.id, kind, d.info.devType))
  }

  /**
   * `dev_online`. A device in the offline list with the same driver id and
   * address comes back under its old id, configuration and channels (the
   * configuration argument is ignored) and announces ONLINE. Any other
   * device gets the next id, the given configuration or the type's default,
   * announces NEW_ADD and triggers a configuration save.
   */
  function DevOnline(c: Codes, h: Hub, drvid: uint32, info: Info, st: StatusCache, ops: Ops,
                     cfg: Option<Config>, defaults: seq<Config>, supportChannel: bool): (r: (Hub, uint32, seq<Out>))
    ensures |r.0.online| == |h.online| + 1 && r.0.online[|h.online|].id == r.1 && r.0.online[|h.online|].online
    ensures FindOffMatch(h.offline, drvid, info.mac).Some? ==>
      r.1 == h.offline[FindOffMatch(h.offline, drvid, info.mac).value].id && r.0.nextId == h.nextId
    ensures FindOffMatch(h.offline, drvid, info.mac).None? ==>
      r.1 == h.nextId && r.0.nextId == To32(h.nextId + 1) && r.0.offline == h.offline
  {
    match FindOffMatch(h.offline, drvid, info.mac)
    case Some(k) =>
      var prev := h.offline[k];
      var d := prev.(chans := if supportChannel && prev.chans.None? then Some([]) else prev.chans,
                    drvid := drvid, ops := ops, online := true, info := info, status := st);
      var (h', outs) := GoOnline(c, h.(offline := RemoveAt(h.offline, k)), d, c.updOnline);
      (h', d.id, outs)
    case None =>
      var (id, h1) := AllocDevId(h);
      var d := Device(id, drvid, info, if cfg.Some? then cfg.value else DefaultConfig(defaults, info.devType), st, true, None, c.workModeAll,
                      EmptyTimers(c), EmptyDelays(c), EmptyLinks(c),
                      if supportChannel then Some([]) else None, ops);
      var (h', outs) := GoOnline(c, h1, d, c.updNewAdd);
      (h', id, outs + [SaveConfig])
  }

  /** The revival branch of `dev_online`: same id, config and channels; ONLINE announced. */
  lemma DevOnlineRevives(c: Codes, h: Hub, drvid: uint32, info: Info, st: StatusCache, ops: Ops,
                         cfg: Option<Config>, defaults: seq<Config>, supportChannel: bool)
    requires FindOffMatch(h.offline, drvid, info.mac).Some?
    ensures var k := FindOffMatch(h.offline, drvid, info.mac).value;
      var r := DevOnline(c, h, drvid, info, st, ops, cfg, defaults, supportChannel);
      var d := r.0.online[|h.online|];
      && r.1 == h.offline[k].id
      && r.0.offline == RemoveAt(h.offline, k)
      && |r.0.online| == |h.online| + 1
      && d.id == h.offline[k].id && d.config == h.offline[k].config
      && d.timers == h.offline[k].timers && d.links == h.offline[k].links
      && (h.offline[k].chans.Some? ==> d.chans == h.offline[k].chans)
      && d.online && d.info == info && d.status == st
      && r.0.nextId == h.nextId
      && r.2[|r.2| - 1] == Notify(EventResp(d.id, c.evtDevUpdated, To16(c.updOnline), To32(info.devType)))
  {
  }

  /** The fresh branch of `dev_online`: next id, given or default config, NEW_ADD, then a save. */
  lemma DevOnlineAdds(c: Codes, h: Hub, drvid: uint32, info: Info, st: StatusCache, ops: Ops,
                      cfg: Option<Config>, defaults: seq<Config>, supportChannel: bool)
    requires FindOffMatch(h.offline, drvid, info.mac).None?
    ensures var r := DevOnline(c, h, drvid, info, st, ops, cfg, defaults, supportChannel);
      var d := r.0.online[|h.online|];
      && r.1 == h.nextId && d.id == h.nextId
      && r.0.nextId == To32(h.nextId + 1)
      && r.0.offline == h.offline
      && d.config == (if cfg.Some? then cfg.value else DefaultConfig(defaults, info.devType))
      && d.workMode == c.workModeAll && WellFormed(c, d)
      && (d.chans.Some? <==> supportChannel)
      && |r.2| >= 2 && r.2[|r.2| - 1] == SaveConfig
      && r.2[|r.2| - 2] == Notify(EventResp(h.nextId, c.evtDevUpdated, To16(c.updNewAdd), To32(info.devType)))
  {
  }

  /**
   * Where the program's table lookup stays inside the table, a fresh device
   * without a given configuration gets exactly the entry the program
   * copies. For a type between the entry count and the table's byte size
   * the program copies whatever follows the table; the model gives the
   * zero configuration there.
   */
  lemma DevOnlineConfigAsWritten(c: Codes, h: Hub, drvid: uint32, info: Info, st: StatusCache, ops: Ops,
                                 defaults: seq<Config>, entryBytes: nat, supportChannel: bool)
    requires FindOffMatch(h.offline, drvid, info.mac).None? && entryBytes >= 1 && info.devType >= 0
    requires DefaultConfigAsWritten(defaults, entryBytes, info.devType).Some?
    ensures DevOnline(c, h, drvid, info, st, ops, None, defaults, supportChannel).0.online[|h.online|].config
      == DefaultConfigAsWritten(defaults, entryBytes, info.devType).value
  {
    DevOnlineAdds(c, h, drvid, info, st, ops, None, defaults, supportChannel);
    DefaultConfigAgrees(defaults, entryBytes, info.devType);
  }

  /**
   * `dev_offline`: `OTHERS` when the id is not online; otherwise the device
   * moves to the offline tail in state OFFLINE, its room is relinked, and
   * OFFLINE is announced.
   */
  function DevOffline(c: Codes, h: Hub, devid: uint32): (r: (Err, Hub, seq<Out>))
    ensures FindById(h.online, devid).None? ==> r == (Others, h, [])
    ensures FindById(h.online, devid).Some? ==>
      var k := FindById(h.online, devid).value;
      && r.0 == Ok
      && r.1.offline == h.offline + [h.online[k].(online := false)]
      && |r.1.online| == |h.online| - 1
      && (forall i :: 0 <= i < |r.1.online| ==> SameButLink(r.1.online[i], RemoveAt(h.online, k)[i]))
      && r.1.nextId == h.nextId && r.1.drivers == h.drivers
  {
    match FindById(h.online, devid)
    case None => (Others, h, [])
    case Some(k) =>
      var d := h.online[k].(online := false);
      var on := UpdateLink(c, RemoveAt(h.online, k), d);
      var h' := h.(online := on, offline := h.offline + [d]);
      (Ok, h', DevUpdated(c, h', devid, c.updOffline, d.info.devType))
  }

  /**
   * `dev_removed`: `OTHERS` when the id is not online; otherwise the device
   * leaves the registry altogether, its room is relinked, and OFFLINE is
   * announced.
   */
  function DevRemoved(c: Codes, h: Hub, devid: uint32): (r: (Err, Hub, seq<Out>))
    ensures FindById(h.online, devid).None? ==> r == (Others, h, [])
    ensures FindById(h.online, devid).Some? ==>
      var k := FindById(h.online, devid).value;
      && r.0 == Ok
      && r.1.offline == h.offline
      && |r.1.online| == |h.online| - 1
      && (forall i :: 0 <= i < |r.1.online| ==> SameButLink(r.1.online[i], RemoveAt(h.online, k)[i]))
      && r.1.nextId == h.nextId && r.1.drivers == h.drivers
  {
    match FindById(h.online, devid)
    case None => (Others, h, [])
    case Some(k) =>
      var d := h.online[k].(online := false);
      var on := UpdateLink(c, RemoveAt(h.online, k), d);
      var h' := h.(online := on);
      (Ok, h', DevUpdated(c, h', devid, c.updOffline, d.info.devType))
  }

  /**
   * `dev_recovered`: `OTHERS` when the id is not offline; otherwise the
   * device moves to the online tail with the new driver data, keeping its
   * id, configuration and slot tables, and announces ONLINE.
   */
  function DevRecovered(c: Codes, h: Hub, devid: uint32, drvid: uint32, info: Info, st: StatusCache,
                        ops: Ops, supportChannel: bool): (r: (Err, Hub, seq<Out>))
    ensures FindById(h.offline, devid).None? ==> r == (Others, h, [])
    ensures FindById(h.offline, devid).Some? ==>
      var k := FindById(h.offline, devid).value;
      && r.0 == Ok
      && r.1.offline == RemoveAt(h.offline, k)
      && |r.1.online| == |h.online| + 1
      && r.1.online[|h.online|].id == devid && r.1.online[|h.online|].online
      && r.1.online[|h.online|].config == h.offline[k].config
      && r.1.nextId == h.nextId
  {
    match FindById(h.offline, devid)
    case None => (Others, h, [])
    case Some(k) =>
      var prev := h.offline[k];
      var d := prev.(chans := if supportChannel && prev.chans.None? then Some([]) else prev.chans,
                    drvid := drvid, ops := ops, online := true, info := info, status := st);
      var (h', outs) := GoOnline(c, h.(offline := RemoveAt(h.offline, k)), d, c.updOnline);
      (Ok, h', outs)
  }

  /* ---------------- the registry invariant ---------------- */

  /** Two lists with the same ids and states, position by position. */
  predicate SameShape(a: seq<Device>, b: seq<Device>) {
    |a| == |b| && forall i :: 0 <= i < |a| ==> a[i].id == b[i].id && a[i].online == b[i].online
  }

  lemma LinksKeepShape(a: seq<Device>, b: seq<Device>)
    requires |a| == |b| && forall i :: 0 <= i < |a| ==> SameButLink(a[i], b[i])
    ensures SameShape(a, b)
  {
    forall i | 0 <= i < |a| ensures a[i].id == b[i].id && a[i].online == b[i].online {
      assert a[i] == b[i].(irDev := a[i].irDev);
    }
  }

  /** The invariant only looks at ids and states. */
  lemma ShapeKeepsValid(h: Hub, on: seq<Device>, off: seq<Device>)
    requires Valid(h) && SameShape(on, h.online) && SameShape(off, h.offline)
    ensures Valid(h.(online := on, offline := off))
  {
  }

  lemma RemoveAtUnique(ds: seq<Device>, k: nat)
    requires k < |ds| && UniqueIds(ds)
    ensures UniqueIds(RemoveAt(ds, k))
    ensures forall i :: 0 <= i < |RemoveAt(ds, k)| ==> RemoveAt(ds, k)[i].id != ds[k].id
  {
    var r := RemoveAt(ds, k);
    forall i, j | 0 <= i < j < |r| ensures r[i].id != r[j].id {
      var i' := if i < k then i else i + 1;
      var j' := if j < k then j else j + 1;
      assert r[i] == ds[i'] && r[j] == ds[j'] && i' < j';
    }
    forall i | 0 <= i < |r| ensures r[i].id != ds[k].id {
      var i' := if i < k then i else i + 1;
      assert r[i] == ds[i'];
      if i' < k {
        assert ds[i'].id != ds[k].id;
      } else {
        assert ds[k].id != ds[i'].id;
      }
    }
  }

  /** Every element of `RemoveAt(ds, k)` sits in `ds` at a position other than `k`. */
  lemma RemoveAtFrom<T>(ds: seq<T>, k: nat, i: nat)
    requires k < |ds| && i < |ds| - 1
    ensures RemoveAt(ds, k)[i] == ds[if i < k then i else i + 1]
  {
  }

  lemma AppendUnique(ds: seq<Device>, d: Device)
    requires UniqueIds(ds) && forall i :: 0 <= i < |ds| ==> ds[i].id != d.id
    ensures UniqueIds(ds + [d])
  {
    var r := ds + [d];
    forall i, j | 0 <= i < j < |r| ensures r[i].id != r[j].id {
      assert r[i] == ds[i];
    }
  }

  /** Taking `ds[k]` out of one list keeps it disjoint from another. */
  lemma RemoveAtDisjoint(a: seq<Device>, k: nat, b: seq<Device>)
    requires k < |a| && DisjointIds(a, b)
    ensures DisjointIds(RemoveAt(a, k), b)
  {
    var r := RemoveAt(a, k);
    forall i, j | 0 <= i < |r| && 0 <= j < |b| ensures r[i].id != b[j].id {
      RemoveAtFrom(a, k, i);
    }
  }

  /** `dev_offline` keeps the invariant. */
  lemma DevOfflineValid(c: Codes, h: Hub, devid: uint32)
    requires Valid(h)
    ensures Valid(DevOffline(c, h, devid).1)
  {
    if FindById(h.online, devid).Some? {
      var k := FindById(h.online, devid).value;
      var h' := DevOffline(c, h, devid).1;
      LinksKeepShape(h'.online, RemoveAt(h.online, k));
      MoveOfflineValid(h, k, h');
    }
  }

  /** Moving online device `k` to the end of the offline list, with the other devices' shape kept, keeps the invariant. */
  lemma MoveOfflineValid(h: Hub, k: nat, h': Hub)
    requires Valid(h) && k < |h.online|
    requires h'.offline == h.offline + [h.online[k].(online := false)] && h'.nextId == h.nextId
    requires SameShape(h'.online, RemoveAt(h.online, k))
    ensures Valid(h')
  {
    var d := h.online[k].(online := false);
    var rest := RemoveAt(h.online, k);
    RemoveAtUnique(h.online, k);
    AppendUnique(h.offline, d);
    RemoveAtDisjoint(h.online, k, h.offline);
    forall i | 0 <= i < |rest| ensures rest[i].id < h.nextId && rest[i].online {
      RemoveAtFrom(h.online, k, i);
    }
    assert DisjointIds(h'.online, h'.offline) by {
      forall i, j | 0 <= i < |h'.online| && 0 <= j < |h'.offline| ensures h'.online[i].id != h'.offline[j].id {
        if j < |h.offline| {
          assert h'.offline[j] == h.offline[j];
        }
      }
    }
  }

  /** `dev_removed` keeps the invariant. */
  lemma DevRemovedValid(c: Codes, h: Hub, devid: uint32)
    requires Valid(h)
    ensures Valid(DevRemoved(c, h, devid).1)
  {
    if FindById(h.online, devid).Some? {
      var k := FindById(h.online, devid).value;
      var h' := DevRemoved(c, h, devid).1;
      var rest := RemoveAt(h.online, k);
      LinksKeepShape(h'.online, rest);
      RemoveAtUnique(h.online, k);
      RemoveAtDisjoint(h.online, k, h.offline);
      forall i | 0 <= i < |rest| ensures rest[i].id < h.nextId && rest[i].online {
        RemoveAtFrom(h.online, k, i);
      }
    }
  }

  /** Appending an online device whose id is fresh for both lists keeps the invariant, links included. */
  lemma GoOnlineValid(c: Codes, h: Hub, d: Device, kind: int)
    requires Valid(h) && d.online && d.id < h.nextId
    requires forall i :: 0 <= i < |h.online| ==> h.online[i].id != d.id
    requires forall i :: 0 <= i < |h.offline| ==> h.offline[i].id != d.id
    ensures Valid(GoOnline(c, h, d, kind).0)
  {
    var h' := GoOnline(c, h, d, kind).0;
    var on := h.online + [d];
    AppendUnique(h.online, d);
    assert forall i :: 0 <= i < |on| ==> SameButLink(h'.online[i], on[i]);
    LinksKeepShape(h'.online, on);
  }

  /** `dev_recovered` keeps the invariant. */
  lemma DevRecoveredValid(c: Codes, h: Hub, devid: uint32, drvid: uint32, info: Info, st: StatusCache,
                          ops: Ops, supportChannel: bool)
    requires Valid(h)
    ensures Valid(DevRecovered(c, h, devid, drvid, info, st, ops, supportChannel).1)
  {
    if FindById(h.offline, devid).Some? {
      var k := FindById(h.offline, devid).value;
      var prev := h.offline[k];
      var d := prev.(chans := if supportChannel && prev.chans.None? then Some([]) else prev.chans,
                     drvid := drvid, ops := ops, online := true, info := info, status := st);
      var h1 := h.(offline := RemoveAt(h.offline, k));
      RemoveAtUnique(h.offline, k);
      forall i | 0 <= i < |h1.offline| ensures h1.offline[i].id < h.nextId && !h1.offline[i].online {
        RemoveAtFrom(h.offline, k, i);
      }
      assert DisjointIds(h1.online, h1.offline) by {
        forall i, j | 0 <= i < |h1.online| && 0 <= j < |h1.offline| ensures h1.online[i].id != h1.offline[j].id {
          RemoveAtFrom(h.offline, k, j);
        }
      }
      assert Valid(h1);
      GoOnlineValid(c, h1, d, c.updOnline);
    }
  }

  /** `dev_online` keeps the invariant while the id counter has not wrapped. */
  lemma DevOnlineValid(c: Codes, h: Hub, drvid: uint32, info: Info, st: StatusCache, ops: Ops,
                       cfg: Option<Config>, defaults: seq<Config>, supportChannel: bool)
    requires Valid(h) && h.nextId < 0xFFFF_FFFF
    ensures Valid(DevOnline(c, h, drvid, info, st, ops, cfg, defaults, supportChannel).0)
  {
    match FindOffMatch(h.offline, drvid, info.mac)
    case Some(k) =>
      var prev := h.offline[k];
      var d := prev.(chans := if supportChannel && prev.chans.None? then Some([]) else prev.chans,
                     drvid := drvid, ops := ops, online := true, info := info, status := st);
      var h1 := h.(offline := RemoveAt(h.offline, k));
      RemoveAtUnique(h.offline, k);
      forall i | 0 <= i < |h1.offline| ensures h1.offline[i].id < h.nextId && !h1.offline[i].online {
        RemoveAtFrom(h.offline, k, i);
      }
      assert DisjointIds(h1.online, h1.offline) by {
        forall i, j | 0 <= i < |h1.online| && 0 <= j < |h1.offline| ensures h1.online[i].id != h1.offline[j].id {
          RemoveAtFrom(h.offline, k, j);
        }
      }
      GoOnlineValid(c, h1, d, c.updOnline);
    case None =>
      var (id, h1) := AllocDevId(h);
      var d := Device(id, drvid, info, if cfg.Some? then cfg.value else DefaultConfig(defaults, info.devType), st, true, None, c.workModeAll,
                      EmptyTimers(c), EmptyDelays(c), EmptyLinks(c),
                      if supportChannel then Some([]) else None, ops);
      GoOnlineValid(c, h1, d, c.updNewAdd);
  }
}

=== FILE: scene.dfy ===
/**
 * The scene store and scene execution. A scene is a named list of actions;
 * each action has an optional condition on a device's cached status, a
 * delay in seconds from the scene's start, and a list of acts. Running a
 * scene is modelled as the schedule it follows: a list of steps, each a
 * wait in seconds followed by the status requests it queues.
 */
module Scene {
  import opened Bytes
  import opened HubTypes
  import opened DeviceTypes
  import opened Registry

  type Store = seq<SceneRec>

  /**
   * Two names that compare equal as strings in a 16-byte field: the
   * corrected comparison. `find_scene` and `add_scene` use `strcmp`, which
   * `StoredString` below models; the two differ only on 16-character names.
   */
  predicate SameName(a: bytes, b: bytes) { Key16(a) == Key16(b) }

  predicate UniqueScenes(st: Store) {
    forall i, j :: 0 <= i < j < |st| ==> !SameName(st[i].name, st[j].name)
  }

  /* ---------------- the store ---------------- */

  /** `find_scene`: the first scene with this name. */
  function FindScene(st: Store, name: bytes): (r: Option<nat>)
    ensures r.Some? ==> r.value < |st| && SameName(st[r.value].name, name)
    ensures r.Some? ==> forall j :: 0 <= j < r.value ==> !SameName(st[j].name, name)
    ensures r.None? <==> forall j :: 0 <= j < |st| ==> !SameName(st[j].name, name)
    decreases |st|
  {
    if |st| == 0 then None
    else if SameName(st[0].name, name) then Some(0)
    else match FindScene(st[1..], name)
      case Some(k) => Some(k + 1)
      case None => None
  }

  /**
   * `add_scene`: a scene with a name already stored replaces it in place
   * (and nothing is saved); a new name is appended and the configuration
   * saved.
   */
  function AddScene(st: Store, sc: SceneRec): (r: (Store, seq<Out>))
  {
    match FindScene(st, sc.name)
    case Some(k) => (st[k := sc], [])
    case None => (st + [sc], [SaveConfig])
  }

  /**
   * Adding keeps names unique and the added scene is what its name now
   * finds; the store grows by one exactly when the name is new, which is
   * also exactly when the configuration is saved; every scene of another
   * name keeps its place.
   */
  lemma {:induction false} AddSceneKeepsUnique(st: Store, sc: SceneRec)
    requires UniqueScenes(st)
    ensures UniqueScenes(AddScene(st, sc).0)
    ensures FindScene(AddScene(st, sc).0, sc.name).Some?
    ensures AddScene(st, sc).0[FindScene(AddScene(st, sc).0, sc.name).value] == sc
    ensures |AddScene(st, sc).0| == if FindScene(st, sc.name).Some? then |st| else |st| + 1
    ensures AddScene(st, sc).1 == if FindScene(st, sc.name).Some? then [] else [SaveConfig]
    ensures forall j :: 0 <= j < |st| && !SameName(st[j].name, sc.name) ==> AddScene(st, sc).0[j] == st[j]
  {
    var st' := AddScene(st, sc).0;
    match FindScene(st, sc.name)
    case Some(k) =>
      forall i, j | 0 <= i < j < |st'| ensures !SameName(st'[i].name, st'[j].name) {
        if i == k {
          assert SameName(st[k].name, sc.name);
        } else if j == k {
          assert SameName(st[k].name, sc.name);
        }
      }
      assert forall j :: 0 <= j < k ==> st'[j] == st[j];
      assert FindScene(st', sc.name) == Some(k) by {
        assert SameName(st'[k].name, sc.name);
      }
    case None =>
      forall i, j | 0 <= i < j < |st'| ensures !SameName(st'[i].name, st'[j].name) {
        if j == |st| {
          assert st'[i] == st[i];
        }
      }
      assert forall j :: 0 <= j < |st| ==> st'[j] == st[j];
      assert SameName(st'[|st|].name, sc.name);
  }

  /* ---------------- the name comparison as written ---------------- */

  /**
   * What `strcmp` reads from a stored scene: the name field up to its
   * first NUL. A 16-character name has none, so the read runs on into
   * `act_num`, the next field, whose little-endian bytes are the action
   * count followed by zeros.
   */
  function StoredString(sc: SceneRec): bytes {
    CStr(Field16(sc.name) + LE32(To32(|sc.actions|)))
  }

  /**
   * What `strcmp` reads from a request's 16-byte `name` buffer, when the
   * bytes `after` follow it in memory; they are only reached by a
   * 16-character name.
   */
  function RequestString(name: bytes, after: bytes): bytes {
    CStr(Field16(name) + after)
  }

  /** `strcmp` finds the stored scene's string equal to `s`. */
  predicate Matches(x: SceneRec, s: bytes) {
    StoredString(x) == s
  }

  /** The first stored scene satisfying `p`. */
  function FindFirst(st: Store, p: SceneRec -> bool): (r: Option<nat>)
    ensures r.Some? ==> r.value < |st| && p(st[r.value])
    ensures r.Some? ==> forall j :: 0 <= j < r.value ==> !p(st[j])
    ensures r.None? <==> forall j :: 0 <= j < |st| ==> !p(st[j])
    decreases |st|
  {
    if |st| == 0 then None
    else if p(st[0]) then Some(0)
    else match FindFirst(st[1..], p)
      case Some(k) => Some(k + 1)
      case None => None
  }

  /** The first stored scene whose string `strcmp` finds equal to `s`. */
  function FindBy(st: Store, s: bytes): (r: Option<nat>)
    ensures r.Some? ==> r.value < |st| && Matches(st[r.value], s)
    ensures r.Some? ==> forall j :: 0 <= j < r.value ==> !Matches(st[j], s)
    ensures r.None? <==> forall j :: 0 <= j < |st| ==> !Matches(st[j], s)
  {
    FindFirst(st, x => Matches(x, s))
  }

  /** `find_scene` as written, for a request name followed in memory by `after`. */
  function FindSceneAsWritten(st: Store, name: bytes, after: bytes): (r: Option<nat>)
    ensures r.Some? ==> r.value < |st| && Matches(st[r.value], RequestString(name, after))
    ensures r.None? <==> forall j :: 0 <= j < |st| ==> !Matches(st[j], RequestString(name, after))
  {
    FindBy(st, RequestString(name, after))
  }

  /** `add_scene` as written: the stored scenes are compared with `strcmp`. */
  function AddSceneAsWritten(st: Store, sc: SceneRec): (r: (Store, seq<Out>))
    ensures FindBy(st, StoredString(sc)).None? ==> r == (st + [sc], [SaveConfig])
    ensures FindBy(st, StoredString(sc)).Some? ==> |r.0| == |st| && r.1 == []
  {
    match FindBy(st, StoredString(sc))
    case Some(k) => (st[k := sc], [])
    case None => (st + [sc], [SaveConfig])
  }

  /** Below 16 characters, `strcmp` of a stored scene with a name says what the 16-byte comparison says. */
  lemma ShortNameCompares(x: SceneRec, name: bytes)
    requires |Key16(name)| < 16
    ensures Matches(x, Key16(name)) <==> SameName(x.name, name)
  {
    ReadOn(x.name, LE32(To32(|x.actions|)));
  }

  lemma FindByAgrees(st: Store, name: bytes)
    requires |Key16(name)| < 16
    ensures FindBy(st, Key16(name)) == FindScene(st, name)
  {
    forall j | 0 <= j < |st| ensures Matches(st[j], Key16(name)) <==> SameName(st[j].name, name) {
      ShortNameCompares(st[j], name);
    }
  }

  /**
   * A request name shorter than 16 characters finds the same scene under
   * `strcmp` as under the 16-byte comparison, whatever follows its buffer.
   */
  lemma FindSceneAgrees(st: Store, name: bytes, after: bytes)
    requires |Key16(name)| < 16
    ensures FindSceneAsWritten(st, name, after) == FindScene(st, name)
  {
    ReadOn(name, after);
    assert RequestString(name, after) == Key16(name);
    FindByAgrees(st, name);
  }

  /** A scene named with fewer than 16 characters is added alike by both comparisons. */
  lemma AddSceneAgrees(st: Store, sc: SceneRec)
    requires |Key16(sc.name)| < 16
    ensures AddSceneAsWritten(st, sc) == AddScene(st, sc)
  {
    ReadOn(sc.name, LE32(To32(|sc.actions|)));
    assert StoredString(sc) == Key16(sc.name);
    FindByAgrees(st, sc.name);
  }

  /** Sixteen 'A's, a name that fills its field. */
  function LongName(): bytes {
    seq(16, _ => 65)
  }

  /** A scene with that name and `n` empty actions. */
  function LongScene(n: nat): SceneRec {
    SceneRec(LongName(), seq(n, _ => Action(false, Condition(0, 0, 0, 0), 0, [])))
  }

  lemma SmallCount(n: nat)
    requires 0 < n < 0x100
    ensures LE32(To32(n)) == [n] + [0, 0, 0]
  {
  }

  lemma LongKey()
    ensures Key16(LongName()) == LongName()
  {
    var k := LongName();
    CStrPadded(k, 0);
    assert k + Zeros(0) == k && k[..16] == k;
  }

  lemma LongStoredString(n: nat)
    requires 0 < n < 0x100
    ensures StoredString(LongScene(n)) == LongName() + [n]
  {
    var k := LongName();
    LongKey();
    SmallCount(n);
    ReadOn(k, [n] + [0, 0, 0]);
    CStrRunsOn([n], [0, 0, 0]);
    assert CStr([0, 0, 0]) == [];
    assert [n] + [] == [n];
  }

  /**
   * Storing a scene named with 16 characters and then another of the same
   * name with a different action count: as written, `strcmp` runs on into
   * the counts, sees two different strings and keeps both, so the store
   * holds two scenes of one name; compared within the 16 bytes, the second
   * replaces the first.
   */
  lemma LongNameDuplicated()
    ensures AddSceneAsWritten([LongScene(1)], LongScene(2)) == ([LongScene(1), LongScene(2)], [SaveConfig])
    ensures !UniqueScenes(AddSceneAsWritten([LongScene(1)], LongScene(2)).0)
    ensures AddScene([LongScene(1)], LongScene(2)) == ([LongScene(2)], [])
  {
    LongStoredString(1);
    LongStoredString(2);
    assert (LongName() + [1])[16] != (LongName() + [2])[16];
    var st := [LongScene(1)];
    assert !Matches(st[0], StoredString(LongScene(2)));
    assert st[1..] == [];
    assert FindBy(st, StoredString(LongScene(2))).None?;
    assert st + [LongScene(2)] == [LongScene(1), LongScene(2)];
    assert SameName(st[0].name, LongScene(2).name);
    assert FindScene(st, LongScene(2).name) == Some(0);
    assert st[0 := LongScene(2)] == [LongScene(2)];
    var st' := AddSceneAsWritten(st, LongScene(2)).0;
    assert SameName(st'[0].name, st'[1].name);
  }

  /** `del_scene`: `BAD_PARAM`, and nothing changes, for an unknown name; otherwise the configuration is saved. */
  function DelScene(st: Store, name: bytes): (r: (Err, Store, seq<Out>))
    ensures r.0 == BadParam <==> FindScene(st, name).None?
    ensures r.0 == BadParam ==> r.1 == st && r.2 == []
    ensures r.0 != BadParam ==> r.0 == Ok && r.2 == [SaveConfig]
  {
    match FindScene(st, name)
    case None => (BadParam, st, [])
    case Some(k) => (Ok, st[..k] + st[k + 1..], [SaveConfig])
  }

  /**
   * Deleting a stored name from a store with unique names answers OK and
   * leaves the name unknown, the names unique, and the other scenes in
   * their order.
   */
  lemma {:induction false} DelSceneRemoves(st: Store, name: bytes)
    requires UniqueScenes(st) && FindScene(st, name).Some?
    ensures DelScene(st, name).0 == Ok
    ensures FindScene(DelScene(st, name).1, name).None?
    ensures UniqueScenes(DelScene(st, name).1)
    ensures var k := FindScene(st, name).value;
      && |DelScene(st, name).1| == |st| - 1
      && forall j :: 0 <= j < |st| - 1 ==> DelScene(st, name).1[j] == st[if j < k then j else j + 1]
  {
    var k := FindScene(st, name).value;
    var st' := DelScene(st, name).1;
    assert st' == st[..k] + st[k + 1..];
    RemoveAt(st, k, st');
    RemoveKeepsUnique(st, k, st', name);
  }

  lemma RemoveAt(st: Store, k: nat, st': Store)
    requires k < |st| && st' == st[..k] + st[k + 1..]
    ensures |st'| == |st| - 1 && forall j :: 0 <= j < |st'| ==> st'[j] == st[if j < k then j else j + 1]
  {
  }

  lemma RemoveKeepsUnique(st: Store, k: nat, st': Store, name: bytes)
    requires UniqueScenes(st) && k < |st| && SameName(st[k].name, name)
    requires |st'| == |st| - 1 && forall j :: 0 <= j < |st'| ==> st'[j] == st[if j < k then j else j + 1]
    ensures UniqueScenes(st') && FindScene(st', name).None?
  {
    forall j | 0 <= j < |st'| ensures !SameName(st'[j].name, name) {
      if j >= k {
        assert !SameName(st[k].name, st[j + 1].name);
      }
    }
    forall i, j | 0 <= i < j < |st'| ensures !SameName(st'[i].name, st'[j].name) {
      var i' := if i < k then i else i + 1;
      var j' := if j < k then j else j + 1;
      assert st'[i] == st[i'] && st'[j] == st[j'];
    }
  }

  /**
   * `enter_scene`: `BAD_PARAM` for an unknown name; otherwise the scene to
   * run, a copy taken now, so later changes to the store do not reach it.
   */
  function EnterScene(st: Store, name: bytes): (r: Result<SceneRec>)
    ensures r.Failure? <==> FindScene(st, name).None?
    ensures r.Failure? ==> r.error == BadParam
    ensures r.Success? ==> r.value in st && SameName(r.value.name, name)
  {
    match FindScene(st, name)
    case None => Failure(BadParam)
    case Some(k) => Success(st[k])
  }

  /** `get_scene_num`. */
  function GetSceneNum(st: Store): (r: nat)
    ensures r == |st|
  {
    |st|
  }

  /**
   * `get_scene`: `BAD_PARAM` for an index at or past the end. A negative
   * index passes the check and finds nothing.
   */
  function GetScene(st: Store, id: int): (r: Result<Option<SceneRec>>)
    ensures id >= |st| <==> r.Failure?
    ensures r.Failure? ==> r.error == BadParam
    ensures 0 <= id < |st| ==> r == Success(Some(st[id]))
    ensures id < 0 ==> r == Success(None)
  {
    if id >= |st| then Failure(BadParam)
    else if id < 0 then Success(None)
    else Success(Some(st[id]))
  }

  /** Enumerating indices 0 to `GetSceneNum - 1` yields exactly the stored scenes, in order. */
  lemma EnumerateScenes(st: Store)
    ensures forall i :: 0 <= i < GetSceneNum(st) ==> GetScene(st, i) == Success(Some(st[i]))
    ensures GetScene(st, GetSceneNum(st)) == Failure(BadParam)
  {
  }

  /* ---------------- conditions ---------------- */

  /** The five comparison operators, by code; any other code never holds. */
  predicate Compare(v: int, expr: uint32, x: int) {
    if expr == 0 then v == x
    else if expr == 1 then v > x
    else if expr == 2 then v >= x
    else if expr == 3 then v < x
    else if expr == 4 then v <= x
    else false
  }

  /**
   * Looks for the condition's status id among the loaded pairs from `i` on;
   * the first pair with that id decides, as the loop in `check_condition` does.
   */
  function MatchFrom(pairs: seq<Pair>, cond: Condition, i: nat): (r: bool)
    requires i <= |pairs|
    decreases |pairs| - i
  {
    if i == |pairs| then false
    else if pairs[i].id != cond.id then MatchFrom(pairs, cond, i + 1)
    else Compare(To16(pairs[i].val), cond.expr, cond.val)
  }

  /**
   * `check_condition`: false for a device that is not online; otherwise the
   * status pairs are loaded and the first one with the condition's id is
   * compared, its value read as 16 bits.
   */
  function CheckCondition(h: Hub, cond: Condition): (r: bool)
  {
    match FindDev(h, cond.devid)
    case None => false
    case Some(d) => MatchFrom(LoadDevStatus(d.status), cond, 0)
  }

  /**
   * What a condition means, stated on the cache directly: the device is
   * online, the slot is below its status count, and the slot's value, as
   * 16 bits, satisfies the operator.
   */
  predicate Holds(h: Hub, cond: Condition) {
    && FindDev(h, cond.devid).Some?
    && cond.id < FindDev(h, cond.devid).value.status.num
    && Compare(To16(CacheVal(FindDev(h, cond.devid).value.status, cond.id)), cond.expr, cond.val)
  }

  lemma {:induction false} MatchFromLoaded(cache: StatusCache, cond: Condition, i: nat)
    requires i <= cache.num
    ensures MatchFrom(LoadDevStatus(cache), cond, i) ==
      (i <= cond.id < cache.num && Compare(To16(CacheVal(cache, cond.id)), cond.expr, cond.val))
    decreases cache.num - i
  {
    if i < cache.num {
      MatchFromLoaded(cache, cond, i + 1);
    }
  }

  /** The scanning check agrees with the direct meaning. */
  lemma CheckConditionMeaning(h: Hub, cond: Condition)
    ensures CheckCondition(h, cond) <==> Holds(h, cond)
  {
    if FindDev(h, cond.devid).Some? {
      MatchFromLoaded(FindDev(h, cond.devid).value.status, cond, 0);
    }
  }

  /* ---------------- acts ---------------- */

  /**
   * `execute_action`'s grouping: acts are added in order to the group of
   * their device, a new group opening at the first act of each device.
   */
  function Group(groups: seq<Status>, a: Act): (r: seq<Status>)
    ensures |r| == |groups| || |r| == |groups| + 1
  {
    GroupFrom(groups, a, 0)
  }

  function GroupFrom(groups: seq<Status>, a: Act, i: nat): (r: seq<Status>)
    requires i <= |groups|
    ensures |r| == |groups| || |r| == |groups| + 1
    ensures forall j :: 0 <= j < |groups| ==> r[j].devid == groups[j].devid
    ensures |r| == |groups| + 1 ==> r[|groups|] == Status(a.devid, [Pair(a.id, a.param1)])
    decreases |groups| - i
  {
    if i == |groups| then groups + [Status(a.devid, [Pair(a.id, a.param1)])]
    else if groups[i].devid == a.devid then groups[i := groups[i].(pairs := groups[i].pairs + [Pair(a.id, a.param1)])]
    else GroupFrom(groups, a, i + 1)
  }

  function GroupAll(acts: seq<Act>): (r: seq<Status>)
    decreases |acts|
  {
    if |acts| == 0 then [] else Group(GroupAll(acts[..|acts| - 1]), acts[|acts| - 1])
  }

  /** The pair an act contributes: its id and first parameter (flag and second parameter are dropped). */
  function PairOf(a: Act): Pair { Pair(a.id, a.param1) }

  /** The pairs of the acts for one device, in act order: the reference for a group's content. */
  function PairsFor(acts: seq<Act>, devid: uint32): (r: seq<Pair>)
    decreases |acts|
  {
    if |acts| == 0 then []
    else PairsFor(acts[..|acts| - 1], devid) + (if acts[|acts| - 1].devid == devid then [PairOf(acts[|acts| - 1])] else [])
  }

  /** Distinct devices in order of first appearance: the reference for the group order. */
  function DevOrder(acts: seq<Act>): (r: seq<uint32>)
    decreases |acts|
  {
    if |acts| == 0 then []
    else
      var prev := DevOrder(acts[..|acts| - 1]);
      if acts[|acts| - 1].devid in prev then prev else prev + [acts[|acts| - 1].devid]
  }

  /** `execute_action`: one status request per device group, in order, with no reply. */
  function ExecuteAction(act: Action): (r: seq<Out>)
    ensures |r| == |GroupAll(act.acts)|
    ensures forall i :: 0 <= i < |r| ==> r[i] == Enqueue(SetStatusTask(GroupAll(act.acts)[i], false))
  {
    var g := GroupAll(act.acts);
    seq(|g|, i requires 0 <= i < |g| => Enqueue(SetStatusTask(g[i], false)))
  }

  lemma GroupStep(groups: seq<Status>, a: Act, i: nat, order: seq<uint32>, acts: seq<Act>)
    requires i <= |groups| && |groups| == |order| && order == DevOrder(acts)
    requires forall j :: 0 <= j < |groups| ==> groups[j].devid == order[j] && groups[j].pairs == PairsFor(acts, order[j])
    requires forall j :: 0 <= j < i ==> order[j] != a.devid
    ensures var r := GroupFrom(groups, a, i);
      var order' := if a.devid in order then order else order + [a.devid];
      && |r| == |order'|
      && forall j :: 0 <= j < |r| ==> r[j].devid == order'[j] && r[j].pairs == PairsFor(acts + [a], order'[j])
    decreases |groups| - i
  {
    var acts' := acts + [a];
    assert acts'[..|acts'| - 1] == acts;
    if i == |groups| {
      forall j | 0 <= j < |groups| ensures order[j] != a.devid {
      }
      assert a.devid !in order;
      assert PairsFor(acts, a.devid) == [] by {
        PairsForAbsent(acts, a.devid, order);
      }
    } else if groups[i].devid == a.devid {
      assert a.devid in order;
      DevOrderDistinct(acts);
    } else {
      GroupStep(groups, a, i + 1, order, acts);
    }
  }

  lemma {:induction false} DevOrderDistinct(acts: seq<Act>)
    ensures forall i, j :: 0 <= i < j < |DevOrder(acts)| ==> DevOrder(acts)[i] != DevOrder(acts)[j]
    decreases |acts|
  {
    if |acts| > 0 {
      DevOrderDistinct(acts[..|acts| - 1]);
    }
  }

  /** A device that never appears among the acts collects no pairs. */
  lemma {:induction false} PairsForAbsent(acts: seq<Act>, devid: uint32, order: seq<uint32>)
    requires order == DevOrder(acts) && devid !in order
    ensures PairsFor(acts, devid) == []
    decreases |acts|
  {
    if |acts| > 0 {
      var prev := DevOrder(acts[..|acts| - 1]);
      assert forall x :: x in prev ==> x in order;
      PairsForAbsent(acts[..|acts| - 1], devid, prev);
    }
  }

  /**
   * `execute_action` makes one request per distinct device, in order of
   * the device's first act, and each request lists exactly that device's
   * (id, param1) pairs in act order.
   */
  lemma {:induction false} GroupAllMeaning(acts: seq<Act>)
    ensures |GroupAll(acts)| == |DevOrder(acts)|
    ensures forall j :: 0 <= j < |GroupAll(acts)| ==>
      GroupAll(acts)[j].devid == DevOrder(acts)[j] && GroupAll(acts)[j].pairs == PairsFor(acts, DevOrder(acts)[j])
    decreases |acts|
  {
    if |acts| > 0 {
      var init := acts[..|acts| - 1];
      var a := acts[|acts| - 1];
      assert init + [a] == acts;
      GroupAllMeaning(init);
      DevOrderDistinct(init);
      GroupStep(GroupAll(init), a, 0, DevOrder(init), init);
    }
  }

  /* ---------------- the schedule ---------------- */

  /** One step of a running scene: sleep `wait` seconds, then queue `reqs`. */
  datatype Step = Step(wait: nat, reqs: seq<Out>)

  /** Whether action `a` runs, given the registry as it stands when its turn comes. */
  predicate Runs(a: Action, view: Hub) {
    !a.hasCond || CheckCondition(view, a.cond)
  }

  /**
   * `scene_handler` from action `i` on, with `clock` seconds already
   * slept: an action whose condition fails is skipped without sleeping;
   * otherwise the scene sleeps up to the action's delay (if it is later
   * than the clock) and queues the action's requests. `views[i]` is the
   * registry as action `i` sees it.
   */
  function ScheduleFrom(acts: seq<Action>, views: seq<Hub>, i: nat, clock: nat): (r: seq<Step>)
    requires |views| == |acts| && i <= |acts|
    decreases |acts| - i
  {
    if i == |acts| then []
    else if !Runs(acts[i], views[i]) then ScheduleFrom(acts, views, i + 1, clock)
    else
      var wait := if clock < acts[i].delay then acts[i].delay - clock else 0;
      [Step(wait, ExecuteAction(acts[i]))] + ScheduleFrom(acts, views, i + 1, clock + wait)
  }

  function SceneHandler(sc: SceneRec, views: seq<Hub>): (r: seq<Step>)
    requires |views| == |sc.actions|
  {
    ScheduleFrom(sc.actions, views, 0, 0)
  }

  /** The actions that run, in order. */
  function Running(acts: seq<Action>, views: seq<Hub>, i: nat): (r: seq<Action>)
    requires |views| == |acts| && i <= |acts|
    decreases |acts| - i
  {
    if i == |acts| then []
    else if Runs(acts[i], views[i]) then [acts[i]] + Running(acts, views, i + 1)
    else Running(acts, views, i + 1)
  }

  function SumWaits(steps: seq<Step>): nat
    decreases |steps|
  {
    if |steps| == 0 then 0 else steps[0].wait + SumWaits(steps[1..])
  }

  function MaxDelay(acts: seq<Action>, clock: nat): nat
    decreases |acts|
  {
    if |acts| == 0 then clock
    else MaxDelay(acts[1..], if clock < acts[0].delay then acts[0].delay else clock)
  }

  /** The schedule has one step per running action, and each step queues that action's requests. */
  lemma {:induction false} ScheduleRunsActions(acts: seq<Action>, views: seq<Hub>, i: nat, clock: nat)
    requires |views| == |acts| && i <= |acts|
    ensures |ScheduleFrom(acts, views, i, clock)| == |Running(acts, views, i)|
    ensures forall k :: 0 <= k < |ScheduleFrom(acts, views, i, clock)| ==>
      ScheduleFrom(acts, views, i, clock)[k].reqs == ExecuteAction(Running(acts, views, i)[k])
    decreases |acts| - i
  {
    if i < |acts| {
      var wait := if clock < acts[i].delay then acts[i].delay - clock else 0;
      if Runs(acts[i], views[i]) {
        ScheduleRunsActions(acts, views, i + 1, clock + wait);
        var steps := ScheduleFrom(acts, views, i, clock);
        var run := Running(acts, views, i);
        assert steps == [Step(wait, ExecuteAction(acts[i]))] + ScheduleFrom(acts, views, i + 1, clock + wait);
        assert run == [acts[i]] + Running(acts, views, i + 1);
      } else {
        ScheduleRunsActions(acts, views, i + 1, clock);
      }
    }
  }

  /**
   * The time slept in total is the largest delay among the running
   * actions (the clock never runs backwards, and a skipped action costs no
   * time).
   */
  lemma {:induction false} ScheduleTotalWait(acts: seq<Action>, views: seq<Hub>, i: nat, clock: nat)
    requires |views| == |acts| && i <= |acts|
    ensures clock + SumWaits(ScheduleFrom(acts, views, i, clock)) == MaxDelay(Running(acts, views, i), clock)
    decreases |acts| - i
  {
    if i < |acts| {
      var wait := if clock < acts[i].delay then acts[i].delay - clock else 0;
      if Runs(acts[i], views[i]) {
        ScheduleTotalWait(acts, views, i + 1, clock + wait);
        var steps := ScheduleFrom(acts, views, i, clock);
        var run := Running(acts, views, i);
        assert steps[1..] == ScheduleFrom(acts, views, i + 1, clock + wait);
        assert run[1..] == Running(acts, views, i + 1);
      } else {
        ScheduleTotalWait(acts, views, i + 1, clock);
      }
    }
  }

  /** A failing condition costs no time: the steps are those of the scene without that action. */
  lemma SkippedActionCostsNothing(acts: seq<Action>, views: seq<Hub>, i: nat, clock: nat)
    requires |views| == |acts| && i < |acts| && !Runs(acts[i], views[i])
    ensures ScheduleFrom(acts, views, i, clock) == ScheduleFrom(acts, views, i + 1, clock)
  {
  }
}

=== FILE: scene_codec.dfy ===
/**
 * The SET_SCENE / SCENE_UPDATE body: after the header, the scene's 16-byte
 * name at 4, then each action as a 4-byte header (0xFF, delay, has-condition,
 * act count), an optional 8-byte condition (0xFE, expression, device,
 * slot, value) and its 12-byte acts (0xFD, flag, device, id, param1,
 * param2).
 */
module SceneCodec {
  import opened Bytes
  import opened HubTypes
  import opened DeviceTypes
  import opened Scene
  import Wire

  const ActionMark: uint8 := 0xFF
  const CondMark: uint8 := 0xFE
  const ActMark: uint8 := 0xFD

  /** At most this many actions per scene and acts per action fit the scene record. */
  const MaxActions: nat := 8
  const MaxActs: nat := 8

  /* ---------------- reading the receive buffer ---------------- */

  /** The byte at `i` of the receive buffer; past the data the model reads zeros. */
  function At(b: bytes, i: int): uint8 {
    if 0 <= i < |b| then b[i] else 0
  }

  function At16(b: bytes, i: nat): uint16 {
    At(b, i) as int + 0x100 * At(b, i + 1) as int
  }

  function At32(b: bytes, i: nat): uint32 {
    At16(b, i) as int + 0x1_0000 * At16(b, i + 2) as int
  }

  /** `n` bytes from `off`. */
  function Span(b: bytes, off: nat, n: nat): (r: bytes)
    ensures |r| == n
  {
    seq<uint8>(n, i => At(b, off + i))
  }

  /* ---------------- encoding ---------------- */

  function EncCond(k: Condition): (r: bytes)
    ensures |r| == 8
  {
    [CondMark, To8(k.expr)] + LE16(To16(k.devid)) + LE16(To16(k.id)) + LE16(To16(k.val))
  }

  function EncAct(a: Act): (r: bytes)
    ensures |r| == 12
  {
    [ActMark, To8(a.flag)] + LE16(To16(a.devid)) + LE16(To16(a.id)) + LE16(To16(a.param1)) + LE32(a.param2)
  }

  function EncActs(acts: seq<Act>): (r: bytes)
    ensures |r| == 12 * |acts|
  {
    if |acts| == 0 then [] else EncAct(acts[0]) + EncActs(acts[1..])
  }

  function EncAction(a: Action): (r: bytes)
    ensures |r| == 4 + (if a.hasCond then 8 else 0) + 12 * |a.acts|
  {
    [ActionMark, To8(a.delay), if a.hasCond then 1 else 0, To8(|a.acts|)]
    + (if a.hasCond then EncCond(a.cond) else []) + EncActs(a.acts)
  }

  function EncActions(actions: seq<Action>): (r: bytes)
    ensures |actions| > 0 ==> |r| >= 4
    ensures |actions| == 0 ==> r == []
  {
    if |actions| == 0 then [] else EncAction(actions[0]) + EncActions(actions[1..])
  }

  /** `_reply_get_scene`: SCENE_UPDATE header, the name field, the actions; the length field is the total. */
  function EncodeScene(c: Codes, sc: SceneRec): (r: bytes)
    requires ValidCodes(c)
    ensures |r| == 20 + |EncActions(sc.actions)|
    ensures r[4..20] == Field16(sc.name) && r[20..] == EncActions(sc.actions)
    ensures CmdOf(c, Get16(r, 0)) == Some(SceneUpdate) && Get16(r, 2) == To16(|r|)
  {
    var name, acts := Field16(sc.name), EncActions(sc.actions);
    NameThenRest(c, SceneUpdate, name, acts);
    Wire.Frame(c, SceneUpdate, name + acts)
  }

  /** A frame whose body is a 16-byte name and then `rest` holds the name @4 and `rest` @20. */
  lemma NameThenRest(c: Codes, k: Cmd, name: bytes, rest: bytes)
    requires ValidCodes(c) && |name| == 16
    ensures var r := Wire.Frame(c, k, name + rest);
      |r| == 20 + |rest| && r[4..20] == name && r[20..] == rest
  {
    var r := Wire.Frame(c, k, name + rest);
    assert r[4..4 + |name| + |rest|] == r[4..];
    Split(r, 4, name, rest);
    assert r[20..] == r[20..20 + |rest|];
  }

  /* ---------------- decoding ---------------- */

  function ReadCond(b: bytes, off: nat): Condition {
    Condition(At16(b, off + 2), At16(b, off + 4), At16(b, off + 6), At(b, off + 1))
  }

  function ReadAct(b: bytes, off: nat): Act {
    Act(At(b, off + 1), At16(b, off + 2), At16(b, off + 4), At16(b, off + 6), At32(b, off + 8))
  }

  /** `k` acts from `off`, each behind its marker; the acts and where they end. */
  function ParseActs(b: bytes, off: nat, k: nat): (r: Result<(seq<Act>, nat)>)
    ensures r.Success? ==> |r.value.0| == k && r.value.1 == off + 12 * k
    ensures r.Failure? ==> r.error == InvalidMsg
    decreases k
  {
    if k == 0 then Success(([], off))
    else if At(b, off) != ActMark then Failure(InvalidMsg)
    else
      match ParseActs(b, off + 12, k - 1)
      case Failure(e) => Failure(e)
      case Success((rest, end)) => Success(([ReadAct(b, off)] + rest, end))
  }

  /**
   * One action at `off` and where it ends. An act count above `limit` is
   * refused; a limit of 255 or more refuses nothing, as the parser is
   * written.
   */
  function ParseAction(b: bytes, off: nat, limit: nat): (r: Result<(Action, nat)>)
    ensures r.Success? ==> |r.value.0.acts| <= limit && |r.value.0.acts| < 0x100 && r.value.1 >= off + 4
    ensures r.Failure? ==> r.error == InvalidMsg
  {
    if At(b, off) != ActionMark then Failure(InvalidMsg)
    else
      var hasCond := At(b, off + 2) > 0;
      var n := At(b, off + 3) as nat;
      if n > limit then Failure(InvalidMsg)
      else if hasCond && At(b, off + 4) != CondMark then Failure(InvalidMsg)
      else
        var cond := if hasCond then ReadCond(b, off + 4) else Condition(0, 0, 0, 0);
        match ParseActs(b, if hasCond then off + 12 else off + 4, n)
        case Failure(e) => Failure(e)
        case Success((acts, end)) => Success((Action(hasCond, cond, At(b, off + 1), acts), end))
  }

  /** The action loop: while `off` is before `len`, stopping after the eighth action. */
  function ParseActions(b: bytes, len: int, off: nat, cnt: nat, limit: nat): (r: Result<seq<Action>>)
    requires cnt < MaxActions
    ensures r.Success? ==> |r.value| <= MaxActions - cnt
    ensures r.Success? ==> forall i :: 0 <= i < |r.value| ==> |r.value[i].acts| <= limit
    ensures r.Failure? ==> r.error == InvalidMsg
    decreases MaxActions - cnt
  {
    if off >= len then Success([])
    else
      match ParseAction(b, off, limit)
      case Failure(e) => Failure(e)
      case Success((a, end)) =>
        if cnt + 1 == MaxActions then Success([a])
        else
          match ParseActions(b, len, end, cnt + 1, limit)
          case Failure(e) => Failure(e)
          case Success(rest) => Success([a] + rest)
  }

  /** `parse_scene` over `len` bytes (the declared length), with the given act-count limit. */
  function ParseSceneWith(b: bytes, len: int, limit: nat): (r: Result<SceneRec>)
    ensures r.Success? ==> |r.value.name| == 16 && |r.value.actions| <= MaxActions
    ensures r.Success? ==> forall i :: 0 <= i < |r.value.actions| ==> |r.value.actions[i].acts| <= limit
    ensures r.Failure? ==> r.error == InvalidMsg
  {
    match ParseActions(b, len, 20, 0, limit)
    case Failure(e) => Failure(e)
    case Success(actions) => Success(SceneRec(Field16(Span(b, 4, 16)), actions))
  }

  /**
   * `parse_scene` as written: the act count of an action is any byte value,
   * and every act is stored, although an action holds room for 8.
   */
  function ParseSceneAsWritten(b: bytes, len: int): (r: Result<SceneRec>)
    ensures r.Success? ==> |r.value.actions| <= MaxActions
    ensures r.Success? ==> forall i :: 0 <= i < |r.value.actions| ==> |r.value.actions[i].acts| < 0x100
  {
    ParseSceneWith(b, len, 0xFF)
  }

  /** `parse_scene` with an act count above 8 refused as an invalid message. */
  function ParseScene(b: bytes, len: int): (r: Result<SceneRec>)
    ensures r.Success? ==> |r.value.actions| <= MaxActions
    ensures r.Success? ==> forall i :: 0 <= i < |r.value.actions| ==> |r.value.actions[i].acts| <= MaxActs
    ensures r.Failure? ==> r.error == InvalidMsg
  {
    ParseSceneWith(b, len, MaxActs)
  }

  /* ---------------- the overflow ---------------- */

  /** A SET_SCENE body with one action that declares nine acts, each properly marked. */
  function NineActs(): (r: bytes)
    ensures |r| == 132
  {
    seq(132, i => if i == 20 then ActionMark else if i == 23 then 9
                  else if i >= 24 && (i - 24) % 12 == 0 then ActMark else 0)
  }

  lemma {:induction false} ParseActsMarked(b: bytes, off: nat, k: nat)
    requires forall j :: 0 <= j < k ==> At(b, off + 12 * j) == ActMark
    ensures ParseActs(b, off, k).Success?
    decreases k
  {
    if k > 0 {
      assert At(b, off + 12 * 0) == ActMark;
      forall j | 0 <= j < k - 1 ensures At(b, (off + 12) + 12 * j) == ActMark {
        assert (off + 12) + 12 * j == off + 12 * (j + 1);
      }
      ParseActsMarked(b, off + 12, k - 1);
    }
  }

  /**
   * The parser as written accepts that body and stores nine acts in one
   * action, one more than the action's `acts[8]` array holds; the
   * corrected parser refuses it.
   */
  lemma NineActsOverflow()
    ensures ParseSceneAsWritten(NineActs(), 132).Success?
    ensures |ParseSceneAsWritten(NineActs(), 132).value.actions[0].acts| == 9 > MaxActs
    ensures ParseScene(NineActs(), 132) == Failure(InvalidMsg)
  {
    var b := NineActs();
    assert At(b, 20) == ActionMark && At(b, 22) == 0 && At(b, 23) == 9;
    forall j | 0 <= j < 9 ensures At(b, 24 + 12 * j) == ActMark {
      assert (24 + 12 * j - 24) % 12 == 0;
    }
    ParseActsMarked(b, 24, 9);
    assert ParseAction(b, 20, 0xFF).Success?;
    assert ParseAction(b, 20, 0xFF).value.1 == 132;
    assert ParseActions(b, 132, 132, 1, 0xFF) == Success([]);
  }

  /** Whenever the corrected parser accepts a body, the parser as written reads the same scene. */
  lemma {:induction false} ParseActionsAgree(b: bytes, len: int, off: nat, cnt: nat)
    requires cnt < MaxActions && ParseActions(b, len, off, cnt, MaxActs).Success?
    ensures ParseActions(b, len, off, cnt, 0xFF) == ParseActions(b, len, off, cnt, MaxActs)
    decreases MaxActions - cnt
  {
    if off < len {
      var (a, end) := ParseAction(b, off, MaxActs).value;
      assert ParseAction(b, off, 0xFF) == ParseAction(b, off, MaxActs);
      if cnt + 1 < MaxActions {
        ParseActionsAgree(b, len, end, cnt + 1);
      }
    }
  }

  lemma ParseSceneAgrees(b: bytes, len: int)
    requires ParseScene(b, len).Success?
    ensures ParseSceneAsWritten(b, len) == ParseScene(b, len)
  {
    ParseActionsAgree(b, len, 20, 0);
  }

  /* ---------------- the round trip ---------------- */

  /** The value ranges the wire keeps: byte-wide delay, flag and expression; 16-bit ids and values. */
  predicate ActFits(a: Act) {
    a.flag < 0x100 && a.devid < 0x1_0000 && a.id < 0x1_0000 && a.param1 < 0x1_0000
  }

  predicate ActionFits(a: Action) {
    && a.delay < 0x100 && |a.acts| <= MaxActs
    && (a.hasCond ==> a.cond.expr < 0x100 && a.cond.devid < 0x1_0000 && a.cond.id < 0x1_0000 && a.cond.val < 0x1_0000)
    && (!a.hasCond ==> a.cond == Condition(0, 0, 0, 0))
    && ActsFit(a.acts)
  }

  /** Every act of the run fits. */
  predicate ActsFit(acts: seq<Act>) {
    |acts| == 0 || (ActFits(acts[0]) && ActsFit(acts[1..]))
  }

  /** Every action of the run fits. */
  predicate ActionsFit(actions: seq<Action>) {
    |actions| == 0 || (ActionFits(actions[0]) && ActionsFit(actions[1..]))
  }

  predicate SceneFits(sc: SceneRec) {
    |sc.actions| <= MaxActions && ActionsFit(sc.actions)
  }

  /** An action within range encodes to at most 108 bytes, so a whole scene stays well under the 16-bit length field. */
  lemma {:induction false} EncActionsShort(actions: seq<Action>)
    requires ActionsFit(actions)
    ensures |EncActions(actions)| <= 108 * |actions|
  {
    if |actions| > 0 {
      EncActionsShort(actions[1..]);
    }
  }

  lemma At16Of(b: bytes, off: nat, v: uint16)
    requires off + 2 <= |b| && b[off..off + 2] == LE16(v)
    ensures At16(b, off) == v
  {
    assert b[off] == LE16(v)[0] && b[off + 1] == LE16(v)[1];
  }

  /** A little-endian field at `i` of a run `e` of the buffer reads back. */
  lemma At16In(b: bytes, off: nat, e: bytes, i: nat, v: uint16)
    requires off + |e| <= |b| && b[off..off + |e|] == e && i + 2 <= |e| && e[i..i + 2] == LE16(v)
    ensures At16(b, off + i) == v
  {
    assert b[off + i] == e[i] == LE16(v)[0];
    assert b[off + i + 1] == e[i + 1] == LE16(v)[1];
  }

  lemma At32Of(b: bytes, off: nat, v: uint32)
    requires off + 4 <= |b| && b[off..off + 4] == LE32(v)
    ensures At32(b, off) == v
  {
    assert b[off] == LE32(v)[0] && b[off + 1] == LE32(v)[1];
    assert b[off + 2] == LE32(v)[2] && b[off + 3] == LE32(v)[3];
    var q1 := v / 0x100;
    var q2 := q1 / 0x100;
    assert v / 0x1_0000 == q2;
    assert v / 0x100_0000 == q2 / 0x100;
    assert v % 0x1_0000 == v % 0x100 + 0x100 * (q1 % 0x100);
  }

  lemma ReadActOf(b: bytes, off: nat, a: Act)
    requires ActFits(a) && off + 12 <= |b| && b[off..off + 12] == EncAct(a)
    ensures At(b, off) == ActMark && ReadAct(b, off) == a
  {
    To16Small(a.devid);
    To16Small(a.id);
    To16Small(a.param1);
    var e := EncAct(a);
    var h: bytes := [ActMark, a.flag as uint8];
    assert e == h + LE16(a.devid) + LE16(a.id) + LE16(a.param1) + LE32(a.param2);
    assert b[off] == e[0] && b[off + 1] == e[1];
    assert e[2..4] == LE16(a.devid);
    At16In(b, off, e, 2, a.devid);
    assert e[4..6] == LE16(a.id);
    At16In(b, off, e, 4, a.id);
    assert e[6..8] == LE16(a.param1);
    At16In(b, off, e, 6, a.param1);
    assert e[8..12] == LE32(a.param2);
    Sub(b, off, e, 8, 12);
    At32Of(b, off + 8, a.param2);
  }

  lemma ReadCondOf(b: bytes, off: nat, k: Condition)
    requires k.expr < 0x100 && k.devid < 0x1_0000 && k.id < 0x1_0000 && k.val < 0x1_0000
    requires off + 8 <= |b| && b[off..off + 8] == EncCond(k)
    ensures At(b, off) == CondMark && ReadCond(b, off) == k
  {
    To16Small(k.devid);
    To16Small(k.id);
    To16Small(k.val);
    var e := EncCond(k);
    var h: bytes := [CondMark, k.expr as uint8];
    assert e == h + LE16(k.devid) + LE16(k.id) + LE16(k.val);
    assert b[off] == e[0] && b[off + 1] == e[1];
    assert e[2..4] == LE16(k.devid);
    At16In(b, off, e, 2, k.devid);
    assert e[4..6] == LE16(k.id);
    At16In(b, off, e, 4, k.id);
    assert e[6..8] == LE16(k.val);
    At16In(b, off, e, 6, k.val);
  }

  /** The act loop, as the lemmas below state it. */
  function ActsAt(b: bytes, off: nat, k: nat): Result<(seq<Act>, nat)> {
    ParseActs(b, off, k)
  }

  lemma {:induction false} ParseActsOf(b: bytes, off: nat, acts: seq<Act>)
    requires ActsFit(acts)
    requires off + 12 * |acts| <= |b| && b[off..off + 12 * |acts|] == EncActs(acts)
    ensures ActsAt(b, off, |acts|) == Success((acts, off + 12 * |acts|))
    decreases |acts|
  {
    if |acts| > 0 {
      var e := EncActs(acts);
      assert e[0..12] == EncAct(acts[0]) && e[12..|e|] == EncActs(acts[1..]);
      Sub(b, off, e, 0, 12);
      ReadActOf(b, off, acts[0]);
      Sub(b, off, e, 12, |e|);
      ParseActsOf(b, off + 12, acts[1..]);
      assert [acts[0]] + acts[1..] == acts;
    }
  }

  /** The action header's four bytes read back. */
  lemma ActionHeaderOf(b: bytes, off: nat, a: Action)
    requires ActionFits(a)
    requires off + 4 <= |b| && b[off..off + 4] == EncAction(a)[0..4]
    ensures At(b, off) == ActionMark && At(b, off + 1) == a.delay
    ensures (At(b, off + 2) > 0 <==> a.hasCond) && At(b, off + 3) == |a.acts|
  {
    var e := EncAction(a);
    assert b[off] == e[0] && b[off + 1] == e[1] && b[off + 2] == e[2] && b[off + 3] == e[3];
  }

  /** Where the acts of an encoded action start, and that the condition (if any) reads back. */
  lemma ActionBodyOf(b: bytes, off: nat, a: Action)
    requires ActionFits(a)
    requires off + |EncAction(a)| <= |b| && b[off..off + |EncAction(a)|] == EncAction(a)
    ensures var o := if a.hasCond then off + 12 else off + 4;
      && o + 12 * |a.acts| == off + |EncAction(a)|
      && b[o..o + 12 * |a.acts|] == EncActs(a.acts)
      && (a.hasCond ==> At(b, off + 4) == CondMark && ReadCond(b, off + 4) == a.cond)
  {
    var h: bytes := [ActionMark, To8(a.delay), if a.hasCond then 1 else 0, To8(|a.acts|)];
    var c: bytes := if a.hasCond then EncCond(a.cond) else [];
    var t := EncActs(a.acts);
    assert EncAction(a) == (h + c) + t;
    Split(b, off, h + c, t);
    if a.hasCond {
      Split(b, off, h, c);
      ReadCondOf(b, off + 4, a.cond);
    }
  }

  /** The parser's reading of one action, from the facts about its bytes alone. */
  lemma ParseActionFrom(b: bytes, off: nat, a: Action, end: nat)
    requires ActionFits(a)
    requires At(b, off) == ActionMark && At(b, off + 1) == a.delay
    requires (At(b, off + 2) > 0 <==> a.hasCond) && At(b, off + 3) == |a.acts|
    requires a.hasCond ==> At(b, off + 4) == CondMark && ReadCond(b, off + 4) == a.cond
    requires ActsAt(b, if a.hasCond then off + 12 else off + 4, |a.acts|) == Success((a.acts, end))
    ensures ParseAction(b, off, MaxActs) == Success((a, end))
  {
  }

  lemma ParseActionOf(b: bytes, off: nat, a: Action)
    requires ActionFits(a)
    requires off + |EncAction(a)| <= |b| && b[off..off + |EncAction(a)|] == EncAction(a)
    ensures ParseAction(b, off, MaxActs) == Success((a, off + |EncAction(a)|))
  {
    ActionFacts(b, off, a);
    ParseActionFrom(b, off, a, off + |EncAction(a)|);
  }

  /** What the bytes of an encoded action tell the parser, field by field. */
  lemma ActionFacts(b: bytes, off: nat, a: Action)
    requires ActionFits(a)
    requires off + |EncAction(a)| <= |b| && b[off..off + |EncAction(a)|] == EncAction(a)
    ensures At(b, off) == ActionMark && At(b, off + 1) == a.delay
    ensures (At(b, off + 2) > 0 <==> a.hasCond) && At(b, off + 3) == |a.acts|
    ensures a.hasCond ==> At(b, off + 4) == CondMark && ReadCond(b, off + 4) == a.cond
    ensures ActsAt(b, if a.hasCond then off + 12 else off + 4, |a.acts|) == Success((a.acts, off + |EncAction(a)|))
  {
    Sub(b, off, EncAction(a), 0, 4);
    ActionHeaderOf(b, off, a);
    ActionBodyOf(b, off, a);
    var o := if a.hasCond then off + 12 else off + 4;
    ParseActsOf(b, o, a.acts);
  }

  /** The action loop run to the end of the buffer with the act limit of 8. */
  function ActionsFrom(b: bytes, off: nat, cnt: nat): Result<seq<Action>>
    requires cnt < MaxActions
  {
    ParseActions(b, |b|, off, cnt, MaxActs)
  }

  /** One step of the action loop: an encoded action before the end heads the rest of the loop's result. */
  lemma ParseActionsCons(b: bytes, off: nat, cnt: nat, a: Action, end: nat, rest: seq<Action>)
    requires cnt + 1 < MaxActions && ActionFits(a)
    requires end == off + |EncAction(a)| && end <= |b| && b[off..end] == EncAction(a)
    requires ActionsFrom(b, end, cnt + 1) == Success(rest)
    ensures ActionsFrom(b, off, cnt) == Success([a] + rest)
  {
    ParseActionOf(b, off, a);
    ActionsStepFrom(b, off, cnt, a, end, rest);
  }

  /** The loop's step from the parser's reading of one action alone. */
  lemma ActionsStepFrom(b: bytes, off: nat, cnt: nat, a: Action, end: nat, rest: seq<Action>)
    requires cnt + 1 < MaxActions && off < |b|
    requires ParseAction(b, off, MaxActs) == Success((a, end))
    requires ActionsFrom(b, end, cnt + 1) == Success(rest)
    ensures ActionsFrom(b, off, cnt) == Success([a] + rest)
  {
  }

  /** The eighth action ends the loop, whatever follows it. */
  lemma ParseActionsLast(b: bytes, off: nat, cnt: nat, a: Action)
    requires cnt + 1 == MaxActions && ActionFits(a)
    requires off + |EncAction(a)| <= |b| && b[off..off + |EncAction(a)|] == EncAction(a)
    ensures ActionsFrom(b, off, cnt) == Success([a])
  {
    ParseActionOf(b, off, a);
  }

  /** The buffer holding a run of encoded actions holds the first one, then the rest. */
  lemma EncActionsSplit(b: bytes, off: nat, actions: seq<Action>)
    requires |actions| > 0 && off + |EncActions(actions)| == |b| && b[off..] == EncActions(actions)
    ensures var n := |EncAction(actions[0])|;
      off + n <= |b| && b[off..off + n] == EncAction(actions[0]) && b[off + n..] == EncActions(actions[1..])
  {
    var x, y := EncAction(actions[0]), EncActions(actions[1..]);
    assert EncActions(actions) == x + y;
    assert b[off..off + |x| + |y|] == b[off..];
    Split(b, off, x, y);
    assert b[off + |x|..] == b[off + |x|..off + |x| + |y|];
  }

  /** The loop's step over a run of encoded actions: the first one heads what the rest parse to. */
  lemma ParseActionsStep(b: bytes, off: nat, cnt: nat, actions: seq<Action>)
    requires |actions| > 0 && cnt + 1 < MaxActions && ActionsFit(actions)
    requires var n := |EncAction(actions[0])|;
      off + n <= |b| && b[off..off + n] == EncAction(actions[0])
      && ActionsFrom(b, off + n, cnt + 1) == Success(actions[1..])
    ensures ActionsFrom(b, off, cnt) == Success(actions)
  {
    ParseActionsCons(b, off, cnt, actions[0], off + |EncAction(actions[0])|, actions[1..]);
    assert [actions[0]] + actions[1..] == actions;
  }

  lemma {:induction false} ParseActionsOf(b: bytes, off: nat, cnt: nat, actions: seq<Action>)
    requires cnt < MaxActions && cnt + |actions| <= MaxActions
    requires ActionsFit(actions)
    requires off + |EncActions(actions)| == |b| && b[off..] == EncActions(actions)
    ensures ActionsFrom(b, off, cnt) == Success(actions)
    decreases |actions|
  {
    if |actions| > 0 {
      var a, rest := actions[0], actions[1..];
      var end: nat := off + |EncAction(a)|;
      EncActionsSplit(b, off, actions);
      if cnt + 1 == MaxActions {
        ParseActionsLast(b, off, cnt, a);
        assert actions == [a];
      } else {
        ParseActionsOf(b, end, cnt + 1, rest);
        ParseActionsStep(b, off, cnt, actions);
      }
    }
  }

  /**
   * A scene within the wire's ranges comes back from its own SCENE_UPDATE
   * packet read as SET_SCENE, with its name as the 16-byte field holds it.
   */
  lemma SceneRoundTrip(c: Codes, sc: SceneRec)
    requires ValidCodes(c) && SceneFits(sc)
    ensures var b := EncodeScene(c, sc);
      ParseScene(b, |b|) == Success(SceneRec(Field16(sc.name), sc.actions))
  {
    var b := EncodeScene(c, sc);
    assert Span(b, 4, 16) == b[4..20] == Field16(sc.name);
    Field16Idem(sc.name);
    ParseActionsOf(b, 20, 0, sc.actions);
  }

  /** Copying a 16-byte field into another changes nothing. */
  lemma Field16Idem(s: bytes)
    ensures Field16(Field16(s)) == Field16(s)
  {
    Field16Key(s);
  }
}

=== FILE: serve.dfy ===
/**
 * `deal_tcp_packet`: one client packet, validated, decoded at its fixed
 * offsets, handed to the registry, channel, slot or scene operation it
 * names, and answered with the packets written back to that client.
 * Requests the dispatcher serves later (status, action, probe) are queued
 * with the client as their reply handle and answered nothing now.
 */
module Serve {
  import opened Bytes
  import opened HubTypes
  import opened DeviceTypes
  import opened Registry
  import Slots
  import Dispatch
  import Scene
  import SceneCodec
  import Wire

  /** Everything a packet can change: the device registry and the scene store. */
  datatype Box = Box(hub: Hub, scenes: Scene.Store)

  /** What one packet produces: the new state, the bytes it used, the packets written back, the effects. */
  datatype Served = Served(box: Box, used: int, frames: seq<bytes>, outs: seq<Out>)

  /** The answers of the driver's `add_dev` and `del_dev`, which this model does not contain. */
  datatype DriverCalls = DriverCalls(addDev: Err, delDev: Err)

  /** `REPLY_FAIL`, the result code of an unhandled command. */
  const ReplyFail: int := 0

  /** The RESULT packet for a return code. */
  function Res(c: Codes, ret: Err, devid: uint32, k: Cmd): (r: bytes)
    requires ValidCodes(c)
    ensures |r| == 12 && Wire.ReadResult(r) == Wire.ResultFields(devid, CmdNum(c, k), To16(ErrCode(c, ret)))
    ensures Framed(c, r)
  {
    Wire.ResultRoundTrip(c, ErrCode(c, ret), devid, CmdNum(c, k));
    Wire.ReplyResult(c, ErrCode(c, ret), devid, CmdNum(c, k))
  }

  /** The ids of the online devices, in list order, as `get_dev_id_list` collects them. */
  function OnlineIds(h: Hub): (r: seq<uint32>)
    ensures |r| == |h.online| && forall i :: 0 <= i < |r| ==> r[i] == h.online[i].id
  {
    seq(|h.online|, i requires 0 <= i < |h.online| => h.online[i].id)
  }

  /** A packet as the protocol frames it: a known command and a length field equal to its size (modulo 2^16). */
  predicate Framed(c: Codes, f: bytes) {
    |f| >= 4 && CmdOf(c, Get16(f, 0)).Some? && Get16(f, 2) == To16(|f|)
  }

  predicate AllFramed(c: Codes, fs: seq<bytes>) {
    forall j :: 0 <= j < |fs| ==> Framed(c, fs[j])
  }

  lemma AllFramedConcat(c: Codes, a: seq<bytes>, b: seq<bytes>)
    requires AllFramed(c, a) && AllFramed(c, b)
    ensures AllFramed(c, a + b)
  {
    forall j | 0 <= j < |a + b| ensures Framed(c, (a + b)[j]) {
      if j < |a| { assert (a + b)[j] == a[j]; } else { assert (a + b)[j] == b[j - |a|]; }
    }
  }

  /** GET_CHANNEL's loop: a channel packet for every index below `n` that `get_dev_channel_by_id` answers. */
  function ChannelFrames(c: Codes, h: Hub, devid: uint32, i: nat, n: nat): (r: seq<bytes>)
    requires ValidCodes(c)
    decreases n - i
  {
    if i >= n then []
    else
      match Dispatch.GetDevChannelById(h, devid, i)
      case Failure(_) => ChannelFrames(c, h, devid, i + 1, n)
      case Success(ch) => [Wire.ReplyChannel(c, devid, ch.name, ch.id)] + ChannelFrames(c, h, devid, i + 1, n)
  }

  lemma {:induction false} ChannelFramesFramed(c: Codes, h: Hub, devid: uint32, i: nat, n: nat)
    requires ValidCodes(c)
    ensures AllFramed(c, ChannelFrames(c, h, devid, i, n))
    decreases n - i
  {
    if i < n {
      ChannelFramesFramed(c, h, devid, i + 1, n);
      match Dispatch.GetDevChannelById(h, devid, i)
      case Failure(_) =>
      case Success(ch) =>
        AllFramedConcat(c, [Wire.ReplyChannel(c, devid, ch.name, ch.id)], ChannelFrames(c, h, devid, i + 1, n));
    }
  }

  /** GET_CHANNEL's answer: a packet per channel, then a RESULT; only the RESULT when the device has no channel list. */
  function ChannelList(c: Codes, h: Hub, devid: uint32): (r: seq<bytes>)
    requires ValidCodes(c)
  {
    match Dispatch.GetDevChannelNum(h, devid)
    case Failure(e) => [Res(c, e, devid, GetChannel)]
    case Success(n) => ChannelFrames(c, h, devid, 0, n) + [Res(c, Ok, devid, GetChannel)]
  }

  /** GET_SCENE's loop: a SCENE_UPDATE packet for every stored scene (`get_scene` answers every index below the count). */
  function SceneFrames(c: Codes, st: Scene.Store): (r: seq<bytes>)
    requires ValidCodes(c)
    ensures |r| == |st| && forall i :: 0 <= i < |st| ==> r[i] == SceneCodec.EncodeScene(c, st[i])
  {
    seq(|st|, i requires 0 <= i < |st| => SceneCodec.EncodeScene(c, st[i]))
  }

  /** GET_SCENE's answer: the scenes, then an OK RESULT. */
  function SceneList(c: Codes, st: Scene.Store): (r: seq<bytes>)
    requires ValidCodes(c)
    ensures |r| == |st| + 1 && r[|st|] == Res(c, Ok, 0, GetScene)
    ensures forall i :: 0 <= i < |st| ==> r[i] == SceneCodec.EncodeScene(c, st[i])
  {
    SceneFrames(c, st) + [Res(c, Ok, 0, GetScene)]
  }

  lemma SceneFramesFramed(c: Codes, st: Scene.Store)
    requires ValidCodes(c)
    ensures AllFramed(c, SceneFrames(c, st))
  {
    forall j | 0 <= j < |st| ensures Framed(c, SceneFrames(c, st)[j]) {
      assert SceneFrames(c, st)[j] == SceneCodec.EncodeScene(c, st[j]);
    }
  }

  /** A registry operation's result: its RESULT packet, the new registry, its effects. */
  function HubStep(c: Codes, b: Box, devid: uint32, k: Cmd, r: (Err, Hub, seq<Out>)): (s: (seq<bytes>, Box, seq<Out>))
    requires ValidCodes(c)
    ensures s == ([Res(c, r.0, devid, k)], b.(hub := r.1), r.2)
    ensures AllFramed(c, s.0)
  {
    ([Res(c, r.0, devid, k)], b.(hub := r.1), r.2)
  }

  /** The answer to a command the switch does not serve: a RESULT with `REPLY_FAIL`. */
  function Unhandled(c: Codes, b: Box, k: Cmd): (r: (seq<bytes>, Box, seq<Out>))
    requires ValidCodes(c)
  {
    ([Wire.ReplyResult(c, ReplyFail, 0, CmdNum(c, k))], b, [])
  }

  /** The device arms of the switch: list, info, configuration, status, action, probe, add and delete. */
  function HandleDevice(c: Codes, b: Box, k: Cmd, buf: bytes, len: int, drv: DriverCalls): (r: (seq<bytes>, Box, seq<Out>))
    requires ValidCodes(c) && |buf| >= 40 && len <= |buf| && ArmOf(k) == DeviceArm
  {
    var h := b.hub;
    var devid := Get32(buf, 4);
    match k
    case GetDevs => ([Wire.ReplyDevIdList(c, OnlineIds(h))], b, [])
    case GetInfo =>
      (match FindDev(h, devid)
       case None => [Wire.ReplyResult(c, -1, devid, CmdNum(c, k))]
       case Some(d) => [Wire.ReplyDevInfo(c, d)], b, [])
    case GetConfig =>
      (match FindDev(h, devid)
       case None => [Res(c, BadParam, devid, k)]
       case Some(d) => [Wire.ReplyDevCfg(c, devid, d.config)], b, [])
    case SetConfig => HubStep(c, b, devid, k, Dispatch.SetDevCfg(c, h, devid, Wire.ReadCfg(buf)))
    case GetStatus => ([], b, [Enqueue(GetStatusTask(devid, true))])
    case SetStatus => ([], b, [Enqueue(SetStatusTask(Wire.ReadStatus(buf, len), true))])
    case DoAction =>
      ([], b, [Enqueue(DoActionTask(ActionReq(devid, Get16(buf, 8), Get16(buf, 10), Get32(buf, 12)), true))])
    case ProbeDev => ([], b, [Enqueue(ProbeTask(Get16(buf, 4), true))])
    case AddDev => ([Res(c, Dispatch.AddDev(h, Get16(buf, 4), drv.addDev), 0, k)], b, [])
    case DelDev => ([Res(c, Dispatch.DelDev(h, devid, drv.delDev), 0, k)], b, [])
    case _ => assert false; ([], b, [])
  }

  /** The channel arms of the switch. */
  function HandleChannel(c: Codes, b: Box, k: Cmd, buf: bytes): (r: (seq<bytes>, Box, seq<Out>))
    requires ValidCodes(c) && |buf| >= 40 && ArmOf(k) == ChannelArm
  {
    var h := b.hub;
    var devid := Get32(buf, 4);
    match k
    case SetChannel => HubStep(c, b, devid, k, Dispatch.SetDevChannel(h, devid, Wire.ReadName(buf, 8), Get32(buf, 24)))
    case DelChannel => HubStep(c, b, devid, k, Dispatch.DelDevChannel(h, devid, Wire.ReadName(buf, 8)))
    case SwitchChannel =>
      (match Dispatch.GetDevChannel(h, devid, Wire.ReadName(buf, 8))
       case Failure(e) => ([Res(c, e, devid, k)], b, [])
       case Success(cid) => ([], b, [Enqueue(SetStatusTask(Status(devid, [Pair(c.tvStatusChannel, cid)]), true))]))
    case GetChannel => (ChannelList(c, h, devid), b, [])
    case _ => assert false; ([], b, [])
  }

  /** The timer, delay and linkage arms of the switch. */
  function HandleSlot(c: Codes, b: Box, k: Cmd, buf: bytes): (r: (seq<bytes>, Box, seq<Out>))
    requires ValidCodes(c) && |buf| >= 40 && ArmOf(k) == SlotArm
  {
    var h := b.hub;
    var devid := Get32(buf, 4);
    match k
    case GetTimer =>
      (match Slots.GetDevTimer(h, devid, Get16(buf, 8))
       case Failure(e) => [Res(c, e, devid, k)]
       case Success(t) => [Wire.ReplyTimer(c, devid, t)], b, [])
    case SetTimer => HubStep(c, b, devid, k, Slots.SetDevTimer(h, devid, Wire.ReadTimer(buf).1))
    case DelTimer => HubStep(c, b, devid, k, Slots.DelDevTimer(h, devid, Get16(buf, 8)))
    case GetDelay =>
      (match Slots.GetDevDelay(h, devid, Get16(buf, 8))
       case Failure(e) => [Res(c, e, devid, k)]
       case Success(dl) => [Wire.ReplyDelay(c, devid, dl)], b, [])
    case SetDelay => HubStep(c, b, devid, k, Slots.SetDevDelay(h, devid, Wire.ReadDelay(buf).1))
    case DelDelay => HubStep(c, b, devid, k, Slots.DelDevDelay(h, devid, Get16(buf, 8)))
    case GetLinkage =>
      (match Slots.GetDevLinkage(h, devid, Get16(buf, 8))
       case Failure(e) => [Res(c, e, devid, k)]
       case Success(l) => [Wire.ReplyLinkage(c, devid, l)], b, [])
    case SetLinkage => HubStep(c, b, devid, k, Slots.SetDevLinkage(h, devid, Wire.ReadLinkage(buf).1))
    case DelLinkage => HubStep(c, b, devid, k, Slots.DelDevLinkage(h, devid, Get16(buf, 8)))
    case _ => assert false; ([], b, [])
  }

  /** The SET_SCENE arm on a parsed body: a parse error is answered, a scene is stored. */
  function StoreScene(c: Codes, b: Box, p: Result<DeviceTypes.SceneRec>): (r: (seq<bytes>, Box, seq<Out>))
    requires ValidCodes(c)
    ensures p.Failure? ==> r == ([Res(c, p.error, 0, Cmd.SetScene)], b, [])
    ensures p.Success? ==> r.0 == [Res(c, Ok, 0, Cmd.SetScene)] && r.1 == b.(scenes := Scene.AddScene(b.scenes, p.value).0)
  {
    match p
    case Failure(e) => ([Res(c, e, 0, Cmd.SetScene)], b, [])
    case Success(sc) =>
      var (st', outs) := Scene.AddScene(b.scenes, sc);
      ([Res(c, Ok, 0, Cmd.SetScene)], b.(scenes := st'), outs)
  }

  /**
   * The ENTER_SCENE arm: the scene `enter_scene` finds is handed, as a copy,
   * to the thread pool and OK answered; an unknown name is answered with
   * BAD_PARAM. The box is left as it was.
   */
  function EnterReply(c: Codes, b: Box, name: bytes): (r: (seq<bytes>, Box, seq<Out>))
    requires ValidCodes(c)
    ensures r.1 == b
    ensures Scene.FindScene(b.scenes, name).None? ==> r.0 == [Res(c, BadParam, 0, EnterScene)] && r.2 == []
    ensures Scene.FindScene(b.scenes, name).Some? ==>
      r.0 == [Res(c, Ok, 0, EnterScene)] && r.2 == [RunScene(b.scenes[Scene.FindScene(b.scenes, name).value])]
  {
    match Scene.EnterScene(b.scenes, name)
    case Failure(e) => ([Res(c, e, 0, EnterScene)], b, [])
    case Success(sc) => ([Res(c, Ok, 0, EnterScene)], b, [RunScene(sc)])
  }

  /** The scene arms of the switch; the name is the 16 bytes after the header. */
  function HandleScene(c: Codes, b: Box, k: Cmd, buf: bytes, cmdlen: nat): (r: (seq<bytes>, Box, seq<Out>))
    requires ValidCodes(c) && |buf| >= 40 && ArmOf(k) == SceneArm
    ensures k == Cmd.SetScene ==> r == StoreScene(c, b, SceneCodec.ParseScene(buf, cmdlen))
    ensures k == EnterScene ==> r == EnterReply(c, b, Field16(buf[4..20]))
  {
    match k
    case SetScene => StoreScene(c, b, SceneCodec.ParseScene(buf, cmdlen))
    case DelScene =>
      var (ret, st', outs) := Scene.DelScene(b.scenes, Field16(buf[4..20]));
      ([Res(c, ret, 0, k)], b.(scenes := st'), outs)
    case EnterScene => EnterReply(c, b, Field16(buf[4..20]))
    case GetScene => (SceneList(c, b.scenes), b, [])
    case _ => assert false; ([], b, [])
  }

  /** Which group of switch arms serves a command. */
  datatype Arm = DeviceArm | ChannelArm | SlotArm | SceneArm | NoArm

  function ArmOf(k: Cmd): Arm {
    match k
    case GetDevs | GetInfo | GetConfig | SetConfig | GetStatus | SetStatus | DoAction | ProbeDev | AddDev | DelDev => DeviceArm
    case SetChannel | DelChannel | SwitchChannel | GetChannel => ChannelArm
    case GetTimer | SetTimer | DelTimer | GetDelay | SetDelay | DelDelay | GetLinkage | SetLinkage | DelLinkage => SlotArm
    case SetScene | DelScene | EnterScene | GetScene => SceneArm
    case _ => NoArm
  }

  /**
   * The switch of `deal_tcp_packet` for command `k` on the receive buffer
   * `buf`, of which `len` bytes were received and `cmdlen` declared.
   */
  function Handle(c: Codes, b: Box, k: Cmd, buf: bytes, len: int, cmdlen: nat, drv: DriverCalls): (r: (seq<bytes>, Box, seq<Out>))
    requires ValidCodes(c) && |buf| >= 40 && len <= |buf|
  {
    match ArmOf(k)
    case DeviceArm => HandleDevice(c, b, k, buf, len, drv)
    case ChannelArm => HandleChannel(c, b, k, buf)
    case SlotArm => HandleSlot(c, b, k, buf)
    case SceneArm => HandleScene(c, b, k, buf, cmdlen)
    case NoArm => Unhandled(c, b, k)
  }

  /**
   * `deal_tcp_packet`: a packet the header check rejects, or whose declared
   * length is shorter than the header, uses every received byte and
   * answers nothing; any other is handled and uses its declared length.
   */
  function DealTcp(c: Codes, b: Box, buf: bytes, len: int, drv: DriverCalls): (r: Served)
    requires ValidCodes(c) && |buf| >= 40 && len <= |buf|
    ensures r.used == Wire.Used(c, buf, len)
    ensures (Wire.CheckTcp(c, buf, len) != 0 || Get16(buf, 2) < 4) ==> r == Served(b, len, [], [])
  {
    if Wire.CheckTcp(c, buf, len) != 0 || Get16(buf, 2) < 4 then Served(b, len, [], [])
    else
      var cmdlen := Get16(buf, 2);
      var k := CmdOf(c, Get16(buf, 0)).value;
      var (frames, b', outs) := Handle(c, b, k, buf, len, cmdlen, drv);
      Served(b', cmdlen, frames, outs)
  }

  /**
   * `deal_tcp_packet` as written: every packet the header check accepts
   * is handled, even one whose declared length is shorter than the
   * header, and uses its declared length; SET_SCENE parses with no bound
   * on the act count. `DealTcp` above is the corrected dispatcher.
   */
  function DealTcpAsWritten(c: Codes, b: Box, buf: bytes, len: int, drv: DriverCalls): (r: Served)
    requires ValidCodes(c) && |buf| >= 40 && len <= |buf|
    ensures r.used == Wire.UsedAsWritten(c, buf, len)
    ensures Wire.CheckTcp(c, buf, len) != 0 ==> r == Served(b, len, [], [])
  {
    if Wire.CheckTcp(c, buf, len) != 0 then Served(b, len, [], [])
    else
      var cmdlen := Get16(buf, 2);
      var k := CmdOf(c, Get16(buf, 0)).value;
      var (frames, b', outs) :=
        if k.SetScene? then StoreScene(c, b, SceneCodec.ParseSceneAsWritten(buf, cmdlen))
        else Handle(c, b, k, buf, len, cmdlen, drv);
      Served(b', cmdlen, frames, outs)
  }

  /**
   * The program and the corrected dispatcher differ only on a packet that
   * declares fewer than 4 bytes, which the program handles and then fails
   * to move past, and on a SET_SCENE whose act count only the program
   * accepts (`DealTcpSceneAgrees`); on every other packet they serve the same.
   */
  lemma DealTcpAgrees(c: Codes, b: Box, buf: bytes, len: int, drv: DriverCalls)
    requires ValidCodes(c) && |buf| >= 40 && len <= |buf|
    ensures Wire.CheckTcp(c, buf, len) != 0 ==> DealTcpAsWritten(c, b, buf, len, drv) == DealTcp(c, b, buf, len, drv)
    ensures Wire.CheckTcp(c, buf, len) == 0 && Get16(buf, 2) < 4 ==>
      DealTcpAsWritten(c, b, buf, len, drv).used == Get16(buf, 2) && DealTcp(c, b, buf, len, drv).used == len
    ensures Wire.CheckTcp(c, buf, len) == 0 && Get16(buf, 2) >= 4 && CmdOf(c, Get16(buf, 0)) != Some(Cmd.SetScene) ==>
      DealTcpAsWritten(c, b, buf, len, drv) == DealTcp(c, b, buf, len, drv)
  {
    if Wire.CheckTcp(c, buf, len) == 0 && Get16(buf, 2) >= 4 && CmdOf(c, Get16(buf, 0)) != Some(Cmd.SetScene) {
      var k := CmdOf(c, Get16(buf, 0)).value;
      var h := Handle(c, b, k, buf, len, Get16(buf, 2), drv);
      assert DealTcpAsWritten(c, b, buf, len, drv) == Served(h.1, Get16(buf, 2), h.0, h.2);
      assert DealTcp(c, b, buf, len, drv) == Served(h.1, Get16(buf, 2), h.0, h.2);
    }
  }

  /**
   * A SET_SCENE declaring at least its header is served alike by both
   * whenever the corrected parser accepts it or the program's parser
   * refuses it too.
   */
  lemma DealTcpSceneAgrees(c: Codes, b: Box, buf: bytes, len: int, drv: DriverCalls)
    requires ValidCodes(c) && |buf| >= 40 && len <= |buf|
    requires Wire.CheckTcp(c, buf, len) == 0 && Get16(buf, 2) >= 4 && CmdOf(c, Get16(buf, 0)) == Some(Cmd.SetScene)
    ensures SceneCodec.ParseScene(buf, Get16(buf, 2)).Success? || SceneCodec.ParseSceneAsWritten(buf, Get16(buf, 2)).Failure? ==>
      DealTcpAsWritten(c, b, buf, len, drv) == DealTcp(c, b, buf, len, drv)
  {
    var cmdlen := Get16(buf, 2);
    var p := SceneCodec.ParseScene(buf, cmdlen);
    var q := SceneCodec.ParseSceneAsWritten(buf, cmdlen);
    if p.Success? {
      SceneCodec.ParseSceneAgrees(buf, cmdlen);
    }
    if p.Success? || q.Failure? {
      assert p == q;
      var h := StoreScene(c, b, p);
      AcceptedScene(c, b, buf, len, drv, Cmd.SetScene);
      assert DealTcpAsWritten(c, b, buf, len, drv) == Served(h.1, cmdlen, h.0, h.2);
    }
  }

  /** A packet the header check accepts, declaring at least its header, whose command is `k`. */
  predicate Accepted(c: Codes, buf: bytes, len: int, k: Cmd)
    requires ValidCodes(c) && |buf| >= 4
  {
    Wire.CheckTcp(c, buf, len) == 0 && Get16(buf, 2) >= 4 && CmdOf(c, Get16(buf, 0)) == Some(k)
  }

  /** An accepted packet is served by the switch arm of its command and uses its declared length. */
  lemma AcceptedIsHandled(c: Codes, b: Box, buf: bytes, len: int, drv: DriverCalls, k: Cmd)
    requires ValidCodes(c) && |buf| >= 40 && len <= |buf|
    requires Accepted(c, buf, len, k)
    ensures var (frames, b', outs) := Handle(c, b, k, buf, len, Get16(buf, 2), drv);
      DealTcp(c, b, buf, len, drv) == Served(b', Get16(buf, 2), frames, outs)
  {
  }

  /** An accepted scene command is served by the scene arms. */
  lemma AcceptedScene(c: Codes, b: Box, buf: bytes, len: int, drv: DriverCalls, k: Cmd)
    requires ValidCodes(c) && |buf| >= 40 && len <= |buf|
    requires Accepted(c, buf, len, k) && ArmOf(k) == SceneArm
    ensures var (frames, b', outs) := HandleScene(c, b, k, buf, Get16(buf, 2));
      DealTcp(c, b, buf, len, drv) == Served(b', Get16(buf, 2), frames, outs)
  {
    AcceptedIsHandled(c, b, buf, len, drv, k);
  }

  /** An accepted channel command is served by the channel arms. */
  lemma AcceptedChannel(c: Codes, b: Box, buf: bytes, len: int, drv: DriverCalls, k: Cmd)
    requires ValidCodes(c) && |buf| >= 40 && len <= |buf|
    requires Accepted(c, buf, len, k) && ArmOf(k) == ChannelArm
    ensures var (frames, b', outs) := HandleChannel(c, b, k, buf);
      DealTcp(c, b, buf, len, drv) == Served(b', Get16(buf, 2), frames, outs)
  {
    AcceptedIsHandled(c, b, buf, len, drv, k);
  }

  /** An accepted timer, delay or linkage command is served by the slot arms. */
  lemma AcceptedSlot(c: Codes, b: Box, buf: bytes, len: int, drv: DriverCalls, k: Cmd)
    requires ValidCodes(c) && |buf| >= 40 && len <= |buf|
    requires Accepted(c, buf, len, k) && ArmOf(k) == SlotArm
    ensures var (frames, b', outs) := HandleSlot(c, b, k, buf);
      DealTcp(c, b, buf, len, drv) == Served(b', Get16(buf, 2), frames, outs)
  {
    AcceptedIsHandled(c, b, buf, len, drv, k);
  }

  /**
   * Every accepted packet is answered: it writes at least one packet back,
   * or it queues exactly one task that replies to the client and writes nothing.
   */
  lemma ServeAlwaysAnswers(c: Codes, b: Box, buf: bytes, len: int, drv: DriverCalls)
    requires ValidCodes(c) && |buf| >= 40 && len <= |buf|
    requires Wire.CheckTcp(c, buf, len) == 0 && Get16(buf, 2) >= 4
    ensures var r := DealTcp(c, b, buf, len, drv);
      || |r.frames| >= 1
      || (r.frames == [] && |r.outs| == 1 && r.outs[0].Enqueue? && r.outs[0].task.reply && r.box == b)
  {
    var k := CmdOf(c, Get16(buf, 0)).value;
    AcceptedIsHandled(c, b, buf, len, drv, k);
    HandleAnswers(c, b, k, buf, len, Get16(buf, 2), drv);
  }

  /** At least one packet written, or nothing written, nothing changed and one replying task queued. */
  predicate Answers(b: Box, r: (seq<bytes>, Box, seq<Out>)) {
    || |r.0| >= 1
    || (r.0 == [] && |r.2| == 1 && r.2[0].Enqueue? && r.2[0].task.reply && r.1 == b)
  }

  lemma HandleAnswers(c: Codes, b: Box, k: Cmd, buf: bytes, len: int, cmdlen: nat, drv: DriverCalls)
    requires ValidCodes(c) && |buf| >= 40 && len <= |buf|
    ensures Answers(b, Handle(c, b, k, buf, len, cmdlen, drv))
  {
    match ArmOf(k)
    case DeviceArm => DeviceAnswers(c, b, k, buf, len, drv);
    case ChannelArm => ChannelAnswers(c, b, k, buf);
    case SlotArm => SlotAnswers(c, b, k, buf);
    case SceneArm => SceneAnswers(c, b, k, buf, cmdlen);
    case NoArm =>
  }

  lemma DeviceAnswers(c: Codes, b: Box, k: Cmd, buf: bytes, len: int, drv: DriverCalls)
    requires ValidCodes(c) && |buf| >= 40 && len <= |buf| && ArmOf(k) == DeviceArm
    ensures Answers(b, HandleDevice(c, b, k, buf, len, drv))
  {
  }

  lemma ChannelAnswers(c: Codes, b: Box, k: Cmd, buf: bytes)
    requires ValidCodes(c) && |buf| >= 40 && ArmOf(k) == ChannelArm
    ensures Answers(b, HandleChannel(c, b, k, buf))
  {
  }

  lemma SlotAnswers(c: Codes, b: Box, k: Cmd, buf: bytes)
    requires ValidCodes(c) && |buf| >= 40 && ArmOf(k) == SlotArm
    ensures Answers(b, HandleSlot(c, b, k, buf))
  {
  }

  lemma SceneAnswers(c: Codes, b: Box, k: Cmd, buf: bytes, cmdlen: nat)
    requires ValidCodes(c) && |buf| >= 40 && ArmOf(k) == SceneArm
    ensures Answers(b, HandleScene(c, b, k, buf, cmdlen))
  {
  }

  /** Every packet `deal_tcp_packet` writes back is framed: a known command and a length field equal to its size. */
  lemma ServeFramed(c: Codes, b: Box, buf: bytes, len: int, drv: DriverCalls)
    requires ValidCodes(c) && |buf| >= 40 && len <= |buf|
    ensures AllFramed(c, DealTcp(c, b, buf, len, drv).frames)
  {
    if Wire.CheckTcp(c, buf, len) == 0 && Get16(buf, 2) >= 4 {
      var k := CmdOf(c, Get16(buf, 0)).value;
      match ArmOf(k)
      case DeviceArm => AcceptedDevice(c, b, buf, len, drv, k); DeviceFramed(c, b, k, buf, len, drv);
      case ChannelArm => AcceptedChannel(c, b, buf, len, drv, k); ChannelFramed(c, b, k, buf);
      case SlotArm => AcceptedSlot(c, b, buf, len, drv, k); SlotFramed(c, b, k, buf);
      case SceneArm => AcceptedScene(c, b, buf, len, drv, k); SceneFramed(c, b, k, buf, Get16(buf, 2));
      case NoArm => AcceptedIsHandled(c, b, buf, len, drv, k); UnhandledFramed(c, b, k);
    }
  }

  lemma UnhandledFramed(c: Codes, b: Box, k: Cmd)
    requires ValidCodes(c)
    ensures AllFramed(c, Unhandled(c, b, k).0)
  {
  }

  lemma DeviceFramed(c: Codes, b: Box, k: Cmd, buf: bytes, len: int, drv: DriverCalls)
    requires ValidCodes(c) && |buf| >= 40 && len <= |buf| && ArmOf(k) == DeviceArm
    ensures AllFramed(c, HandleDevice(c, b, k, buf, len, drv).0)
  {
    if k == GetDevs || k == GetInfo || k == GetConfig {
      DeviceReplyFramed(c, b, k, buf, len, drv);
    } else if k == SetConfig || k == AddDev || k == DelDev {
      DeviceResultFramed(c, b, k, buf, len, drv);
    } else {
      DeviceQueueFramed(c, b, k, buf, len, drv);
    }
  }

  lemma DeviceReplyFramed(c: Codes, b: Box, k: Cmd, buf: bytes, len: int, drv: DriverCalls)
    requires ValidCodes(c) && |buf| >= 40 && len <= |buf| && (k == GetDevs || k == GetInfo || k == GetConfig)
    ensures AllFramed(c, HandleDevice(c, b, k, buf, len, drv).0)
  {
  }

  lemma DeviceResultFramed(c: Codes, b: Box, k: Cmd, buf: bytes, len: int, drv: DriverCalls)
    requires ValidCodes(c) && |buf| >= 40 && len <= |buf| && (k == SetConfig || k == AddDev || k == DelDev)
    ensures AllFramed(c, HandleDevice(c, b, k, buf, len, drv).0)
  {
  }

  lemma DeviceQueueFramed(c: Codes, b: Box, k: Cmd, buf: bytes, len: int, drv: DriverCalls)
    requires ValidCodes(c) && |buf| >= 40 && len <= |buf| && ArmOf(k) == DeviceArm
    requires k == GetStatus || k == SetStatus || k == DoAction || k == ProbeDev
    ensures HandleDevice(c, b, k, buf, len, drv).0 == []
  {
  }

  lemma ChannelFramed(c: Codes, b: Box, k: Cmd, buf: bytes)
    requires ValidCodes(c) && |buf| >= 40 && ArmOf(k) == ChannelArm
    ensures AllFramed(c, HandleChannel(c, b, k, buf).0)
  {
    if k == GetChannel {
      ChannelListFramed(c, b.hub, Get32(buf, 4));
    } else if k == SwitchChannel {
      SwitchFramed(c, b, buf);
    } else {
      ChannelEditFramed(c, b, k, buf);
    }
  }

  lemma SwitchFramed(c: Codes, b: Box, buf: bytes)
    requires ValidCodes(c) && |buf| >= 40
    ensures AllFramed(c, HandleChannel(c, b, SwitchChannel, buf).0)
  {
  }

  lemma ChannelEditFramed(c: Codes, b: Box, k: Cmd, buf: bytes)
    requires ValidCodes(c) && |buf| >= 40 && (k == SetChannel || k == DelChannel)
    ensures AllFramed(c, HandleChannel(c, b, k, buf).0)
  {
  }

  lemma SlotFramed(c: Codes, b: Box, k: Cmd, buf: bytes)
    requires ValidCodes(c) && |buf| >= 40 && ArmOf(k) == SlotArm
    ensures AllFramed(c, HandleSlot(c, b, k, buf).0)
  {
    match k
    case GetTimer | GetDelay | GetLinkage => SlotGetFramed(c, b, k, buf);
    case SetTimer | SetDelay | SetLinkage => SlotSetFramed(c, b, k, buf);
    case DelTimer | DelDelay | DelLinkage => SlotDelFramed(c, b, k, buf);
  }

  lemma SlotGetFramed(c: Codes, b: Box, k: Cmd, buf: bytes)
    requires ValidCodes(c) && |buf| >= 40 && (k == GetTimer || k == GetDelay || k == GetLinkage)
    ensures AllFramed(c, HandleSlot(c, b, k, buf).0)
  {
    var fs := HandleSlot(c, b, k, buf).0;
    assert |fs| == 1;
  }

  lemma SlotSetFramed(c: Codes, b: Box, k: Cmd, buf: bytes)
    requires ValidCodes(c) && |buf| >= 40 && (k == SetTimer || k == SetDelay || k == SetLinkage)
    ensures AllFramed(c, HandleSlot(c, b, k, buf).0)
  {
  }

  lemma SlotDelFramed(c: Codes, b: Box, k: Cmd, buf: bytes)
    requires ValidCodes(c) && |buf| >= 40 && (k == DelTimer || k == DelDelay || k == DelLinkage)
    ensures AllFramed(c, HandleSlot(c, b, k, buf).0)
  {
  }

  lemma ChannelListFramed(c: Codes, h: Hub, devid: uint32)
    requires ValidCodes(c)
    ensures AllFramed(c, ChannelList(c, h, devid))
  {
    match Dispatch.GetDevChannelNum(h, devid)
    case Failure(e) =>
    case Success(n) =>
      ChannelFramesFramed(c, h, devid, 0, n);
      FramedThenResult(c, ChannelFrames(c, h, devid, 0, n), Res(c, Ok, devid, GetChannel), ChannelList(c, h, devid));
  }

  lemma FramedThenResult(c: Codes, fs: seq<bytes>, r: bytes, all: seq<bytes>)
    requires AllFramed(c, fs) && Framed(c, r) && all == fs + [r]
    ensures AllFramed(c, all)
  {
    AllFramedConcat(c, fs, [r]);
  }

  lemma SceneFramed(c: Codes, b: Box, k: Cmd, buf: bytes, cmdlen: nat)
    requires ValidCodes(c) && |buf| >= 40 && ArmOf(k) == SceneArm
    ensures AllFramed(c, HandleScene(c, b, k, buf, cmdlen).0)
  {
    match k
    case GetScene =>
      SceneFramesFramed(c, b.scenes);
      FramedThenResult(c, SceneFrames(c, b.scenes), Res(c, Ok, 0, k), SceneList(c, b.scenes));
    case SetScene => StoreSceneFramed(c, b, SceneCodec.ParseScene(buf, cmdlen));
    case DelScene => DelSceneFramed(c, b, buf, cmdlen);
    case EnterScene =>
  }

  lemma StoreSceneFramed(c: Codes, b: Box, p: Result<DeviceTypes.SceneRec>)
    requires ValidCodes(c)
    ensures AllFramed(c, StoreScene(c, b, p).0)
  {
  }

  lemma DelSceneFramed(c: Codes, b: Box, buf: bytes, cmdlen: nat)
    requires ValidCodes(c) && |buf| >= 40
    ensures AllFramed(c, HandleScene(c, b, DelScene, buf, cmdlen).0)
  {
    var d := Scene.DelScene(b.scenes, Field16(buf[4..20]));
    assert HandleScene(c, b, DelScene, buf, cmdlen).0 == [Res(c, d.0, 0, DelScene)];
  }

  /** An accepted device command is served by the device arms. */
  lemma AcceptedDevice(c: Codes, b: Box, buf: bytes, len: int, drv: DriverCalls, k: Cmd)
    requires ValidCodes(c) && |buf| >= 40 && len <= |buf|
    requires Accepted(c, buf, len, k) && ArmOf(k) == DeviceArm
    ensures var (frames, b', outs) := HandleDevice(c, b, k, buf, len, drv);
      DealTcp(c, b, buf, len, drv) == Served(b', Get16(buf, 2), frames, outs)
  {
    AcceptedIsHandled(c, b, buf, len, drv, k);
  }

  /** GET_STATUS changes nothing now and queues one replying status read for the device. */
  lemma ServeGetStatusQueues(c: Codes, b: Box, buf: bytes, len: int, drv: DriverCalls)
    requires ValidCodes(c) && |buf| >= 40 && len <= |buf| && Accepted(c, buf, len, GetStatus)
    ensures DealTcp(c, b, buf, len, drv) == Served(b, Get16(buf, 2), [], [Enqueue(GetStatusTask(Get32(buf, 4), true))])
  {
    AcceptedDevice(c, b, buf, len, drv, GetStatus);
  }

  /** SET_STATUS changes nothing now and queues one replying status write of the pairs the packet carries. */
  lemma ServeSetStatusQueues(c: Codes, b: Box, buf: bytes, len: int, drv: DriverCalls)
    requires ValidCodes(c) && |buf| >= 40 && len <= |buf| && Accepted(c, buf, len, SetStatus)
    ensures DealTcp(c, b, buf, len, drv) == Served(b, Get16(buf, 2), [], [Enqueue(SetStatusTask(Wire.ReadStatus(buf, len), true))])
  {
    AcceptedDevice(c, b, buf, len, drv, SetStatus);
  }

  /** DO_ACTION changes nothing now and queues one replying action with the id, parameters and device of the packet. */
  lemma ServeDoActionQueues(c: Codes, b: Box, buf: bytes, len: int, drv: DriverCalls)
    requires ValidCodes(c) && |buf| >= 40 && len <= |buf| && Accepted(c, buf, len, DoAction)
    ensures DealTcp(c, b, buf, len, drv) ==
      Served(b, Get16(buf, 2), [], [Enqueue(DoActionTask(ActionReq(Get32(buf, 4), Get16(buf, 8), Get16(buf, 10), Get32(buf, 12)), true))])
  {
    AcceptedDevice(c, b, buf, len, drv, DoAction);
  }

  /** PROBE_DEV changes nothing now and queues one replying probe of the driver the packet names. */
  lemma ServeProbeQueues(c: Codes, b: Box, buf: bytes, len: int, drv: DriverCalls)
    requires ValidCodes(c) && |buf| >= 40 && len <= |buf| && Accepted(c, buf, len, ProbeDev)
    ensures DealTcp(c, b, buf, len, drv) == Served(b, Get16(buf, 2), [], [Enqueue(ProbeTask(Get16(buf, 4), true))])
  {
    AcceptedDevice(c, b, buf, len, drv, ProbeDev);
  }

  /**
   * ADD_DEV changes nothing and is answered at once with a RESULT carrying
   * what `add_dev` returned for the driver the packet names: `BAD_PARAM`
   * for a driver that is not registered.
   */
  lemma ServeAddDevAnswers(c: Codes, b: Box, buf: bytes, len: int, drv: DriverCalls)
    requires ValidCodes(c) && |buf| >= 40 && len <= |buf| && Accepted(c, buf, len, AddDev)
    ensures var r := DealTcp(c, b, buf, len, drv);
      && r.box == b && r.outs == [] && |r.frames| == 1 && |r.frames[0]| == 12
      && Wire.ReadResult(r.frames[0]) ==
           Wire.ResultFields(0, CmdNum(c, AddDev), To16(ErrCode(c, Dispatch.AddDev(b.hub, Get16(buf, 4), drv.addDev))))
      && (FindDrv(b.hub.drivers, Get16(buf, 4)).None? ==>
            Wire.ReadResult(r.frames[0]).code == To16(ErrCode(c, BadParam)))
  {
    AcceptedDevice(c, b, buf, len, drv, AddDev);
  }

  /**
   * DEL_DEV changes nothing and is answered at once with a RESULT carrying
   * what `del_dev` returned for the device the packet names: `BAD_PARAM`
   * for a device that is not online.
   */
  lemma ServeDelDevAnswers(c: Codes, b: Box, buf: bytes, len: int, drv: DriverCalls)
    requires ValidCodes(c) && |buf| >= 40 && len <= |buf| && Accepted(c, buf, len, DelDev)
    ensures var r := DealTcp(c, b, buf, len, drv);
      && r.box == b && r.outs == [] && |r.frames| == 1 && |r.frames[0]| == 12
      && Wire.ReadResult(r.frames[0]) ==
           Wire.ResultFields(0, CmdNum(c, DelDev), To16(ErrCode(c, Dispatch.DelDev(b.hub, Get32(buf, 4), drv.delDev))))
      && (FindDev(b.hub, Get32(buf, 4)).None? ==>
            Wire.ReadResult(r.frames[0]).code == To16(ErrCode(c, BadParam)))
  {
    AcceptedDevice(c, b, buf, len, drv, DelDev);
  }

  /** A command the switch does not serve (a response, event or discovery kind) is answered with a RESULT of code `REPLY_FAIL` and changes nothing. */
  lemma ServeUnhandledFails(c: Codes, b: Box, buf: bytes, len: int, drv: DriverCalls, k: Cmd)
    requires ValidCodes(c) && |buf| >= 40 && len <= |buf|
    requires Accepted(c, buf, len, k)
    requires ArmOf(k) == NoArm
    ensures var r := DealTcp(c, b, buf, len, drv);
      r.box == b && r.outs == [] && |r.frames| == 1
      && Wire.ReadResult(r.frames[0]) == Wire.ResultFields(0, CmdNum(c, k), To16(ReplyFail))
  {
    Wire.ResultRoundTrip(c, ReplyFail, 0, CmdNum(c, k));
  }

  /**
   * A timer stored by a successful SET_TIMER is what a GET_TIMER for the
   * same device and slot answers; read back as SET_TIMER reads it, it is
   * the timer that was sent whenever its date survives the wire.
   */
  lemma ServeTimerSetThenGet(c: Codes, b: Box, put: bytes, len1: int, get: bytes, len2: int, drv: DriverCalls)
    requires ValidCodes(c) && |put| >= 40 && len1 <= |put| && |get| >= 40 && len2 <= |get|
    requires Accepted(c, put, len1, SetTimer) && Accepted(c, get, len2, GetTimer)
    requires Get32(get, 4) == Get32(put, 4) && Get16(get, 8) == Get16(put, 8)
    requires Slots.SetDevTimer(b.hub, Get32(put, 4), Wire.ReadTimer(put).1).0 == Ok
    ensures var t := Wire.ReadTimer(put).1;
      && DealTcp(c, b, put, len1, drv).frames == [Res(c, Ok, Get32(put, 4), SetTimer)]
      && DealTcp(c, DealTcp(c, b, put, len1, drv).box, get, len2, drv).frames == [Wire.ReplyTimer(c, Get32(put, 4), t)]
      && ((0 < t.year && t.year + 1900 < 0x1_0000 && 0 <= t.mon < 0xFF) || (t.year == 0 && t.mon == 0) ==>
            Wire.ReadTimer(Wire.ReplyTimer(c, Get32(put, 4), t)) == Wire.ReadTimer(put))
  {
    var t := Wire.ReadTimer(put).1;
    var devid := Get32(put, 4);
    var b' := TimerSetStep(c, b, put, len1, drv);
    Slots.SetThenGetTimer(b.hub, devid, t, t.id);
    TimerGetStep(c, b', get, len2, drv, t);
    if (0 < t.year && t.year + 1900 < 0x1_0000 && 0 <= t.mon < 0xFF) || (t.year == 0 && t.mon == 0) {
      Wire.TimerRoundTrip(c, devid, t);
    }
  }

  lemma TimerSetStep(c: Codes, b: Box, put: bytes, len: int, drv: DriverCalls) returns (b': Box)
    requires ValidCodes(c) && |put| >= 40 && len <= |put| && Accepted(c, put, len, SetTimer)
    ensures b' == DealTcp(c, b, put, len, drv).box
    ensures var s := Slots.SetDevTimer(b.hub, Get32(put, 4), Wire.ReadTimer(put).1);
      b' == b.(hub := s.1) && DealTcp(c, b, put, len, drv).frames == [Res(c, s.0, Get32(put, 4), SetTimer)]
  {
    AcceptedSlot(c, b, put, len, drv, SetTimer);
    b' := DealTcp(c, b, put, len, drv).box;
  }

  lemma TimerGetStep(c: Codes, b: Box, get: bytes, len: int, drv: DriverCalls, t: Timer)
    requires ValidCodes(c) && |get| >= 40 && len <= |get| && Accepted(c, get, len, GetTimer)
    requires Slots.GetDevTimer(b.hub, Get32(get, 4), Get16(get, 8)) == Success(t)
    ensures DealTcp(c, b, get, len, drv).frames == [Wire.ReplyTimer(c, Get32(get, 4), t)]
  {
    AcceptedSlot(c, b, get, len, drv, GetTimer);
  }

  /** After a successful SET_CHANNEL, a SWITCH_CHANNEL naming the same channel queues a status that tunes the device to its number. */
  lemma ServeChannelSetThenSwitch(c: Codes, b: Box, put: bytes, len1: int, sw: bytes, len2: int, drv: DriverCalls)
    requires ValidCodes(c) && |put| >= 40 && len1 <= |put| && |sw| >= 40 && len2 <= |sw|
    requires Accepted(c, put, len1, SetChannel) && Accepted(c, sw, len2, SwitchChannel)
    requires Get32(sw, 4) == Get32(put, 4) && Wire.ReadName(sw, 8) == Wire.ReadName(put, 8)
    requires Dispatch.SetDevChannel(b.hub, Get32(put, 4), Wire.ReadName(put, 8), Get32(put, 24)).0 == Ok
    ensures var r := DealTcp(c, DealTcp(c, b, put, len1, drv).box, sw, len2, drv);
      r.frames == [] && r.outs == [Enqueue(SetStatusTask(Status(Get32(put, 4), [Pair(c.tvStatusChannel, Get32(put, 24))]), true))]
  {
    var devid := Get32(put, 4);
    var name := Wire.ReadName(put, 8);
    var b' := ChannelSetStep(c, b, put, len1, drv);
    Dispatch.DevChannelSetThenGet(b.hub, devid, name, Get32(put, 24));
    ChannelSwitchStep(c, b', sw, len2, drv, Get32(put, 24));
  }

  lemma ChannelSetStep(c: Codes, b: Box, put: bytes, len: int, drv: DriverCalls) returns (b': Box)
    requires ValidCodes(c) && |put| >= 40 && len <= |put| && Accepted(c, put, len, SetChannel)
    ensures b' == DealTcp(c, b, put, len, drv).box
    ensures b' == b.(hub := Dispatch.SetDevChannel(b.hub, Get32(put, 4), Wire.ReadName(put, 8), Get32(put, 24)).1)
  {
    AcceptedChannel(c, b, put, len, drv, SetChannel);
    b' := DealTcp(c, b, put, len, drv).box;
  }

  lemma ChannelSwitchStep(c: Codes, b: Box, sw: bytes, len: int, drv: DriverCalls, cid: uint32)
    requires ValidCodes(c) && |sw| >= 40 && len <= |sw| && Accepted(c, sw, len, SwitchChannel)
    requires Dispatch.GetDevChannel(b.hub, Get32(sw, 4), Wire.ReadName(sw, 8)) == Success(cid)
    ensures DealTcp(c, b, sw, len, drv).frames == []
    ensures DealTcp(c, b, sw, len, drv).outs == [Enqueue(SetStatusTask(Status(Get32(sw, 4), [Pair(c.tvStatusChannel, cid)]), true))]
  {
    SwitchChannelArm(c, b, sw, cid);
    AcceptedChannel(c, b, sw, len, drv, SwitchChannel);
    var out := Enqueue(SetStatusTask(Status(Get32(sw, 4), [Pair(c.tvStatusChannel, cid)]), true));
    assert DealTcp(c, b, sw, len, drv) == Served(b, Get16(sw, 2), [], [out]);
  }

  /** The SWITCH_CHANNEL arm for a channel the device has: nothing written, nothing changed, the channel's status queued. */
  lemma SwitchChannelArm(c: Codes, b: Box, buf: bytes, cid: uint32)
    requires ValidCodes(c) && |buf| >= 40
    requires Dispatch.GetDevChannel(b.hub, Get32(buf, 4), Wire.ReadName(buf, 8)) == Success(cid)
    ensures HandleChannel(c, b, SwitchChannel, buf)
      == ([], b, [Enqueue(SetStatusTask(Status(Get32(buf, 4), [Pair(c.tvStatusChannel, cid)]), true))])
  {
  }

  /** GET_SCENE sends every stored scene in store order as SCENE_UPDATE, then an OK RESULT, and changes nothing. */
  lemma ServeGetSceneLists(c: Codes, b: Box, get: bytes, len: int, drv: DriverCalls)
    requires ValidCodes(c) && |get| >= 40 && len <= |get| && Accepted(c, get, len, GetScene)
    ensures var r := DealTcp(c, b, get, len, drv);
      && r.box == b && r.outs == []
      && |r.frames| == |b.scenes| + 1 && r.frames[|b.scenes|] == Res(c, Ok, 0, GetScene)
      && forall i :: 0 <= i < |b.scenes| ==> r.frames[i] == SceneCodec.EncodeScene(c, b.scenes[i])
  {
    AcceptedScene(c, b, get, len, drv, GetScene);
  }

  /** A successful SET_SCENE stores the parsed scene under its name, keeping names unique. */
  lemma ServeSetSceneStores(c: Codes, b: Box, put: bytes, len: int, drv: DriverCalls)
    requires ValidCodes(c) && |put| >= 40 && len <= |put| && Accepted(c, put, len, SetScene)
    requires Scene.UniqueScenes(b.scenes) && SceneCodec.ParseScene(put, Get16(put, 2)).Success?
    ensures var sc := SceneCodec.ParseScene(put, Get16(put, 2)).value;
      var st := DealTcp(c, b, put, len, drv).box.scenes;
      && DealTcp(c, b, put, len, drv).frames == [Res(c, Ok, 0, SetScene)]
      && Scene.UniqueScenes(st)
      && Scene.FindScene(st, sc.name).Some? && st[Scene.FindScene(st, sc.name).value] == sc
  {
    Scene.AddSceneKeepsUnique(b.scenes, SceneCodec.ParseScene(put, Get16(put, 2)).value);
    AcceptedScene(c, b, put, len, drv, SetScene);
  }

  /** A scene stored by a successful SET_SCENE is among the scenes GET_SCENE sends back, encoded as SCENE_UPDATE. */
  lemma ServeSceneSetThenGet(c: Codes, b: Box, put: bytes, len1: int, get: bytes, len2: int, drv: DriverCalls)
    requires ValidCodes(c) && |put| >= 40 && len1 <= |put| && |get| >= 40 && len2 <= |get|
    requires Accepted(c, put, len1, SetScene) && Accepted(c, get, len2, GetScene)
    requires Scene.UniqueScenes(b.scenes) && SceneCodec.ParseScene(put, Get16(put, 2)).Success?
    ensures var b' := DealTcp(c, b, put, len1, drv).box;
      exists j :: 0 <= j < |DealTcp(c, b', get, len2, drv).frames|
        && DealTcp(c, b', get, len2, drv).frames[j] == SceneCodec.EncodeScene(c, SceneCodec.ParseScene(put, Get16(put, 2)).value)
  {
    ServeSetSceneStores(c, b, put, len1, drv);
    var b' := DealTcp(c, b, put, len1, drv).box;
    ServeGetSceneLists(c, b', get, len2, drv);
    var i := Scene.FindScene(b'.scenes, SceneCodec.ParseScene(put, Get16(put, 2)).value.name).value;
    assert DealTcp(c, b', get, len2, drv).frames[i] == SceneCodec.EncodeScene(c, b'.scenes[i]);
  }

  /** ENTER_SCENE for a name no stored scene has fails with a bad-parameter RESULT. */
  lemma ServeEnterMissing(c: Codes, b: Box, enter: bytes, len: int, drv: DriverCalls)
    requires ValidCodes(c) && |enter| >= 40 && len <= |enter|
    requires Accepted(c, enter, len, EnterScene) && Scene.FindScene(b.scenes, Field16(enter[4..20])).None?
    ensures DealTcp(c, b, enter, len, drv).frames == [Res(c, BadParam, 0, EnterScene)]
  {
    EnterStep(c, b, enter, len, drv);
  }

  lemma EnterStep(c: Codes, b: Box, enter: bytes, len: int, drv: DriverCalls)
    requires ValidCodes(c) && |enter| >= 40 && len <= |enter| && Accepted(c, enter, len, EnterScene)
    ensures var r := EnterReply(c, b, Field16(enter[4..20]));
      DealTcp(c, b, enter, len, drv) == Served(b, Get16(enter, 2), r.0, r.2)
  {
    AcceptedScene(c, b, enter, len, drv, EnterScene);
  }

  /**
   * ENTER_SCENE for a stored name answers OK, leaves the box as it was and
   * hands the thread pool a copy of the first scene with that name; run
   * against any registry views, that copy queues the requests of exactly
   * its running actions, one step per action, in order.
   */
  lemma ServeEnterRuns(c: Codes, b: Box, enter: bytes, len: int, drv: DriverCalls, views: seq<Hub>)
    requires ValidCodes(c) && |enter| >= 40 && len <= |enter| && Accepted(c, enter, len, EnterScene)
    requires Scene.FindScene(b.scenes, Field16(enter[4..20])).Some?
    ensures var k := Scene.FindScene(b.scenes, Field16(enter[4..20])).value;
      var r := DealTcp(c, b, enter, len, drv);
      && r.frames == [Res(c, Ok, 0, EnterScene)] && r.box == b
      && r.outs == [RunScene(b.scenes[k])]
    ensures var sc := DealTcp(c, b, enter, len, drv).outs[0].scene;
      |views| == |sc.actions| ==>
        var steps := Scene.SceneHandler(sc, views);
        var run := Scene.Running(sc.actions, views, 0);
        |steps| == |run| && forall i :: 0 <= i < |steps| ==> steps[i].reqs == Scene.ExecuteAction(run[i])
  {
    EnterStep(c, b, enter, len, drv);
    var sc := b.scenes[Scene.FindScene(b.scenes, Field16(enter[4..20])).value];
    if |views| == |sc.actions| {
      Scene.ScheduleRunsActions(sc.actions, views, 0, 0);
    }
  }

  /** Once DEL_SCENE has removed a stored scene, ENTER_SCENE with the same name fails with a bad-parameter RESULT. */
  lemma ServeSceneDelThenEnter(c: Codes, b: Box, del: bytes, len1: int, enter: bytes, len2: int, drv: DriverCalls)
    requires ValidCodes(c) && |del| >= 40 && len1 <= |del| && |enter| >= 40 && len2 <= |enter|
    requires Accepted(c, del, len1, DelScene) && Accepted(c, enter, len2, EnterScene)
    requires enter[4..20] == del[4..20]
    requires Scene.UniqueScenes(b.scenes) && Scene.FindScene(b.scenes, Field16(del[4..20])).Some?
    ensures DealTcp(c, b, del, len1, drv).frames == [Res(c, Ok, 0, DelScene)]
    ensures DealTcp(c, DealTcp(c, b, del, len1, drv).box, enter, len2, drv).frames == [Res(c, BadParam, 0, EnterScene)]
  {
    var name := Field16(del[4..20]);
    Scene.DelSceneRemoves(b.scenes, name);
    var b' := SceneDelStep(c, b, del, len1, drv);
    ServeEnterMissing(c, b', enter, len2, drv);
  }

  lemma SceneDelStep(c: Codes, b: Box, del: bytes, len: int, drv: DriverCalls) returns (b': Box)
    requires ValidCodes(c) && |del| >= 40 && len <= |del| && Accepted(c, del, len, DelScene)
    ensures b' == DealTcp(c, b, del, len, drv).box
    ensures b'.scenes == Scene.DelScene(b.scenes, Field16(del[4..20])).1
    ensures DealTcp(c, b, del, len, drv).frames == [Res(c, Scene.DelScene(b.scenes, Field16(del[4..20])).0, 0, DelScene)]
  {
    AcceptedScene(c, b, del, len, drv, DelScene);
    b' := DealTcp(c, b, del, len, drv).box;
  }
}

=== FILE: slots.dfy ===
/**
 * The per-device rule tables: timers, delays and linkages, each a table of
 * slots indexed by the rule's id. Timers are always readable and their
 * changes are saved; delays and linkages are readable and deletable only
 * while active, and their changes are not saved.
 */
module Slots {
  import opened Bytes
  import opened HubTypes
  import opened DeviceTypes
  import opened Registry

  /** The online device `devid`, as `find_dev` returns it; `BAD_PARAM` when there is none. */
  function Dev(h: Hub, devid: uint32): (r: Result<nat>)
    ensures r.Success? ==> r.value < |h.online| && h.online[r.value].id == devid
    ensures r.Failure? <==> FindById(h.online, devid).None?
    ensures r.Failure? ==> r.error == BadParam
  {
    match FindById(h.online, devid)
    case Some(k) => Success(k)
    case None => Failure(BadParam)
  }

  /** Replaces the online device at `k`, which keeps its id and state. */
  function Put(h: Hub, k: nat, d: Device): (r: Hub)
    requires k < |h.online| && d.id == h.online[k].id && d.online == h.online[k].online
    ensures SameShape(r.online, h.online) && r.offline == h.offline && r.nextId == h.nextId
    ensures r.online[k] == d && forall i :: 0 <= i < |h.online| && i != k ==> r.online[i] == h.online[i]
  {
    h.(online := h.online[k := d])
  }

  /** Replacing one device by one with the same id and state keeps the registry invariant. */
  lemma PutValid(h: Hub, k: nat, d: Device)
    requires Valid(h) && k < |h.online| && d.id == h.online[k].id && d.online == h.online[k].online
    ensures Valid(Put(h, k, d))
  {
  }

  /** The device found at `k` before a `Put` is still found at `k` after it. */
  lemma PutKeepsFind(h: Hub, k: nat, d: Device, devid: uint32)
    requires k < |h.online| && d.id == h.online[k].id && d.online == h.online[k].online
    ensures FindById(Put(h, k, d).online, devid) == FindById(h.online, devid)
  {
    var r := Put(h, k, d).online;
    assert forall i :: 0 <= i < |r| ==> r[i].id == h.online[i].id;
    FindByIdSameIds(r, h.online, devid);
  }

  lemma {:induction false} FindByIdSameIds(a: seq<Device>, b: seq<Device>, devid: uint32)
    requires |a| == |b| && forall i :: 0 <= i < |a| ==> a[i].id == b[i].id
    ensures FindById(a, devid) == FindById(b, devid)
    decreases |a|
  {
    if |a| > 0 && a[0].id != devid {
      FindByIdSameIds(a[1..], b[1..], devid);
    }
  }

  /* ---------------- timers ---------------- */

  /** `get_dev_timer`: the stored rule, active or not; `BAD_PARAM` for an unknown device or an id past the table. */
  function GetDevTimer(h: Hub, devid: uint32, tid: uint16): (r: Result<Timer>)
    ensures Dev(h, devid).Failure? ==> r == Failure(BadParam)
    ensures Dev(h, devid).Success? ==>
      var d := h.online[Dev(h, devid).value];
      (tid >= |d.timers| ==> r == Failure(BadParam)) && (tid < |d.timers| ==> r == Success(d.timers[tid].t))
  {
    match Dev(h, devid)
    case Failure(e) => Failure(e)
    case Success(k) =>
      var d := h.online[k];
      if tid >= |d.timers| then Failure(BadParam) else Success(d.timers[tid].t)
  }

  /**
   * `set_dev_timer`: the slot named by the rule's id takes the rule, becomes
   * active and not expired, and the configuration is saved.
   */
  function SetDevTimer(h: Hub, devid: uint32, t: Timer): (r: (Err, Hub, seq<Out>))
    ensures r.0 != Ok ==> r == (BadParam, h, [])
    ensures r.0 == Ok <==> Dev(h, devid).Success? && t.id < |h.online[Dev(h, devid).value].timers|
    ensures r.0 == Ok ==>
      var k := Dev(h, devid).value;
      && r.2 == [SaveConfig]
      && r.1 == Put(h, k, h.online[k].(timers := h.online[k].timers[t.id := TimerSlot(t, true, false)]))
  {
    match Dev(h, devid)
    case Failure(e) => (e, h, [])
    case Success(k) =>
      var d := h.online[k];
      if t.id >= |d.timers| then (BadParam, h, [])
      else (Ok, Put(h, k, d.(timers := d.timers[t.id := TimerSlot(t, true, false)])), [SaveConfig])
  }

  /** `del_dev_timer`: the slot is zeroed (inactive, not expired) and the configuration saved. */
  function DelDevTimer(h: Hub, devid: uint32, tid: uint16): (r: (Err, Hub, seq<Out>))
    ensures r.0 != Ok ==> r == (BadParam, h, [])
    ensures r.0 == Ok <==> Dev(h, devid).Success? && tid < |h.online[Dev(h, devid).value].timers|
    ensures r.0 == Ok ==>
      var k := Dev(h, devid).value;
      && r.2 == [SaveConfig]
      && r.1 == Put(h, k, h.online[k].(timers := h.online[k].timers[tid := TimerSlot(ZeroTimer, false, false)]))
  {
    match Dev(h, devid)
    case Failure(e) => (e, h, [])
    case Success(k) =>
      var d := h.online[k];
      if tid >= |d.timers| then (BadParam, h, [])
      else (Ok, Put(h, k, d.(timers := d.timers[tid := TimerSlot(ZeroTimer, false, false)])), [SaveConfig])
  }

  /** A stored timer reads back as stored; the other slots are untouched. */
  lemma SetThenGetTimer(h: Hub, devid: uint32, t: Timer, other: uint16)
    requires SetDevTimer(h, devid, t).0 == Ok
    ensures GetDevTimer(SetDevTimer(h, devid, t).1, devid, t.id) == Success(t)
    ensures other != t.id ==> GetDevTimer(SetDevTimer(h, devid, t).1, devid, other) == GetDevTimer(h, devid, other)
  {
    var k := Dev(h, devid).value;
    PutKeepsFind(h, k, h.online[k].(timers := h.online[k].timers[t.id := TimerSlot(t, true, false)]), devid);
  }

  /** A deleted timer reads back as the zero rule. */
  lemma DelThenGetTimer(h: Hub, devid: uint32, tid: uint16)
    requires DelDevTimer(h, devid, tid).0 == Ok
    ensures GetDevTimer(DelDevTimer(h, devid, tid).1, devid, tid) == Success(ZeroTimer)
  {
    var k := Dev(h, devid).value;
    PutKeepsFind(h, k, h.online[k].(timers := h.online[k].timers[tid := TimerSlot(ZeroTimer, false, false)]), devid);
  }

  /* ---------------- delays ---------------- */

  /** `get_dev_delay`: `BAD_PARAM` also when the slot is not active. */
  function GetDevDelay(h: Hub, devid: uint32, did: uint16): (r: Result<Delay>)
    ensures r.Success? <==> Dev(h, devid).Success? && did < |h.online[Dev(h, devid).value].delays| &&
                            h.online[Dev(h, devid).value].delays[did].active
    ensures r.Success? ==> r.value == h.online[Dev(h, devid).value].delays[did].d
    ensures r.Failure? ==> r.error == BadParam
  {
    match Dev(h, devid)
    case Failure(e) => Failure(e)
    case Success(k) =>
      var d := h.online[k];
      if did >= |d.delays| || !d.delays[did].active then Failure(BadParam) else Success(d.delays[did].d)
  }

  /**
   * `set_dev_delay`: the slot takes the rule and becomes active; whether it
   * was started, and when, is kept. Nothing is saved.
   */
  function SetDevDelay(h: Hub, devid: uint32, dl: Delay): (r: (Err, Hub, seq<Out>))
    ensures r.2 == [] && (r.0 != Ok ==> r == (BadParam, h, []))
    ensures r.0 == Ok <==> Dev(h, devid).Success? && dl.id < |h.online[Dev(h, devid).value].delays|
    ensures r.0 == Ok ==>
      var k := Dev(h, devid).value;
      var s := h.online[k].delays[dl.id];
      r.1 == Put(h, k, h.online[k].(delays := h.online[k].delays[dl.id := DelaySlot(dl, true, s.started, s.startTm)]))
  {
    match Dev(h, devid)
    case Failure(e) => (e, h, [])
    case Success(k) =>
      var d := h.online[k];
      if dl.id >= |d.delays| then (BadParam, h, [])
      else (Ok, Put(h, k, d.(delays := d.delays[dl.id := d.delays[dl.id].(d := dl, active := true)])), [])
  }

  /** `del_dev_delay`: `BAD_PARAM` for an inactive slot; otherwise the rule is zeroed and the slot deactivated. */
  function DelDevDelay(h: Hub, devid: uint32, did: uint16): (r: (Err, Hub, seq<Out>))
    ensures r.2 == [] && (r.0 != Ok ==> r == (BadParam, h, []))
    ensures r.0 == Ok <==> GetDevDelay(h, devid, did).Success?
    ensures r.0 == Ok ==>
      var k := Dev(h, devid).value;
      var s := h.online[k].delays[did];
      r.1 == Put(h, k, h.online[k].(delays := h.online[k].delays[did := DelaySlot(ZeroDelay, false, s.started, s.startTm)]))
  {
    match Dev(h, devid)
    case Failure(e) => (e, h, [])
    case Success(k) =>
      var d := h.online[k];
      if did >= |d.delays| || !d.delays[did].active then (BadParam, h, [])
      else (Ok, Put(h, k, d.(delays := d.delays[did := d.delays[did].(d := ZeroDelay, active := false)])), [])
  }

  lemma SetThenGetDelay(h: Hub, devid: uint32, dl: Delay)
    requires SetDevDelay(h, devid, dl).0 == Ok
    ensures GetDevDelay(SetDevDelay(h, devid, dl).1, devid, dl.id) == Success(dl)
  {
    var k := Dev(h, devid).value;
    var d := h.online[k];
    PutKeepsFind(h, k, d.(delays := d.delays[dl.id := d.delays[dl.id].(d := dl, active := true)]), devid);
  }

  lemma DelThenGetDelay(h: Hub, devid: uint32, did: uint16)
    requires DelDevDelay(h, devid, did).0 == Ok
    ensures GetDevDelay(DelDevDelay(h, devid, did).1, devid, did) == Failure(BadParam)
    ensures DelDevDelay(DelDevDelay(h, devid, did).1, devid, did).0 == BadParam
  {
    var k := Dev(h, devid).value;
    var d := h.online[k];
    PutKeepsFind(h, k, d.(delays := d.delays[did := d.delays[did].(d := ZeroDelay, active := false)]), devid);
  }

  /* ---------------- linkages ---------------- */

  /** `get_dev_linkage`: `BAD_PARAM` also when the slot is not active. */
  function GetDevLinkage(h: Hub, devid: uint32, lid: uint16): (r: Result<Linkage>)
    ensures r.Success? <==> Dev(h, devid).Success? && lid < |h.online[Dev(h, devid).value].links| &&
                            h.online[Dev(h, devid).value].links[lid].active
    ensures r.Success? ==> r.value == h.online[Dev(h, devid).value].links[lid].l
    ensures r.Failure? ==> r.error == BadParam
  {
    match Dev(h, devid)
    case Failure(e) => Failure(e)
    case Success(k) =>
      var d := h.online[k];
      if lid >= |d.links| || !d.links[lid].active then Failure(BadParam) else Success(d.links[lid].l)
  }

  /** `set_dev_linkage`: the slot takes the rule and becomes active. Nothing is saved. */
  function SetDevLinkage(h: Hub, devid: uint32, l: Linkage): (r: (Err, Hub, seq<Out>))
    ensures r.2 == [] && (r.0 != Ok ==> r == (BadParam, h, []))
    ensures r.0 == Ok <==> Dev(h, devid).Success? && l.id < |h.online[Dev(h, devid).value].links|
    ensures r.0 == Ok ==>
      var k := Dev(h, devid).value;
      r.1 == Put(h, k, h.online[k].(links := h.online[k].links[l.id := LinkSlot(l, true)]))
  {
    match Dev(h, devid)
    case Failure(e) => (e, h, [])
    case Success(k) =>
      var d := h.online[k];
      if l.id >= |d.links| then (BadParam, h, [])
      else (Ok, Put(h, k, d.(links := d.links[l.id := LinkSlot(l, true)])), [])
  }

  /** `del_dev_linkage`: `BAD_PARAM` for an inactive slot; otherwise it is zeroed and deactivated. */
  function DelDevLinkage(h: Hub, devid: uint32, lid: uint16): (r: (Err, Hub, seq<Out>))
    ensures r.2 == [] && (r.0 != Ok ==> r == (BadParam, h, []))
    ensures r.0 == Ok <==> GetDevLinkage(h, devid, lid).Success?
    ensures r.0 == Ok ==>
      var k := Dev(h, devid).value;
      r.1 == Put(h, k, h.online[k].(links := h.online[k].links[lid := LinkSlot(ZeroLinkage, false)]))
  {
    match Dev(h, devid)
    case Failure(e) => (e, h, [])
    case Success(k) =>
      var d := h.online[k];
      if lid >= |d.links| || !d.links[lid].active then (BadParam, h, [])
      else (Ok, Put(h, k, d.(links := d.links[lid := LinkSlot(ZeroLinkage, false)])), [])
  }

  lemma SetThenGetLinkage(h: Hub, devid: uint32, l: Linkage)
    requires SetDevLinkage(h, devid, l).0 == Ok
    ensures GetDevLinkage(SetDevLinkage(h, devid, l).1, devid, l.id) == Success(l)
  {
    var k := Dev(h, devid).value;
    var d := h.online[k];
    PutKeepsFind(h, k, d.(links := d.links[l.id := LinkSlot(l, true)]), devid);
  }

  lemma DelThenGetLinkage(h: Hub, devid: uint32, lid: uint16)
    requires DelDevLinkage(h, devid, lid).0 == Ok
    ensures GetDevLinkage(DelDevLinkage(h, devid, lid).1, devid, lid) == Failure(BadParam)
  {
    var k := Dev(h, devid).value;
    var d := h.online[k];
    PutKeepsFind(h, k, d.(links := d.links[lid := LinkSlot(ZeroLinkage, false)]), devid);
  }

  /**
   * A stored linkage fires on its trigger: after `set_dev_linkage` with an
   * active mode bit for the box mode, the device's event with the rule's
   * trigger queues the rule's request.
   */
  lemma StoredLinkageFires(h: Hub, devid: uint32, l: Linkage)
    requires SetDevLinkage(h, devid, l).0 == Ok
    requires Bit(l.workMode, h.workMode)
    ensures var h' := SetDevLinkage(h, devid, l).1;
      var d := FindDev(h', devid).value;
      FindDev(h', devid).Some? &&
      (Bit(d.workMode, h'.workMode) ==>
        LinkRequest(LinkSlot(l, true)) in CheckLinkage(h', devid, l.evtId, l.evtParam1, l.evtParam2).1)
  {
    var k := Dev(h, devid).value;
    var d := h.online[k];
    var h' := SetDevLinkage(h, devid, l).1;
    PutKeepsFind(h, k, d.(links := d.links[l.id := LinkSlot(l, true)]), devid);
    var d' := FindDev(h', devid).value;
    assert d'.links[l.id] == LinkSlot(l, true);
    assert Fires(d'.links[l.id], h'.workMode, l.evtId, l.evtParam1, l.evtParam2);
  }

  /** Setting and clearing a timer keep the registry invariant. */
  lemma TimerOpsValid(h: Hub, devid: uint32, t: Timer, id: uint16)
    requires Valid(h)
    ensures Valid(SetDevTimer(h, devid, t).1) && Valid(DelDevTimer(h, devid, id).1)
  {
    if Dev(h, devid).Success? {
      var k := Dev(h, devid).value;
      var d := h.online[k];
      if t.id < |d.timers| {
        PutValid(h, k, d.(timers := d.timers[t.id := TimerSlot(t, true, false)]));
      }
      if id < |d.timers| {
        PutValid(h, k, d.(timers := d.timers[id := TimerSlot(ZeroTimer, false, false)]));
      }
    }
  }

  /** Setting and clearing a delay keep the registry invariant. */
  lemma DelayOpsValid(h: Hub, devid: uint32, dl: Delay, id: uint16)
    requires Valid(h)
    ensures Valid(SetDevDelay(h, devid, dl).1) && Valid(DelDevDelay(h, devid, id).1)
  {
    if Dev(h, devid).Success? {
      var k := Dev(h, devid).value;
      var d := h.online[k];
      if dl.id < |d.delays| {
        PutValid(h, k, d.(delays := d.delays[dl.id := d.delays[dl.id].(d := dl, active := true)]));
      }
      if id < |d.delays| {
        PutValid(h, k, d.(delays := d.delays[id := d.delays[id].(d := ZeroDelay, active := false)]));
      }
    }
  }

  /** Setting and clearing a linkage keep the registry invariant. */
  lemma LinkageOpsValid(h: Hub, devid: uint32, l: Linkage, id: uint16)
    requires Valid(h)
    ensures Valid(SetDevLinkage(h, devid, l).1) && Valid(DelDevLinkage(h, devid, id).1)
  {
    if Dev(h, devid).Success? {
      var k := Dev(h, devid).value;
      var d := h.online[k];
      if l.id < |d.links| {
        PutValid(h, k, d.(links := d.links[l.id := LinkSlot(l, true)]));
      }
      if id < |d.links| {
        PutValid(h, k, d.(links := d.links[id := LinkSlot(ZeroLinkage, false)]));
      }
    }
  }
}

=== FILE: timer_step.dfy ===
/**
 * The once-per-second rule step (`check_timer_and_delay`): on a day
 * rollover the timers' `expired` flags are recomputed from their date or
 * weekday rule; then, for every online device whose mode mask holds the box
 * mode, due timers and elapsed delays queue their requests.
 *
 * The wall clock is a parameter. Dates follow the broken-down time
 * convention of section 7.27.1 of ISO/IEC 9899:2011: years since 1900,
 * months 0 to 11, weekday 0 for Sunday.
 */
module TimerStep {
  import opened Bytes
  import opened HubTypes
  import opened DeviceTypes

  /** The broken-down local time of one tick, plus the raw time for delays. */
  datatype Clock = Clock(hour: nat, min: nat, sec: nat, year: int, mon: int, mday: nat, wday: nat, now: int)

  function SecToday(clk: Clock): nat { clk.hour * 3600 + clk.min * 60 + clk.sec }

  function SecOf(t: Timer): nat { t.hour * 3600 + t.min * 60 + t.sec }

  /** How many seconds late a timer may still fire. */
  const FireWindow: nat := 5

  /** A smaller seconds-of-day than last time, within this many seconds of midnight, is a new day. */
  const RolloverWindow: nat := 10

  /** The weekday bit that marks a one-shot timer. */
  const OneShotBit: nat := 7

  /** The flag bit that enables a timer, and the one that makes a rule request an action. */
  const EnabledBit: nat := 1

  /** A timer with an all-zero date follows its weekday mask. */
  predicate Weekly(t: Timer) { t.year == 0 && t.mon == 0 && t.mday == 0 }

  predicate IsToday(t: Timer, clk: Clock) { clk.year == t.year && clk.mon == t.mon && clk.mday == t.mday }

  /** `compare_date`: -1 for a weekly timer, 0 for a dated timer due today, 1 for one due another day. */
  function CompareDate(t: Timer, clk: Clock): (r: int)
    ensures r == -1 <==> Weekly(t)
    ensures r == 0 <==> !Weekly(t) && IsToday(t, clk)
    ensures r == 1 <==> !Weekly(t) && !IsToday(t, clk)
  {
    if Weekly(t) then -1 else if IsToday(t, clk) then 0 else 1
  }

  /** Whether a timer's date rule admits today. */
  predicate DueToday(t: Timer, clk: Clock) {
    if Weekly(t) then Bit(t.wday, clk.wday) else IsToday(t, clk)
  }

  /** The day changed since the last visit. */
  predicate Rollover(prev: int, clk: Clock) {
    SecToday(clk) < prev && SecToday(clk) < RolloverWindow
  }

  /* ---------------- the day rollover ---------------- */

  /**
   * The rollover recomputation as written: every enabled slot (flag bit 1)
   * is expired unless its date rule admits today, whether or not it is
   * still active.
   */
  function RearmAsWritten(s: TimerSlot, clk: Clock): (r: TimerSlot)
    ensures r.t == s.t && r.active == s.active
    ensures !Bit(s.t.flag, EnabledBit) ==> r == s
    ensures Bit(s.t.flag, EnabledBit) ==> r.expired == !DueToday(s.t, clk)
  {
    if !Bit(s.t.flag, EnabledBit) then s
    else
      var ret := CompareDate(s.t, clk);
      if ret == 0 then s.(expired := false)
      else if ret == 1 then s.(expired := true)
      else s.(expired := !Bit(s.t.wday, clk.wday))
  }

  /** The rollover recomputation with a spent one-shot (inactive) slot left expired. */
  function Rearm(s: TimerSlot, clk: Clock): (r: TimerSlot)
    ensures r.t == s.t && r.active == s.active
    ensures !s.active ==> r == s
    ensures s.active ==> r == RearmAsWritten(s, clk)
  {
    if !s.active then s else RearmAsWritten(s, clk)
  }

  function RearmAll(ts: seq<TimerSlot>, clk: Clock): (r: seq<TimerSlot>)
    ensures |r| == |ts| && forall i :: 0 <= i < |ts| ==> r[i] == Rearm(ts[i], clk)
  {
    seq(|ts|, i requires 0 <= i < |ts| => Rearm(ts[i], clk))
  }

  function RearmAllAsWritten(ts: seq<TimerSlot>, clk: Clock): (r: seq<TimerSlot>)
    ensures |r| == |ts| && forall i :: 0 <= i < |ts| ==> r[i] == RearmAsWritten(ts[i], clk)
  {
    seq(|ts|, i requires 0 <= i < |ts| => RearmAsWritten(ts[i], clk))
  }

  /* ---------------- one timer slot ---------------- */

  /**
   * When a timer fires, stated apart from the step's control flow: enabled
   * and not expired, its mask holds the box mode, its date rule admits
   * today, and the tick is at most five seconds past its time of day.
   */
  predicate TimerFires(s: TimerSlot, mode: nat, clk: Clock) {
    && Bit(s.t.flag, EnabledBit) && !s.expired
    && Bit(s.t.workMode, mode)
    && DueToday(s.t, clk)
    && SecOf(s.t) <= SecToday(clk) <= SecOf(s.t) + FireWindow
  }

  /**
   * One timer slot in the step: skipped when disabled, expired, masked out
   * or not due this weekday; marked expired when dated for another day;
   * otherwise, inside the firing window, its request is queued and it
   * expires (a one-shot one also deactivates).
   */
  function TimerSlotStep(s: TimerSlot, devid: uint32, mode: nat, clk: Clock): (r: (TimerSlot, seq<Out>))
    ensures r.0.t == s.t
    ensures |r.1| > 0 <==> TimerFires(s, mode, clk)
    ensures TimerFires(s, mode, clk) ==>
      && r.1 == [RuleRequest(s.t.flag, devid, s.t.actId, s.t.actParam1, s.t.actParam2)]
      && r.0.expired
      && r.0.active == (s.active && !Bit(s.t.wday, OneShotBit))
    ensures !TimerFires(s, mode, clk) ==> r.0.active == s.active && (s.expired ==> r.0.expired)
    ensures !TimerFires(s, mode, clk) && r.0.expired != s.expired ==>
      Bit(s.t.flag, EnabledBit) && Bit(s.t.workMode, mode) && !Weekly(s.t) && !IsToday(s.t, clk)
  {
    var t := s.t;
    if !Bit(t.flag, EnabledBit) || s.expired then (s, [])
    else if !Bit(t.workMode, mode) then (s, [])
    else
      var ret := CompareDate(t, clk);
      if ret == -1 && !Bit(t.wday, clk.wday) then (s, [])
      else if ret == 1 then (s.(expired := true), [])
      else if SecOf(t) > SecToday(clk) || SecToday(clk) - SecOf(t) > FireWindow then (s, [])
      else
        var req := RuleRequest(t.flag, devid, t.actId, t.actParam1, t.actParam2);
        if Bit(t.wday, OneShotBit) then (s.(active := false, expired := true), [req])
        else (s.(expired := true), [req])
  }

  /** Steps every slot of a table, in order, collecting the requests. */
  function TimerScan(ts: seq<TimerSlot>, devid: uint32, mode: nat, clk: Clock): (r: (seq<TimerSlot>, seq<Out>))
    ensures |r.0| == |ts| && forall i :: 0 <= i < |ts| ==> r.0[i] == TimerSlotStep(ts[i], devid, mode, clk).0
    ensures |r.1| <= |ts|
    ensures forall o :: o in r.1 ==>
              exists i :: 0 <= i < |ts| && TimerFires(ts[i], mode, clk) &&
                          o == RuleRequest(ts[i].t.flag, devid, ts[i].t.actId, ts[i].t.actParam1, ts[i].t.actParam2)
    decreases |ts|
  {
    if |ts| == 0 then ([], [])
    else
      var (s, o) := TimerSlotStep(ts[0], devid, mode, clk);
      var (rest, outs) := TimerScan(ts[1..], devid, mode, clk);
      assert forall i :: 1 <= i < |ts| ==> ts[1..][i - 1] == ts[i];
      ([s] + rest, o + outs)
  }

  /* ---------------- one delay slot ---------------- */

  /** When a delay fires: active, started, unmasked, and its time has elapsed. */
  predicate DelayFires(s: DelaySlot, mode: nat, now: int) {
    s.active && s.started && Bit(s.d.workMode, mode) && now - s.startTm >= s.d.delaySec
  }

  /** One delay slot: when it fires its request is queued and it stops; it is never started here. */
  function DelaySlotStep(s: DelaySlot, devid: uint32, mode: nat, now: int): (r: (DelaySlot, seq<Out>))
    ensures DelayFires(s, mode, now) ==>
      r == (s.(started := false), [RuleRequest(s.d.flag, devid, s.d.actId, s.d.actParam1, s.d.actParam2)])
    ensures !DelayFires(s, mode, now) ==> r == (s, [])
  {
    if !s.active || !s.started then (s, [])
    else if !Bit(s.d.workMode, mode) then (s, [])
    else if now - s.startTm < s.d.delaySec then (s, [])
    else (s.(started := false), [RuleRequest(s.d.flag, devid, s.d.actId, s.d.actParam1, s.d.actParam2)])
  }

  function DelayScan(ds: seq<DelaySlot>, devid: uint32, mode: nat, now: int): (r: (seq<DelaySlot>, seq<Out>))
    ensures |r.0| == |ds| && forall i :: 0 <= i < |ds| ==> r.0[i] == DelaySlotStep(ds[i], devid, mode, now).0
    ensures (forall i :: 0 <= i < |ds| ==> !ds[i].started) ==> r.1 == []
    decreases |ds|
  {
    if |ds| == 0 then ([], [])
    else
      var (s, o) := DelaySlotStep(ds[0], devid, mode, now);
      var (rest, outs) := DelayScan(ds[1..], devid, mode, now);
      assert forall i :: 1 <= i < |ds| ==> ds[1..][i - 1] == ds[i];
      ([s] + rest, o + outs)
  }

  /* ---------------- one device ---------------- */

  /**
   * `_check_dev_timer_and_delay` for one device, given whether it sees a
   * rollover and which recomputation applies: the rollover recomputation
   * happens whatever the masks; the scans only when the device's mask holds
   * the box mode.
   */
  function DevStepWith(d: Device, mode: nat, rollover: bool, fixed: bool, clk: Clock): (r: (Device, seq<Out>))
    ensures r.0.id == d.id && r.0.online == d.online && r.0 == d.(timers := r.0.timers, delays := r.0.delays)
    ensures |r.0.timers| == |d.timers| && |r.0.delays| == |d.delays|
    ensures !Bit(d.workMode, mode) ==> r.1 == [] && r.0.delays == d.delays
  {
    var ts := if !rollover then d.timers else if fixed then RearmAll(d.timers, clk) else RearmAllAsWritten(d.timers, clk);
    if !Bit(d.workMode, mode) then (d.(timers := ts), [])
    else
      var (ts', o1) := TimerScan(ts, d.id, mode, clk);
      var (ds', o2) := DelayScan(d.delays, d.id, mode, clk.now);
      (d.(timers := ts', delays := ds'), o1 + o2)
  }

  /* ---------------- the sweep ---------------- */

  /** A per-device step: the device after it and the requests it queued. */
  type DevStep = (Device, bool) -> (Device, seq<Out>)

  /**
   * The device loop of `check_timer_and_delay` for any per-device `step`,
   * given whether a device sees a rollover: the previous seconds-of-day is
   * one global that each visit compares with the clock and then
   * overwrites, so after the first device every later one compares the
   * clock with itself and never sees the rollover.
   */
  function Visit(ds: seq<Device>, prev: int, clk: Clock, step: DevStep): (r: (seq<Device>, seq<Out>, int))
    ensures |r.0| == |ds|
    ensures r.2 == if |ds| == 0 then prev else SecToday(clk)
    ensures |ds| > 0 ==> r.0[0] == step(ds[0], Rollover(prev, clk)).0
    ensures forall i :: 1 <= i < |ds| ==> r.0[i] == step(ds[i], false).0
    decreases |ds|
  {
    if |ds| == 0 then ([], [], prev)
    else
      var h := step(ds[0], Rollover(prev, clk));
      var t := Visit(ds[1..], SecToday(clk), clk, step);
      assert !Rollover(SecToday(clk), clk);
      assert forall i :: 1 <= i < |ds| ==> ds[1..][i - 1] == ds[i] && ([h.0] + t.0)[i] == t.0[i - 1];
      ([h.0] + t.0, h.1 + t.1, t.2)
  }

  /** The device loop with one rollover decision, `rollover`, for every device. */
  function VisitAll(ds: seq<Device>, rollover: bool, step: DevStep): (r: (seq<Device>, seq<Out>))
    ensures |r.0| == |ds| && forall i :: 0 <= i < |ds| ==> r.0[i] == step(ds[i], rollover).0
    decreases |ds|
  {
    if |ds| == 0 then ([], [])
    else
      var h := step(ds[0], rollover);
      var t := VisitAll(ds[1..], rollover, step);
      assert forall i :: 1 <= i < |ds| ==> ds[1..][i - 1] == ds[i] && ([h.0] + t.0)[i] == t.0[i - 1];
      ([h.0] + t.0, h.1 + t.1)
  }

  /**
   * Without a rollover at the first device, the two loops visit every
   * device alike, given steps that agree away from a rollover.
   */
  lemma {:induction false} VisitsAgree(ds: seq<Device>, prev: int, clk: Clock, step: DevStep, step': DevStep)
    requires !Rollover(prev, clk) && forall d :: step(d, false) == step'(d, false)
    ensures Visit(ds, prev, clk, step).0 == VisitAll(ds, false, step').0
    ensures Visit(ds, prev, clk, step).1 == VisitAll(ds, false, step').1
    decreases |ds|
  {
    if |ds| > 0 {
      assert !Rollover(SecToday(clk), clk);
      VisitsAgree(ds[1..], SecToday(clk), clk, step, step');
    }
  }

  /** `_check_dev_timer_and_delay` as written, re-arming on the enable flag alone. */
  function StepAsWritten(mode: nat, clk: Clock): DevStep {
    (d: Device, rollover: bool) => DevStepWith(d, mode, rollover, false, clk)
  }

  /** `_check_dev_timer_and_delay` re-arming only active slots. */
  function StepFixed(mode: nat, clk: Clock): DevStep {
    (d: Device, rollover: bool) => DevStepWith(d, mode, rollover, true, clk)
  }

  /** `check_timer_and_delay`'s device loop as written. */
  function SweepAsWritten(ds: seq<Device>, mode: nat, prev: int, clk: Clock): (r: (seq<Device>, seq<Out>, int))
    ensures |r.0| == |ds|
    ensures r.2 == if |ds| == 0 then prev else SecToday(clk)
    ensures |ds| > 0 ==> r.0[0] == DevStepWith(ds[0], mode, Rollover(prev, clk), false, clk).0
    ensures forall i :: 1 <= i < |ds| ==> r.0[i] == DevStepWith(ds[i], mode, false, false, clk).0
  {
    Visit(ds, prev, clk, StepAsWritten(mode, clk))
  }

  /**
   * The sweep as evidently intended: the rollover is decided once per tick
   * from the previous tick's seconds-of-day and applied to every device,
   * with spent one-shot timers left expired.
   */
  function Sweep(ds: seq<Device>, mode: nat, rollover: bool, clk: Clock): (r: (seq<Device>, seq<Out>))
    ensures |r.0| == |ds| && forall i :: 0 <= i < |ds| ==> r.0[i] == DevStepWith(ds[i], mode, rollover, true, clk).0
  {
    VisitAll(ds, rollover, StepFixed(mode, clk))
  }

  /**
   * `check_timer_and_delay` as written: `_check_dev_timer_and_delay` visits
   * the online devices in queue order, deciding the rollover from the
   * global seconds-of-day and then overwriting it, so only the first
   * device can see a rollover, and re-arming on the enable flag alone;
   * with no device online the global keeps its value.
   */
  function CheckTimerAndDelayAsWritten(h: Hub, clk: Clock): (r: (Hub, seq<Out>))
    ensures r.0 == h.(online := r.0.online, secToday := r.0.secToday)
    ensures r.0.secToday == if |h.online| == 0 then h.secToday else SecToday(clk)
    ensures |r.0.online| == |h.online|
    ensures |h.online| > 0 ==>
      r.0.online[0] == DevStepWith(h.online[0], h.workMode, Rollover(h.secToday, clk), false, clk).0
    ensures forall i :: 1 <= i < |h.online| ==>
      r.0.online[i] == DevStepWith(h.online[i], h.workMode, false, false, clk).0
  {
    var (ds, outs, sec) := SweepAsWritten(h.online, h.workMode, h.secToday, clk);
    (h.(online := ds, secToday := sec), outs)
  }

  /**
   * On a tick without a rollover the program's sweep and the corrected one
   * step every device alike and queue the same requests.
   */
  lemma SweepsAgree(ds: seq<Device>, mode: nat, prev: int, clk: Clock)
    requires !Rollover(prev, clk)
    ensures SweepAsWritten(ds, mode, prev, clk).0 == Sweep(ds, mode, false, clk).0
    ensures SweepAsWritten(ds, mode, prev, clk).1 == Sweep(ds, mode, false, clk).1
  {
    forall d: Device ensures StepAsWritten(mode, clk)(d, false) == StepFixed(mode, clk)(d, false) {
      assert DevStepWith(d, mode, false, false, clk) == DevStepWith(d, mode, false, true, clk);
    }
    VisitsAgree(ds, prev, clk, StepAsWritten(mode, clk), StepFixed(mode, clk));
  }

  /**
   * The corrected tick: every online device is stepped under one rollover
   * decision, spent one-shot timers stay expired, and the tick's
   * seconds-of-day is recorded.
   */
  function CheckTimerAndDelay(h: Hub, clk: Clock): (r: (Hub, seq<Out>))
    ensures r.0 == h.(online := r.0.online, secToday := SecToday(clk))
    ensures |r.0.online| == |h.online|
    ensures forall i :: 0 <= i < |h.online| ==>
      r.0.online[i] == DevStepWith(h.online[i], h.workMode, Rollover(h.secToday, clk), true, clk).0
  {
    var (ds, outs) := Sweep(h.online, h.workMode, Rollover(h.secToday, clk), clk);
    (h.(online := ds, secToday := SecToday(clk)), outs)
  }

  /* ---------------- properties ---------------- */

  /** The program's tick changes no device's id or state either, so it keeps the registry invariant. */
  lemma CheckTimerAndDelayAsWrittenValid(h: Hub, clk: Clock)
    requires Valid(h)
    ensures Valid(CheckTimerAndDelayAsWritten(h, clk).0)
  {
    var h' := CheckTimerAndDelayAsWritten(h, clk).0;
    assert forall i :: 0 <= i < |h.online| ==> h'.online[i].id == h.online[i].id && h'.online[i].online == h.online[i].online;
  }

  /** Away from a rollover, and with a device online, the program's tick is the corrected one. */
  lemma TicksAgreeWithoutRollover(h: Hub, clk: Clock)
    requires !Rollover(h.secToday, clk) && |h.online| > 0
    ensures CheckTimerAndDelayAsWritten(h, clk) == CheckTimerAndDelay(h, clk)
  {
    SweepsAgree(h.online, h.workMode, h.secToday, clk);
  }

  /** The corrected tick changes no device's id or state, so it keeps the registry invariant. */
  lemma CheckTimerAndDelayValid(h: Hub, clk: Clock)
    requires Valid(h)
    ensures Valid(CheckTimerAndDelay(h, clk).0)
  {
    var h' := CheckTimerAndDelay(h, clk).0;
    assert forall i :: 0 <= i < |h.online| ==> h'.online[i].id == h.online[i].id && h'.online[i].online == h.online[i].online;
  }

  /** A recurring timer that fired does not fire again before the next rollover. */
  lemma NoDoubleFire(s: TimerSlot, devid: uint32, mode: nat, clk: Clock, clk2: Clock)
    requires TimerFires(s, mode, clk)
    ensures TimerSlotStep(TimerSlotStep(s, devid, mode, clk).0, devid, mode, clk2).1 == []
  {
  }

  /** A spent one-shot timer: deactivated and expired. */
  predicate Spent(s: TimerSlot) { !s.active && s.expired }

  /** Firing spends a one-shot timer. */
  lemma OneShotSpentAfterFiring(s: TimerSlot, devid: uint32, mode: nat, clk: Clock)
    requires TimerFires(s, mode, clk) && Bit(s.t.wday, OneShotBit)
    ensures Spent(TimerSlotStep(s, devid, mode, clk).0)
  {
  }

  /**
   * Once spent, a one-shot timer stays spent and silent through any
   * sequence of ticks, with or without rollovers: it fires at most once.
   */
  lemma {:induction false} OneShotFiresOnce(s: TimerSlot, devid: uint32, mode: nat, clks: seq<Clock>, rolls: seq<bool>)
    requires Spent(s) && |rolls| == |clks|
    ensures Spent(TickSlot(s, devid, mode, clks, rolls).0) && TickSlot(s, devid, mode, clks, rolls).1 == []
    decreases |clks|
  {
    if |clks| > 0 {
      var s1 := if rolls[0] then Rearm(s, clks[0]) else s;
      assert Spent(s1);
      OneShotFiresOnce(TimerSlotStep(s1, devid, mode, clks[0]).0, devid, mode, clks[1..], rolls[1..]);
    }
  }

  /** One slot through a sequence of ticks, each with or without a rollover first. */
  function TickSlot(s: TimerSlot, devid: uint32, mode: nat, clks: seq<Clock>, rolls: seq<bool>): (r: (TimerSlot, seq<Out>))
    requires |rolls| == |clks|
    decreases |clks|
  {
    if |clks| == 0 then (s, [])
    else
      var s1 := if rolls[0] then Rearm(s, clks[0]) else s;
      var (s2, o) := TimerSlotStep(s1, devid, mode, clks[0]);
      var (s3, outs) := TickSlot(s2, devid, mode, clks[1..], rolls[1..]);
      (s3, o + outs)
  }

  /**
   * As written, a spent one-shot weekly timer is re-enabled by the next
   * rollover on one of its weekdays and fires again at its time of day.
   */
  lemma OneShotRefiresAsWritten(s: TimerSlot, devid: uint32, mode: nat, clk: Clock)
    requires Spent(s) && Bit(s.t.flag, EnabledBit) && Bit(s.t.workMode, mode)
    requires Weekly(s.t) && Bit(s.t.wday, clk.wday)
    requires SecOf(s.t) <= SecToday(clk) <= SecOf(s.t) + FireWindow
    ensures |TimerSlotStep(RearmAsWritten(s, clk), devid, mode, clk).1| == 1
    ensures TimerSlotStep(Rearm(s, clk), devid, mode, clk).1 == []
  {
  }

  /** A delay is never started by the tick, so delays that no one started never fire. */
  lemma DelaysNeverStart(h: Hub, clk: Clock, i: nat, j: nat)
    requires i < |h.online| && j < |h.online[i].delays|
    ensures var d := CheckTimerAndDelay(h, clk).0.online[i];
      d.delays[j].started ==> h.online[i].delays[j].started
  {
  }

  /**
   * As written, a device after the first misses the rollover: an expired
   * slot of the second device stays expired even when the tick crosses
   * midnight.
   */
  lemma SecondDeviceMissesRollover(ds: seq<Device>, mode: nat, prev: int, clk: Clock, j: nat)
    requires |ds| >= 2 && Rollover(prev, clk) && j < |ds[1].timers| && ds[1].timers[j].expired
    ensures SweepAsWritten(ds, mode, prev, clk).0[1].timers[j].expired
  {
    var d := ds[1];
    if Bit(d.workMode, mode) {
      assert TimerScan(d.timers, d.id, mode, clk).0[j] == TimerSlotStep(d.timers[j], d.id, mode, clk).0;
    }
  }

  /**
   * With the rollover decided once per tick, every device's active weekly
   * timer due today is re-enabled: after the tick it is expired only if it
   * fired.
   */
  lemma SweepRearmsEveryDevice(h: Hub, clk: Clock, i: nat, j: nat)
    requires Rollover(h.secToday, clk) && i < |h.online| && j < |h.online[i].timers|
    requires var s := h.online[i].timers[j]; s.active && Bit(s.t.flag, EnabledBit) && Weekly(s.t) && Bit(s.t.wday, clk.wday)
    requires !(SecOf(h.online[i].timers[j].t) <= SecToday(clk) <= SecOf(h.online[i].timers[j].t) + FireWindow)
    ensures !CheckTimerAndDelay(h, clk).0.online[i].timers[j].expired
  {
    var d := h.online[i];
    var ts := RearmAll(d.timers, clk);
    assert !ts[j].expired;
    if Bit(d.workMode, h.workMode) {
      assert TimerScan(ts, d.id, h.workMode, clk).0[j] == TimerSlotStep(ts[j], d.id, h.workMode, clk).0;
    }
  }
}

=== FILE: wire.dfy ===
/**
 * The hub's binary protocol: a 4-byte header (command, total length) and
 * fixed-offset little-endian fields. This module holds the header checks,
 * the response encoders, the request decoders and the UDP discovery
 * exchange; every offset is absolute, counted from the packet's first byte.
 */
module Wire {
  import opened Bytes
  import opened HubTypes
  import opened DeviceTypes

  /* ---------------- header ---------------- */

  /** The header: command number, then the packet's total length. */
  function Hdr(c: Codes, k: Cmd, len: nat): (r: bytes)
    requires ValidCodes(c)
    ensures |r| == 4
  {
    LE16(CmdNum(c, k)) + LE16(To16(len))
  }

  /** A packet: header with the total length, then the body. */
  function Frame(c: Codes, k: Cmd, body: bytes): (r: bytes)
    requires ValidCodes(c)
    ensures |r| == |body| + 4 && r[4..] == body
    ensures CmdOf(c, Get16(r, 0)) == Some(k)
    ensures Get16(r, 2) == To16(|r|)
    ensures |r| < 0x1_0000 ==> Get16(r, 2) == |r|
  {
    var r := Hdr(c, k, |body| + 4) + body;
    LE16Get(CmdNum(c, k), r, 0);
    assert r[2..4] == LE16(To16(|body| + 4));
    LE16Get(To16(|body| + 4), r, 2);
    r
  }

  /** The 16 bytes a fixed 16-byte field holds when `s` is copied into it whole. */
  function Raw16(s: bytes): (r: bytes)
    ensures |r| == 16
    ensures |s| == 16 ==> r == s
  {
    if |s| >= 16 then s[..16] else s + Zeros(16 - |s|)
  }

  /* ---------------- TCP validation and framing ---------------- */

  /**
   * `check_tcp_pkt_valid` on the `len` received bytes at the head of `buf`:
   * -1 for nothing received, -2 for a command `HSB_CMD_VALID` rejects, -3
   * for a declared length larger than what was received, 0 otherwise.
   */
  function CheckTcp(c: Codes, buf: bytes, len: int): (r: int)
    requires |buf| >= 4
    ensures r == 0 ==> len > 0 && CmdOf(c, Get16(buf, 0)).Some? && Get16(buf, 2) <= len
    ensures r == -1 <==> len <= 0
    ensures r == -2 <==> len > 0 && CmdOf(c, Get16(buf, 0)).None?
    ensures r == -3 <==> len > 0 && CmdOf(c, Get16(buf, 0)).Some? && len < Get16(buf, 2)
  {
    if len <= 0 then -1
    else if CmdOf(c, Get16(buf, 0)).None? then -2
    else if len < Get16(buf, 2) then -3
    else 0
  }

  /**
   * How many bytes `deal_tcp_packet` reports as used: all of them for a
   * rejected packet, otherwise the declared length, which is never checked
   * against the header size.
   */
  function UsedAsWritten(c: Codes, buf: bytes, len: int): (r: int)
    requires |buf| >= 4
    ensures CheckTcp(c, buf, len) != 0 ==> r == len
    ensures CheckTcp(c, buf, len) == 0 ==> r == Get16(buf, 2) && 0 <= r <= len
  {
    if CheckTcp(c, buf, len) != 0 then len else Get16(buf, 2)
  }

  /**
   * The client handler's loop position after one packet: it moves by the
   * used count. With a valid command and a declared length of 0 it does
   * not move, so the `while (nwrite < nread)` loop never ends.
   */
  lemma ZeroLengthStallsAsWritten(c: Codes, msg: bytes, nread: nat, nwrite: nat)
    requires nwrite < nread && nwrite + 4 <= |msg|
    requires CmdOf(c, Get16(msg[nwrite..], 0)).Some? && Get16(msg[nwrite..], 2) == 0
    ensures nwrite + UsedAsWritten(c, msg[nwrite..], nread - nwrite) == nwrite
  {
  }

  /** The used count with a declared length below the header size rejected like any other bad header. */
  function Used(c: Codes, buf: bytes, len: int): (r: int)
    requires |buf| >= 4
    ensures len > 0 ==> 0 < r <= len
    ensures len > 0 && CheckTcp(c, buf, len) == 0 && Get16(buf, 2) >= 4 ==> r == Get16(buf, 2)
  {
    if CheckTcp(c, buf, len) != 0 || Get16(buf, 2) < 4 then len else Get16(buf, 2)
  }

  /**
   * The client handler's loop over one read with the corrected used count:
   * the start and used count of each packet, from position `pos` on.
   * `msg` extends at least 4 bytes past the data read, as the fixed-size
   * read buffer does.
   */
  function Packets(c: Codes, msg: bytes, nread: nat, pos: nat): (r: seq<(nat, nat)>)
    requires pos <= nread && nread + 4 <= |msg|
    decreases nread - pos
  {
    if pos == nread then []
    else
      var u := Used(c, msg[pos..], nread - pos);
      [(pos, u as nat)] + Packets(c, msg, nread, pos + u)
  }

  /**
   * With the corrected count the loop ends: the packets tile the data read
   * exactly, each starting where the previous one stopped, and every one
   * accepted for handling has a whole header.
   */
  lemma {:induction false} PacketsTile(c: Codes, msg: bytes, nread: nat, pos: nat)
    requires pos <= nread && nread + 4 <= |msg|
    ensures var ps := Packets(c, msg, nread, pos);
      && (|ps| == 0 <==> pos == nread)
      && (|ps| > 0 ==> ps[0].0 == pos && ps[|ps| - 1].0 + ps[|ps| - 1].1 == nread)
      && (forall i :: 0 <= i < |ps| - 1 ==> ps[i].0 + ps[i].1 == ps[i + 1].0)
      && (forall i :: 0 <= i < |ps| ==> ps[i].1 > 0 && ps[i].0 + ps[i].1 <= nread)
    decreases nread - pos
  {
    if pos < nread {
      var u := Used(c, msg[pos..], nread - pos);
      PacketsTile(c, msg, nread, pos + u);
    }
  }

  /* ---------------- response encoders ---------------- */

  /** `_reply_result` (12 bytes): device id @4, command @8, result code @10. */
  function ReplyResult(c: Codes, code: int, devid: uint32, cmd: uint16): (r: bytes)
    requires ValidCodes(c)
    ensures |r| == 12
  {
    Frame(c, ResultMsg, LE32(devid) + LE16(cmd) + LE16(To16(code)))
  }

  /** The fields of a RESULT packet as a client reads them. */
  datatype ResultFields = ResultFields(devid: uint32, cmd: uint16, code: uint16)

  function ReadResult(b: bytes): ResultFields
    requires |b| >= 12
  {
    ResultFields(Get32(b, 4), Get16(b, 8), Get16(b, 10))
  }

  /** A RESULT packet gives back its fields; the code as 16 bits. */
  lemma ResultRoundTrip(c: Codes, code: int, devid: uint32, cmd: uint16)
    requires ValidCodes(c)
    ensures ReadResult(ReplyResult(c, code, devid, cmd)) == ResultFields(devid, cmd, To16(code))
    ensures CmdOf(c, Get16(ReplyResult(c, code, devid, cmd), 0)) == Some(ResultMsg)
  {
    var b := ReplyResult(c, code, devid, cmd);
    LE32Get(devid, b, 4);
    assert b[8..10] == LE16(cmd);
    LE16Get(cmd, b, 8);
    assert b[10..12] == LE16(To16(code));
    LE16Get(To16(code), b, 10);
  }

  /** Little-endian 32-bit words, one after another. */
  function Words(ids: seq<uint32>): (r: bytes)
    ensures |r| == 4 * |ids|
  {
    if |ids| == 0 then [] else LE32(ids[0]) + Words(ids[1..])
  }

  lemma {:induction false} WordsAt(ids: seq<uint32>, i: nat)
    requires i < |ids|
    ensures Words(ids)[4 * i..4 * i + 4] == LE32(ids[i])
    decreases |ids|
  {
    if i > 0 {
      WordsAt(ids[1..], i - 1);
      assert Words(ids)[4..] == Words(ids[1..]);
    }
  }

  /** `_reply_dev_id_list`: the online device ids, 4 bytes each from offset 4. */
  function ReplyDevIdList(c: Codes, ids: seq<uint32>): (r: bytes)
    requires ValidCodes(c)
    ensures |r| == 4 + 4 * |ids|
  {
    Frame(c, GetDevsResp, Words(ids))
  }

  /** Every id of the list is read back at its offset, and the length field counts them. */
  lemma DevIdListRoundTrip(c: Codes, ids: seq<uint32>, i: nat)
    requires ValidCodes(c) && 4 * |ids| + 4 < 0x1_0000 && i < |ids|
    ensures Get32(ReplyDevIdList(c, ids), 4 + 4 * i) == ids[i]
    ensures (Get16(ReplyDevIdList(c, ids), 2) - 4) / 4 == |ids|
  {
    var b := ReplyDevIdList(c, ids);
    WordsAt(ids, i);
    assert b[4 + 4 * i..8 + 4 * i] == Words(ids)[4 * i..4 * i + 4];
    LE32Get(ids[i], b, 4 + 4 * i);
  }

  /**
   * `_reply_get_device_info` (26 bytes): id @4, driver @8, class @12,
   * interface @14, then the 4-byte type @16 overwritten from @18 by the
   * 8-byte address, so only the type's low half survives.
   */
  function ReplyDevInfo(c: Codes, d: Device): (r: bytes)
    requires ValidCodes(c)
    ensures |r| == 26
  {
    Frame(c, GetInfoResp, LE32(d.id) + LE32(d.drvid) + LE16(To16(d.info.cls)) + LE16(To16(d.info.iface))
                          + LE16(To16(d.info.devType)) + d.info.mac)
  }

  /** The info packet carries the address at 18 and the low 16 bits of the type at 16. */
  lemma DevInfoOverlap(c: Codes, d: Device)
    requires ValidCodes(c)
    ensures var b := ReplyDevInfo(c, d);
      && Get32(b, 4) == d.id && Get32(b, 8) == d.drvid
      && Get16(b, 16) == To16(d.info.devType)
      && b[18..26] == d.info.mac
  {
    var b := ReplyDevInfo(c, d);
    var body := LE32(d.id) + LE32(d.drvid) + LE16(To16(d.info.cls)) + LE16(To16(d.info.iface))
                + LE16(To16(d.info.devType)) + d.info.mac;
    assert b[4..] == body;
    assert b[4..8] == body[0..4] == LE32(d.id);
    LE32Get(d.id, b, 4);
    assert b[8..12] == body[4..8] == LE32(d.drvid);
    LE32Get(d.drvid, b, 8);
    assert b[16..18] == body[12..14] == LE16(To16(d.info.devType));
    LE16Get(To16(d.info.devType), b, 16);
  }

  /** `_reply_get_device_cfg` (40 bytes): device id @4, name @8, location @24. */
  function ReplyDevCfg(c: Codes, devid: uint32, cfg: Config): (r: bytes)
    requires ValidCodes(c)
    ensures |r| == 40
  {
    Frame(c, GetConfigResp, LE32(devid) + Raw16(cfg.name) + Raw16(cfg.location))
  }

  /** SET_CONFIG's decoder: the raw 32 bytes at 8 are the configuration. */
  function ReadCfg(b: bytes): (r: Config)
    requires |b| >= 40
    ensures |r.name| == 16 && |r.location| == 16
  {
    Config(b[8..24], b[24..40])
  }

  /** A configuration with 16-byte fields survives GET_CONFIG_RESP's layout as SET_CONFIG reads it. */
  lemma CfgRoundTrip(c: Codes, devid: uint32, cfg: Config)
    requires ValidCodes(c) && |cfg.name| == 16 && |cfg.location| == 16
    ensures ReadCfg(ReplyDevCfg(c, devid, cfg)) == cfg
    ensures Get32(ReplyDevCfg(c, devid, cfg), 4) == devid
  {
    var b := ReplyDevCfg(c, devid, cfg);
    assert b[8..24] == cfg.name;
    assert b[24..40] == cfg.location;
    LE32Get(devid, b, 4);
  }

  /** `_reply_get_device_channel` (28 bytes): device id @4, name @8, channel id @24. */
  function ReplyChannel(c: Codes, devid: uint32, name: bytes, cid: uint32): (r: bytes)
    requires ValidCodes(c)
    ensures |r| == 28
  {
    Frame(c, GetChannelResp, LE32(devid) + Raw16(name) + LE32(cid))
  }

  /** The name as `strncpy(name, buf + 8, 16)` copies it. */
  function ReadName(b: bytes, off: nat): (r: bytes)
    requires off + 16 <= |b|
    ensures |r| == 16
  {
    Field16(b[off..off + 16])
  }

  /** SET_CHANNEL, DEL_CHANNEL and SWITCH_CHANNEL read the channel packet's fields back; the name compares equal. */
  lemma ChannelRoundTrip(c: Codes, devid: uint32, name: bytes, cid: uint32)
    requires ValidCodes(c) && |name| == 16
    ensures var b := ReplyChannel(c, devid, name, cid);
      Get32(b, 4) == devid && Key16(ReadName(b, 8)) == Key16(name) && Get32(b, 24) == cid
  {
    var b := ReplyChannel(c, devid, name, cid);
    LE32Get(devid, b, 4);
    assert b[8..24] == name;
    Field16Key(name);
    assert b[24..28] == LE32(cid);
    LE32Get(cid, b, 24);
  }

  /* ---------------- timers ---------------- */

  /** The date as the wire carries it: years and months counted from 1 AD and 1, or 0/0 for none. */
  function WireDate(t: Timer): (int, int) {
    if t.year > 0 then (t.year + 1900, t.mon + 1) else (0, 0)
  }

  /** `_reply_get_timer` (28 bytes): the timer's fields from offset 8, date @16-18. */
  function ReplyTimer(c: Codes, devid: uint32, t: Timer): (r: bytes)
    requires ValidCodes(c)
    ensures |r| == 28
    ensures CmdOf(c, Get16(r, 0)) == Some(GetTimerResp) && Get16(r, 2) == To16(|r|)
  {
    var (y, m) := WireDate(t);
    Frame(c, GetTimerResp, LE32(devid) + LE16(t.id) + [t.workMode, t.flag, t.hour, t.min, t.sec, t.wday]
                           + LE16(To16(y)) + [To8(m), t.mday] + LE16(t.actId) + LE16(t.actParam1) + LE32(t.actParam2))
  }

  /**
   * SET_TIMER's decoder: a wire year after 1900 is stored as years since
   * 1900 and the month from 0; any other year is stored as it came.
   */
  function ReadTimer(b: bytes): (r: (uint32, Timer))
    requires |b| >= 28
    ensures Get16(b, 16) > 1900 ==> r.1.year == Get16(b, 16) - 1900 && r.1.mon == b[18] as int - 1
    ensures Get16(b, 16) <= 1900 ==> r.1.year == Get16(b, 16) && r.1.mon == b[18]
  {
    var y := Get16(b, 16);
    var m := b[18] as int;
    var (year, mon) := if y > 1900 then (y - 1900, m - 1) else (y, m);
    (Get32(b, 4), Timer(Get16(b, 8), b[10], b[11], b[12], b[13], b[14], b[15], year, mon, b[19],
                        Get16(b, 20), Get16(b, 22), Get32(b, 24)))
  }

  /** The timer fields that sit in single bytes and 16/32-bit words, date aside. */
  lemma TimerFieldsBack(c: Codes, devid: uint32, t: Timer)
    requires ValidCodes(c)
    ensures var b := ReplyTimer(c, devid, t);
      && Get32(b, 4) == devid && Get16(b, 8) == t.id
      && b[10] == t.workMode && b[11] == t.flag && b[12] == t.hour && b[13] == t.min
      && b[14] == t.sec && b[15] == t.wday && b[18] == To8(WireDate(t).1) && b[19] == t.mday
      && Get16(b, 16) == To16(WireDate(t).0)
      && Get16(b, 20) == t.actId && Get16(b, 22) == t.actParam1 && Get32(b, 24) == t.actParam2
  {
    var b := ReplyTimer(c, devid, t);
    LE32Get(devid, b, 4);
    assert b[8..10] == LE16(t.id);
    LE16Get(t.id, b, 8);
    assert b[16..18] == LE16(To16(WireDate(t).0));
    LE16Get(To16(WireDate(t).0), b, 16);
    assert b[20..22] == LE16(t.actId);
    LE16Get(t.actId, b, 20);
    assert b[22..24] == LE16(t.actParam1);
    LE16Get(t.actParam1, b, 22);
    assert b[24..28] == LE32(t.actParam2);
    LE32Get(t.actParam2, b, 24);
  }

  /**
   * A timer with a date (stored year above 0, wire year below 65536,
   * month 0..254) or with none (year and month 0) comes back unchanged
   * through GET_TIMER_RESP's layout read as SET_TIMER.
   */
  lemma TimerRoundTrip(c: Codes, devid: uint32, t: Timer)
    requires ValidCodes(c)
    requires (0 < t.year && t.year + 1900 < 0x1_0000 && 0 <= t.mon < 0xFF) || (t.year == 0 && t.mon == 0)
    ensures ReadTimer(ReplyTimer(c, devid, t)) == (devid, t)
  {
    TimerFieldsBack(c, devid, t);
  }

  /** A timer without a positive year is sent with no date, so it comes back with year and month 0. */
  lemma TimerUndatedLosesDate(c: Codes, devid: uint32, t: Timer)
    requires ValidCodes(c) && t.year <= 0
    ensures var wire := ReadTimer(ReplyTimer(c, devid, t)).1;
      wire.year == 0 && wire.mon == 0 && wire.id == t.id && wire.actId == t.actId
  {
    TimerFieldsBack(c, devid, t);
  }

  /* ---------------- delays and linkages ---------------- */

  /** The first 12 bytes of a delay or linkage body: device id, rule id, mode, flag, event id and first event parameter. */
  function RuleHead(devid: uint32, id: uint16, workMode: uint8, flag: uint8, evtId: uint16, evtParam1: uint16): (r: bytes)
    ensures |r| == 12
  {
    LE32(devid) + LE16(id) + [workMode, flag] + LE16(evtId) + LE16(evtParam1)
  }

  lemma RuleHeadFields(devid: uint32, id: uint16, workMode: uint8, flag: uint8, evtId: uint16, evtParam1: uint16)
    ensures var h := RuleHead(devid, id, workMode, flag, evtId, evtParam1);
      && Get32(h, 0) == devid && Get16(h, 4) == id && h[6] == workMode && h[7] == flag
      && Get16(h, 8) == evtId && Get16(h, 10) == evtParam1
  {
    var h := RuleHead(devid, id, workMode, flag, evtId, evtParam1);
    assert h[0..4] == LE32(devid);
    LE32Get(devid, h, 0);
    assert h[4..6] == LE16(id);
    LE16Get(id, h, 4);
    assert h[8..10] == LE16(evtId);
    LE16Get(evtId, h, 8);
    assert h[10..12] == LE16(evtParam1);
    LE16Get(evtParam1, h, 10);
  }

  /** The last 16 bytes of a delay body. */
  function DelayTail(d: Delay): (r: bytes)
    ensures |r| == 16
  {
    LE32(d.evtParam2) + LE16(d.actId) + LE16(d.actParam1) + LE32(d.actParam2) + LE32(d.delaySec)
  }

  lemma DelayTailFields(d: Delay)
    ensures var t := DelayTail(d);
      Get32(t, 0) == d.evtParam2 && Get16(t, 4) == d.actId && Get16(t, 6) == d.actParam1
      && Get32(t, 8) == d.actParam2 && Get32(t, 12) == d.delaySec
  {
    var t := DelayTail(d);
    assert t[0..4] == LE32(d.evtParam2);
    LE32Get(d.evtParam2, t, 0);
    assert t[4..6] == LE16(d.actId);
    LE16Get(d.actId, t, 4);
    assert t[6..8] == LE16(d.actParam1);
    LE16Get(d.actParam1, t, 6);
    assert t[8..12] == LE32(d.actParam2);
    LE32Get(d.actParam2, t, 8);
    assert t[12..16] == LE32(d.delaySec);
    LE32Get(d.delaySec, t, 12);
  }

  /** `_reply_get_delay` (32 bytes). */
  function ReplyDelay(c: Codes, devid: uint32, d: Delay): (r: bytes)
    requires ValidCodes(c)
    ensures |r| == 32
    ensures CmdOf(c, Get16(r, 0)) == Some(GetDelayResp) && Get16(r, 2) == To16(|r|)
  {
    Frame(c, GetDelayResp, RuleHead(devid, d.id, d.workMode, d.flag, d.evtId, d.evtParam1) + DelayTail(d))
  }

  /** SET_DELAY's decoder. */
  function ReadDelay(b: bytes): (r: (uint32, Delay))
    requires |b| >= 32
  {
    (Get32(b, 4), Delay(Get16(b, 8), b[10], b[11], Get16(b, 12), Get16(b, 14), Get32(b, 16),
                        Get16(b, 20), Get16(b, 22), Get32(b, 24), Get32(b, 28)))
  }

  /** Every delay field comes back through GET_DELAY_RESP's layout read as SET_DELAY. */
  lemma DelayRoundTrip(c: Codes, devid: uint32, d: Delay)
    requires ValidCodes(c)
    ensures ReadDelay(ReplyDelay(c, devid, d)) == (devid, d)
  {
    var b := ReplyDelay(c, devid, d);
    var h := RuleHead(devid, d.id, d.workMode, d.flag, d.evtId, d.evtParam1);
    var t := DelayTail(d);
    Split(b, 4, h, t);
    RuleHeadFields(devid, d.id, d.workMode, d.flag, d.evtId, d.evtParam1);
    DelayTailFields(d);
    Get32In(b, 4, h, 0);
    Get16In(b, 4, h, 4);
    Get16In(b, 4, h, 8);
    Get16In(b, 4, h, 10);
    Get32In(b, 16, t, 0);
    Get16In(b, 16, t, 4);
    Get16In(b, 16, t, 6);
    Get32In(b, 16, t, 8);
    Get32In(b, 16, t, 12);
  }

  /** The last 16 bytes of a linkage body. */
  function LinkTail(l: Linkage): (r: bytes)
    ensures |r| == 16
  {
    LE32(l.evtParam2) + LE32(l.actDevid) + LE16(l.actId) + LE16(l.actParam1) + LE32(l.actParam2)
  }

  lemma LinkTailFields(l: Linkage)
    ensures var t := LinkTail(l);
      Get32(t, 0) == l.evtParam2 && Get32(t, 4) == l.actDevid && Get16(t, 8) == l.actId
      && Get16(t, 10) == l.actParam1 && Get32(t, 12) == l.actParam2
  {
    var t := LinkTail(l);
    assert t[0..4] == LE32(l.evtParam2);
    LE32Get(l.evtParam2, t, 0);
    assert t[4..8] == LE32(l.actDevid);
    LE32Get(l.actDevid, t, 4);
    assert t[8..10] == LE16(l.actId);
    LE16Get(l.actId, t, 8);
    assert t[10..12] == LE16(l.actParam1);
    LE16Get(l.actParam1, t, 10);
    assert t[12..16] == LE32(l.actParam2);
    LE32Get(l.actParam2, t, 12);
  }

  /** `_reply_get_linkage` (32 bytes). */
  function ReplyLinkage(c: Codes, devid: uint32, l: Linkage): (r: bytes)
    requires ValidCodes(c)
    ensures |r| == 32
    ensures CmdOf(c, Get16(r, 0)) == Some(GetLinkageResp) && Get16(r, 2) == To16(|r|)
  {
    Frame(c, GetLinkageResp, RuleHead(devid, l.id, l.workMode, l.flag, l.evtId, l.evtParam1) + LinkTail(l))
  }

  /** SET_LINKAGE's decoder. */
  function ReadLinkage(b: bytes): (r: (uint32, Linkage))
    requires |b| >= 32
  {
    (Get32(b, 4), Linkage(Get16(b, 8), b[10], b[11], Get16(b, 12), Get16(b, 14), Get32(b, 16),
                          Get32(b, 20), Get16(b, 24), Get16(b, 26), Get32(b, 28)))
  }

  /** Every linkage field comes back through GET_LINKAGE_RESP's layout read as SET_LINKAGE. */
  lemma LinkageRoundTrip(c: Codes, devid: uint32, l: Linkage)
    requires ValidCodes(c)
    ensures ReadLinkage(ReplyLinkage(c, devid, l)) == (devid, l)
  {
    var b := ReplyLinkage(c, devid, l);
    var h := RuleHead(devid, l.id, l.workMode, l.flag, l.evtId, l.evtParam1);
    var t := LinkTail(l);
    Split(b, 4, h, t);
    RuleHeadFields(devid, l.id, l.workMode, l.flag, l.evtId, l.evtParam1);
    LinkTailFields(l);
    Get32In(b, 4, h, 0);
    Get16In(b, 4, h, 4);
    Get16In(b, 4, h, 8);
    Get16In(b, 4, h, 10);
    Get32In(b, 16, t, 0);
    Get32In(b, 16, t, 4);
    Get16In(b, 16, t, 8);
    Get16In(b, 16, t, 10);
    Get32In(b, 16, t, 12);
  }

  /* ---------------- status ---------------- */

  /** Status pairs, 4 bytes each: id then value, 16 bits apiece. */
  function PairBytes(ps: seq<Pair>): (r: bytes)
    ensures |r| == 4 * |ps|
  {
    if |ps| == 0 then [] else LE16(To16(ps[0].id)) + LE16(To16(ps[0].val)) + PairBytes(ps[1..])
  }

  lemma {:induction false} PairBytesAt(ps: seq<Pair>, i: nat)
    requires i < |ps|
    ensures PairBytes(ps)[4 * i..4 * i + 2] == LE16(To16(ps[i].id))
    ensures PairBytes(ps)[4 * i + 2..4 * i + 4] == LE16(To16(ps[i].val))
    decreases |ps|
  {
    if i > 0 {
      PairBytesAt(ps[1..], i - 1);
      assert PairBytes(ps)[4..] == PairBytes(ps[1..]);
    }
  }

  /** A STATUS or STATUS_UPDATE packet: device id @4, then the pairs from 8. */
  function StatusFrame(c: Codes, k: Cmd, st: Status): (r: bytes)
    requires ValidCodes(c)
    ensures |r| == 8 + 4 * |st.pairs|
  {
    Frame(c, k, LE32(st.devid) + PairBytes(st.pairs))
  }

  /** C's `/`, which truncates toward zero. */
  function CDiv(a: int, b: int): (r: int)
    requires b > 0
    ensures a >= 0 ==> r == a / b
    ensures a < 0 ==> r == -((-a) / b)
  {
    if a >= 0 then a / b else -((-a) / b)
  }

  /** The number of pairs `_get_dev_status` takes from `len` bytes: (len - 8) / 4, at most 8. */
  function StatusCount(len: int): (r: int)
    ensures r <= 8
    ensures len >= 8 ==> r == Min(8, (len - 8) / 4)
  {
    Min(8, CDiv(len - 8, 4))
  }

  /**
   * `_get_dev_status`: the pairs at 8 + 4i (id) and 10 + 4i (value), as
   * many as `StatusCount` allows, counted from `len`, the bytes remaining in
   * the read buffer rather than the declared length. A negative count
   * reads no pair.
   */
  function ReadStatus(b: bytes, len: int): (r: Status)
    requires len <= |b| && |b| >= 8
    ensures |r.pairs| == if StatusCount(len) > 0 then StatusCount(len) else 0
    ensures forall i :: 0 <= i < |r.pairs| ==> r.pairs[i] == Pair(Get16(b, 8 + 4 * i), Get16(b, 10 + 4 * i))
  {
    var n := if StatusCount(len) > 0 then StatusCount(len) else 0;
    assert n > 0 ==> CDiv(len - 8, 4) >= n && len - 8 >= 4 * n;
    Status(Get32(b, 4), seq(n, i requires 0 <= i < n => Pair(Get16(b, 8 + 4 * i), Get16(b, 10 + 4 * i))))
  }

  /**
   * A status of at most 8 pairs whose ids and values fit 16 bits comes back
   * from its own packet when the decoder is given exactly that packet.
   */
  lemma StatusRoundTrip(c: Codes, k: Cmd, st: Status)
    requires ValidCodes(c) && |st.pairs| <= 8
    requires forall i :: 0 <= i < |st.pairs| ==> st.pairs[i].id < 0x1_0000 && 0 <= st.pairs[i].val < 0x1_0000
    ensures var b := StatusFrame(c, k, st);
      ReadStatus(b, |b|) == st
  {
    var b := StatusFrame(c, k, st);
    assert b[4..] == LE32(st.devid) + PairBytes(st.pairs);
    assert b[4..8] == LE32(st.devid);
    LE32Get(st.devid, b, 4);
    StatusCountOf(|st.pairs|);
    assert b[8..8 + 4 * |st.pairs|] == PairBytes(st.pairs);
    ReadPairsBack(b, st);
  }

  /** Pairs laid out from offset 8 after the device id are what `ReadStatus` reads. */
  lemma ReadPairsBack(b: bytes, st: Status)
    requires |b| == 8 + 4 * |st.pairs| && |st.pairs| <= 8 && StatusCount(|b|) == |st.pairs|
    requires Get32(b, 4) == st.devid && b[8..|b|] == PairBytes(st.pairs)
    requires forall i :: 0 <= i < |st.pairs| ==> st.pairs[i].id < 0x1_0000 && 0 <= st.pairs[i].val < 0x1_0000
    ensures ReadStatus(b, |b|) == st
  {
    var r := ReadStatus(b, |b|);
    forall i | 0 <= i < |st.pairs| ensures r.pairs[i] == st.pairs[i] {
      PairAt(b, 8, st.pairs, i);
    }
    assert r.pairs == st.pairs;
  }

  lemma StatusCountOf(n: nat)
    requires n <= 8
    ensures StatusCount(8 + 4 * n) == n
  {
    assert (4 * n) / 4 == n;
  }

  /** Reading pair `i` of pairs laid out from offset `off`. */
  lemma PairAt(b: bytes, off: nat, ps: seq<Pair>, i: nat)
    requires off + 4 * |ps| <= |b| && b[off..off + 4 * |ps|] == PairBytes(ps) && i < |ps|
    ensures Get16(b, off + 4 * i) == To16(ps[i].id) && Get16(b, off + 4 * i + 2) == To16(ps[i].val)
  {
    var p := PairBytes(ps);
    var j := 4 * i;
    PairBytesAt(ps, i);
    LE16Get(To16(ps[i].id), p, j);
    LE16Get(To16(ps[i].val), p, j + 2);
    Get16In(b, off, p, j);
    Get16In(b, off, p, j + 2);
  }

  /* ---------------- notifications ---------------- */

  /** The status pairs of a device's DEV_ONLINE packet: (slot, cached value) for every slot. */
  function CachePairs(s: StatusCache): (r: seq<Pair>)
    ensures |r| == s.num
  {
    seq(s.num, i requires 0 <= i < s.num => Pair(i, CacheVal(s, i)))
  }

  /** The fixed part of a DEV_ONLINE packet's body, from offset 4 to 60. */
  function OnlineHead(d: Device): (r: bytes)
    ensures |r| == 56
  {
    LE32(d.id) + LE32(d.drvid) + LE16(To16(d.info.cls)) + LE16(To16(d.info.iface))
    + LE32(To32(d.info.devType)) + d.info.mac + Raw16(d.config.name) + Raw16(d.config.location)
  }

  /**
   * `_make_online_event` (60 + 4n bytes): id @4, driver @8, class @12,
   * interface @14, type @16, address @20, name @28, location @44, then a
   * (slot, value) pair per cached slot from 60.
   */
  function OnlineEvent(c: Codes, d: Device): (r: bytes)
    requires ValidCodes(c)
    ensures |r| == 60 + 4 * d.status.num
  {
    Frame(c, DevOnline, OnlineHead(d) + PairBytes(CachePairs(d.status)))
  }

  /** The online packet carries the device's identity, address and configuration. */
  lemma OnlineEventHead(c: Codes, d: Device)
    requires ValidCodes(c)
    ensures var b := OnlineEvent(c, d);
      && Get32(b, 4) == d.id && Get32(b, 8) == d.drvid && Get32(b, 16) == To32(d.info.devType)
      && Get16(b, 12) == To16(d.info.cls) && Get16(b, 14) == To16(d.info.iface)
      && b[20..28] == d.info.mac && b[28..44] == Raw16(d.config.name) && b[44..60] == Raw16(d.config.location)
  {
    var b := OnlineEvent(c, d);
    var h := OnlineHead(d);
    assert b[4..60] == h;
    OnlineHeadFields(d);
    Get32In(b, 4, h, 0);
    Get32In(b, 4, h, 4);
    Get16In(b, 4, h, 8);
    Get16In(b, 4, h, 10);
    Get32In(b, 4, h, 12);
    Sub(b, 4, h, 16, 24);
    Sub(b, 4, h, 24, 40);
    Sub(b, 4, h, 40, 56);
  }

  lemma OnlineHeadFields(d: Device)
    ensures var h := OnlineHead(d);
      && Get32(h, 0) == d.id && Get32(h, 4) == d.drvid && Get16(h, 8) == To16(d.info.cls)
      && Get16(h, 10) == To16(d.info.iface) && Get32(h, 12) == To32(d.info.devType)
      && h[16..24] == d.info.mac && h[24..40] == Raw16(d.config.name) && h[40..56] == Raw16(d.config.location)
  {
    var h := OnlineHead(d);
    assert h[0..4] == LE32(d.id);
    LE32Get(d.id, h, 0);
    assert h[4..8] == LE32(d.drvid);
    LE32Get(d.drvid, h, 4);
    assert h[8..10] == LE16(To16(d.info.cls));
    LE16Get(To16(d.info.cls), h, 8);
    assert h[10..12] == LE16(To16(d.info.iface));
    LE16Get(To16(d.info.iface), h, 10);
    assert h[12..16] == LE32(To32(d.info.devType));
    LE32Get(To32(d.info.devType), h, 12);
  }

  /** The online packet carries each cached slot's value, paired with the slot number. */
  lemma OnlineEventSlots(c: Codes, d: Device, i: nat)
    requires ValidCodes(c) && i < d.status.num
    ensures var b := OnlineEvent(c, d);
      Get16(b, 60 + 4 * i) == To16(i) && Get16(b, 62 + 4 * i) == To16(CacheVal(d.status, i))
  {
    var b := OnlineEvent(c, d);
    assert b[60..60 + 4 * d.status.num] == PairBytes(CachePairs(d.status));
    PairAt(b, 60, CachePairs(d.status), i);
  }

  /** Whether an event is the DEV_UPDATED online/new-add kind, which is sent as a DEV_ONLINE packet. */
  predicate IsOnlineEvent(c: Codes, r: Resp) {
    r.EventResp? && r.evt == c.evtDevUpdated && (r.param1 == c.updOnline || r.param1 == c.updNewAdd)
  }

  /**
   * `_make_notify_resp`. An online/new-add event becomes the device's
   * DEV_ONLINE packet (`None` when the device is not online, whose packet
   * the source builds from an unfilled record); another event is 16 bytes,
   * a result 12, a status 8 + 4n.
   */
  function NotifyPacket(c: Codes, r: Resp, dev: Option<Device>): (b: Option<bytes>)
    requires ValidCodes(c)
    ensures IsOnlineEvent(c, r) ==> (b.Some? <==> dev.Some?)
    ensures !IsOnlineEvent(c, r) ==> b.Some?
    ensures b.Some? ==> |b.value| >= 4 && CmdOf(c, Get16(b.value, 0)).Some? && Get16(b.value, 2) == To16(|b.value|)
  {
    match r
    case EventResp(devid, evt, p1, p2) =>
      if IsOnlineEvent(c, r) then
        (if dev.Some? then Some(OnlineEvent(c, dev.value)) else None)
      else Some(Frame(c, EventMsg, LE32(devid) + LE16(To16(evt)) + LE16(To16(p1)) + LE32(To32(p2))))
    case ResultResp(devid, cmd, ret) => Some(ReplyResult(c, ErrCode(c, ret), devid, CmdNum(c, cmd)))
    case StatusResp(st) => Some(StatusFrame(c, GetStatusResp, st))
    case StatusUpdateResp(st) => Some(StatusFrame(c, StatusUpdate, st))
  }

  /* ---------------- UDP discovery ---------------- */

  /** `check_udp_pkt_valid`: only the two discovery commands, with a length equal to what arrived. */
  function CheckUdp(c: Codes, buf: bytes, len: int): (r: int)
    requires ValidCodes(c) && |buf| >= 4
    ensures r == 0 <==> (len > 0 && Get16(buf, 2) == len &&
                         (Get16(buf, 0) == CmdNum(c, BoxDiscover) || Get16(buf, 0) == CmdNum(c, BoxDiscoverResp)))
  {
    var cmd := Get16(buf, 0);
    if len <= 0 then -1
    else if cmd != CmdNum(c, BoxDiscover) && cmd != CmdNum(c, BoxDiscoverResp) then -2
    else if len != Get16(buf, 2) then -3
    else 0
  }

  /** The box id the hub announces. */
  const BoxId: uint16 := 1

  /** `_reply_box_discover` (8 bytes): minor version 0 @4, major version 1 @5, box id @6. */
  function DiscoverReply(c: Codes): (r: bytes)
    requires ValidCodes(c)
    ensures |r| == 8 && r[4] == 0 && r[5] == 1 && Get16(r, 6) == BoxId
    ensures CmdOf(c, Get16(r, 0)) == Some(BoxDiscoverResp) && Get16(r, 2) == 8
  {
    var r := Frame(c, BoxDiscoverResp, [0, 1] + LE16(BoxId));
    assert r[6..8] == LE16(BoxId);
    LE16Get(BoxId, r, 6);
    r
  }

  /** `deal_udp_packet`: a valid BOX_DISCOVER gets the discovery reply; anything else gets nothing. */
  function DealUdp(c: Codes, buf: bytes, len: int): (r: Option<bytes>)
    requires ValidCodes(c) && |buf| >= 4
    ensures r.Some? <==> CheckUdp(c, buf, len) == 0 && Get16(buf, 0) == CmdNum(c, BoxDiscover)
    ensures r.Some? ==> r.value == DiscoverReply(c)
  {
    if CheckUdp(c, buf, len) == 0 && Get16(buf, 0) == CmdNum(c, BoxDiscover) then Some(DiscoverReply(c)) else None
  }

  /** A client's discovery request, answered: the hub replies to exactly its own 4-byte request format. */
  lemma DiscoverAnswered(c: Codes)
    requires ValidCodes(c)
    ensures DealUdp(c, Frame(c, BoxDiscover, []), 4) == Some(DiscoverReply(c))
    ensures DealUdp(c, DiscoverReply(c), 8).None?
  {
    var q := Frame(c, BoxDiscover, []);
    assert CmdOf(c, Get16(q, 0)) == Some(BoxDiscover);
    var r := DiscoverReply(c);
    assert CmdOf(c, Get16(r, 0)) == Some(BoxDiscoverResp);
  }
}
